=== FILE: README.md ===
# learnos kernel core, modelled in Dafny

This project models the memory-management and firmware-table logic of the
learnos x86-64 hobby kernel, and proves properties of it. Each Rust
module of the kernel's core corresponds to one Dafny module:

- **Bit and alignment primitives.**
  - `Bits` (`bits.dfy`, with `packed.dfy` relating bit ranges to arithmetic fields) covers the `mask!` macro, `BitRange` and `get_bit`/`set_bit`/`toggle_bit`/`get_bits`/`set_bits`.
  - `Align` covers `align_up`/`align_down`/`is_aligned`.
  - `Addr` covers `VirtAddr`/`PhysAddr` and `AddrRange`.
- **Physical page frames.**
  - `Frames` models the `PageFrame`/`PageFrameRegion` of the `kmem` crate.
  - `LegacyFrames` models the older frame types of the kernel crate.
  - `FrameTable` is the Free/Allocated/Reserved page-frame table.
  - `SlowAlloc` is the first-fit allocator.
  - `BumpAlloc` is the region-list bump allocator.
  - `PfaBump` is the memory-map bump allocator.
  - `Init` is the boot-time construction of the page-frame table.
- **Paging.**
  - `Pte` is the kernel's page-table entry (section 4.5 of the Intel 64 and IA-32 Architectures Software Developer's Manual, Volume 3A).
  - `Recursive` and `Paging` cover the recursive-mapping address arithmetic, the `map` walk with table allocation and rollback, and `resolve`.
  - `Vmm` is the kernel's own `mmap` over the index-510 recursive mapping.
  - `Direct` is the direct physical mapping.
- **ACPI.**
  - `Checksum` is the byte-sum checksum (section 5.2.6 of the ACPI specification).
  - `Rsdp` is the RSDP scan and validation (section 5.2.5).
  - `Sdt` is the common table header and `table_from_raw`.
  - `Rsdt` and `Xsdt` are the root tables' pointer iterators (sections 5.2.7 and 5.2.8).
  - `Madt` is the MADT record walk (section 5.2.12).
  - `Topology` holds the fixed-capacity processor, IOAPIC and IRQ tables fed from the MADT.
- **Register encodings.**
  - `IoApic` covers the 82093AA I/O APIC redirection entries and register-window arithmetic.
  - `Apic` covers the local APIC's LVT entries, divide configuration and register file (section 10.5 of the Intel manual).
  - `Idt` covers interrupt gate descriptors (section 6.14.1).
- **Parsers.**
  - `Multiboot2` walks Multiboot2 boot-information tags (section 3.6 of the Multiboot2 specification).
  - `CmdLine` tokenises the kernel command line.
  - `Utf8` is the UTF-8 well-formedness test behind `str::from_utf8` (section 4 of RFC 3629), which the Multiboot2 tag strings and the RSDP's OEM id go through.

`Common` defines `Option`; it also defines `Outcome`, whose `Panic` stands for every `assert!`, `expect` or `unwrap` that fails in the source. `Arith` and `Bytes` hold shared arithmetic facts and little-endian decoding.

Conventions:

- Memory and tables are values:
  - raw memory is a `seq` of bytes;
  - the page-frame table is a `seq` of states;
  - page-table memory is a map from frame number to 512 entries.
- Operations that mutate through `&mut self` are functions or methods returning the new value.
- Hardware accesses are modelled as follows:
  - volatile MMIO becomes a map from register index to value;
  - port I/O and MSR reads are not modelled.
- Fixed-width integers are handled this way:
  - where the code would overflow in a way its authors rely on (`wrapping_add` in the checksum, `u8`/`u32` truncation in the bit setters), the wrap is written out;
  - plain arithmetic that cannot overflow for the inputs the kernel passes is a precondition, listed below.

## Model

| member | source | states |
|---|---|---|
| Addr.Add | amd64/src/addr.rs:71-77 | `addr + n` panics (the debug-build overflow check) exactly when the sum leaves the 64-bit word, and otherwise moves the address up by exactly `n` |
| Addr.SubOffset | amd64/src/addr.rs:85-91 | `addr - n` panics exactly when `n` exceeds the address, and otherwise moves the address down by exactly `n` |
| Addr.Diff | amd64/src/addr.rs:99-105 | `a - b` panics exactly when `b` lies above `a`, and otherwise is the distance that, added to `b`, gives `a` |
| Addr.FromBounds | amd64/src/addr.rs:38-43 | the range starts at `start`; an inverted pair of bounds gives an empty range, otherwise the length is the distance between them |
| Addr.End | amd64/src/addr.rs:45-47 | the end of a range is what `start + length` gives, lying `length` bytes after its start, so that `end - start` is the length again |
| Addr.EndOfFromBounds | amd64/src/addr.rs:38-47 | the range built from two bounds ends at the upper bound, or at the start when the bounds are inverted |
| Addr.AddThenSub | amd64/src/addr.rs:71-105 | when adding an offset does not panic, subtracting it again gives the address back, and the distance is the offset |
| Addr.AddDiff | amd64/src/addr.rs:71-105 | when the distance between two addresses exists, adding it to the lower one gives the higher one without panicking |
| Addr.AlignAddrUp | amd64/src/addr.rs:58-60 | aligning an address up succeeds or panics exactly as aligning its word does, and gives that word |
| Addr.AlignAddrDown | amd64/src/addr.rs:62-64 | aligning an address down succeeds or panics exactly as aligning its word does, and gives that word |
| Addr.AddrIsAligned | amd64/src/addr.rs:66-68 | `is_aligned` on an address is `is_aligned` on its word |
| Addr.RoundedAddrIsAligned | amd64/src/addr.rs:58-68 | an address rounded up or down is aligned |
| Align.PowerOfTwoTest | amd64/src/align.rs:26-27 | the assertion `alignment & (alignment - 1) == 0` holds exactly for the powers of two |
| Align.LowMaskIsMod | amd64/src/align.rs:28-29 | for a power-of-two alignment, `x & mask` is the remainder of `x` by the alignment |
| Align.AlignDown | amd64/src/align.rs:32-41 | alignment 0 returns the value; any other alignment panics unless it is a power of two, and then gives the multiple `d` with `d <= x < d + alignment` |
| Align.AlignUp | amd64/src/align.rs:22-31 | alignment 0 returns the value; a non-power of two panics; a power of two gives the multiple `u` with `x <= u < x + alignment`, and panics with an overflow exactly when that multiple does not fit in the word |
| Align.IsAligned | amd64/src/align.rs:42-44 | `is_aligned` panics with `align_down`; otherwise it is true exactly when the alignment is 0 or divides the value |
| Align.AlignDownFixesMultiples | amd64/src/align.rs:32-44 | `align_down` leaves a value unchanged exactly when the alignment is 0 or divides it |
| Align.AlignDownIdempotent | amd64/src/align.rs:32-41 | aligning down twice is aligning down once |
| Align.AlignUpIdempotent | amd64/src/align.rs:22-31 | aligning up twice is aligning up once |
| Align.AlignedFixedPoint | amd64/src/align.rs:22-44 | an aligned value is left unchanged by both roundings |
| Align.AlignDownExamples | amd64/src/align.rs:60-69 | the unit test `align_down_test`: 23, 24 and 25 aligned down to 8 give 16, 24 and 24 |
| Align.AlignUpExamples | amd64/src/align.rs:72-81 | the unit test `align_up_test`: 23, 24 and 25 aligned up to 8 give 24, 24 and 32 |
| Apic.DeliveryModeCode | amd64/src/apic.rs:211-243 | each delivery mode's discriminant is a 3-bit value |
| Apic.ParseDeliveryMode | amd64/src/apic.rs:246-256 | `DeliveryMode::parse` accepts exactly 0, 1, 2, 4, 5 and 7, and returns the mode whose discriminant is the input |
| Apic.ParseDeliveryModeCode | amd64/src/apic.rs:211-256 | parsing a mode's discriminant gives the mode back |
| Apic.TimerDivisorCode | amd64/src/apic.rs:275-284 | each timer divisor's discriminant is a 3-bit value |
| Apic.ParseTimerDivisor | amd64/src/apic.rs:287-299 | `TimerDivisor::parse` accepts exactly the values below 8, and returns the divisor whose discriminant is the input |
| Apic.ParseTimerDivisorCode | amd64/src/apic.rs:275-299 | parsing a divisor's discriminant gives the divisor back |
| Apic.TimerModeCode | amd64/src/apic.rs:372-376 | each timer mode's discriminant is below 3 |
| Apic.ParseTimerMode | amd64/src/apic.rs:379-386 | `TimerMode::parse` accepts exactly 0, 1 and 2, and returns the mode whose discriminant is the input |
| Apic.ParseTimerModeCode | amd64/src/apic.rs:372-386 | parsing a timer mode's discriminant gives the mode back |
| Apic.Disabled | amd64/src/apic.rs:315-317 | the disabled entry is `0x0001_0000`: masked, with every other bit clear |
| Apic.SetVector | amd64/src/apic.rs:319-325 | bits 0-7 are set to the vector, `vector()` reads it back, and every other bit is kept, so the mask, delivery mode, timer mode and delivery status read as before |
| Apic.SetMasked | amd64/src/apic.rs:327-333 | bit 16 is set to the flag, `masked()` reads it back, and every other bit is kept, so the vector, delivery mode, timer mode and delivery status read as before |
| Apic.DeliveryStatusInverted | amd64/src/apic.rs:335-341 | the getter as written reports `SendPending` exactly when bit 12 is clear, the opposite of the register's meaning, so a disabled entry reads as pending |
| Apic.DeliveryModeOf | amd64/src/apic.rs:358-360 | `delivery_mode()` panics in its `unwrap` exactly on the reserved values 3 and 6 of bits 8-10, and otherwise returns the mode those bits encode |
| Apic.SetDeliveryMode | amd64/src/apic.rs:362-364 | bits 8-10 are set to the mode, `delivery_mode()` reads it back without panicking, and every other bit is kept, so the vector, mask, timer mode and delivery status read as before |
| Apic.SetInputPolarity | amd64/src/apic.rs:419-425 | bit 13 is set for low-active, `input_polarity()` reads the polarity back, and every other bit is kept |
| Apic.SetTriggerMode | amd64/src/apic.rs:429-435 | bit 15 is set for level-triggered, `trigger_mode()` reads the mode back, and every other bit is kept |
| Apic.TimerModeOf | amd64/src/apic.rs:410-412 | `timer_mode()` panics in its `unwrap` exactly when bits 17-18 hold 3, and otherwise returns the mode they encode |
| Apic.SetTimerMode | amd64/src/apic.rs:406-408 | bits 17-18 are set to the mode, `timer_mode()` reads it back, and every other bit is kept, so the vector, delivery mode, mask and delivery status read as before |
| Apic.TimerEntry | amd64/src/apic.rs:390-404 | the constructors' common steps give the vector plus the mode in bits 17-18, unmasked |
| Apic.OneShotTimer | amd64/src/apic.rs:390-396 | `one_shot(v)` is the unmasked one-shot entry whose value is the vector alone |
| Apic.PeriodicTimer | amd64/src/apic.rs:398-404 | `periodic(v)` is the unmasked periodic entry `v + 0x2_0000` |
| Apic.PeriodicExample | amd64/src/apic.rs:461-465 | the unit test `test_lvt_timer`: `periodic(33)` is `0b010_0000_0000_0010_0001` |
| Apic.EncodeDivisor | amd64/src/apic.rs:146-152 | bits 0-1 take the low two bits of the divisor's discriminant and bit 3 its bit 2; bit 2 and the bits above 3 are kept, and decoding gives the divisor back |
| Apic.DecodeDivisor | amd64/src/apic.rs:154-160 | the divisor read back has discriminant `bits 0-1 + 4 * bit 3`, so the `unwrap` never panics |
| Apic.DecodeReadsDivisorBits | amd64/src/apic.rs:154-160 | two configurations decode to the same divisor exactly when they agree on bits 0-1 and bit 3 |
| Apic.ReadReg | amd64/src/apic.rs:196-202 | `read_reg` panics exactly on an index that is not 16-aligned |
| Apic.WriteReg | amd64/src/apic.rs:188-194 | `write_reg` panics exactly on an index that is not 16-aligned |
| Apic.WriteThenRead | amd64/src/apic.rs:188-202 | a write is read back from its register and changes no other register |
| Apic.LvtRegister | amd64/src/apic.rs:72-85 | every LVT register index is 16-aligned |
| Apic.LvtRegistersDistinct | amd64/src/apic.rs:137-143 | the seven LVT accessors use seven different registers |
| Apic.LvtEntry | amd64/src/apic.rs:57-69 | the generated getter reads its register without panicking |
| Apic.SetLvtEntry | amd64/src/apic.rs:57-69 | the generated setter writes its register without panicking |
| Apic.SetLvtThenRead | amd64/src/apic.rs:57-69 | an LVT entry that was set is read back, and no other register changes |
| Apic.SetSoftwareEnable | amd64/src/apic.rs:102-114 | bit 8 of the spurious-interrupt register is set to the flag, `software_enabled()` reads it back, and nothing else changes |
| Apic.SetEnableFlag | amd64/src/apic.rs:104-108 | the flag goes to bit 8 and every other bit of the value is kept |
| Apic.SetSpuriousInterruptVector | amd64/src/apic.rs:117-129 | bits 0-7 of the spurious-interrupt register take the vector, which the getter reads back; the enable bit and all other registers are kept |
| Apic.SignalEoi | amd64/src/apic.rs:131-135 | zero is written to the EOI register and nothing else changes |
| Apic.SetTimerDivisor | amd64/src/apic.rs:145-160 | the divisor read back is the one set; only bits 0, 1 and 3 of the divide configuration change |
| Apic.SetTimerInitialCount | amd64/src/apic.rs:162-170 | the initial count read back is the one set, and nothing else changes |
| Apic.SetTaskPriority | amd64/src/apic.rs:182-186 | bits 0-7 of the TPR (task-priority register) take the priority; the other bits and registers are kept |
| Apic.NamedRegistersAligned | amd64/src/apic.rs:72-85 | every named register index passes the alignment assertion of `read_reg` and `write_reg` |
| Apic.DeliveryModeField | amd64/src/apic.rs:358-360 | the raw delivery-mode field an LVT entry's `delivery_mode()` parses is a 3-bit value |
| Apic.TimerModeField | amd64/src/apic.rs:410-412 | the raw timer-mode field `timer_mode()` parses is a 2-bit value |
| Apic.TimerDivisorCodeInjective | amd64/src/apic.rs:275-284 | no two timer divisors share a discriminant, so the 3-bit code identifies the divisor |
| Apic.EncodeDivisorFields | amd64/src/apic.rs:146-152 | after the two `set_bit`/`set_bits` calls, bits 0-1 hold the low two bits of the code, bit 3 its third bit, bit 2 and every bit from 4 up are kept |
| Apic.Modify | amd64/src/apic.rs:104-123 | a read-modify-write of an aligned register stores the new value there and leaves every other register as it was |
| Apic.Vector | amd64/src/apic.rs:323-325 | `vector()` of an LVT entry holds exactly bits 0-7 of the entry, bit for bit |
| Apic.Masked | amd64/src/apic.rs:331-333 | `masked()` holds exactly when bit 16 of the entry is set |
| Apic.DeliveryStatusAsWritten | amd64/src/apic.rs:335-341 | the getter as written reads `Idle` exactly when bit 12 is set |
| Apic.DeliveryStatusOf | amd64/src/apic.rs:335-341 | the delivery status as the register defines it: `SendPending` exactly when bit 12 is set |
| Apic.InputPolarity | amd64/src/apic.rs:419-421 | a LINT entry is low-active exactly when bit 13 is set |
| Apic.TriggerModeOf | amd64/src/apic.rs:429-431 | a LINT entry is level-triggered exactly when bit 15 is set |
| Apic.SoftwareEnabled | amd64/src/apic.rs:110-114 | the APIC is software-enabled exactly when bit 8 of the spurious-interrupt register is set |
| Apic.SpuriousInterruptVector | amd64/src/apic.rs:125-129 | the spurious-interrupt vector holds exactly bits 0-7 of its register, bit for bit |
| Bits.MaskBits | amd64/src/util.rs:4-8 | `mask!(T, from, to)` has exactly the bits `from..=to` set |
| Bits.FirstBit | amd64/src/util.rs:16-23 | the first bit of a range is its included start, one past its excluded start, or 0 when unbounded |
| Bits.LastBit | amd64/src/util.rs:25-32 | the last bit of a range is its included end, one before its excluded end, or the type's top bit when unbounded |
| Bits.GetBitIsBit | amd64/src/util.rs:52-55 | `get_bit(i)` reads bit `i` |
| Bits.SetBitBits | amd64/src/util.rs:57-64 | `set_bit(i, b)` makes bit `i` equal to `b` and keeps every other bit |
| Bits.SetBitInRange | amd64/src/util.rs:57-64 | `set_bit` keeps a value inside its type |
| Bits.GetAfterSetBit | amd64/src/util.rs:52-64 | `get_bit(i)` after `set_bit(i, b)` reads `b` |
| Bits.ToggleBitBits | amd64/src/util.rs:39-42 | `toggle_bit(i)` flips bit `i` and no other |
| Bits.ToggleTwice | amd64/src/util.rs:39-42 | toggling the same bit twice restores the value |
| Bits.GetBitsBits | amd64/src/util.rs:66-69 | bit `i` of `get_bits(first..=last)` is bit `first + i` of the value inside the range, and clear above it |
| Bits.GetBitsBound | amd64/src/util.rs:66-69 | `get_bits` returns less than 2 to the power of the range's width |
| Bits.SetBitsBits | amd64/src/util.rs:71-76 | `set_bits(first..=last, v)` puts the low bits of `v` into the range and keeps every bit outside it |
| Bits.SetBitsInRange | amd64/src/util.rs:71-76 | `set_bits` keeps a value inside its type |
| Bits.GetAfterSetBits | amd64/src/util.rs:66-76 | `get_bits` after `set_bits` on the same range returns the value written, when it fits |
| Bits.SetBitsTruncates | amd64/src/util.rs:71-76 | a value too wide for the range is cut to its low bits, silently |
| Bits.SetBitsOfGetBits | amd64/src/util.rs:66-76 | writing back what `get_bits` read leaves the value unchanged |
| Bits.SetBitOnly | amd64/src/util.rs:57-64 | after `set_bit(i, b)` the value stays in its type, bit `i` reads `b` and every other bit agrees with the old value |
| Bits.SetBitsOnly | amd64/src/util.rs:66-76 | after `set_bits` the value stays in its type, the range reads back the value and every other bit agrees with the old value |
| Bits.GetBitOutside | amd64/src/util.rs:52-55 | `get_bit(i)` depends on bit `i` only |
| Bits.GetBitsOutside | amd64/src/util.rs:66-69 | `get_bits` depends on the bits of its range only |
| Bits.MaskExample | amd64/src/util.rs:93 | the unit test `test_mask`: `mask!(u32, 5, 7)` is `0b11100000` |
| Bits.GetBitsExample | amd64/src/util.rs:107-112 | the unit test `test_get_bits`: bits 4-7 of `0b1100_0110_0011_1101` are `0b0011` |
| Bits.SetBitsExample | amd64/src/util.rs:133-136 | the unit test `test_set_bits`: `set_bits(4..=7, 0b0011)` on `0b1101` gives `0b0011_1101` |
| Packed.GetBitsIsField | amd64/src/util.rs:66-69 | `get_bits(first..=last)` is the arithmetic field of `2^(last-first+1)` values at weight `2^first` that the register models read |
| Packed.GetBitIsField | amd64/src/util.rs:52-55 | `get_bit(i)` is the one-bit field at weight `2^i` |
| Packed.SetBitsIsSetField | amd64/src/util.rs:71-76 | `set_bits` with a value that fits is the arithmetic field update |
| Packed.SetBitIsSetField | amd64/src/util.rs:57-64 | `set_bit(i, b)` is the arithmetic update of the one-bit field at weight `2^i` |
| BumpAlloc.New | kmem/src/physical/alloc/bump.rs:25-31 | the first region becomes current and the pending regions are exactly the regions given |
| BumpAlloc.FirstNonEmpty | kmem/src/physical/alloc/bump.rs:61-65 | the `find` over the chained regions: none exactly when every region is empty, else the first non-empty one |
| BumpAlloc.Alloc | kmem/src/physical/alloc/bump.rs:60-75 | `alloc` returns none exactly when every pending region is empty, and then nothing stays pending; otherwise it returns the start of the first non-empty region and bumps that region's start by one |
| BumpAlloc.FreeFrame | kmem/src/physical/alloc/bump.rs:77-79 | `free` always panics |
| BumpAlloc.FirstEndingAfter | kmem/src/physical/alloc/bump.rs:39-46 | the `find_map` of `reserve_until`: the first region that ends after the frame, none exactly when no region does |
| BumpAlloc.ReserveUntil | kmem/src/physical/alloc/bump.rs:33-47 | the regions ending at or before the frame are dropped, and the first remaining one starts no lower than the frame |
| BumpAlloc.ReserveUntilAddress | kmem/src/physical/alloc/bump.rs:49-53 | reserves up to the first frame at or above the address; it panics with an overflow when that frame lies past the address space |
| BumpAlloc.AllocFromPending | kmem/src/physical/alloc/bump.rs:60-75 | the frame handed out was pending, no frame becomes pending, and the frame handed out is pending no more |
| BumpAlloc.ExhaustedStaysExhausted | kmem/src/physical/alloc/bump.rs:60-75 | once `alloc` returned none it keeps returning none |
| BumpAlloc.ConsecutiveFrames | kmem/src/physical/alloc/bump.rs:69-73 | two allocations from the same region return consecutive frames |
| BumpAlloc.ReserveUntilReserves | kmem/src/physical/alloc/bump.rs:33-47 | over sorted regions, after `reserve_until(f)` only frames at or above `f` that were already pending are pending |
| Checksum.FoldIsTotal | acpi/src/util.rs:21-23 | the wrapping `u8` fold from a running sum is that sum plus the plain sum of the bytes, modulo 256 |
| Checksum.FoldSnoc | acpi/src/util.rs:21-23 | folding one more byte adds it with wrap-around |
| Checksum.Sum8IsTotal | acpi/src/util.rs:17-23 | `acpi_checksum` is the sum of the bytes modulo 256, so the data is valid exactly when its bytes sum to a multiple of 256 |
| Checksum.Sum8Append | acpi/src/util.rs:21-23 | the checksum of two parts is the wrapping sum of their checksums |
| Checksum.OneByteChanges | acpi/src/util.rs:17-23 | changing any one byte changes the checksum, so valid data with one byte changed is invalid |
| Checksum.Sum8Single | acpi/src/util.rs:21-23 | the checksum of one byte is that byte |
| Checksum.WithLengthReadsPrefix | acpi/src/util.rs:10-14 | `acpi_table_checksum_with_length` depends on the first `length` bytes only, and a change to one of them changes it |
| Checksum.Balance | acpi/src/util.rs:17-20 | a checksum byte appended to any data makes it valid |
| Checksum.Sum8 | acpi/src/util.rs:17-23 | `acpi_checksum` is the plain sum of the bytes modulo 256 |
| Checksum.ChecksumWithLength | acpi/src/util.rs:10-14 | the checksum with an explicit length is the sum of the first `length` bytes modulo 256 |
| CmdLine.Tokens | learnos_kernel/src/kaal/util/cmdline.rs:76-89 | collecting the tokens of a line gives none exactly when the line is all whitespace, and never more tokens than the line has characters |
| CmdLine.TrimStart | learnos_kernel/src/kaal/util/cmdline.rs:16-19 | `skip_whitespace` drops exactly the leading whitespace: the result is a suffix of the input, everything cut off is whitespace, and the result is empty or starts with a non-whitespace character |
| CmdLine.FindQuote | learnos_kernel/src/kaal/util/cmdline.rs:32 | `find('"')` gives the first quote, or none exactly when the string holds no quote |
| CmdLine.FindEnd | learnos_kernel/src/kaal/util/cmdline.rs:44 | the search for the end of an unquoted symbol gives the first whitespace (or `=` when `=` is not accepted), or none exactly when no such character occurs |
| CmdLine.ParseSymbol | learnos_kernel/src/kaal/util/cmdline.rs:25-56 | a symbol is found exactly when the rest is non-empty, and what remains is a suffix of the input |
| CmdLine.ParseQuoted | learnos_kernel/src/kaal/util/cmdline.rs:30-41 | a quoted symbol holds no quote and is followed by the closing quote, or runs to the end of the line with nothing remaining when the closing quote is missing; it always consumes at least the opening quote |
| CmdLine.ParseUnquoted | learnos_kernel/src/kaal/util/cmdline.rs:42-55 | an unquoted symbol and the rest together are the input, the symbol holds no terminating character, and the rest is empty or starts with one |
| CmdLine.ParseEquals | learnos_kernel/src/kaal/util/cmdline.rs:58-67 | an equals sign is reported exactly when the rest starts with `=`, which is then consumed; otherwise nothing is consumed |
| CmdLine.Next | learnos_kernel/src/kaal/util/cmdline.rs:79-88 | the iterator yields nothing exactly when only whitespace is left, and then leaves an empty rest; each token it yields consumes at least one character, so the rest is a strict suffix |
| CmdLine.NextConsumes | learnos_kernel/src/kaal/util/cmdline.rs:81-87 | on a line that starts with a non-whitespace character a token is always read and strictly shortens the line |
| CmdLine.NextFused | learnos_kernel/src/kaal/util/cmdline.rs:79-88 | once the iterator has yielded nothing it keeps yielding nothing |
| CmdLine.TokensAfterWhitespace | learnos_kernel/src/kaal/util/cmdline.rs:17-19 | leading whitespace does not change the tokens of a line |
| CmdLine.TrimWhitespace | learnos_kernel/src/kaal/util/cmdline.rs:17-19 | trimming a line with leading whitespace trims that whitespace too |
| CmdLine.ParseUnquotedAt | learnos_kernel/src/kaal/util/cmdline.rs:42-55 | an unquoted symbol ends at the first terminating character after it |
| CmdLine.ParseQuotedAt | learnos_kernel/src/kaal/util/cmdline.rs:30-41 | a quoted symbol without inner quotes is read back exactly, with the rest after the closing quote remaining |
| CmdLine.UnterminatedQuote | learnos_kernel/src/kaal/util/cmdline.rs:33-36 | an opening quote never closed makes the rest of the line one flag, with nothing left |
| CmdLine.KeyStarts | learnos_kernel/src/kaal/util/cmdline.rs:17-19 | a written key starts with a non-whitespace character, so skipping whitespace keeps it |
| CmdLine.KeySymbol | learnos_kernel/src/kaal/util/cmdline.rs:25-56 | a written key followed by a separator or `=` is read back as that key |
| CmdLine.KeyParses | learnos_kernel/src/kaal/util/cmdline.rs:17-56 | a written key survives the whitespace skip and is parsed back exactly |
| CmdLine.ValueParses | learnos_kernel/src/kaal/util/cmdline.rs:83 | a written value followed by whitespace is read back exactly, `=` included |
| CmdLine.FlagNext | learnos_kernel/src/kaal/util/cmdline.rs:79-88 | a key not followed by `=` is yielded as that flag, leaving the rest untouched |
| CmdLine.PairNext | learnos_kernel/src/kaal/util/cmdline.rs:79-88 | a key, `=` and a value are yielded as that key-value pair, leaving the rest untouched |
| CmdLine.PairLineNext | learnos_kernel/src/kaal/util/cmdline.rs:81-84 | the parse after the whitespace skip reads key, equals sign and value as one pair |
| CmdLine.PairOfLine | learnos_kernel/src/kaal/util/cmdline.rs:81-84 | a key followed by `=` gives a pair whose value is the next symbol, or empty when the line ends there |
| CmdLine.RenderNext | learnos_kernel/src/kaal/util/cmdline.rs:79-88 | a rendered token followed by whitespace is yielded back as that token |
| CmdLine.TokensStep | learnos_kernel/src/kaal/util/cmdline.rs:102-107 | collecting a line yields its first token followed by the tokens of the rest |
| CmdLine.TokensOfWhitespace | learnos_kernel/src/kaal/util/cmdline.rs:79-81 | a line of whitespace only yields no tokens |
| CmdLine.TokensCons | learnos_kernel/src/kaal/util/cmdline.rs:102-107 | a token followed by whitespace and a rest yields that token then the rest's tokens |
| CmdLine.RoundTrip | learnos_kernel/src/kaal/util/cmdline.rs:71-88 | writing any sequence of writable flags and pairs separated by spaces and parsing it back gives the same sequence |
| CmdLine.TokensSingle | learnos_kernel/src/kaal/util/cmdline.rs:96-100 | a line whose first token consumes it all yields exactly that token and then nothing |
| CmdLine.FlagGapNext | learnos_kernel/src/kaal/util/cmdline.rs:79-88 | a flag followed by whitespace is yielded, leaving the whitespace and the rest |
| CmdLine.PairGapNext | learnos_kernel/src/kaal/util/cmdline.rs:79-88 | a pair followed by whitespace is yielded, leaving the whitespace and the rest |
| CmdLine.TokensAfterFlag | learnos_kernel/src/kaal/util/cmdline.rs:102-107 | a flag then whitespace then a rest yields the flag then the rest's tokens |
| CmdLine.TokensAfterPair | learnos_kernel/src/kaal/util/cmdline.rs:102-107 | a pair then whitespace then a rest yields the pair then the rest's tokens |
| CmdLine.TokensOfPair | learnos_kernel/src/kaal/util/cmdline.rs:96-100 | a line that is one written pair yields exactly that pair |
| CmdLine.TokensOfFlag | learnos_kernel/src/kaal/util/cmdline.rs:96-100 | a line that is one written key yields exactly that flag |
| CmdLine.PairAtEnd | learnos_kernel/src/kaal/util/cmdline.rs:102-107 | a pair with trailing whitespace yields exactly that pair |
| CmdLine.FlagAtEnd | learnos_kernel/src/kaal/util/cmdline.rs:102-107 | a flag with trailing whitespace yields exactly that flag |
| CmdLine.FlagThenPair | learnos_kernel/src/kaal/util/cmdline.rs:124-125 | an unquoted flag, whitespace, an unquoted pair and trailing whitespace yield the flag then the pair |
| CmdLine.FlagPairQuotedFlag | learnos_kernel/src/kaal/util/cmdline.rs:126-128 | a flag, a pair and a quoted flag separated by whitespace yield those three tokens in order |
| CmdLine.ExampleFlag | learnos_kernel/src/kaal/util/cmdline.rs:111 | `foo` yields the flag `foo` and nothing after it |
| CmdLine.ExampleQuotedFlag | learnos_kernel/src/kaal/util/cmdline.rs:112 | `"foo bar"` yields the flag `foo bar` and nothing after it |
| CmdLine.ExamplePair | learnos_kernel/src/kaal/util/cmdline.rs:117 | `foo=bar` yields the pair (`foo`, `bar`) and nothing after it |
| CmdLine.ExampleValueWithEquals | learnos_kernel/src/kaal/util/cmdline.rs:118 | `"foo bar"=baz=qux` yields the pair (`foo bar`, `baz=qux`) |
| CmdLine.ExampleEmptyValue | learnos_kernel/src/kaal/util/cmdline.rs:119 | `"foo bar"=` yields the pair (`foo bar`, empty) |
| CmdLine.ExampleQuotedPair | learnos_kernel/src/kaal/util/cmdline.rs:120 | `"foo bar=fun"="hello world"` yields the pair (`foo bar=fun`, `hello world`) |
| CmdLine.ExampleWhitespace | learnos_kernel/src/kaal/util/cmdline.rs:125 | `foo  bar=baz   ` yields the flag `foo` then the pair (`bar`, `baz`) |
| CmdLine.ExampleQuotedLast | learnos_kernel/src/kaal/util/cmdline.rs:126-128 | `foo  bar=baz  "what=a fun" ` yields the flag `foo`, the pair (`bar`, `baz`) and the flag `what=a fun` |
| Direct.PhysToVirt | kmem/src/paging/direct.rs:36-55 | translation succeeds exactly for physical addresses inside the window and keeps the offset from the base; any other address panics |
| Direct.VirtToPhys | kmem/src/paging/direct.rs:41-67 | translation succeeds exactly for virtual addresses inside the window and keeps the offset from the base; any other address panics |
| Direct.RoundTrip | kmem/src/paging/direct.rs:50-67 | physical to virtual and back, and virtual to physical and back, are the identity inside the window |
| Direct.WindowEdges | kmem/src/paging/direct.rs:36-43 | the window is the half-open range from the base: the base is in it (when the size is positive), the address one past the end is not, nor the address below the base |
| Direct.UnitTest | kmem/src/paging/direct.rs:77-98 | the mapping of 10000 pages from 0x1000 at 0xFFFF_FFFF_0000_0000 round-trips 0x4000, the first and the last address, and excludes the addresses just outside |
| FrameTable.RequiredSizeBytes | kmem/src/physical/mgmt.rs:17-19 | a table for n frames takes n bytes, one per frame, since the frame state is a one-byte enumeration |
| FrameTable.FromAddr | kmem/src/physical/mgmt.rs:23-34 | the new table has one entry per frame and every entry is free |
| FrameTable.MarkRegion | kmem/src/physical/mgmt.rs:37-65 | the loop shared by both markers succeeds exactly when the region lies in the table and all its frames are free; then the table keeps its length, the region's frames take the new state and all others keep theirs |
| FrameTable.MarkAllocated | kmem/src/physical/mgmt.rs:37-65 | marking succeeds exactly when the region lies in the table (its start strictly below the length) and every frame in it is free; then the region's frames are allocated and all others unchanged; otherwise it panics |
| FrameTable.MarkReserved | kmem/src/physical/mgmt.rs:45-65 | marking succeeds exactly when the region lies in the table and every frame in it is free; then the region's frames are reserved and all others unchanged; otherwise it panics |
| FrameTable.MarkTwicePanics | kmem/src/physical/mgmt.rs:37-50 | marking a non-empty region a second time, in any state, panics because its frames are no longer free |
| FrameTable.Stats | kmem/src/physical/mgmt.rs:67-81 | the statistics give the table length and the numbers of allocated and reserved entries, and the rest are exactly the free entries |
| FrameTable.CountPartition | kmem/src/physical/mgmt.rs:92-97 | every entry is in exactly one of the three states, so the free, allocated and reserved counts add up to the length |
| Frames.PageSizeIsPow2 | kmem/src/physical/mod.rs:4 | the page size 4096 is the power of two 2^12, so shifting by the alignment bits divides by the page size |
| Frames.NextAbove | kmem/src/physical/mod.rs:15-18 | the next frame at or above an address starts at or above it and less than a page above it; rounding up panics exactly when the address lies in the last page of the address space |
| Frames.Including | kmem/src/physical/mod.rs:20-23 | the frame including an address starts at or below it and ends above it, and is one of the 2^52 frames of the address space |
| Frames.StartAddress | kmem/src/physical/mod.rs:25-27 | a frame's start address is page-aligned and lies in that frame |
| Frames.EndAddress | kmem/src/physical/mod.rs:29-31 | a frame's end address is one past its last byte, which lies in the frame, and the next frame above it is the following frame |
| Frames.IncludingIsUnique | kmem/src/physical/mod.rs:20-23 | any address between a frame's start and end is included in exactly that frame |
| Frames.NextAboveOfAligned | kmem/src/physical/mod.rs:15-23 | rounding up and rounding down give the same frame exactly when the address is page-aligned |
| Frames.NewIncludedIn | kmem/src/physical/mod.rs:97-104 | the region holds exactly the frames that lie wholly inside the address range; it panics exactly when rounding the start up overflows |
| Frames.NewIncluding | kmem/src/physical/mod.rs:105-113 | the region holds exactly the frames that overlap the address range, and its end never passes the 2^52 frames, since the end is rounded up by hand |
| Frames.Length | kmem/src/physical/mod.rs:115-121 | the length is zero exactly for an empty region, and the region holds exactly the length frames from its start |
| Frames.EmptyIffNoFrames | kmem/src/physical/mod.rs:115-125 | a region is empty exactly when its length is zero and exactly when it holds no frame |
| Frames.IncludedInExampleAB | kmem/src/physical/mod.rs:140-141 | no whole frame lies between 0x400F and 0x4EF0 |
| Frames.IncludedInExampleAC | kmem/src/physical/mod.rs:143-146 | the frames wholly between 0x400F and 0x7FFF are 5 and 6 |
| Frames.IncludingExamples | kmem/src/physical/mod.rs:148-156 | frame 4 covers 0x400F to 0x4EF0, and frames 4 to 7 cover 0x400F to 0x7FFF |
| Frames.WholeMemory | kmem/src/physical/mod.rs:158-160 | the region covering the whole 64-bit address space is not empty and holds 2^52 frames |
| LegacyFrames.NewIncludedIn | learnos_kernel/src/memory/mod.rs:63-68 | the region holds exactly the frames wholly inside the two addresses; it panics exactly when rounding the start up overflows |
| LegacyFrames.NewIncluding | learnos_kernel/src/memory/mod.rs:70-75 | the region holds exactly the frames overlapping the two addresses; it panics exactly when rounding the end up overflows |
| LegacyFrames.NewIncludingAgrees | learnos_kernel/src/memory/mod.rs:70-75 | where it does not panic, the older constructor gives the same region as the kmem one |
| LegacyFrames.LegacyRegionExamples | learnos_kernel/src/memory/mod.rs:96-117 | the test vectors: nothing inside 0x400F to 0x4EF0, frames 5 and 6 inside 0x400F to 0x7FFF, frame 4 and frames 4 to 7 covering them |
| LegacyFrames.WholeMemoryPanics | learnos_kernel/src/memory/mod.rs:118-124 | the region covering the whole address space panics when rounding its end up, which is why that test is disabled |
| Idt.OffsetsJoin | amd64/src/idt.rs:125-141 | the low 16, middle 16 and high 32 bits of a 64-bit address joined back by shifts give the address |
| Idt.SetHandler | amd64/src/idt.rs:136-142 | after setting a handler (or none) `handler()` reads back exactly that handler (none for null), and only the three offset fields change |
| Idt.SetPresent | amd64/src/idt.rs:114-121 | after setting the present flag `present()` reads the new value; only bit 7 of the attribute byte changes, so the gate type, privilege level and reserved bit read as before |
| Idt.SetGateType | amd64/src/idt.rs:157-191 | after setting the gate type `gate_type()` reads it back; only the low four bits change, so the present flag, privilege level and reserved bit read as before |
| Idt.SetDescriptorPrivilege | amd64/src/idt.rs:161-190 | after setting the ring `descriptor_privilege()` reads it back, without the unwrap ever failing; only bits 5-6 change, so the present flag, gate type and reserved bit read as before |
| Idt.TypeAttrOfFields | amd64/src/idt.rs:60-84 | the attribute byte is exactly the sum of its present flag, privilege level, reserved bit and gate type fields |
| Idt.Empty | amd64/src/idt.rs:96-107 | the empty entry is a non-present interrupt gate of ring 0 with selector 0 and zeroed reserved fields |
| Idt.EmptyHasNoHandler | amd64/src/idt.rs:196-200 | the empty entry has no handler |
| Idt.New | amd64/src/idt.rs:86-94 | every getter of a new entry returns its argument, the reserved fields are zero, and the attribute byte is exactly the packed present flag, ring and gate type |
| Idt.NewExample | amd64/src/idt.rs:206-216 | a present ring-2 trap gate with selector 32 reads back its handler, selector, ring, gate type and present flag, with attribute byte 0xCF |
| Idt.NewIdt | amd64/src/idt.rs:24-51 | a new table has 256 entries, all empty, and every `u8` index lies inside it |
| Idt.Present | amd64/src/idt.rs:109-112 | an entry is present exactly when bit 7 of its attribute byte is set |
| Idt.GateTypeOf | amd64/src/idt.rs:153-155 | the gate type holds exactly bits 0-3 of the attribute byte, bit for bit |
| Idt.DescriptorPrivilege | amd64/src/idt.rs:161-165 | the ring holds exactly bits 5-6 of the attribute byte, bit 5 + i as its bit i, so the `unwrap` of `Ring::new` never fails |
| Idt.HandlerOf | amd64/src/idt.rs:123-134 | there is no handler exactly when all three offset fields are zero; otherwise the handler's address has the low, middle and high offsets as its bits 0-15, 16-31 and 32-63 |
| Init.AvailableRegions | learnos_kernel/src/kaal/mem/init.rs:30-36 | the clipped available regions are non-empty, start at or above the heap start frame, each comes from an available memory-map region, and together they cover exactly the available frames at or above the heap start |
| Init.AvailableAboveCons | learnos_kernel/src/kaal/mem/init.rs:30-36 | a frame is available above the heap start exactly when the first region provides it or the rest of the map does |
| Init.FrameCount | learnos_kernel/src/kaal/mem/init.rs:39-41 | the table length is an upper bound of every region end and equals one of them, or is 0 for an empty map |
| Init.FirstFit | learnos_kernel/src/kaal/mem/init.rs:48-49 | the search finds the first clipped region large enough for the table, and none exactly when no region is |
| Init.HeapStartFrame | learnos_kernel/src/kaal/mem/init.rs:24 | the heap start frame is the first frame at or above the heap start, and computing it panics exactly when the heap start lies in the last page |
| Init.TableAddress | learnos_kernel/src/kaal/mem/init.rs:48-51 | the table is placed exactly when some clipped region is large enough, at a page-aligned address at or above the heap start, in an available frame, with room for the whole table below the top of the address space; otherwise it panics |
| Init.StartPlusFits | learnos_kernel/src/kaal/mem/init.rs:48-50 | a region that fits the table has room for it after its start address |
| Init.LowFrames | learnos_kernel/src/kaal/mem/init.rs:76-77 | the frames below the heap start are exactly those whose start lies below it |
| Init.UnavailableCons | learnos_kernel/src/kaal/mem/init.rs:64-66 | a frame is in an unavailable region exactly when the first region is unavailable and holds it, or the rest of the map has one |
| Init.MarkUnavailable | learnos_kernel/src/kaal/mem/init.rs:64-66 | on success every frame of an unavailable region is reserved and every other frame unchanged |
| Init.CoveredCons | learnos_kernel/src/kaal/mem/init.rs:69-77 | a frame is covered by a list of regions exactly when the first holds it or the rest cover it |
| Init.MarkAllocatedRegions | learnos_kernel/src/kaal/mem/init.rs:69-77 | on success the marked frames are allocated, all others unchanged, and every marked frame was free before |
| Init.InitializeAsWritten | learnos_kernel/src/kaal/mem/init.rs:19-80 | the construction as written panics when no region fits the table; on success the table lies in the direct mapping, has one entry per frame, and every frame is reserved if unavailable, allocated if it belongs to the table, the kernel image or lies below the heap start, and free otherwise |
| Init.MarkPassesAsWritten | learnos_kernel/src/kaal/mem/init.rs:64-77 | the reserved pass followed by the allocation pass leaves every frame in its expected state |
| Init.FinalTable | learnos_kernel/src/kaal/mem/init.rs:64-77 | the two passes composed: unavailable frames reserved, marked ones allocated, the rest free |
| Init.MarkUnavailableSucceeds | learnos_kernel/src/kaal/mem/init.rs:64-66 | marking the unavailable regions succeeds when they lie in the table, are free and do not overlap |
| Init.MarkAllocatedRegionsSucceeds | learnos_kernel/src/kaal/mem/init.rs:69-77 | the allocation marks succeed when their regions lie in the table, are free and do not overlap |
| Init.MarkedRegions | learnos_kernel/src/kaal/mem/init.rs:69-77 | the construction allocates exactly three regions: the table's own frames, the kernel image and the frames below the heap start |
| Init.AsWrittenSucceeds | learnos_kernel/src/kaal/mem/init.rs:19-80 | as written, with room for the table inside the direct mapping and the marked regions pairwise apart, the construction does not panic |
| Init.PassesSucceed | learnos_kernel/src/kaal/mem/init.rs:64-77 | both passes succeed when the marked regions are pairwise apart |
| Init.ThreeDisjoint | learnos_kernel/src/kaal/mem/init.rs:69-77 | three pairwise disjoint regions are a list of pairwise disjoint regions |
| Init.MarkingSucceeds | learnos_kernel/src/kaal/mem/init.rs:64-77 | on a fresh table both passes succeed when all regions lie inside it and no two overlap |
| Init.AllocatedRegionsFree | learnos_kernel/src/kaal/mem/init.rs:64-77 | after the reserved pass, regions apart from every unavailable region are still entirely free |
| Init.AsWrittenUnfold | learnos_kernel/src/kaal/mem/init.rs:19-80 | the construction succeeds when both of its passes do |
| Init.OverlapPanics | learnos_kernel/src/kaal/mem/init.rs:69-77 | two allocation marks sharing a frame make the second panic |
| Init.PassesOverlapPanics | learnos_kernel/src/kaal/mem/init.rs:64-77 | the source's passes panic when two allocated regions overlap |
| Init.KernelBelowHeapPanics | learnos_kernel/src/kaal/mem/init.rs:72-77 | as written, the construction panics for every memory map whenever the kernel image is not empty and starts below the heap start |
| Init.KernelFrameIsLow | learnos_kernel/src/kaal/mem/init.rs:72-77 | the frame holding the kernel's first byte lies both in the kernel's frames and below the heap start |
| Init.MarkRest | learnos_kernel/src/kaal/mem/init.rs:75-77 | the corrected last mark panics only on the bounds check; afterwards no frame of the region is free, and only free frames of the region change, to allocated |
| Init.MarkRestAgrees | learnos_kernel/src/kaal/mem/init.rs:75-77 | wherever the source's mark does not panic, the corrected mark gives the same table |
| Init.MarkPasses | learnos_kernel/src/kaal/mem/init.rs:64-77 | the corrected passes leave every frame in its expected state |
| Init.InitializePageFrameTable | learnos_kernel/src/kaal/mem/init.rs:19-80 | the corrected construction panics when no region fits the table; on success every frame is reserved if unavailable, allocated if it belongs to the table, the kernel image or lies below the heap start, and free otherwise |
| Init.FinalTableWithRest | learnos_kernel/src/kaal/mem/init.rs:64-77 | the corrected passes composed give the expected state of every frame |
| Init.CoveredSnoc | learnos_kernel/src/kaal/mem/init.rs:69-77 | a frame is covered by regions with one appended exactly when the earlier ones cover it or the appended one holds it |
| Init.InitSucceeds | learnos_kernel/src/kaal/mem/init.rs:19-80 | with room for the table inside the direct mapping, the corrected construction succeeds even when the kernel image or reserved memory lies below the heap start |
| Init.RestSucceeds | learnos_kernel/src/kaal/mem/init.rs:64-77 | the corrected passes succeed when only the reserved and allocated regions are kept apart |
| Init.SplitLast | learnos_kernel/src/kaal/mem/init.rs:69-77 | the three marked regions are the first two followed by the last |
| IoApic.DeliveryModeField | amd64/src/ioapic.rs:100-102 | the raw delivery-mode field of an entry is a 3-bit value |
| IoApic.DeliveryModeOf | amd64/src/ioapic.rs:100-102 | `delivery_mode()` panics in its `unwrap` exactly on the reserved values 3 and 6 of bits 8-10, and otherwise returns the mode those bits encode |
| IoApic.DeliveryStatusInverted | amd64/src/ioapic.rs:116-118 | the getter as written reports `SendPending` exactly when bit 12 is clear, the opposite of the datasheet's meaning, so an all-zero entry reads as pending |
| IoApic.SetVector | amd64/src/ioapic.rs:96-98 | only bits 0-7 change; the vector reads back and every other getter reads as before |
| IoApic.SetDeliveryMode | amd64/src/ioapic.rs:104-106 | only bits 8-10 change; `delivery_mode()` reads the mode back without panicking and every other getter reads as before |
| IoApic.SetDestinationMode | amd64/src/ioapic.rs:112-114 | only bit 11 changes; the destination mode reads back and every other getter reads as before |
| IoApic.SetInputPolarity | amd64/src/ioapic.rs:124-126 | only bit 13 changes; the polarity reads back and every other getter reads as before |
| IoApic.SetTriggerMode | amd64/src/ioapic.rs:134-136 | only bit 15 changes; the trigger mode reads back and every other getter reads as before |
| IoApic.SetMasked | amd64/src/ioapic.rs:142-144 | only bit 16 changes; the mask reads back and every other getter reads as before |
| IoApic.SetDestination | amd64/src/ioapic.rs:150-152 | only bits 56-63 change; the destination reads back and every other getter reads as before |
| IoApic.Id | amd64/src/ioapic.rs:20-22 | the I/O APIC id is a 4-bit value |
| IoApic.Version | amd64/src/ioapic.rs:24-26 | the version is an 8-bit value |
| IoApic.MaxRedirectionEntries | amd64/src/ioapic.rs:28-31 | the redirection-entry count is an 8-bit value |
| IoApic.ArbitrationPriority | amd64/src/ioapic.rs:33-35 | the arbitration priority is a 4-bit value |
| IoApic.IdentificationFields | amd64/src/ioapic.rs:11-35 | whatever the other bits hold, registers carrying an id in bits 24-27, a version in bits 0-7, an entry count in bits 16-23 and a priority in bits 24-27 read those values back |
| IoApic.Halves | amd64/src/ioapic.rs:39-47 | an entry is its high half above its low half, so splitting and joining are inverse |
| IoApic.RedirectionEntry | amd64/src/ioapic.rs:37-42 | reading entry i gives the entry whose low half is register 0x10 + 2i and whose high half is the register after it |
| IoApic.SetRedirectionEntry | amd64/src/ioapic.rs:44-50 | with the high half written to the second register, reading the entry back gives exactly what was written, and no other register changes |
| IoApic.SetLeavesOtherEntries | amd64/src/ioapic.rs:37-50 | writing one entry leaves every other entry, the id, the version and the arbitration priority as they were |
| IoApic.AsWrittenReadBack | amd64/src/ioapic.rs:44-50 | as written, both halves go to the first register, so reading the entry back gives the high half in the low register and the old high register above it |
| IoApic.AsWrittenUnmasks | amd64/src/ioapic.rs:44-50 | as written, writing the masked entry with vector 0x30 to entry 0 of a zeroed chip reads back unmasked with vector 0 |
| IoApic.Vector | amd64/src/ioapic.rs:92-94 | `vector()` holds exactly bits 0-7 of the entry, bit for bit |
| IoApic.DestinationModeOf | amd64/src/ioapic.rs:108-110 | the destination mode is logical exactly when bit 11 is set |
| IoApic.DeliveryStatusAsWritten | amd64/src/ioapic.rs:116-118 | the getter as written reads `Idle` exactly when bit 12 is set |
| IoApic.DeliveryStatusOf | amd64/src/ioapic.rs:116-118 | the delivery status as the datasheet defines it: `SendPending` exactly when bit 12 is set |
| IoApic.InputPolarity | amd64/src/ioapic.rs:120-122 | an entry is low-active exactly when bit 13 is set |
| IoApic.TriggerModeOf | amd64/src/ioapic.rs:130-132 | an entry is level-triggered exactly when bit 15 is set |
| IoApic.Masked | amd64/src/ioapic.rs:138-140 | `masked()` holds exactly when bit 16 is set |
| IoApic.Destination | amd64/src/ioapic.rs:146-148 | `destination()` holds exactly bits 56-63 of the entry, bit 56 + i as its bit i |
| IoApic.SetRedirectionEntryAsWritten | amd64/src/ioapic.rs:44-50 | as written, the entry's first register ends up holding the high half, because the second write overwrites the low half, and every other register is kept |
| Madt.FromHeader | acpi/src/madt.rs:115-126 | a record decodes to the kind its type byte names, or to `Unknown` carrying its type and length when the type is none the kernel knows |
| Madt.FromHeaderByType | acpi/src/madt.rs:115-126 | types 0, 1, 2, 4 and 5 decode to processor local APIC, I/O APIC, interrupt source override, non-maskable interrupt and address override, each exactly for its type, and every other type to `Unknown` |
| Madt.EnabledIsBitZero | acpi/src/madt.rs:213-216 | a processor is enabled exactly when bit 0 of its flags is set |
| Madt.EntryHeaders | acpi/src/madt.rs:50-59 | the header iterator starts at the first record, after the header and the two 32-bit fields, and ends at the table's length |
| Madt.Next | acpi/src/madt.rs:88-100 | the iterator panics exactly when it has stepped past the table's end, yields nothing exactly at the end and then stays put, and otherwise yields the current record and moves on by that record's length |
| Madt.NextFused | acpi/src/madt.rs:102 | once the iterator has yielded nothing it keeps yielding nothing |
| Madt.WalkTiles | acpi/src/madt.rs:88-100 | a walk ends normally with a list of records exactly when those records, each of nonzero length, tile the bytes from the first record to the table's end |
| Madt.Entries | acpi/src/madt.rs:62-64 | iterating the table decodes each record the header iterator yields, in order |
| Madt.WalkInside | acpi/src/madt.rs:88-100 | every record a finished walk yields starts inside the table |
| Madt.LocalApics | acpi/src/madt.rs:66-70 | the processor records are exactly the table's records of that kind |
| Madt.IoApics | acpi/src/madt.rs:72-76 | the I/O APIC records are exactly the table's records of that kind |
| Madt.LocalApicsFilter | acpi/src/madt.rs:66-70 | the processor-record filter distributes over concatenation and keeps a single record exactly when it is a processor record, so it keeps the table order and every repeated record |
| Madt.IoApicsFilter | acpi/src/madt.rs:72-76 | the I/O APIC filter distributes over concatenation and keeps a single record exactly when it is an I/O APIC record, so it keeps the table order and every repeated record |
| Madt.FirstOverrideIsFirst | acpi/src/madt.rs:44-46 | an address override is found exactly when the records hold one, and then it is the one no other override precedes |
| Madt.FindOverride | acpi/src/madt.rs:42-47 | the `find_map` over the header iterator ends normally whenever the walk of the records does, and panics only when that walk does |
| Madt.FindOverrideOfWalk | acpi/src/madt.rs:42-47 | over records that walk to the table's end, the `find_map` finds the first override among the decoded records |
| Madt.LocalApicAddress | acpi/src/madt.rs:39-47 | on a table whose records add up to its length, the local APIC address is the first override's address, or the 32-bit header field when no record overrides it |
| Multiboot2.NextOffset | multiboot2/src/lib.rs:89-92 | the next tag starts at the current tag's size rounded up to a multiple of 8, so it stays 8-aligned relative to the current tag, and it is the current tag itself exactly when that tag's size is 0 |
| Multiboot2.Next | multiboot2/src/lib.rs:116-126 | the iterator yields nothing exactly at an end tag, and then stays put; otherwise it yields the current tag and moves to the next offset |
| Multiboot2.NextFused | multiboot2/src/lib.rs:116-129 | once the iterator has yielded nothing, any number of further calls leave it in place and yield nothing |
| Multiboot2.TagListCons | multiboot2/src/lib.rs:89-92 | a tag list starting with a proper tag is that tag followed by a tag list starting at the next offset |
| Multiboot2.WalkStep | multiboot2/src/lib.rs:116-126 | past a proper tag the walk moves strictly forward and is that tag followed by the walk from the next one |
| Multiboot2.WalkIsTagList | multiboot2/src/lib.rs:116-126 | calling `next` until it yields nothing visits exactly the offsets that form a tag list ending in an end tag, as the Multiboot2 layout describes it |
| Multiboot2.WalkedCons | multiboot2/src/lib.rs:116-126 | a non-empty finished walk is its first tag followed by the finished walk from the next offset |
| Multiboot2.AlignedCons | multiboot2/src/lib.rs:89-92 | a tag at an 8-aligned distance before an aligned list keeps the list aligned |
| Multiboot2.WalkedTagsAligned | multiboot2/src/lib.rs:89-126 | every tag a finished walk visits lies a multiple of 8 bytes after the first |
| Multiboot2.TagsInsideCons | multiboot2/src/lib.rs:116-126 | a tag inside memory before a list of tags inside memory gives a list of tags inside memory |
| Multiboot2.WalkedTagsInside | multiboot2/src/lib.rs:116-126 | every tag a finished walk visits lies, with its whole size, inside the structure |
| Multiboot2.IncreasingCons | multiboot2/src/lib.rs:89-92 | a tag before an aligned increasing list that starts after it keeps the list increasing |
| Multiboot2.WalkedTagsIncreasing | multiboot2/src/lib.rs:89-126 | the tags a finished walk visits come at strictly increasing offsets, so no tag is visited twice |
| Multiboot2.FirstOfType | multiboot2/src/lib.rs:37-41 | the search finds the first tag of the requested type, or none exactly when no tag has it |
| Multiboot2.FindTag | multiboot2/src/lib.rs:50-71 | a tag found by type is one the walk visits, lies inside the structure and has that type |
| Multiboot2.FindTagFirst | multiboot2/src/lib.rs:50-71 | the lookup finds nothing exactly when no tag has the type, and otherwise no tag of that type comes before the one it finds |
| Multiboot2.OfType | multiboot2/src/lib.rs:43-48 | filtering keeps exactly the tags of the requested type |
| Multiboot2.OfTypeIncreasing | multiboot2/src/lib.rs:43-48 | filtering increasing offsets keeps them increasing |
| Multiboot2.Modules | multiboot2/src/lib.rs:43-48 | the module iterator yields exactly the module tags of the walk, in increasing order |
| Multiboot2.TagString | multiboot2/src/lib.rs:158-166 | a tag's string exists exactly when the tag is at least as large as its struct (the assertion) and its bytes are well-formed UTF-8 (the `expect`); it then runs from the struct's last byte to one byte before the tag's end, leaving out the terminating NUL |
| Multiboot2.BootCmdLine | multiboot2/src/lib.rs:57-63 | the boot command line is none without a command-line tag; with one it is the first such tag's string, of length size minus 9, and it panics exactly when that tag is smaller than its struct or its string is not well-formed UTF-8 |
| Multiboot2.BootLoader | multiboot2/src/lib.rs:65-71 | the bootloader name is none without a name tag; with one it is the first such tag's string, of length size minus 9, and it panics exactly when that tag is smaller than its struct or its string is not well-formed UTF-8 |
| Multiboot2.ModuleCmdLine | multiboot2/src/lib.rs:158-166 | `ModuleTag::cmd_line` returns the bytes between the 17-byte struct's last byte and the NUL, and panics exactly when the tag is smaller than its struct or those bytes are not well-formed UTF-8 |
| Multiboot2.BootLoaderName | multiboot2/src/lib.rs:185-193 | `BootLoaderTag::name` returns the bytes between the 9-byte struct's last byte and the NUL, and panics exactly when the tag is smaller than its struct or those bytes are not well-formed UTF-8 |
| Multiboot2.BootCmdLineOf | multiboot2/src/lib.rs:212-220 | `BootCommandLineTag::cmd_line` returns the bytes between the 9-byte struct's last byte and the NUL, and panics exactly when the tag is smaller than its struct or those bytes are not well-formed UTF-8 |
| Multiboot2.InvalidNamePanics | multiboot2/src/lib.rs:185-193 | a name tag holding the byte 0x41 and a NUL reads back as "A", while one holding 0xFF and a NUL panics in the `expect` |
| Paging.Decode | learnos_kernel/src/memory/vmm/page_tables.rs:34-57 | an entry decodes to its flag byte and the frame its address bits 12-51 name, always a frame whose start address fits those bits |
| Paging.DecodeOf | learnos_kernel/src/memory/vmm/page_tables.rs:30-64 | the entry built from a frame's start address and a flag set decodes back to exactly that frame and those flags, with no other bit set |
| Paging.DecodeDetermines | learnos_kernel/src/memory/vmm/page_tables.rs:26-57 | an entry with no bit outside the flags and the address field is determined by its decoding: two such entries with equal flags and frame are equal |
| Paging.DecodeNew | learnos_kernel/src/memory/vmm/page_tables.rs:30-32 | the empty entry decodes to no flags and frame 0 |
| Paging.Zeroes | kmem/src/paging/mod.rs:186 | a cleared table holds 512 entries, all empty |
| Paging.TableOf | kmem/src/paging/mod.rs:146-147 | the table read through any frame has 512 entries |
| Paging.Write | kmem/src/paging/mod.rs:161-181 | storing an entry changes only that entry of that frame's table: it reads back, and every other entry of every frame reads as before |
| Paging.Clear | kmem/src/paging/mod.rs:183-186 | after the memset every entry of the new table is empty and every other frame's table is unchanged |
| Paging.Idx | kmem/src/paging/mod.rs:94-96 | the index at every level is a valid index into a 512-entry table |
| Paging.ContainsBoth | kmem/src/paging/mod.rs:165 | `contains(SIZE \| PRESENT)` holds exactly when the entry is both present and a large page |
| Paging.TableEntry | kmem/src/paging/mod.rs:178-180 | the entry linking a new table is present, not a large page, and names the new table's frame |
| Paging.TableEntryEncodes | kmem/src/paging/mod.rs:178-180 | the 64-bit entry written for a new table in frame x carries x's start address and decodes to the linking entry |
| Paging.AddressBits | learnos_kernel/src/memory/vmm/page_tables.rs:61-64 | the address `set_base` keeps is 4 KiB aligned and never above the given address |
| Paging.AddressBitsOfAligned | learnos_kernel/src/memory/vmm/page_tables.rs:61-64 | a 4 KiB-aligned address below 2^52 passes through `set_base` unchanged |
| Paging.LeafEntry | kmem/src/paging/mod.rs:152-160 | the new mapping entry is present, a large page above the PT level, and names the address bits of `paddr` |
| Paging.MapAsWritten | kmem/src/paging/mod.rs:207-223 | a level of 2 or more is refused with `InvalidLevel` and nothing changes; an address not aligned to the level's page size fails the assertion |
| Paging.Map | kmem/src/paging/mod.rs:207-223 | the corrected map refuses levels of 2 or more with `InvalidLevel`, leaving everything as before, and panics on an address not aligned to the level's page size |
| Paging.PathFrames | kmem/src/paging/mod.rs:146-198 | the path of tables an address walks through starts at the table the walk starts from and is never empty |
| Paging.MapImplRecFrame | kmem/src/paging/mod.rs:141-203 | with the remap check and a target at or below the current level the call never panics; frames in use keep their state; tables in use off the path are unchanged; on an error the page-frame table and every table in use are as before |
| Paging.AllocateBranch | kmem/src/paging/mod.rs:171-196 | the same facts for the branch that allocates a new table |
| Paging.NewTableFrame | kmem/src/paging/mod.rs:171-196 | with the remap check the allocating branch never panics; frames in use keep their state; it changes no table in use but the one holding the entry; on an error the page-frame table and every table in use are as before |
| Paging.FreshTableFrame | kmem/src/paging/mod.rs:183-188 | on a new, cleared table that is in use the call never panics with the remap check, keeps frames in use, changes no other table in use, and on an error leaves the page-frame table and every table in use as before |
| Paging.NewTableUnfold | kmem/src/paging/mod.rs:165-175 | above the target level an entry that is not present takes the allocating branch |
| Paging.AllocateUnfold | kmem/src/paging/mod.rs:175-196 | the allocating branch is the call below on the new, cleared table followed by the rollback |
| Paging.RollbackFacts | kmem/src/paging/mod.rs:175-186 | given what the call below on the new table keeps, the rollback never panics, keeps the frames in use and every table in use except the one holding the entry, and on an error restores the page-frame table and every table in use |
| Paging.DescendBranch | kmem/src/paging/mod.rs:197-199 | the facts of `MapImplRecFrame` for the branch that descends into an existing table |
| Paging.ResolveFrom | kmem/src/paging/mod.rs:229-248 | the corrected walk, which reads the entry of each level: any translation it gives keeps the address's offset in its 4 KiB page |
| Paging.Resolve | kmem/src/paging/mod.rs:229-248 | `resolve` with each level's entry read: any translation keeps the address's offset in its 4 KiB page |
| Paging.ResolveLoop | kmem/src/paging/mod.rs:231-247 | the loop as written, which looks at one entry on every pass: any translation keeps the address's offset in its 4 KiB page |
| Paging.ResolveAsWritten | kmem/src/paging/mod.rs:229-248 | as written the PT-level entry is fetched through `entry_at_level`, which faults (a panic here) exactly when the PML4, PDPT or PD entry on the way is not present; any translation keeps the page offset |
| Paging.PageAddressOffset | kmem/src/paging/mod.rs:236-239 | base plus the offset bits of the level keeps the address's offset in its 4 KiB page when the base is 4 KiB aligned |
| Paging.ResolveAgreesOnSmallPages | kmem/src/paging/mod.rs:229-248 | on a complete path of small-page entries the resolve as written gives the same answer as the walk that reads each level's entry |
| Paging.ResolveMissesLargePage | kmem/src/paging/mod.rs:229-248 | for a 2 MiB page the resolve as written reports the address unmapped while the walk finds it; with no PML4 entry it faults instead of answering none |
| Paging.MapImplRecResolves | kmem/src/paging/mod.rs:141-203 | after a successful call the walk from its table resolves the address to the mapped base plus the offset bits of the target level |
| Paging.InstallResolves | kmem/src/paging/mod.rs:149-164 | an entry installed at the current level is what the walk finds there |
| Paging.InstallUnfold | kmem/src/paging/mod.rs:149-164 | at the target level an entry that is not present is overwritten with the new mapping and the call succeeds |
| Paging.LeafResolves | kmem/src/paging/mod.rs:234-239 | the walk stops at a mapping entry and adds the offset bits of its level to the entry's base |
| Paging.StopResolves | kmem/src/paging/mod.rs:234-239 | the walk stops at a present PT entry or a present large-page entry |
| Paging.ExistingUnfold | kmem/src/paging/mod.rs:200-202 | with the remap check a present entry at the target level is reported as an existing mapping and nothing changes |
| Paging.LargePageUnfold | kmem/src/paging/mod.rs:165-202 | above the target level a present large-page entry is reported as an existing mapping and nothing changes |
| Paging.DescendUnfold | kmem/src/paging/mod.rs:197-199 | through a present small-page entry the call goes on in the table that entry names |
| Paging.AllocateResolves | kmem/src/paging/mod.rs:171-196 | `MapImplRecResolves` for the allocating branch |
| Paging.NewTableResolves | kmem/src/paging/mod.rs:175-196 | after a successful allocating branch the walk goes through the new table to the new mapping |
| Paging.FreshTableResolves | kmem/src/paging/mod.rs:183-189 | mapping through a new, cleared table changes no other table in use and the walk from it finds the mapping |
| Paging.NewTableNone | kmem/src/paging/mod.rs:175 | with no free frame the allocating branch reports `OutOfMemory` and nothing changes |
| Paging.NewTableSome | kmem/src/paging/mod.rs:175-196 | with a free frame the allocating branch links and clears that frame, calls one level down, and rolls back on an error |
| Paging.LinkedTableResolves | kmem/src/paging/mod.rs:178-188 | the walk through the linking entry continues in the new table as long as the table holding the entry is kept |
| Paging.LinkResolves | kmem/src/paging/mod.rs:178-181 | an entry linking a table passes the walk on to that table |
| Paging.DescendResolves | kmem/src/paging/mod.rs:197-199 | `MapImplRecResolves` for the branch that descends into an existing table |
| Paging.KeptEntryResolves | kmem/src/paging/mod.rs:197-199 | a table kept by the call below still passes the walk on to the same table |
| Paging.StepResolves | kmem/src/paging/mod.rs:240-243 | through a present small-page entry the walk goes on in the table below |
| Paging.MapThenResolve | kmem/src/paging/mod.rs:141-223 | for levels 0 and 1 and aligned addresses map never panics; on success resolve gives the new translation and tables in use off the path are unchanged; on an error the page-frame table and every table in use are as before and the error is not `InvalidLevel` |
| Paging.MapErrors | kmem/src/paging/mod.rs:175-202 | the recursive call reports only `MappingExists` or `OutOfMemory` |
| Paging.NewTableErrors | kmem/src/paging/mod.rs:175-196 | the allocating branch reports only `MappingExists` or `OutOfMemory` |
| Paging.RollbackStatus | kmem/src/paging/mod.rs:188-195 | the rollback passes on the status of the call below, and on success passes on its result unchanged |
| Paging.MapImplRecAsWrittenAgrees | kmem/src/paging/mod.rs:141-203 | whenever the recursive call as written does not panic it gives exactly the corrected result |
| Paging.TargetAgrees | kmem/src/paging/mod.rs:149-202 | as written, a present entry at the target level either panics or is reported as an existing mapping, like the corrected version |
| Paging.AllocateAgrees | kmem/src/paging/mod.rs:171-196 | in the allocating branch the code as written agrees with the corrected code whenever it does not panic |
| Paging.BelowTarget | kmem/src/paging/mod.rs:165-202 | as written, a call at the PT level with target PD panics or reports an existing mapping |
| Paging.MapAsWrittenAgrees | kmem/src/paging/mod.rs:207-223 | whenever map as written does not panic it gives exactly the corrected map's result |
| Paging.RemapPanics | kmem/src/paging/mod.rs:165-168 | remapping a mapped 4 KiB page panics as written, while the corrected map reports `MappingExists` and changes nothing |
| Paging.SmallPagePanics | kmem/src/paging/mod.rs:165-168 | as written, a present 4 KiB entry at the PT level reaches the `expect` and panics |
| PfaBump.FramesIn | learnos_kernel/src/memory/pfa/bump.rs:83-85 | computing an entry's frames panics exactly when base plus length overflows or the base lies in the last page, where rounding up overflows; otherwise a frame belongs to the result exactly when it lies wholly inside the entry |
| PfaBump.New | learnos_kernel/src/memory/pfa/bump.rs:17-22 | a new allocator starts at frame 0 over the given memory map |
| PfaBump.ReserveUntil | learnos_kernel/src/memory/pfa/bump.rs:26-28 | the next frame becomes the larger of the old next frame and the reserved frame; the map is kept |
| PfaBump.ReserveUntilAddress | learnos_kernel/src/memory/pfa/bump.rs:32-34 | reserving up to an address succeeds exactly when the address is not in the last page, never moves the next frame down, and moves it to a frame whose start is at or above the address |
| PfaBump.AllocScan | learnos_kernel/src/memory/pfa/bump.rs:60-76 | the scan never panics when every available entry is well formed and panics only when one is not; a frame it hands out lies wholly inside an available entry, at or above the starting frame, and the next frame moves just past it; when it hands out nothing, every available frame lies below the final next frame |
| PfaBump.Alloc | learnos_kernel/src/memory/pfa/bump.rs:60-76 | alloc never panics when every available entry is well formed and panics only when one is not; an allocated frame lies wholly inside an available entry at or above the next frame, which moves just past it; on failure the next frame has passed every available frame; the map is kept and the next frame never goes down |
| PfaBump.FreeFrame | learnos_kernel/src/memory/pfa/bump.rs:78-80 | freeing always panics |
| PfaBump.RemainingIn | learnos_kernel/src/memory/pfa/bump.rs:40-43 | an entry that is not available counts 0; an available one panics exactly when it is not well formed, and otherwise counts at most its frames, and 0 exactly when all of them lie below the next frame |
| PfaBump.RemainingFrames | learnos_kernel/src/memory/pfa/bump.rs:37-45 | `remaining_frames` panics exactly when some available entry is not well formed, and otherwise never exceeds the total available frames |
| PfaBump.RemainingShrinks | learnos_kernel/src/memory/pfa/bump.rs:37-45 | moving the next frame up does not change whether the count panics and never increases the number of remaining frames |
| PfaBump.NothingReserved | learnos_kernel/src/memory/pfa/bump.rs:37-55 | with the next frame at 0 the remaining frames are exactly the total available frames, panics included |
| PfaBump.AllocExample | learnos_kernel/src/memory/pfa/bump.rs:32-76 | over entries [0x1000, 0x3000) and [0x10000, 0x20000), reserving up to 0x2000 makes the first allocation frame 2 |
| PfaBump.TotalAvailableFrames | learnos_kernel/src/memory/pfa/bump.rs:47-55 | `total_available_frames` panics exactly when some available entry is not well formed |
| PfaBump.TailWellFormed | learnos_kernel/src/memory/pfa/bump.rs:39-53 | a memory map has every available entry well formed exactly when its first entry (if available) and its tail do, which is what the per-entry folds rely on |
| PfaBump.TailFacts | learnos_kernel/src/memory/pfa/bump.rs:61-74 | what the scan learns from the tail carries over to the whole map: well-formedness, a malformed available entry and an available frame |
| PfaBump.ReservedTopAccepted | learnos_kernel/src/memory/pfa/bump.rs:40-74 | a reserved entry in the last page of memory is never rounded: over it and one available page, alloc hands out frame 1 and the remaining count is 1 |
| Pte.New | learnos_kernel/src/memory/vmm/page_tables.rs:30-32 | the empty entry has no flags, base address 0, no user data and is executable |
| Pte.SetFlags | learnos_kernel/src/memory/vmm/page_tables.rs:34-41 | the flags read back as set and every bit above the flag byte is kept |
| Pte.SetExecutable | learnos_kernel/src/memory/vmm/page_tables.rs:44-52 | executability reads back as set and every bit but the no-execute bit is kept |
| Pte.Base | learnos_kernel/src/memory/vmm/page_tables.rs:26-57 | the base address is 4 KiB aligned, below 2^52 and has no bit outside the address mask |
| Pte.SetBase | learnos_kernel/src/memory/vmm/page_tables.rs:59-63 | the base reads back as the address bits of the given address, aligned down, and every bit outside the address mask is kept |
| Pte.UserData | learnos_kernel/src/memory/vmm/page_tables.rs:65-71 | with the high mask on bits 52-62, the user data is a 14-bit value |
| Pte.SetUserData | learnos_kernel/src/memory/vmm/page_tables.rs:73-78 | with the high mask on bits 52-62, storing user data keeps every bit outside the two user-data masks |
| Pte.UserDataRoundTrip | learnos_kernel/src/memory/vmm/page_tables.rs:65-78 | with the corrected mask any 14-bit user data reads back as stored |
| Pte.SetUserDataKeepsBase | learnos_kernel/src/memory/vmm/page_tables.rs:55-78 | with the corrected mask, storing user data leaves the base address unchanged |
| Pte.SetBaseKeepsUserData | learnos_kernel/src/memory/vmm/page_tables.rs:59-71 | with the corrected mask, storing a base address leaves the user data unchanged |
| Pte.SetBaseKeepsFlags | learnos_kernel/src/memory/vmm/page_tables.rs:34-63 | storing a base address leaves the flags unchanged |
| Pte.SetFlagsKeepsBase | learnos_kernel/src/memory/vmm/page_tables.rs:39-57 | storing flags leaves the base address unchanged |
| Pte.UserDataAsWrittenRoundTrip | learnos_kernel/src/memory/vmm/page_tables.rs:65-78 | with the mask as written, 14-bit user data still reads back as stored |
| Pte.UserDataOverlapsBase | learnos_kernel/src/memory/vmm/page_tables.rs:26-78 | with the mask as written, storing an address with bit 51 set changes the user data, and storing user data 0 clears bit 51 of the address |
| Pte.UnitTest | learnos_kernel/src/memory/vmm/page_tables.rs:98-121 | the test's user data, flags and address read back in both orders of setting, under both the written and the corrected mask |
| Pte.MakeEntry | kmem/src/paging/mod.rs:158-160 | the entry built from a new entry, a base address and flags reads back that address's bits and those flags |
| Pte.FlagsOf | learnos_kernel/src/memory/vmm/page_tables.rs:34-37 | the flags are exactly the low byte of the entry |
| Pte.Executable | learnos_kernel/src/memory/vmm/page_tables.rs:44-46 | an entry is executable exactly when it is below the no-execute bit, that is when bit 63 is clear |
| Recursive.Child | kmem/src/paging/mod.rs:31-38 | a level has no child exactly at the PT level, and otherwise the child is the level one below |
| Recursive.Parent | kmem/src/paging/mod.rs:26-29 | the parent of a level is the level whose child it is |
| Recursive.IndexAtLevel | kmem/src/paging/mod.rs:87-96 | the index at a level always names one of a table's 512 entries |
| Recursive.NewMapping | kmem/src/paging/mod.rs:104-109 | creating the recursive mapping succeeds exactly for an index below 512 and keeps that index |
| Recursive.Step | kmem/src/paging/mod.rs:121-127 | after one pass of the loop the PML4 index of the address is the recursive index |
| Recursive.Steps | kmem/src/paging/mod.rs:125-127 | after one or more passes the PML4 index of the address is the recursive index |
| Recursive.EntryAtLevel | kmem/src/paging/mod.rs:118-139 | the entry address is 8-byte aligned, its PML4 index is the recursive index, and it is canonical: the upper 16 bits are all ones for an index of 256 or more and all zeros below |
| Recursive.TableAtLevel | kmem/src/paging/mod.rs:111-116 | the table address is 4 KiB aligned |
| Recursive.EntryIsIndexedInTable | kmem/src/paging/mod.rs:94-139 | at each of the four levels the entry lies at eight times the level's index inside its table: the table address joined with that offset is the entry address |
| Recursive.EntryOffset | kmem/src/paging/mod.rs:94-139 | at each of the four levels the offset of the entry address within its page is eight times the level's index |
| Recursive.EntryKeepsLowBits | kmem/src/paging/mod.rs:129-136 | the canonical-form adjustment and the 8-byte alignment keep bits 3-11 of the loop's result |
| Recursive.StepKeepsLowBits | kmem/src/paging/mod.rs:126 | a pass of the loop moves every bit below bit 39 down by nine places |
| Recursive.CanonicalKeepsLowBits | kmem/src/paging/mod.rs:129-136 | neither canonical adjustment nor the alignment changes bits 3-11 |
| Recursive.IndexAtLevelTest | learnos_kernel/src/memory/vmm/mod.rs:101-108 | on the test address levels 3 to 0 have the indices 257, 130, 68 and 40 |
| Recursive.EntryAtLevelTest | learnos_kernel/src/memory/vmm/mod.rs:123-134 | with the recursive index 510 the entry addresses of the test address at levels 0 to 3 are the expected ones |
| Recursive.StepsExample | learnos_kernel/src/memory/vmm/mod.rs:77-79 | the loop's values after one to four passes on the test address |
| Recursive.TableAtLevelTest | learnos_kernel/src/memory/vmm/mod.rs:110-121 | with the recursive index 510 the table addresses of the test address at levels 0 to 3 are the expected ones |
| Vmm.MmapFromResolves | learnos_kernel/src/memory/vmm/mod.rs:18-52 | with new tables cleared and the path below the allocator's next frame: the allocator only moves forward over the same map, tables below its next frame off the path are kept, an address that already resolved leaves the tables unchanged, and one that did not resolves to `paddr`'s page afterwards |
| Vmm.LeafInstallUnfold | learnos_kernel/src/memory/vmm/mod.rs:39-46 | at the PT level an entry that is not present receives the mapping of `paddr`, and the walk then resolves through it |
| Vmm.AllocatedBelowLimit | learnos_kernel/src/memory/vmm/mod.rs:30-34 | when every available entry lies in the 52-bit physical space, an allocated frame's start address fits the entry's address field |
| Vmm.AllocTableResolves | learnos_kernel/src/memory/vmm/mod.rs:26-38 | `MmapFromResolves` where a table is missing above the PT level |
| Vmm.FreshTableResolves | learnos_kernel/src/memory/vmm/mod.rs:30-38 | after a fresh table above the next frame is linked and cleared, the rest of the walk keeps the tables below the old next frame but the linking one and resolves the address to `paddr`'s page |
| Vmm.LinkedTableKept | learnos_kernel/src/memory/vmm/mod.rs:33-36 | linking a fresh table changes no table below the old next frame but the linking one, and the walk through the link continues in the fresh table |
| Vmm.PathHeadBelow | learnos_kernel/src/memory/vmm/mod.rs:21-25 | the table the walk starts from lies below the allocator's next frame |
| Vmm.AllocTableUnfold | learnos_kernel/src/memory/vmm/mod.rs:26-38 | a missing entry above the PT level takes the next allocated frame, links it as a table, and continues one level down in it |
| Vmm.FreshTableBelow | learnos_kernel/src/memory/vmm/mod.rs:26-38 | a cleared table is a path of its own and nothing resolves through it |
| Vmm.DescendTableResolves | learnos_kernel/src/memory/vmm/mod.rs:21-51 | `MmapFromResolves` where the walk descends through an existing table |
| Vmm.DescendTableUnfold | learnos_kernel/src/memory/vmm/mod.rs:21-51 | through a present small-page entry the loop continues in the table below with the same allocator |
| Vmm.SubPathBelow | learnos_kernel/src/memory/vmm/mod.rs:21-26 | the path below a present small-page entry stays below the next frame and has no repeats |
| Vmm.MmapThenResolve | learnos_kernel/src/memory/vmm/mod.rs:17-52 | with new tables cleared, when mmap does not abort an unmapped address resolves to `paddr`'s page plus its page offset afterwards, an already mapped one leaves the tables as they were, and every table below the allocator's next frame off the path is unchanged |
| Vmm.MmapMapsPage | learnos_kernel/src/memory/vmm/mod.rs:17-52 | for a 4 KiB-aligned `paddr` below 2^52, an unmapped address resolves to exactly `paddr` plus its page offset afterwards |
| Vmm.LargePagePanics | learnos_kernel/src/memory/vmm/mod.rs:48-50 | a present large-page entry above the PT level aborts mmap |
| Vmm.OutOfMemoryPanics | learnos_kernel/src/memory/vmm/mod.rs:30 | with an empty memory map a missing table aborts mmap |
| Vmm.AgreeWithoutAllocation | learnos_kernel/src/memory/vmm/mod.rs:17-52 | when the walk needs no new table the code as written and the clearing version give the same result |
| Vmm.StaleExample | learnos_kernel/src/memory/vmm/mod.rs:26-38 | page tables whose PD entry for 0x1000 is missing while frame 4 still holds a present entry at index 1 |
| Vmm.StalePfa | learnos_kernel/src/memory/pfa/bump.rs:60-76 | an allocator whose next frame 4 is the only available frame |
| Vmm.AllocNext | learnos_kernel/src/memory/pfa/bump.rs:60-76 | when the next frame lies in the only entry, which is available, alloc hands out the next frame |
| Vmm.StaleTableMapsWrongFrame | learnos_kernel/src/memory/vmm/mod.rs:26-47 | as written, mmap(0x1000, 0x6000) links frame 4 uncleared, leaves its stale entry, and 0x1000 then resolves to 0x9000; clearing the new table makes it resolve to 0x6000 |
| Vmm.StaleCase | learnos_kernel/src/memory/vmm/mod.rs:21-47 | on any tables and allocator with the example's facts, mmap(0x1000, 0x6000) succeeds and 0x1000 then resolves to 0x6000 with clearing and to 0x9000 as written |
| Vmm.StaleWalk | learnos_kernel/src/memory/vmm/mod.rs:21-38 | on the example both variants link frame 4 as the PT; as written nothing else changes, with clearing frame 4 is cleared and gets the mapping at index 1 |
| Vmm.StaleLeaf | learnos_kernel/src/memory/vmm/mod.rs:42-44 | the PT entry written for 0x6000 is present, writable and names frame 6 |
| Vmm.PtUnfold | learnos_kernel/src/memory/vmm/mod.rs:26-47 | at the PT level a missing entry receives the mapping and a present one is left as it is |
| Vmm.StaleLinked | learnos_kernel/src/memory/vmm/mod.rs:26-38 | through the example's tables with frame 4 linked as the PT, 0x1000 resolves through the entry at index 1 of frame 4 |
| Vmm.MmapFrom | learnos_kernel/src/memory/vmm/mod.rs:21-51 | the loop from one level down, with or without clearing new tables: the allocator keeps its map and only moves forward, and an address that already resolves from that level leaves the tables and the allocator as they were (or aborts) |
| Vmm.Mmap | learnos_kernel/src/memory/vmm/mod.rs:17-52 | `mmap` as written: the allocator keeps its map and only moves forward, and an address that already resolves leaves the tables and the allocator as they were (or aborts) |
| Vmm.MmapZeroing | learnos_kernel/src/memory/vmm/mod.rs:17-52 | `mmap` clearing each new table gives the same guarantees as the code as written |
| Vmm.PhysicalSpaceWellFormed | learnos_kernel/src/memory/pfa/bump.rs:83-85 | when every available entry lies inside the 52-bit physical address space, every available entry is well formed, so computing its frames never panics |
| Rsdp.ParseV1 | acpi/src/rsdp.rs:9-16 | the fields after the signature: a 6-byte OEM id and an RSDT address that fits 32 bits |
| Rsdp.ParseV2 | acpi/src/rsdp.rs:18-25 | the version 2 layout starts with the version 1 fields; its length fits 32 bits and its XSDT address 64 bits |
| Rsdp.AsV2AsWritten | acpi/src/rsdp.rs:66-76 | as written, the version 2 view is refused for every revision 2 structure, and any view granted is the version 2 layout of the bytes |
| Rsdp.AsV2 | acpi/src/rsdp.rs:66-76 | the version 2 view is granted exactly for revision 2 or later with a zero checksum over the `length` bytes, and is the version 2 layout of the bytes |
| Rsdp.AsV2OfValid | acpi/src/rsdp.rs:66-76 | on a valid RSDP the version 2 view is granted exactly when the revision is 2 or later and the structure passes the version 2 validity check |
| Rsdp.RevisionTwoDenied | acpi/src/rsdp.rs:67 | as written, every valid revision 2 RSDP is denied its version 2 view, which the corrected view grants |
| Rsdp.ExampleV2 | acpi/src/rsdp.rs:18-25 | a 36-byte structure whose first 20 bytes are a revision 2 RSDP head with the signature |
| Rsdp.RevisionTwoShape | acpi/src/rsdp.rs:79-121 | a signed revision 2 head whose bytes sum to 768 followed by an extension of length 36 summing to 256 is a valid version 2 RSDP |
| Rsdp.ExampleV2IsValid | acpi/src/rsdp.rs:66-76 | the example is a valid revision 2 RSDP that the written view refuses and the corrected view accepts |
| Rsdp.FromAnyAsWritten | acpi/src/rsdp.rs:91-98 | as written, comparing the 4-byte table signature with the 8-byte RSDP signature never succeeds |
| Rsdp.FromAny | acpi/src/rsdp.rs:91-98 | the corrected conversion accepts exactly the tables that start with the 8-byte RSDP signature and returns them unchanged |
| Rsdp.FromAnyRefusesRsdp | acpi/src/rsdp.rs:91-98 | the written conversion refuses a real RSDP that the corrected one accepts |
| Rsdp.V2FromAny | acpi/src/rsdp.rs:127-129 | the version 2 conversion succeeds exactly when the conversion and then the version 2 view both succeed |
| Rsdp.LeOfEight | acpi/src/rsdp.rs:39 | the `u64` read from eight bytes is their little-endian value |
| Rsdp.SignatureValue | acpi/src/rsdp.rs:28-36 | the signature bytes read as a little-endian `u64` give the constant the scan compares with |
| Rsdp.ValidHasSig | acpi/src/rsdp.rs:36-85 | where a valid RSDP starts, the `u64` the scan reads equals that constant, so the first test never hides a valid RSDP |
| Rsdp.NextVisits | acpi/src/rsdp.rs:38-47 | an address the scan visits after the current one is visited from the next step |
| Rsdp.EarlierVisits | acpi/src/rsdp.rs:38-47 | an address visited from the next step is visited from the current one |
| Rsdp.FoundAligned | acpi/src/rsdp.rs:32-46 | a scan from a 16-byte aligned address visits only aligned addresses |
| Rsdp.AlignedVisits | acpi/src/rsdp.rs:32-46 | every multiple of 16 at or above the start is visited by the scan from the start rounded up |
| Rsdp.Find | acpi/src/rsdp.rs:31-49 | the search panics exactly when rounding the start up to 16 overflows, or when the end lies above the last 16-byte slot of the address space and no aligned address from the start below the end holds a valid RSDP, so that `current += 16` overflows |
| Rsdp.FindFromFirst | acpi/src/rsdp.rs:38-48 | the scan returns a visited address below the end that holds a valid RSDP, and no visited address before it, or anywhere when it returns none or panics, holds one |
| Rsdp.FindFromPanics | acpi/src/rsdp.rs:38-46 | from an aligned address the scan panics exactly when it reaches the last 16-byte slot of the address space below the end and no visited address holds a valid RSDP |
| Rsdp.ScanFromStart | acpi/src/rsdp.rs:33-48 | from the start rounded up to 16, the scan finds the first aligned valid RSDP at or above the start and below the end, and panics exactly when the end lies above the last 16-byte slot and there is none |
| Rsdp.TopOfMemoryPanics | acpi/src/rsdp.rs:38-46 | on memory without a signature, a scan from 2^64-32 to 2^64-1 panics on the step past 2^64-16, and an empty scan does not |
| Rsdp.FindReturnsFirst | acpi/src/rsdp.rs:30-49 | when it does not panic, the search returns the first 16-byte aligned address from the start below the end that holds a valid RSDP, and none exactly when there is none |
| Rsdp.IsValid | acpi/src/rsdp.rs:79-85 | an RSDP is valid exactly when its first eight bytes are the signature and its first 20 bytes sum to a multiple of 256 |
| Rsdp.OemId | acpi/src/rsdp.rs:55-60 | the OEM id is the six bytes at offset 9, and the `expect` panics exactly when they are not well-formed UTF-8 |
| Rsdt.ValidIsCheckedRsdt | learnos_kernel/src/acpi/rsdt.rs:14-36 | the RSDT validity check holds exactly on a checksum-valid table that the conversion accepts as an RSDT, and such a table is never an XSDT |
| Rsdt.NumEntries | learnos_kernel/src/acpi/rsdt.rs:38-41 | the entry count is the number of whole 4-byte entries that fit between the header and the table's length |
| Rsdt.SdtPointers | learnos_kernel/src/acpi/rsdt.rs:43-52 | the iterator runs from the first entry to the entry count |
| Rsdt.PointersAreEntries | learnos_kernel/src/acpi/rsdt.rs:38-77 | the iterator yields, without reaching its assertion, exactly the counted 32-bit entries of the table in order, all inside the table's length |
| Xsdt.ValidIsCheckedXsdt | learnos_kernel/src/acpi/xsdt.rs:1-37 | the XSDT validity check holds exactly on a checksum-valid table that the conversion accepts as an XSDT, and such a table is never an RSDT |
| Xsdt.NumEntriesAsWritten | learnos_kernel/src/acpi/xsdt.rs:39-42 | as written, the count is the number of whole 4-byte steps between the header and the table's length |
| Xsdt.NumEntries | learnos_kernel/src/acpi/xsdt.rs:39-42 | the corrected count is the number of whole 8-byte entries that fit between the header and the table's length |
| Xsdt.SdtPointersAsWritten | learnos_kernel/src/acpi/xsdt.rs:44-53 | as written, the iterator runs from the first entry to the 4-byte count |
| Xsdt.SdtPointers | learnos_kernel/src/acpi/xsdt.rs:44-53 | the corrected iterator runs from the first entry to the 8-byte count |
| Xsdt.AsWrittenOverreads | learnos_kernel/src/acpi/xsdt.rs:40-77 | as written, for every table with at least 4 bytes after the header the last counted 8-byte entry ends past the table; a 44-byte table is counted as two entries though it holds one |
| Xsdt.PointersAreEntries | learnos_kernel/src/acpi/xsdt.rs:39-78 | the corrected iterator yields, without reaching its assertion, exactly the 64-bit entries of the table in order, all inside the table's length |
| Sdt.ParseHeader | acpi/src/lib.rs:22-34 | the header read from a table's first 36 bytes has fields of the declared widths |
| Sdt.EncodeHeader | acpi/src/lib.rs:22-34 | a header is stored as exactly 36 bytes |
| Sdt.ParseEncode | acpi/src/lib.rs:22-34 | storing a header in the packed layout and reading it back gives the same header |
| Sdt.EncodeParse | acpi/src/lib.rs:22-34 | reading a header and storing it back gives the table's first 36 bytes |
| Sdt.FromAny | acpi/src/lib.rs:60-62 | the conversion keeps the table's bytes and succeeds exactly when the kind demands no signature or the table carries the kind's signature |
| Sdt.TableFromRaw | acpi/src/lib.rs:71-80 | a table is returned, unchanged, exactly when the view of the requested kind is valid |
| Sdt.FromAnyBySignature | acpi/src/lib.rs:37-68 | the generic view always succeeds; the RSDT, XSDT and MADT views succeed exactly on their signatures, so a table has at most one of them |
| Sdt.CorruptionRejected | acpi/src/lib.rs:51-80 | changing any byte of an accepted table inside its length, other than the length field, makes the table rejected |
| Sdt.PointerNext | learnos_kernel/src/acpi/rsdt.rs:61-76 | the iterator panics exactly when it has passed its end; at its end it yields nothing and stays put; otherwise it yields the entry, which fits the entry width, and moves one entry on |
| Sdt.EntriesFrom | learnos_kernel/src/acpi/rsdt.rs:56-76 | the entries from `current` to `last` are that many, each read at its offset after the header |
| Sdt.DrainYieldsEntries | learnos_kernel/src/acpi/rsdt.rs:61-77 | an iterator not past its end yields exactly the entries from its position to its end, in order, without panicking |
| Sdt.PointerFused | learnos_kernel/src/acpi/rsdt.rs:61-77 | after returning none the iterator keeps returning none, as its `FusedIterator` promises |
| Sdt.IsValid | learnos_kernel/src/acpi/rsdt.rs:15-19 | a table is valid exactly when the bytes up to its length sum to a multiple of 256 and, for the RSDT and XSDT views, its signature is the view's |
| SlowAlloc.FirstFree | kmem/src/physical/alloc/slow.rs:29-37 | the search finds a free frame with no free frame below it, and none exactly when no frame is free |
| SlowAlloc.Alloc | kmem/src/physical/alloc/slow.rs:28-38 | alloc returns none, changing nothing, exactly when no frame is free; otherwise it returns the lowest free frame and marks only that frame allocated |
| SlowAlloc.FreeFrame | kmem/src/physical/alloc/slow.rs:40-44 | freeing succeeds exactly on an allocated frame inside the table, marks it free and changes no other frame |
| SlowAlloc.AllocRegion | kmem/src/physical/alloc/slow.rs:47-70 | the region search returns none, changing nothing, exactly when no run of `n` free frames exists; otherwise it returns the lowest such run, marks exactly its frames allocated, and freeing the region restores the table |
| SlowAlloc.FreeRegion | kmem/src/physical/alloc/slow.rs:72-78 | freeing a region succeeds exactly when every frame of it is inside the table and allocated, and then marks exactly those frames free |
| SlowAlloc.ReservedFramesStay | kmem/src/physical/alloc/slow.rs:28-78 | alloc, free and free of a region keep the table's length and leave every reserved frame reserved |
| SlowAlloc.AllocThenFree | kmem/src/physical/alloc/slow.rs:28-44 | freeing the frame alloc returned restores the table |
| SlowAlloc.FreeThenAlloc | kmem/src/physical/alloc/slow.rs:28-44 | on a table with no free frame, the frame just freed is the next one alloc returns |
| SlowAlloc.AllocIsRegionOfOne | kmem/src/physical/alloc/slow.rs:28-70 | alloc fails exactly when no run of one free frame exists |
| Topology.New | learnos_kernel/src/smp/mod.rs:62-67 | a new table has no entries in use and the given number of slots |
| Topology.Insert | learnos_kernel/src/smp/mod.rs:74-85 | insert panics exactly on a full table; otherwise it returns the old count as the new entry's index and the count grows by one |
| Topology.Index | learnos_kernel/src/smp/mod.rs:113-121 | indexing succeeds exactly for an index below the count |
| Topology.InsertThenIndex | learnos_kernel/src/smp/mod.rs:79-121 | after an insert the returned index reads the inserted entry and every other index reads what it read before |
| Topology.InsertAllInOrder | learnos_kernel/src/smp/mod.rs:79-110 | inserting items one after another succeeds exactly when they fit, and iteration then yields the old entries followed by the items in order |
| Topology.Take256 | learnos_kernel/src/smp/mod.rs:97-106 | `take(256)` keeps a prefix of at most 256 items, all of them when there are no more than 256 |
| Topology.Extend | learnos_kernel/src/smp/mod.rs:104-110 | extend succeeds exactly when the first 256 items fit, and the table then holds its old entries followed by those items in order |
| Topology.FromIter | learnos_kernel/src/smp/mod.rs:94-102 | building a table from items never panics and keeps exactly the first 256 items in order |
| Topology.Update | learnos_kernel/src/smp/mod.rs:123-129 | writing through an index succeeds exactly for an index below the count |
| Topology.UpdateThenIndex | learnos_kernel/src/smp/mod.rs:113-129 | after a write through an index the count is kept, that index reads the new entry and every other index reads as before |
| Topology.First | learnos_kernel/src/smp/mod.rs:146 | the search finds the first entry that satisfies the test, and none exactly when no entry does |
| Topology.Find | learnos_kernel/src/smp/mod.rs:146 | the found element is the one at the first index that satisfies the test, and there is one exactly when such an index exists |
| Topology.ById | learnos_kernel/src/smp/mod.rs:145-147 | the lookup returns the first I/O APIC of the table with that id, and none exactly when no entry has it |
| Topology.ByGsi | learnos_kernel/src/smp/mod.rs:149-151 | the lookup returns none exactly when no I/O APIC's range covers the interrupt, and otherwise the first one in the table whose range does |
| Topology.ByApicId | learnos_kernel/src/smp/mod.rs:155-157 | the lookup returns the first CPU of the table with that APIC id, and none exactly when no entry has it |
| Topology.ByAcpiId | learnos_kernel/src/smp/mod.rs:159-161 | the lookup returns the first CPU of the table with that ACPI id, and none exactly when no entry has it |
| Topology.Bsp | learnos_kernel/src/smp/mod.rs:163-165 | the bootstrap processor returned is the first CPU of the table marked as such, and none exactly when no CPU is marked |
| Topology.Aps | learnos_kernel/src/smp/mod.rs:167-169 | the `filter` of the table: a subsequence of it, in table order, holding every CPU not marked as the bootstrap processor exactly as often as the table does and no bootstrap CPU; all of the table exactly when the bootstrap lookup finds none |
| Topology.ApsAreTheRest | learnos_kernel/src/smp/mod.rs:167-169 | the application processors are exactly the CPUs not marked as the bootstrap processor; they are all CPUs exactly when none is marked; each non-bootstrap CPU occurs as often as in the table and a bootstrap CPU never |
| Topology.ApsInOrder | learnos_kernel/src/smp/mod.rs:167-169 | the application processors are picked out of the table at strictly increasing positions, so the filter keeps the table's order |
| Topology.ApsUnique | learnos_kernel/src/smp/mod.rs:167-169 | order and multiplicities determine the result: any subsequence of the table with exactly the non-bootstrap CPUs, each as often as in the table, is `aps` |
| Topology.IsaIrqTable | learnos_kernel/src/smp/mod.rs:174-187 | the ISA table has 32 entries and IRQ `i` is wired to global system interrupt `i`, active high and edge triggered |
| Utf8.CharLength | multiboot2/src/lib.rs:163-164 | the well-formed character at the start of the bytes is 1 to 4 bytes long and fits in them; an ASCII byte is a character of its own, and a continuation byte, 0xC0, 0xC1 or 0xF5-0xFF never starts one |
| Utf8.Encode | multiboot2/src/lib.rs:163-164 | a scalar value encodes to 1 to 4 bytes, and to one byte exactly when it is ASCII |
| Utf8.DecodeFirst | multiboot2/src/lib.rs:163-164 | the character at the start of well-formed bytes is a scalar value whose encoding is exactly those bytes |
| Utf8.DecodeTwo | multiboot2/src/lib.rs:163-164 | a two-byte character decodes to a scalar value whose encoding is those two bytes |
| Utf8.DecodeThree | multiboot2/src/lib.rs:163-164 | a three-byte character decodes to a scalar value whose encoding is those three bytes |
| Utf8.DecodeFour | multiboot2/src/lib.rs:163-164 | a four-byte character decodes to a scalar value whose encoding is those four bytes |
| Utf8.EncodeDecode | multiboot2/src/lib.rs:163-164 | whatever follows it, an encoded scalar value is recognised as one character of its encoding's length and decodes back to the value |
| Utf8.EncodeAllWellFormed | multiboot2/src/lib.rs:163-164 | the encoding of any string of scalar values passes the UTF-8 well-formedness test |
| Utf8.DecodeAll | multiboot2/src/lib.rs:163-164 | bytes that pass the UTF-8 well-formedness test are the encoding of a string of scalar values, so with `EncodeAllWellFormed` the test accepts exactly the encodings |
| Utf8.IllFormedExamples | acpi/src/rsdp.rs:55-60 | the test behind the `expect` rejects 0xFF, a lone continuation byte, an encoded surrogate and an overlong encoding |

## Left out

- Volatile MMIO, port I/O, MSR and CPUID accesses become plain reads and writes of a register map or leave the model (`supported`, `local_apic_id`, `is_enabled`, `base_address`, `set_enabled` in amd64/src/apic.rs). Their effect on the hardware cannot be stated in Dafny.
- `ApicRegisters::set_base_address` and `base_address_valid` are left out. They update an `AtomicPtr` to the register window, and the model has no pointers.
- Invalidating the TLB, `memset` and the `unsafe` pointer casts that reach page tables through the recursive mapping are not modelled. Only their effect on the abstract page-table memory is.
- `timer_current_count` and `error_status` are left out. They only read a register that the hardware changes on its own.
- The older APIC and IDT code (amd64/src/interrupts/apic.rs, interrupts/src/apic.rs, learnos_kernel/src/interrupts/idt.rs) is left out. The current amd64 versions supersede it.
- `Idt` loading (`lidt`) and the handler trampolines are left out because they are assembly.
- The interrupt-stack-table byte of an IDT entry is carried but never decoded. The source has no accessor for it.
- The `Ring` type of bare_metal/src/segments.rs is reduced to its range check. The rest of segments.rs is not part of this model.
- Multiboot2: tag strings are kept as bytes.
  - `str::from_utf8(..).expect` is modelled as the well-formedness rules of section 4 of RFC 3629 (module `Utf8`), which panics on ill-formed bytes; the returned `&str` is the same bytes, so no decoding is applied.
  - The memory-map tag's own entry iterator (learnos_kernel/src/multiboot2/memmap.rs) is not part of this model.
  - The module tag's `mod_start`/`mod_end` getters are plain field reads and are left out.
- Multiboot2.FindTag, Multiboot2.Modules, Multiboot2.BootCmdLine, Multiboot2.BootLoader: these require the tag list to be walkable (`WellFormed`). On a list with a zero-size tag, or one running past the structure, the source loops forever or reads beyond it; the model records that case as `Malformed` only in the walk itself.
- Sdt.ParseHeader: the table header's `oem_id` and `oem_table_id` are kept as bytes; the header has no `&str` accessor for them. The RSDP's `oem_id`, which converts with `str::from_utf8(..).expect`, is modelled as Rsdp.OemId.
- Rsdp.FindFromPanics: it requires the scan's first address to be 16-byte aligned. `find` always starts the loop at `start` rounded up to 16 (acpi/src/rsdp.rs:33), so the requirement only restricts calls the kernel never makes.
- Rsdt.NumEntries, Xsdt.NumEntries, Xsdt.NumEntriesAsWritten: these require the table length to be at least the 36-byte header. On a shorter table the source's `usize` subtraction underflows (a debug-build panic).
- Bits.GetBit, Bits.SetBit, Bits.ToggleBit: these require the bit index to be below the type's width. A larger index makes `1 << idx` overflow, a debug-build panic in the source.
- Bits.LastBit: it requires an excluded range end to be at least 1. The end `..0` makes `end - 1` underflow, a debug-build panic in the source.
- Bits.GetBits, Bits.SetBits: these require `first <= last < width` for the range. Otherwise a shift inside `mask!` overflows or `last - first` underflows, a debug-build panic in the source; an empty range is not modelled.
- Bits.SetBitBits, Bits.GetBitsBits, Bits.SetBitsBits: these lemmas carry the same requires as the functions they describe, for the same reason.
- Bits.GetBitIsBit, Bits.GetAfterSetBit, Bits.SetBitOnly, Bits.SetBitInRange, Bits.ToggleBitBits, Bits.ToggleTwice, Bits.GetBitOutside, Bits.GetBitsBound, Bits.GetBitsOutside, Bits.GetAfterSetBits, Bits.SetBitsOnly, Bits.SetBitsOfGetBits, Bits.SetBitsTruncates, Bits.SetBitsInRange: these lemmas carry the same index or range requires. Those that speak of the old value also require it to fit the type, as every value of a Rust integer does.
- Topology.ByGsi: it requires `irq_base + max_redir_count` to fit in a `u32`, whose overflow is a debug-build panic in the source.
- IoApic.RedirectionEntry, IoApic.SetRedirectionEntry: these require the register index `0x10 + 2 * index + 1` to fit in a `u32`, whose overflow is a debug-build panic in the source.
- Addr.End, Frames.NewIncludedIn, Frames.NewIncluding, Direct.PhysToVirt, Direct.VirtToPhys: these require their sums to stay below 2^64. A sum that does not fit is a debug-build overflow panic in the source.
- Init.InitializeAsWritten, Init.InitializePageFrameTable, Init.AsWrittenSucceeds, Init.AsWrittenUnfold, Init.KernelBelowHeapPanics: these require every memory-map region to end below frame 2^52 (`MapInBounds`) and the kernel image's end to fit in a word (`LayoutInBounds`). Both hold for the physical address space of x86-64. They also require the direct mapping's two ends, base plus size, to stay below 2^64 (`Direct.WellFormed`); otherwise the sums in `contains_phys` and `phys_to_virt` overflow, a debug-build panic in the source.
- Init.InitSucceeds: besides `MapInBounds`, `LayoutInBounds` and `Direct.WellFormed` of the direct mapping, it requires the marked regions to be pairwise disjoint and to avoid reserved memory. Otherwise `mark_allocated` panics.
  - The source does not check this itself.
  - Init.OverlapPanics states the converse.
- The `debug!` output of learnos_kernel/src/kaal/mem/init.rs is left out.
- CmdLine: the source slices `&str` at byte offsets, and the model slices a sequence of characters. The source slices only just after a one-byte `"` or `=`, or at a position `find` returned, which are always character boundaries, so the two agree on every UTF-8 command line.
- The comment on the processor record's flags (acpi/src/madt.rs:195) names bit 1 as "processor enabled", but the code tests bit 0. The model follows the code (see Madt.EnabledIsBitZero).
- The `Drop` of the info tables is left out because it only runs destructors. `IsaIrqTable`'s `iter`, `Index` and `IndexMut` are left out too: they are plain array accesses to the 32 entries (`MAX_ISA_IRQ_COUNT`) that Topology.IsaIrqTable describes.
- amd64's own `paging::PageTableEntry` is not part of this model. The kernel's entry in learnos_kernel/src/memory/vmm/page_tables.rs is modelled as `Pte`, and the `kmem` walk's entry as a `Paging.Slot` of flags and frame number.
- learnos_kernel/src/acpi/mod.rs, which locates the tables at boot, is not part of this model.
- SlowAlloc.FreeRegion: when a frame in the middle of the region is not allocated, the source panics after freeing the earlier frames. The model reports only the panic, not that partial state.
- PfaBump.Alloc: it promises a frame inside an available entry at or above the next frame, not the lowest such frame. When the memory map is not sorted, the source's scan can move past available frames of later, lower entries, and the model keeps that behaviour.
- Paging.MapImplRec, Paging.MapNewTable, Paging.MapAsWritten, Paging.Map, Paging.MapImplRecFrame, Paging.AllocateBranch, Paging.NewTableFrame, Paging.FreshTableFrame, Paging.NewTableUnfold, Paging.AllocateUnfold, Paging.DescendBranch, Paging.MapImplRecResolves, Paging.InstallResolves, Paging.InstallUnfold, Paging.ExistingUnfold, Paging.LargePageUnfold, Paging.DescendUnfold, Paging.AllocateResolves, Paging.NewTableResolves, Paging.FreshTableResolves, Paging.NewTableNone, Paging.NewTableSome, Paging.DescendResolves, Paging.MapThenResolve, Paging.MapErrors, Paging.NewTableErrors, Paging.MapImplRecAsWrittenAgrees, Paging.TargetAgrees, Paging.AllocateAgrees, Paging.BelowTarget, Paging.MapAsWrittenAgrees, Paging.SmallPagePanics: these require the physical memory to have at most 2^40 frames (`TABLE_FRAME_LIMIT`), the frames of the 52-bit physical address space of x86-64. A frame the allocator hands out then fits the 40-bit address field, bits 12-51, of a page-table entry; a larger frame number would be silently truncated by the entry's address mask.
- Paging.ResolveFrom, Paging.Resolve, Paging.ResolveLoop: their own contracts state only that a translation keeps the page offset. What the walk resolves to is stated by Paging.MapThenResolve, Paging.MapImplRecResolves, Paging.ResolveAgreesOnSmallPages and Paging.ResolveMissesLargePage.
- PfaBump.TotalAvailableFrames: its contract states only when it panics. Its value is tied to the remaining count by PfaBump.NothingReserved and PfaBump.RemainingFrames.
- Utf8.CharLength, Utf8.Encode: their contracts state the length bounds and the ASCII and never-valid lead bytes. Their full meaning is the round trip that Utf8.EncodeDecode and Utf8.DecodeFirst state.
- Vmm.Mmap, Vmm.MmapZeroing, Vmm.MmapFrom: their contracts state the allocator and the already-mapped case. The mapping they make is stated by Vmm.MmapThenResolve and Vmm.MmapMapsPage.
- `unmap` is left out because the source leaves it `unimplemented!()`.
- Spinlocks and the global allocator instances are left out. Each allocator is modelled as a value owned by its caller.

## Findings

| source | as written | input that shows it | evidently intended | confidence | as-written member | corrected member |
|---|---|---|---|---|---|---|
| kmem/src/paging/mod.rs:229-248 | `resolve` reads the entry at the PT index of every table it visits, at line 232, whatever the level, and the read through the recursive mapping faults when an upper table is absent | a 2 MiB page at virtual address 0 mapped by PML4 → PDPT → PD entry with SIZE set: address 0x1234 resolves to none; with no PML4 entry the walk faults | read the entry for the current level, stop at a SIZE entry, and return none for an absent table | not executed | Paging.ResolveMissesLargePage | Paging.MapThenResolve |
| kmem/src/paging/mod.rs:165-168 | mapping a 4 KiB page where a present PT entry already exists takes the allocate branch and panics in `child().expect(..)`, since the PT level has no child | map 0x1000 to 0x6000 at level 0 when 0x1000 already has a 4 KiB mapping | report `MappingExists` and change nothing, as for a large page | not executed | Paging.RemapPanics | Paging.Map |
| learnos_kernel/src/memory/vmm/page_tables.rs:26-28 | `USER_DATA_HIGH_MASK` covers bits 51-62, and bit 51 also belongs to `ADDR_MASK` | store user data 0 and then base 0x0008_0000_0000_0000: the user data reads 4 | user data kept in bits 52-62 and 9-11, independent of the base | not executed | Pte.UserDataOverlapsBase | Pte.SetBaseKeepsUserData |
| learnos_kernel/src/acpi/xsdt.rs:40-41 | `num_entries` divides the payload length by `size_of::<u32>()` although XSDT entries are 8 bytes | an XSDT of length 44 (one entry) counts two, and the iterator reads 8 bytes past the table | divide by 8, the width of an XSDT entry | not executed | Xsdt.AsWrittenOverreads | Xsdt.PointersAreEntries |
| acpi/src/rsdp.rs:66-76 | `as_v2` offers the version 2 view only when `revision != 2` | a valid ACPI 2.0 RSDP (revision 2) gets `None` | offer the view when the revision is at least 2 | not executed | Rsdp.RevisionTwoDenied | Rsdp.AsV2OfValid |
| amd64/src/ioapic.rs:44-50 | `set_redirection_entry` writes both halves of the entry to register `0x10 + 2 * index`, while `redirection_entry` reads the high half from the next register | write the masked entry with vector 0x30 to entry 0 of a zeroed chip: it reads back unmasked with vector 0 | write the high half to `0x10 + 2 * index + 1` | not executed | IoApic.AsWrittenUnmasks | IoApic.SetRedirectionEntry |
| learnos_kernel/src/memory/vmm/mod.rs:30-36 | `mmap` links a freshly allocated frame as a page table without clearing it | a fresh frame whose stale entry 1 is present: `mmap(0x1000, 0x6000)` keeps the stale entry, so 0x1000 resolves to 0x9000 | zero the new table before linking it, as `kmem` does | not executed | Vmm.StaleTableMapsWrongFrame | Vmm.MmapThenResolve |
| acpi/src/rsdp.rs:91-98 | `Rsdp::from_any` compares the 4-byte signature of the generic header with the 8-byte "RSD PTR " | a table starting with "RSD PTR " is refused | compare the first 8 bytes | not executed | Rsdp.FromAnyRefusesRsdp | Rsdp.FromAny |
| amd64/src/apic.rs:335-341 | `delivery_status` reports `Idle` when bit 12 is set, the reverse of the register's definition | `LvtEntry::disabled()`, bit 12 clear, reads as `SendPending` | a set bit 12 means a send is pending | not executed | Apic.DeliveryStatusInverted | Apic.DeliveryStatusOf |
| amd64/src/ioapic.rs:116-118 | `delivery_status` reports `Idle` when bit 12 is set, the reverse of the 82093AA definition | the all-zero redirection entry reads as `SendPending` | a set bit 12 means a send is pending | not executed | IoApic.DeliveryStatusInverted | IoApic.DeliveryStatusOf |
| learnos_kernel/src/kaal/mem/init.rs:72-77 | the kernel image is marked allocated, then everything below the heap start is marked allocated again | a kernel image at [0x100000, 0x200000) with the heap starting at 0x200000: the third `mark_allocated` meets frame 0x100 already allocated and panics at kmem/src/physical/mgmt.rs:39 | mark only the frames below the heap start that no earlier pass marked | not executed | Init.KernelBelowHeapPanics | Init.InitSucceeds |

=== FILE: addr.dfy ===
/**
 * Physical and virtual addresses and address ranges (amd64/src/addr.rs).
 *
 * `PhysAddr` and `VirtAddr` are two newtypes over `usize` generated by the
 * same macro, so they have the same operations; the model has one `Addr`
 * type for both. Address arithmetic overflowing a word panics in the
 * source's debug builds: `Add`, `SubOffset` and `Diff` return `Panic`
 * exactly when theirs overflows or underflows, and only `End` makes
 * "no overflow" a precondition.
 */
module Addr {
  import opened Common
  import opened Align

  datatype Addr = Addr(value: Word)

  /** A range of `length` bytes starting at `start`. */
  datatype AddrRange = AddrRange(start: Addr, length: Word)

  /** `a + n`: panics when the sum overflows the word. */
  function Add(a: Addr, n: Word): (r: Outcome<Addr>)
    ensures r.Done? <==> a.value + n < WORD_LIMIT
    ensures r.Done? ==> r.value.value - n == a.value
  {
    if a.value + n < WORD_LIMIT then Done(Addr(a.value + n)) else Panic
  }

  /** `a - n`: panics when `n` is above the address. */
  function SubOffset(a: Addr, n: Word): (r: Outcome<Addr>)
    ensures r.Done? <==> n <= a.value
    ensures r.Done? ==> r.value.value + n == a.value
  {
    if n <= a.value then Done(Addr(a.value - n)) else Panic
  }

  /** `a - b`: the distance between two addresses; panics when `b` is above `a`. */
  function Diff(a: Addr, b: Addr): (r: Outcome<Word>)
    ensures r.Done? <==> b.value <= a.value
    ensures r.Done? ==> b.value + r.value == a.value
  {
    if b.value <= a.value then Done(a.value - b.value) else Panic
  }

  /** `AddrRange::from_bounds(start, end)`: an inverted range is empty, and no subtraction panics. */
  function FromBounds(start: Addr, end: Addr): (r: AddrRange)
    ensures r.start == start
    ensures end.value < start.value ==> r.length == 0
    ensures start.value <= end.value ==> Diff(end, start) == Done(r.length)
  {
    AddrRange(start, if end.value < start.value then 0 else Diff(end, start).value)
  }

  /** `range.end()`: the first address after the range, `start + length`. */
  function End(range: AddrRange): (r: Addr)
    requires range.start.value + range.length < WORD_LIMIT
    ensures Add(range.start, range.length) == Done(r)
    ensures range.start.value <= r.value && Diff(r, range.start) == Done(range.length)
  {
    Add(range.start, range.length).value
  }

  /** The end of `from_bounds(start, end)` is `end`, or `start` for an inverted range. */
  lemma EndOfFromBounds(start: Addr, end: Addr)
    ensures End(FromBounds(start, end)) == if end.value < start.value then start else end
  {
  }

  /** Adding and then subtracting the same offset gives the address back. */
  lemma AddThenSub(a: Addr, n: Word)
    ensures Add(a, n).Done? ==> SubOffset(Add(a, n).value, n) == Done(a) && Diff(Add(a, n).value, a) == Done(n)
  {
  }

  /** Adding the distance between two addresses to the lower one gives the higher one. */
  lemma AddDiff(a: Addr, b: Addr)
    ensures Diff(a, b).Done? ==> Add(b, Diff(a, b).value) == Done(a)
  {
  }

  /** `addr.align_up(a)`: rounds the underlying word. */
  function AlignAddrUp(addr: Addr, a: Word): (r: Outcome<Addr>)
    ensures r.Done? <==> AlignUp(addr.value, a).Done?
    ensures r.Done? ==> r.value.value == AlignUp(addr.value, a).value
  {
    match AlignUp(addr.value, a)
    case Panic => Panic
    case Done(v) => Done(Addr(v))
  }

  /** `addr.align_down(a)`: rounds the underlying word. */
  function AlignAddrDown(addr: Addr, a: Word): (r: Outcome<Addr>)
    ensures r.Done? <==> AlignDown(addr.value, a).Done?
    ensures r.Done? ==> r.value.value == AlignDown(addr.value, a).value
  {
    match AlignDown(addr.value, a)
    case Panic => Panic
    case Done(v) => Done(Addr(v))
  }

  /** `addr.is_aligned(a)`: `align_down` leaves the address unchanged. */
  function AddrIsAligned(addr: Addr, a: Word): (r: Outcome<bool>)
    ensures r == IsAligned(addr.value, a)
  {
    match AlignAddrDown(addr, a)
    case Panic => Panic
    case Done(b) => Done(b == addr)
  }

  /** A rounded address is aligned. */
  lemma RoundedAddrIsAligned(addr: Addr, a: Word)
    ensures AlignAddrUp(addr, a).Done? ==> AddrIsAligned(AlignAddrUp(addr, a).value, a) == Done(true)
    ensures AlignAddrDown(addr, a).Done? ==> AddrIsAligned(AlignAddrDown(addr, a).value, a) == Done(true)
  {
    if a > 0 && AlignAddrUp(addr, a).Done? {
      assert AlignDown(AlignUp(addr.value, a).value, a).Done?;
    }
    if a > 0 && AlignAddrDown(addr, a).Done? {
      assert AlignDown(AlignDown(addr.value, a).value, a).Done?;
    }
  }
}

=== FILE: align.dfy ===
/**
 * Alignment of machine words (amd64/src/align.rs).
 *
 * `align_up` and `align_down` treat alignment 0 as "no alignment", assert
 * that any other alignment is a power of two, and round using the mask
 * `alignment - 1`. The model follows the mask arithmetic and proves it equal
 * to rounding to a multiple. The word type is the 64-bit `usize`.
 */
module Align {
  import opened Common
  import opened Arith
  import opened Bits

  /** `a` is a power of two: 1, 2, 4, ... */
  predicate IsPow2(a: nat)
  {
    a == 1 || (a >= 2 && a % 2 == 0 && IsPow2(a / 2))
  }

  lemma {:induction false} AndSelf(b: nat)
    ensures And(b, b) == b
  {
    if b != 0 {
      AndSelf(b / 2);
    }
  }

  /** The source's power-of-two test `a & (a - 1) == 0`. */
  lemma {:induction false} PowerOfTwoTest(a: nat)
    requires a > 0
    ensures And(a, a - 1) == 0 <==> IsPow2(a)
  {
    if a == 1 {
    } else if a % 2 == 1 {
      AndSelf(a / 2);
      assert (a - 1) / 2 == a / 2;
    } else {
      assert (a - 1) / 2 == a / 2 - 1;
      PowerOfTwoTest(a / 2);
    }
  }

  /** For a power of two `a`, `x & (a - 1)` is `x % a`. */
  lemma {:induction false} LowMaskIsMod(x: nat, a: nat)
    requires IsPow2(a)
    ensures And(x, a - 1) == x % a
  {
    if a == 1 {
    } else if x == 0 {
    } else {
      assert (a - 1) / 2 == a / 2 - 1;
      assert (a - 1) % 2 == 1;
      LowMaskIsMod(x / 2, a / 2);
      ModOfDouble(x, a / 2);
    }
  }

  /** A smaller power of two divides a larger one. */
  lemma {:induction false} Pow2Divides(a: nat, c: nat)
    requires IsPow2(a) && IsPow2(c) && a <= c
    ensures c % a == 0
  {
    if a > 1 {
      Pow2Divides(a / 2, c / 2);
      var k := (c / 2) / (a / 2);
      assert c / 2 == (a / 2) * k;
      assert c == a * k;
      MultipleMod(a, k);
    }
  }

  lemma {:induction false} Pow2IsPow2(k: nat)
    ensures IsPow2(Pow2(k))
  {
    if k > 0 {
      Pow2IsPow2(k - 1);
    }
  }

  /** Every power-of-two word alignment divides the word limit. */
  lemma AlignmentDividesLimit(a: nat)
    requires IsPow2(a) && a < WORD_LIMIT
    ensures WORD_LIMIT % a == 0
  {
    Pow2Values();
    Pow2IsPow2(64);
    Pow2Divides(a, WORD_LIMIT);
  }

  // ---------------------------------------------------------------------
  // The Alignable operations on usize
  // ---------------------------------------------------------------------

  /**
   * `x.align_down(a)`: the largest multiple of `a` that is at most `x`.
   * Alignment 0 leaves `x` alone; any other alignment that is not a power of
   * two trips the assertion.
   */
  function AlignDown(x: Word, a: Word): (r: Outcome<Word>)
    ensures a == 0 ==> r == Done(x)
    ensures a > 0 ==> (r.Done? <==> IsPow2(a))
    ensures r.Done? && a > 0 ==> r.value % a == 0 && r.value <= x < r.value + a
  {
    if a == 0 then Done(x)
    else
      var mask := a - 1;
      PowerOfTwoTest(a);
      if And(a, mask) != 0 then Panic
      else
        LowMaskIsMod(x, a);
        RoundDown(x, a);
        Done(x - And(x, mask))
  }

  /** Subtracting the remainder rounds down to a multiple. */
  lemma RoundDown(x: nat, a: nat)
    requires a > 0
    ensures x % a <= x
    ensures var d := x - x % a; d % a == 0 && d <= x < d + a
  {
    MultipleMod(a, x / a);
    assert x - x % a == a * (x / a);
  }

  /**
   * `x.align_up(a)`: the smallest multiple of `a` that is at least `x`.
   * The final addition overflows, and panics, exactly when that multiple
   * does not fit in a word.
   */
  function AlignUp(x: Word, a: Word): (r: Outcome<Word>)
    ensures a == 0 ==> r == Done(x)
    ensures a > 0 && !IsPow2(a) ==> r == Panic
    ensures a > 0 && IsPow2(a) ==> (r.Done? <==> x <= WORD_LIMIT - a)
    ensures r.Done? && a > 0 ==> r.value % a == 0 && x <= r.value < x + a
  {
    if a == 0 then Done(x)
    else
      var mask := a - 1;
      PowerOfTwoTest(a);
      if And(a, mask) != 0 then Panic
      else
        LowMaskIsMod(x, a);
        var padding := a - And(x, mask);
        LowMaskIsMod(padding, a);
        AlignUpSum(x, a);
        var sum := x + And(padding, mask);
        if sum >= WORD_LIMIT then Panic else Done(sum)
  }

  /** Adding the padding `(a - x % a) % a` rounds up to a multiple. */
  lemma RoundUp(x: nat, a: nat)
    requires a > 0
    ensures var s := x + (a - x % a) % a;
      s % a == 0 && x <= s < x + a && (x % a != 0 ==> s - a < x)
  {
    var s := x + (a - x % a) % a;
    if x % a == 0 {
      MultipleMod(a, 1);
      assert s == x;
    } else {
      DivModUnique(a - x % a, a, 0, a - x % a);
      assert s == a * (x / a + 1);
      MultipleMod(a, x / a + 1);
    }
  }

  /** The arithmetic of `align_up` with a power-of-two alignment, and when it fits in a word. */
  lemma AlignUpSum(x: Word, a: Word)
    requires a > 0 && IsPow2(a)
    ensures var s := x + (a - x % a) % a;
      s % a == 0 && x <= s < x + a && (s < WORD_LIMIT <==> x <= WORD_LIMIT - a)
  {
    AlignmentDividesLimit(a);
    RoundUp(x, a);
    var s := x + (a - x % a) % a;
    if s < WORD_LIMIT {
      MultiplesApart(a, s, WORD_LIMIT);
    }
  }

  /**
   * `x.is_aligned(a)`: `align_down` leaves `x` unchanged. It panics where
   * `align_down` does.
   */
  function IsAligned(x: Word, a: Word): (r: Outcome<bool>)
    ensures r.Done? <==> a == 0 || IsPow2(a)
    ensures r.Done? ==> (r.value <==> a == 0 || x % a == 0)
  {
    match AlignDown(x, a)
    case Panic => Panic
    case Done(y) =>
      AlignDownFixesMultiples(x, a);
      Done(y == x)
  }

  /** `align_down` leaves exactly the multiples of the alignment unchanged. */
  lemma AlignDownFixesMultiples(x: Word, a: Word)
    requires AlignDown(x, a).Done?
    ensures AlignDown(x, a).value == x <==> a == 0 || x % a == 0
  {
    var y := AlignDown(x, a).value;
    if a > 0 && y < x && x % a == 0 {
      MultiplesApart(a, y, x);
    }
  }

  // ---------------------------------------------------------------------
  // Properties across calls
  // ---------------------------------------------------------------------

  /** Aligning down twice is aligning down once. */
  lemma AlignDownIdempotent(x: Word, a: Word)
    requires AlignDown(x, a).Done?
    ensures AlignDown(AlignDown(x, a).value, a) == AlignDown(x, a)
  {
    var y := AlignDown(x, a).value;
    if a > 0 {
      var z := AlignDown(y, a).value;
      if z < y {
        MultiplesApart(a, z, y);
      }
    }
  }

  /** Aligning up twice is aligning up once. */
  lemma AlignUpIdempotent(x: Word, a: Word)
    requires AlignUp(x, a).Done?
    ensures AlignUp(AlignUp(x, a).value, a) == AlignUp(x, a)
  {
    var y := AlignUp(x, a).value;
    if a > 0 {
      AlignmentDividesLimit(a);
      MultiplesApart(a, y, WORD_LIMIT);
      var z := AlignUp(y, a).value;
      if y < z {
        MultiplesApart(a, y, z);
      }
    }
  }

  /** An aligned value is a fixed point of both roundings. */
  lemma AlignedFixedPoint(x: Word, a: Word)
    requires IsAligned(x, a) == Done(true)
    ensures AlignDown(x, a) == Done(x) && AlignUp(x, a) == Done(x)
  {
    if a > 0 {
      AlignmentDividesLimit(a);
      MultiplesApart(a, x, WORD_LIMIT);
      var z := AlignUp(x, a).value;
      if x < z {
        MultiplesApart(a, x, z);
      }
    }
  }

  /**
   * With alignment 8 the roundings go to the neighbouring multiples of 8;
   * the unit-test vectors of amd64/src/align.rs follow (the vectors with
   * alignment 0 are the first postcondition of each function).
   */
  lemma AlignDownExamples(x: Word)
    ensures AlignDown(x, 8) == Done(x - x % 8)
    ensures x == 23 ==> AlignDown(x, 8) == Done(16)
    ensures x == 24 || x == 25 ==> AlignDown(x, 8) == Done(24)
  {
    assert IsPow2(8);
  }

  lemma AlignUpExamples(x: Word)
    ensures x <= WORD_LIMIT - 8 ==> AlignUp(x, 8) == Done(if x % 8 == 0 then x else x - x % 8 + 8)
    ensures x == 23 || x == 24 ==> AlignUp(x, 8) == Done(24)
    ensures x == 25 ==> AlignUp(x, 8) == Done(32)
  {
    assert IsPow2(8);
  }
}

=== FILE: apic.dfy ===
/**
 * The local APIC (amd64/src/apic.rs): the enumerations shared with the
 * I/O APIC, the fields of local vector table (LVT) entries, the encoding of
 * the timer's divide configuration, and the memory-mapped register file,
 * following section 10.5 of the Intel 64 and IA-32 Architectures Software
 * Developer's Manual, Volume 3A.
 *
 * A register is a `u32`; the kernel reads and writes every field with the
 * `get_bit`/`set_bit`/`get_bits`/`set_bits` operations of the `Bits`
 * trait, which the model states in their arithmetic form (module Packed).
 */
module Apic {
  import opened Common
  import opened Packed
  import Arith
  import Bits

  /** A 32-bit APIC register value. */
  type Reg = U32

  // ---------------------------------------------------------------------
  // Enumerations and their `parse` functions
  // ---------------------------------------------------------------------

  datatype DeliveryMode = Fixed | LowestPriority | Smi | Nmi | Init | ExtInit

  /** The discriminant of a delivery mode, `mode as u8`. */
  function DeliveryModeCode(m: DeliveryMode): (c: U8)
    ensures c < 8
  {
    match m
    case Fixed => 0
    case LowestPriority => 1
    case Smi => 2
    case Nmi => 4
    case Init => 5
    case ExtInit => 7
  }

  /** `DeliveryMode::parse`: 3 and 6 are reserved, so are 8 and above. */
  function ParseDeliveryMode(value: U8): (r: Option<DeliveryMode>)
    ensures r.Some? <==> value < 8 && value != 3 && value != 6
    ensures r.Some? ==> DeliveryModeCode(r.value) == value
  {
    match value
    case 0 => Some(Fixed)
    case 1 => Some(LowestPriority)
    case 2 => Some(Smi)
    case 4 => Some(Nmi)
    case 5 => Some(Init)
    case 7 => Some(ExtInit)
    case _ => None
  }

  /** Parsing the discriminant of a delivery mode gives that mode back. */
  lemma ParseDeliveryModeCode(m: DeliveryMode)
    ensures ParseDeliveryMode(DeliveryModeCode(m)) == Some(m)
  {
  }

  datatype Polarity = HighActive | LowActive

  datatype TriggerMode = EdgeTriggered | LevelTriggered

  datatype TimerDivisor =
    | Divisor2 | Divisor4 | Divisor8 | Divisor16
    | Divisor32 | Divisor64 | Divisor128 | Divisor1

  /** The discriminant of a divisor, `divisor as u8`. */
  function TimerDivisorCode(d: TimerDivisor): (c: U8)
    ensures c < 8
  {
    match d
    case Divisor2 => 0
    case Divisor4 => 1
    case Divisor8 => 2
    case Divisor16 => 3
    case Divisor32 => 4
    case Divisor64 => 5
    case Divisor128 => 6
    case Divisor1 => 7
  }

  /** `TimerDivisor::parse`: every 3-bit value is a divisor. */
  function ParseTimerDivisor(value: U8): (r: Option<TimerDivisor>)
    ensures r.Some? <==> value < 8
    ensures r.Some? ==> TimerDivisorCode(r.value) == value
  {
    match value
    case 0 => Some(Divisor2)
    case 1 => Some(Divisor4)
    case 2 => Some(Divisor8)
    case 3 => Some(Divisor16)
    case 4 => Some(Divisor32)
    case 5 => Some(Divisor64)
    case 6 => Some(Divisor128)
    case 7 => Some(Divisor1)
    case _ => None
  }

  /** Parsing the discriminant of a divisor gives that divisor back. */
  lemma ParseTimerDivisorCode(d: TimerDivisor)
    ensures ParseTimerDivisor(TimerDivisorCode(d)) == Some(d)
  {
  }

  datatype TimerMode = OneShot | Periodic | TscDeadline

  /** The discriminant of a timer mode, `mode as u32`. */
  function TimerModeCode(m: TimerMode): (c: nat)
    ensures c < 3
  {
    match m
    case OneShot => 0
    case Periodic => 1
    case TscDeadline => 2
  }

  /** `TimerMode::parse`: the value 3 is reserved, and so is everything above it. */
  function ParseTimerMode(value: Reg): (r: Option<TimerMode>)
    ensures r.Some? <==> value < 3
    ensures r.Some? ==> TimerModeCode(r.value) == value
  {
    match value
    case 0 => Some(OneShot)
    case 1 => Some(Periodic)
    case 2 => Some(TscDeadline)
    case _ => None
  }

  /** Parsing the discriminant of a timer mode gives that mode back. */
  lemma ParseTimerModeCode(m: TimerMode)
    ensures ParseTimerMode(TimerModeCode(m)) == Some(m)
  {
  }

  /** `DeliveryStatus`, whose discriminants are the bit values: idle is 0, send pending is 1. */
  datatype DeliveryStatus = Idle | SendPending

  // ---------------------------------------------------------------------
  // LVT entry fields: vector bits 0-7, delivery mode bits 8-10, delivery
  // status bit 12, input polarity bit 13, trigger mode bit 15, mask bit 16,
  // timer mode bits 17-18. A field of `n` bits from bit `first` is
  // `Field(e, 2^first, 2^n)`, which `Packed.GetBitsIsField` shows to be
  // what `get_bits` reads.
  // ---------------------------------------------------------------------

  /** `vector()`: bits 0-7, what `get_bits(0..8)` reads. */
  function Vector(e: Reg): (v: U8)
    ensures forall i: nat :: Bits.Bit(v, i) <==> i < 8 && Bits.Bit(e, i)
  {
    FieldBits(e, 0, 8);
    Arith.Pow2Values();
    Field(e, 1, 0x100)
  }

  /** `masked()`: bit 16, what `get_bit(16)` reads. */
  predicate Masked(e: Reg)
    ensures Masked(e) <==> Bits.Bit(e, 16)
  {
    GetBitIsField(e, 16, 32);
    Bits.GetBitIsBit(e, 16, 32);
    Arith.Pow2Values();
    Field(e, 0x1_0000, 2) == 1
  }

  /** The raw delivery-mode field, bits 8-10. */
  function DeliveryModeField(e: Reg): (f: U8)
    ensures f < 8
  {
    Field(e, 0x100, 8)
  }

  /** The raw timer-mode field, bits 17-18. */
  function TimerModeField(e: Reg): (f: nat)
    ensures f < 4
  {
    Field(e, 0x2_0000, 4)
  }

  /** `LvtEntry::disabled()`: only the mask bit is set. */
  function Disabled(): (e: Reg)
    ensures Masked(e) && SameOutside(e, 0, 0x1_0000, 2)
    ensures Vector(e) == 0 && DeliveryModeField(e) == 0 && TimerModeField(e) == 0
  {
    FieldOfParts(0x1_0000, 0, 1, 0, 0x1_0000, 2);
    FieldOfParts(0, 0, 0, 0, 0x1_0000, 2);
    FieldOfParts(0x1_0000, 0x100, 0, 0, 1, 0x100);
    FieldOfParts(0x1_0000, 0x20, 0, 0, 0x100, 8);
    FieldOfParts(0x1_0000, 0, 0, 0x1_0000, 0x2_0000, 4);
    0x1_0000
  }

  /**
   * `set_vector(v)`: the vector reads back, nothing outside bits 0-7
   * changes, and so the mask, delivery mode and timer mode keep their
   * values.
   */
  method SetVector(e: Reg, v: U8) returns (r: Reg)
    ensures Vector(r) == v
    ensures SameOutside(r, e, 1, 0x100)
    ensures Masked(r) == Masked(e) && DeliveryModeField(r) == DeliveryModeField(e)
    ensures TimerModeField(r) == TimerModeField(e) && DeliveryStatusOf(r) == DeliveryStatusOf(e)
  {
    SetFieldOnly(e, 1, 0x100, v);
    SetFieldBelow(e, 1, 0x100, v, 0x1_0000_0000);
    r := SetField(e, 1, 0x100, v);
    FieldAbove(r, e, 1, 0x100, 0x1_0000, 2);
    FieldAbove(r, e, 1, 0x100, 0x100, 8);
    FieldAbove(r, e, 1, 0x100, 0x2_0000, 4);
    FieldAbove(r, e, 1, 0x100, 0x1000, 2);
  }

  /**
   * `set_masked(b)`: the mask reads back, no other bit changes, and so the
   * vector, delivery mode and timer mode keep their values.
   */
  method SetMasked(e: Reg, masked: bool) returns (r: Reg)
    ensures Masked(r) == masked
    ensures SameOutside(r, e, 0x1_0000, 2)
    ensures Vector(r) == Vector(e) && DeliveryModeField(r) == DeliveryModeField(e)
    ensures TimerModeField(r) == TimerModeField(e) && DeliveryStatusOf(r) == DeliveryStatusOf(e)
  {
    var b := if masked then 1 else 0;
    SetFieldOnly(e, 0x1_0000, 2, b);
    SetFieldBelow(e, 0x1_0000, 2, b, 0x1_0000_0000);
    r := SetField(e, 0x1_0000, 2, b);
    FieldBelow(r, e, 0x1_0000, 2, 1, 0x100);
    FieldBelow(r, e, 0x1_0000, 2, 0x100, 8);
    FieldAbove(r, e, 0x1_0000, 2, 0x2_0000, 4);
    FieldBelow(r, e, 0x1_0000, 2, 0x1000, 2);
  }

  /** `delivery_status()` as written: a set bit 12 reads as `Idle`. */
  function DeliveryStatusAsWritten(e: Reg): (s: DeliveryStatus)
    ensures s == Idle <==> Bits.Bit(e, 12)
  {
    GetBitIsField(e, 12, 32);
    Bits.GetBitIsBit(e, 12, 32);
    Arith.Pow2Values();
    if Field(e, 0x1000, 2) == 1 then Idle else SendPending
  }

  /** The delivery status as the register defines it: bit 12 is 1 while a send is pending. */
  function DeliveryStatusOf(e: Reg): (s: DeliveryStatus)
    ensures s == SendPending <==> Bits.Bit(e, 12)
  {
    GetBitIsField(e, 12, 32);
    Bits.GetBitIsBit(e, 12, 32);
    Arith.Pow2Values();
    if Field(e, 0x1000, 2) == 1 then SendPending else Idle
  }

  /**
   * The getter as written reports the opposite of bit 12 for every entry,
   * so an entry fresh from `disabled()`, idle by the register's definition,
   * reads as send pending.
   */
  lemma DeliveryStatusInverted(e: Reg)
    ensures DeliveryStatusAsWritten(e) == SendPending <==> Field(e, 0x1000, 2) == 0
    ensures DeliveryStatusAsWritten(e) != DeliveryStatusOf(e)
    ensures DeliveryStatusOf(Disabled()) == Idle && DeliveryStatusAsWritten(Disabled()) == SendPending
  {
    FieldOfParts(Disabled(), 8, 0, 0, 0x1000, 2);
  }

  /** `delivery_mode()`: the `unwrap` panics on a reserved value. */
  function DeliveryModeOf(e: Reg): (r: Outcome<DeliveryMode>)
    ensures r.Panic? <==> DeliveryModeField(e) == 3 || DeliveryModeField(e) == 6
    ensures r.Done? ==> DeliveryModeCode(r.value) == DeliveryModeField(e)
  {
    match ParseDeliveryMode(DeliveryModeField(e))
    case Some(m) => Done(m)
    case None => Panic
  }

  /**
   * `set_delivery_mode(m)`: the mode reads back, nothing outside bits 8-10
   * changes, and so the vector, mask and timer mode keep their values.
   */
  method SetDeliveryMode(e: Reg, m: DeliveryMode) returns (r: Reg)
    ensures DeliveryModeOf(r) == Done(m)
    ensures SameOutside(r, e, 0x100, 8)
    ensures Vector(r) == Vector(e) && Masked(r) == Masked(e) && TimerModeField(r) == TimerModeField(e)
    ensures DeliveryStatusOf(r) == DeliveryStatusOf(e)
  {
    SetFieldOnly(e, 0x100, 8, DeliveryModeCode(m));
    SetFieldBelow(e, 0x100, 8, DeliveryModeCode(m), 0x1_0000_0000);
    ParseDeliveryModeCode(m);
    r := SetField(e, 0x100, 8, DeliveryModeCode(m));
    FieldBelow(r, e, 0x100, 8, 1, 0x100);
    FieldAbove(r, e, 0x100, 8, 0x1_0000, 2);
    FieldAbove(r, e, 0x100, 8, 0x2_0000, 4);
    FieldAbove(r, e, 0x100, 8, 0x1000, 2);
  }

  /** `LvtLintEntry::input_polarity()`: bit 13 set means active low. */
  function InputPolarity(e: Reg): (p: Polarity)
    ensures p == LowActive <==> Bits.Bit(e, 13)
  {
    GetBitIsField(e, 13, 32);
    Bits.GetBitIsBit(e, 13, 32);
    assert Arith.Pow2(13) == 0x2000;
    if Field(e, 0x2000, 2) == 1 then LowActive else HighActive
  }

  /** `set_input_polarity(p)`: the polarity reads back and no other bit changes. */
  method SetInputPolarity(e: Reg, p: Polarity) returns (r: Reg)
    ensures InputPolarity(r) == p
    ensures SameOutside(r, e, 0x2000, 2)
  {
    var b := if p == LowActive then 1 else 0;
    SetFieldOnly(e, 0x2000, 2, b);
    SetFieldBelow(e, 0x2000, 2, b, 0x1_0000_0000);
    r := SetField(e, 0x2000, 2, b);
  }

  /** `LvtLintEntry::trigger_mode()`: bit 15 set means level triggered. */
  function TriggerModeOf(e: Reg): (m: TriggerMode)
    ensures m == LevelTriggered <==> Bits.Bit(e, 15)
  {
    GetBitIsField(e, 15, 32);
    Bits.GetBitIsBit(e, 15, 32);
    assert Arith.Pow2(15) == 0x8000;
    if Field(e, 0x8000, 2) == 1 then LevelTriggered else EdgeTriggered
  }

  /** `set_trigger_mode(m)`: the mode reads back and no other bit changes. */
  method SetTriggerMode(e: Reg, m: TriggerMode) returns (r: Reg)
    ensures TriggerModeOf(r) == m
    ensures SameOutside(r, e, 0x8000, 2)
  {
    var b := if m == LevelTriggered then 1 else 0;
    SetFieldOnly(e, 0x8000, 2, b);
    SetFieldBelow(e, 0x8000, 2, b, 0x1_0000_0000);
    r := SetField(e, 0x8000, 2, b);
  }

  /** `LvtTimerEntry::timer_mode()`: the `unwrap` panics on the reserved value 3. */
  function TimerModeOf(e: Reg): (r: Outcome<TimerMode>)
    ensures r.Panic? <==> TimerModeField(e) == 3
    ensures r.Done? ==> TimerModeCode(r.value) == TimerModeField(e)
  {
    match ParseTimerMode(TimerModeField(e))
    case Some(m) => Done(m)
    case None => Panic
  }

  /**
   * `set_timer_mode(m)`: the mode reads back, nothing outside bits 17-18
   * changes, and so the vector, delivery mode and mask keep their values.
   */
  method SetTimerMode(e: Reg, m: TimerMode) returns (r: Reg)
    ensures TimerModeOf(r) == Done(m)
    ensures SameOutside(r, e, 0x2_0000, 4)
    ensures Vector(r) == Vector(e) && DeliveryModeField(r) == DeliveryModeField(e) && Masked(r) == Masked(e)
    ensures DeliveryStatusOf(r) == DeliveryStatusOf(e)
  {
    SetFieldOnly(e, 0x2_0000, 4, TimerModeCode(m));
    SetFieldBelow(e, 0x2_0000, 4, TimerModeCode(m), 0x1_0000_0000);
    ParseTimerModeCode(m);
    r := SetField(e, 0x2_0000, 4, TimerModeCode(m));
    FieldBelow(r, e, 0x2_0000, 4, 1, 0x100);
    FieldBelow(r, e, 0x2_0000, 4, 0x100, 8);
    FieldBelow(r, e, 0x2_0000, 4, 0x1_0000, 2);
    FieldBelow(r, e, 0x2_0000, 4, 0x1000, 2);
  }

  /**
   * The shared body of `one_shot` and `periodic`: `disabled()` with vector
   * `v`, timer mode `m` and the mask cleared, which leaves exactly the
   * vector and the mode's discriminant at bit 17.
   */
  method TimerEntry(v: U8, m: TimerMode) returns (e: Reg)
    ensures e == v + TimerModeCode(m) * 0x2_0000
    ensures Vector(e) == v && TimerModeOf(e) == Done(m) && !Masked(e)
  {
    var code := TimerModeCode(m);
    var e1 := SetVector(Disabled(), v);
    SetFromParts(e1, Disabled(), 0x100, 0, 0, 1, 0x100, v);
    var e2 := SetTimerMode(e1, m);
    SetFromParts(e2, e1, 0, 0, e1, 0x2_0000, 4, code);
    e := SetMasked(e2, false);
    SetFromParts(e, e2, code, 1, v, 0x1_0000, 2, 0);
    FieldOfParts(e, code * 0x200, v, 0, 1, 0x100);
    FieldOfParts(e, 0, code, v, 0x2_0000, 4);
    FieldOfParts(e, code, 0, v, 0x1_0000, 2);
    ParseTimerModeCode(m);
  }

  /**
   * `LvtTimerEntry::one_shot(v)`: unmasked, one-shot, vector `v`. Every
   * other bit is clear, so the entry's value is the vector itself.
   */
  method OneShotTimer(v: U8) returns (e: Reg)
    ensures Vector(e) == v && TimerModeOf(e) == Done(OneShot) && !Masked(e)
    ensures e == v
  {
    e := TimerEntry(v, OneShot);
  }

  /**
   * `LvtTimerEntry::periodic(v)`: unmasked, periodic, vector `v`. Every
   * other bit except bit 17 is clear, so the entry's value is the vector
   * plus 2^17.
   */
  method PeriodicTimer(v: U8) returns (e: Reg)
    ensures Vector(e) == v && TimerModeOf(e) == Done(Periodic) && !Masked(e)
    ensures e == v + 0x2_0000
  {
    e := TimerEntry(v, Periodic);
  }

  /** The unit-test vector: `periodic(33)` is `0b010_0000_0000_0010_0001`. */
  method PeriodicExample() returns (e: Reg)
    ensures e == 0x2_0021
  {
    e := PeriodicTimer(33);
  }

  // ---------------------------------------------------------------------
  // The divide configuration register (section 10.5.4 of the manual):
  // the divide value occupies bits 0, 1 and 3
  // ---------------------------------------------------------------------

  /**
   * The register update of `set_timer_divisor`: bit 2 of the discriminant
   * goes to bit 3 and bits 0-1 stay where they are; bit 2 of the register
   * and everything from bit 4 up keep their values, and decoding the
   * result gives the divisor back.
   */
  method EncodeDivisor(config: Reg, d: TimerDivisor) returns (r: Reg)
    ensures Field(r, 1, 4) == TimerDivisorCode(d) % 4
    ensures Field(r, 8, 2) == TimerDivisorCode(d) / 4
    ensures Field(r, 4, 2) == Field(config, 4, 2) && r / 0x10 == config / 0x10
    ensures DecodeDivisor(r) == d
  {
    var code := TimerDivisorCode(d);
    SetFieldBelow(config, 8, 2, code / 4, 0x1_0000_0000);
    var withHigh := SetField(config, 8, 2, code / 4);
    SetFieldBelow(withHigh, 1, 4, code % 4, 0x1_0000_0000);
    r := SetField(withHigh, 1, 4, code % 4);
    EncodeDivisorFields(config, code, withHigh, r);
    TimerDivisorCodeInjective(DecodeDivisor(r), d);
  }

  lemma EncodeDivisorFields(config: nat, code: nat, withHigh: nat, r: nat)
    requires code < 8
    requires withHigh == SetField(config, 8, 2, code / 4)
    requires r == SetField(withHigh, 1, 4, code % 4)
    ensures Field(r, 1, 4) == code % 4 && Field(r, 8, 2) == code / 4
    ensures Field(r, 4, 2) == Field(config, 4, 2) && r / 0x10 == config / 0x10
  {
    SetFieldOnly(config, 8, 2, code / 4);
    SetFieldOnly(withHigh, 1, 4, code % 4);
    FieldAbove(r, withHigh, 1, 4, 8, 2);
    FieldAbove(r, withHigh, 1, 4, 4, 2);
    FieldBelow(withHigh, config, 8, 2, 4, 2);
    DivDiv(r, 4, 4);
    DivDiv(withHigh, 4, 4);
  }

  /**
   * The decoding of `timer_divisor`: bits 0-1 and bit 3 form a 3-bit value,
   * which always parses, so the `unwrap` never panics.
   */
  function DecodeDivisor(config: Reg): (d: TimerDivisor)
    ensures TimerDivisorCode(d) == Field(config, 1, 4) + 4 * Field(config, 8, 2)
  {
    ParseTimerDivisor(Field(config, 1, 4) + 4 * Field(config, 8, 2)).value
  }

  /** Two divisors with the same discriminant are the same divisor. */
  lemma TimerDivisorCodeInjective(a: TimerDivisor, b: TimerDivisor)
    requires TimerDivisorCode(a) == TimerDivisorCode(b)
    ensures a == b
  {
    ParseTimerDivisorCode(a);
    ParseTimerDivisorCode(b);
  }

  /** Two configurations decode alike exactly when they agree on bits 0-1 and on bit 3. */
  lemma DecodeReadsDivisorBits(a: Reg, b: Reg)
    ensures DecodeDivisor(a) == DecodeDivisor(b) <==>
      Field(a, 1, 4) == Field(b, 1, 4) && Field(a, 8, 2) == Field(b, 8, 2)
  {
    if Field(a, 1, 4) == Field(b, 1, 4) && Field(a, 8, 2) == Field(b, 8, 2) {
      TimerDivisorCodeInjective(DecodeDivisor(a), DecodeDivisor(b));
    }
  }

  // ---------------------------------------------------------------------
  // The memory-mapped register file
  // ---------------------------------------------------------------------

  const SPURIOUS_INTERRUPT_VECTOR_REG: nat := 0xF0
  const EOI_REG: nat := 0xB0
  const LVT_TIMER_REG: nat := 0x320
  const LVT_CMCI_REG: nat := 0x2F0
  const LVT_LINT0_REG: nat := 0x350
  const LVT_LINT1_REG: nat := 0x360
  const LVT_ERROR_REG: nat := 0x370
  const LVT_PERF_REG: nat := 0x340
  const LVT_THERMAL_REG: nat := 0x330
  const DIVISOR_CONFIG_REG: nat := 0x3E0
  const INITIAL_COUNT_REG: nat := 0x380
  const CURRENT_COUNT_REG: nat := 0x390
  const ERROR_STATUS_REG: nat := 0x280
  const TASK_PRIORITY_REG: nat := 0x80

  /**
   * The register file, by byte offset from the base address. The model has
   * no device behind it: a register holds what was last written to it, and
   * one never written reads as zero.
   */
  type Registers = map<nat, Reg>

  function Stored(regs: Registers, index: nat): Reg
  {
    if index in regs then regs[index] else 0
  }

  /** `read_reg(index)`: asserts that the index is 16-aligned. */
  function ReadReg(regs: Registers, index: Word): (r: Outcome<Reg>)
    ensures r.Done? <==> index % 16 == 0
  {
    if index % 16 == 0 then Done(Stored(regs, index)) else Panic
  }

  /** `write_reg(index, value)`: asserts that the index is 16-aligned. */
  function WriteReg(regs: Registers, index: Word, value: Reg): (r: Outcome<Registers>)
    ensures r.Done? <==> index % 16 == 0
  {
    if index % 16 == 0 then Done(regs[index := value]) else Panic
  }

  /** A write is read back from its register and from no other. */
  lemma WriteThenRead(regs: Registers, index: Word, value: Reg, other: Word)
    requires index % 16 == 0
    ensures ReadReg(WriteReg(regs, index, value).value, other)
      == if other == index then Done(value) else ReadReg(regs, other)
  {
  }

  /** The LVT registers `lvt_accessor!` generates a getter and setter for. */
  datatype Lvt = Lint0 | Lint1 | Timer | Perf | Error | Thermal | Cmci

  function LvtRegister(l: Lvt): (index: nat)
    ensures index % 16 == 0
  {
    match l
    case Lint0 => LVT_LINT0_REG
    case Lint1 => LVT_LINT1_REG
    case Timer => LVT_TIMER_REG
    case Perf => LVT_PERF_REG
    case Error => LVT_ERROR_REG
    case Thermal => LVT_THERMAL_REG
    case Cmci => LVT_CMCI_REG
  }

  /** The seven LVT registers are distinct, so setting one leaves the others. */
  lemma LvtRegistersDistinct(a: Lvt, b: Lvt)
    ensures LvtRegister(a) == LvtRegister(b) <==> a == b
  {
  }

  /** The getter of `lvt_accessor!`: the raw register as an entry. */
  function LvtEntry(regs: Registers, l: Lvt): (e: Reg)
    ensures ReadReg(regs, LvtRegister(l)) == Done(e)
  {
    ReadReg(regs, LvtRegister(l)).value
  }

  /** The setter of `lvt_accessor!`: writes the entry to its register. */
  function SetLvtEntry(regs: Registers, l: Lvt, e: Reg): (r: Registers)
    ensures WriteReg(regs, LvtRegister(l), e) == Done(r)
  {
    WriteReg(regs, LvtRegister(l), e).value
  }

  /** Setting one LVT entry reads back in that entry and leaves every other register. */
  lemma SetLvtThenRead(regs: Registers, l: Lvt, e: Reg, other: nat)
    ensures LvtEntry(SetLvtEntry(regs, l, e), l) == e
    ensures other != LvtRegister(l) ==> Stored(SetLvtEntry(regs, l, e), other) == Stored(regs, other)
  {
  }

  /**
   * A read-modify-write of one register: `update` replaces the register's
   * value. Every register the kernel updates this way is 16-aligned, so
   * neither access panics.
   */
  function Modify(regs: Registers, index: nat, value: Reg): (r: Registers)
    requires index % 16 == 0 && index < WORD_LIMIT
    ensures Stored(r, index) == value
    ensures forall i :: i != index ==> Stored(r, i) == Stored(regs, i)
  {
    WriteReg(regs, index, value).value
  }

  /** `software_enabled()`: bit 8 of the spurious-interrupt vector register. */
  predicate SoftwareEnabled(regs: Registers)
    ensures SoftwareEnabled(regs) <==> Bits.Bit(Stored(regs, SPURIOUS_INTERRUPT_VECTOR_REG), 8)
  {
    GetBitIsField(Stored(regs, SPURIOUS_INTERRUPT_VECTOR_REG), 8, 32);
    Bits.GetBitIsBit(Stored(regs, SPURIOUS_INTERRUPT_VECTOR_REG), 8, 32);
    Arith.Pow2Values();
    Field(ReadReg(regs, SPURIOUS_INTERRUPT_VECTOR_REG).value, 0x100, 2) == 1
  }

  /**
   * `set_software_enable(b)`: the flag reads back; no other bit of its
   * register and no other register changes.
   */
  method SetSoftwareEnable(regs: Registers, enabled: bool) returns (r: Registers)
    ensures SoftwareEnabled(r) == enabled
    ensures SameOutside(Stored(r, SPURIOUS_INTERRUPT_VECTOR_REG), Stored(regs, SPURIOUS_INTERRUPT_VECTOR_REG), 0x100, 2)
    ensures forall i :: i != SPURIOUS_INTERRUPT_VECTOR_REG ==> Stored(r, i) == Stored(regs, i)
  {
    var value := ReadReg(regs, SPURIOUS_INTERRUPT_VECTOR_REG).value;
    var updated := SetEnableFlag(value, enabled);
    r := Modify(regs, SPURIOUS_INTERRUPT_VECTOR_REG, updated);
  }

  /** Bit 8 of a spurious-interrupt vector register value set to `enabled`, the rest kept. */
  method SetEnableFlag(value: Reg, enabled: bool) returns (r: Reg)
    ensures Field(r, 0x100, 2) == 1 <==> enabled
    ensures SameOutside(r, value, 0x100, 2)
  {
    var b := if enabled then 1 else 0;
    SetFieldOnly(value, 0x100, 2, b);
    SetFieldBelow(value, 0x100, 2, b, 0x1_0000_0000);
    r := SetField(value, 0x100, 2, b);
  }

  /** `spurious_interrupt_vector()`: bits 0-7 of the spurious-interrupt vector register. */
  function SpuriousInterruptVector(regs: Registers): (v: U8)
    ensures forall i: nat :: Bits.Bit(v, i) <==> i < 8 && Bits.Bit(Stored(regs, SPURIOUS_INTERRUPT_VECTOR_REG), i)
  {
    Vector(ReadReg(regs, SPURIOUS_INTERRUPT_VECTOR_REG).value)
  }

  /**
   * `set_spurious_interrupt_vector(v)`: the vector reads back, the enable
   * flag keeps its value, and nothing outside bits 0-7 and no other
   * register changes.
   */
  method SetSpuriousInterruptVector(regs: Registers, v: U8) returns (r: Registers)
    ensures SpuriousInterruptVector(r) == v
    ensures SoftwareEnabled(r) == SoftwareEnabled(regs)
    ensures SameOutside(Stored(r, SPURIOUS_INTERRUPT_VECTOR_REG), Stored(regs, SPURIOUS_INTERRUPT_VECTOR_REG), 1, 0x100)
    ensures forall i :: i != SPURIOUS_INTERRUPT_VECTOR_REG ==> Stored(r, i) == Stored(regs, i)
  {
    var value := ReadReg(regs, SPURIOUS_INTERRUPT_VECTOR_REG).value;
    var updated := SetVector(value, v);
    FieldAbove(updated, value, 1, 0x100, 0x100, 2);
    r := Modify(regs, SPURIOUS_INTERRUPT_VECTOR_REG, updated);
  }

  /** `signal_eoi()`: writes zero to the end-of-interrupt register and touches nothing else. */
  function SignalEoi(regs: Registers): (r: Registers)
    ensures Stored(r, EOI_REG) == 0
    ensures forall i :: i != EOI_REG ==> Stored(r, i) == Stored(regs, i)
  {
    Modify(regs, EOI_REG, 0)
  }

  /** `timer_divisor()` */
  function TimerDivisorOf(regs: Registers): TimerDivisor
  {
    DecodeDivisor(ReadReg(regs, DIVISOR_CONFIG_REG).value)
  }

  /**
   * `set_timer_divisor(d)`: the divisor reads back; bits 0, 1 and 3 of its
   * register are the only ones that change, and no other register does.
   */
  method SetTimerDivisor(regs: Registers, d: TimerDivisor) returns (r: Registers)
    ensures TimerDivisorOf(r) == d
    ensures var (after, before) := (Stored(r, DIVISOR_CONFIG_REG), Stored(regs, DIVISOR_CONFIG_REG));
      Field(after, 4, 2) == Field(before, 4, 2) && after / 0x10 == before / 0x10
    ensures forall i :: i != DIVISOR_CONFIG_REG ==> Stored(r, i) == Stored(regs, i)
  {
    var value := ReadReg(regs, DIVISOR_CONFIG_REG).value;
    var encoded := EncodeDivisor(value, d);
    r := Modify(regs, DIVISOR_CONFIG_REG, encoded);
  }

  /** `timer_initial_count()` */
  function TimerInitialCount(regs: Registers): Reg
  {
    ReadReg(regs, INITIAL_COUNT_REG).value
  }

  /** `set_timer_initial_count(c)`: the count reads back and nothing else changes. */
  function SetTimerInitialCount(regs: Registers, count: Reg): (r: Registers)
    ensures TimerInitialCount(r) == count
    ensures forall i :: i != INITIAL_COUNT_REG ==> Stored(r, i) == Stored(regs, i)
  {
    Modify(regs, INITIAL_COUNT_REG, count)
  }

  /** `set_task_priority(p)`: bits 0-7 of the TPR (task-priority register) become `p`; nothing else changes. */
  method SetTaskPriority(regs: Registers, priority: U8) returns (r: Registers)
    ensures Field(Stored(r, TASK_PRIORITY_REG), 1, 0x100) == priority
    ensures SameOutside(Stored(r, TASK_PRIORITY_REG), Stored(regs, TASK_PRIORITY_REG), 1, 0x100)
    ensures forall i :: i != TASK_PRIORITY_REG ==> Stored(r, i) == Stored(regs, i)
  {
    var value := ReadReg(regs, TASK_PRIORITY_REG).value;
    var updated := SetVector(value, priority);
    r := Modify(regs, TASK_PRIORITY_REG, updated);
  }

  /** Every register the kernel names is 16-aligned, so none of its accesses panics. */
  lemma NamedRegistersAligned(index: Word)
    requires index in {SPURIOUS_INTERRUPT_VECTOR_REG, EOI_REG, LVT_TIMER_REG, LVT_CMCI_REG,
      LVT_LINT0_REG, LVT_LINT1_REG, LVT_ERROR_REG, LVT_PERF_REG, LVT_THERMAL_REG,
      DIVISOR_CONFIG_REG, INITIAL_COUNT_REG, CURRENT_COUNT_REG, ERROR_STATUS_REG, TASK_PRIORITY_REG}
    ensures ReadReg(map[], index).Done?
    ensures forall regs, v :: WriteReg(regs, index, v).Done?
  {
  }
}

=== FILE: arith.dfy ===
/**
 * Integer facts the bit and alignment arithmetic relies on: powers of two
 * and Euclidean division by a positive divisor.
 */
module Arith {

  /** 2 to the power `n`; `1 << n` for `n` below the width. */
  function Pow2(n: nat): (r: nat)
    ensures r >= 1
  {
    if n == 0 then 1 else 2 * Pow2(n - 1)
  }

  lemma {:induction false} Pow2Add(a: nat, b: nat)
    ensures Pow2(a + b) == Pow2(a) * Pow2(b)
  {
    if a > 0 {
      Pow2Add(a - 1, b);
    }
  }

  lemma {:induction false} Pow2Monotone(a: nat, b: nat)
    requires a <= b
    ensures Pow2(a) <= Pow2(b)
  {
    if a < b {
      Pow2Monotone(a, b - 1);
    }
  }

  /** The concrete powers of two the model uses. */
  lemma Pow2Values()
    ensures Pow2(8) == 0x100 && Pow2(9) == 0x200 && Pow2(12) == 0x1000
    ensures Pow2(16) == 0x1_0000 && Pow2(32) == 0x1_0000_0000
    ensures Pow2(64) == 0x1_0000_0000_0000_0000
  {
    assert Pow2(8) == 0x100;
    assert Pow2(12) == 0x1000;
    Pow2Add(8, 8);
    Pow2Add(16, 16);
    Pow2Add(32, 32);
  }

  lemma MulAtLeast(t: int, d: int)
    requires t >= 1 && d > 0
    ensures t * d >= d
  {
    assert t * d == (t - 1) * d + d;
  }

  lemma ZeroFactor(t: int, d: int)
    requires d > 0
    ensures -d < t * d < d ==> t == 0
  {
    if t >= 1 {
      MulAtLeast(t, d);
    } else if t <= -1 {
      MulAtLeast(-t, d);
    }
  }

  lemma PositiveFactor(t: int, d: int)
    requires d > 0
    ensures t * d > 0 ==> t >= 1
  {
    if t <= -1 {
      MulAtLeast(-t, d);
    }
  }

  /** Euclidean division has one quotient and one remainder. */
  lemma DivModUnique(x: int, d: int, q: int, r: int)
    requires d > 0 && 0 <= r < d && x == q * d + r
    ensures x / d == q && x % d == r
  {
    var q' := x / d;
    var r' := x % d;
    assert (q' - q) * d == r - r';
    ZeroFactor(q' - q, d);
  }

  /** Adding `n` multiples of `a` adds `n` to the quotient and leaves the remainder. */
  lemma AddMultiple(a: nat, n: nat, y: nat)
    requires a > 0
    ensures (n * a + y) / a == n + y / a && (n * a + y) % a == y % a
  {
    assert n * a + y == (n + y / a) * a + y % a by {
      assert (n + y / a) * a == n * a + (y / a) * a;
    }
    DivModUnique(n * a + y, a, n + y / a, y % a);
  }

  lemma MultipleMod(a: nat, k: int)
    requires a > 0
    ensures (a * k) % a == 0 && (a * k) / a == k
  {
    DivModUnique(a * k, a, k, 0);
  }

  /** Two distinct multiples of `a` are at least `a` apart. */
  lemma MultiplesApart(a: nat, x: int, y: int)
    requires a > 0 && x % a == 0 && y % a == 0 && x < y
    ensures x + a <= y
  {
    var p := x / a;
    var q := y / a;
    assert x == p * a;
    assert y == q * a;
    assert (q - p) * a == y - x;
    PositiveFactor(q - p, a);
    MulAtLeast(q - p, a);
  }

  lemma ModOfDouble(x: nat, m: nat)
    requires m > 0
    ensures x % (2 * m) == 2 * ((x / 2) % m) + x % 2
  {
    var q := (x / 2) / m;
    var r := (x / 2) % m;
    assert x / 2 == q * m + r;
    assert x == q * (2 * m) + (2 * r + x % 2);
    DivModUnique(x, 2 * m, q, 2 * r + x % 2);
  }

  /** Halving and then dividing by `m` is dividing by `2 * m`. */
  lemma DivOfHalf(x: nat, m: nat)
    requires m > 0
    ensures (x / 2) / m == x / (2 * m)
  {
    var q := (x / 2) / m;
    var r := (x / 2) % m;
    assert x / 2 == q * m + r;
    assert x == q * (2 * m) + (2 * r + x % 2);
    DivModUnique(x, 2 * m, q, 2 * r + x % 2);
  }
}

=== FILE: bits.dfy ===
/**
 * Bit-field access on unsigned integers (amd64/src/util.rs).
 *
 * A `w`-bit unsigned value is a `nat` below `Pow2(w)`. The bitwise
 * operators are defined one bit at a time, so that every fact about them
 * is a fact about `Bit(x, i)`, and `BitsEqual` turns per-bit facts back into
 * equalities. Ranges `first..=last` are given by their two end bits; the
 * conversion from Rust's range bounds is `FirstBit`/`LastBit`.
 */
module Bits {
  import opened Arith

  /** Bit `i` of `x` is set. */
  predicate Bit(x: nat, i: nat)
  {
    if i == 0 then x % 2 == 1 else Bit(x / 2, i - 1)
  }

  /** `a & b` */
  function And(a: nat, b: nat): nat
  {
    if a == 0 || b == 0 then 0
    else 2 * And(a / 2, b / 2) + (if a % 2 == 1 && b % 2 == 1 then 1 else 0)
  }

  /** `a | b` */
  function Or(a: nat, b: nat): nat
  {
    if a == 0 then b
    else if b == 0 then a
    else 2 * Or(a / 2, b / 2) + (if a % 2 == 1 || b % 2 == 1 then 1 else 0)
  }

  /** `!a` on a `w`-bit type: the low `w` bits of `a` inverted. */
  function Not(a: nat, w: nat): nat
  {
    if w == 0 then 0 else 2 * Not(a / 2, w - 1) + (1 - a % 2)
  }

  /** The low `w` bits of `x`: what is left of a value in a `w`-bit type. */
  function Trunc(x: nat, w: nat): nat
  {
    if w == 0 then 0 else 2 * Trunc(x / 2, w - 1) + x % 2
  }

  /** `x >> n` */
  function Shr(x: nat, n: nat): nat
  {
    if n == 0 then x else Shr(x / 2, n - 1)
  }

  /** `x << n` before truncation to the type's width. */
  function ShlWide(x: nat, n: nat): nat
    decreases n
  {
    if n == 0 then x else ShlWide(2 * x, n - 1)
  }

  /** `x << n` on a `w`-bit type. */
  function Shl(x: nat, n: nat, w: nat): nat
  {
    Trunc(ShlWide(x, n), w)
  }

  // ---------------------------------------------------------------------
  // Per-bit characterisation of the operators
  // ---------------------------------------------------------------------

  lemma {:induction false} BitOfZero(i: nat)
    ensures !Bit(0, i)
  {
    if i > 0 {
      BitOfZero(i - 1);
    }
  }

  lemma {:induction false} BitOfDouble(x: nat, i: nat)
    ensures Bit(2 * x, i) <==> i > 0 && Bit(x, i - 1)
  {
  }

  lemma {:induction false} BitAnd(a: nat, b: nat, i: nat)
    ensures Bit(And(a, b), i) <==> Bit(a, i) && Bit(b, i)
  {
    if a == 0 {
      BitOfZero(i);
    } else if b == 0 {
      BitOfZero(i);
    } else if i > 0 {
      BitAnd(a / 2, b / 2, i - 1);
    }
  }

  lemma {:induction false} BitOr(a: nat, b: nat, i: nat)
    ensures Bit(Or(a, b), i) <==> Bit(a, i) || Bit(b, i)
  {
    if a == 0 {
      BitOfZero(i);
    } else if b == 0 {
      BitOfZero(i);
    } else if i > 0 {
      BitOr(a / 2, b / 2, i - 1);
    }
  }

  /** The last binary digit and the rest of `2 * n + b`. */
  lemma LastDigit(n: nat, b: nat)
    requires b < 2
    ensures (2 * n + b) % 2 == b && (2 * n + b) / 2 == n
  {
  }

  lemma {:induction false} BitNot(a: nat, w: nat, i: nat)
    ensures Bit(Not(a, w), i) <==> i < w && !Bit(a, i)
  {
    if w == 0 {
      BitOfZero(i);
    } else {
      LastDigit(Not(a / 2, w - 1), 1 - a % 2);
      if i > 0 {
        BitNot(a / 2, w - 1, i - 1);
      }
    }
  }

  lemma {:induction false} BitTrunc(x: nat, w: nat, i: nat)
    ensures Bit(Trunc(x, w), i) <==> i < w && Bit(x, i)
  {
    if w == 0 {
      BitOfZero(i);
    } else if i > 0 {
      BitTrunc(x / 2, w - 1, i - 1);
    }
  }

  lemma {:induction false} BitShr(x: nat, n: nat, i: nat)
    ensures Bit(Shr(x, n), i) <==> Bit(x, i + n)
  {
    if n > 0 {
      BitShr(x / 2, n - 1, i);
    }
  }

  lemma {:induction false} BitShlWide(x: nat, n: nat, i: nat)
    ensures Bit(ShlWide(x, n), i) <==> i >= n && Bit(x, i - n)
    decreases n
  {
    if n > 0 {
      BitShlWide(2 * x, n - 1, i);
      if i >= n - 1 {
        BitOfDouble(x, i - n + 1);
      }
    }
  }

  lemma BitShl(x: nat, n: nat, w: nat, i: nat)
    ensures Bit(Shl(x, n, w), i) <==> i < w && i >= n && Bit(x, i - n)
  {
    BitTrunc(ShlWide(x, n), w, i);
    BitShlWide(x, n, i);
  }

  lemma {:induction false} BitPow2(n: nat, i: nat)
    ensures Bit(Pow2(n), i) <==> i == n
  {
    if n == 0 {
      if i > 0 {
        BitOfZero(i - 1);
      }
    } else {
      BitOfDouble(Pow2(n - 1), i);
      if i > 0 {
        BitPow2(n - 1, i - 1);
      }
    }
  }

  /** `Pow2(n) - 1` has exactly the bits below `n` set. */
  lemma {:induction false} BitLowOnes(n: nat, i: nat)
    ensures Bit(Pow2(n) - 1, i) <==> i < n
  {
    if n == 0 {
      BitOfZero(i);
    } else if i > 0 {
      BitLowOnes(n - 1, i - 1);
    }
  }

  // ---------------------------------------------------------------------
  // From bits back to numbers
  // ---------------------------------------------------------------------

  /** Two numbers with the same bits are equal. */
  lemma {:induction false} BitsEqual(a: nat, b: nat)
    requires forall i: nat :: Bit(a, i) == Bit(b, i)
    ensures a == b
    decreases a + b
  {
    assert Bit(a, 0) == Bit(b, 0);
    if a / 2 != b / 2 {
      forall i: nat
        ensures Bit(a / 2, i) == Bit(b / 2, i)
      {
        assert Bit(a, i + 1) == Bit(b, i + 1);
      }
      BitsEqual(a / 2, b / 2);
    }
  }

  /** A number below `Pow2(w)` has no bit at or above `w`. */
  lemma {:induction false} BitAboveWidth(x: nat, w: nat, i: nat)
    requires x < Pow2(w) && i >= w
    ensures !Bit(x, i)
  {
    if w == 0 {
      BitOfZero(i);
    } else {
      BitAboveWidth(x / 2, w - 1, i - 1);
    }
  }

  /** A number with no bit at or above `w` is below `Pow2(w)`. */
  lemma {:induction false} BelowWidth(x: nat, w: nat)
    requires forall i: nat :: i >= w ==> !Bit(x, i)
    ensures x < Pow2(w)
  {
    if w == 0 {
      if x != 0 {
        BitsEqual(x, 0) by {
          forall i: nat
            ensures Bit(x, i) == Bit(0, i)
          {
            BitOfZero(i);
          }
        }
      }
    } else {
      forall i: nat | i >= w - 1
        ensures !Bit(x / 2, i)
      {
        assert !Bit(x, i + 1);
      }
      BelowWidth(x / 2, w - 1);
    }
  }

  // ---------------------------------------------------------------------
  // mask!, BitRange and the Bits trait
  // ---------------------------------------------------------------------

  /** The value of `mask!(T, from, to)` for a `w`-bit type `T`. */
  function Mask(from: nat, to: nat, w: nat): nat
  {
    And(Not(Pow2(from) - 1, w), Pow2(to) - 1 + Pow2(to))
  }

  /** `mask!(T, from, to)` has exactly the bits `from..=to` set. */
  lemma MaskBits(from: nat, to: nat, w: nat, i: nat)
    requires to < w
    ensures Bit(Mask(from, to, w), i) <==> from <= i <= to
  {
    BitAnd(Not(Pow2(from) - 1, w), Pow2(to) - 1 + Pow2(to), i);
    BitNot(Pow2(from) - 1, w, i);
    BitLowOnes(from, i);
    BitLowOnes(to + 1, i);
  }

  /** A bound of a Rust range over bit indices. */
  datatype Bound = Included(n: nat) | Excluded(n: nat) | Unbounded

  /** `BitRange::first_bit`: the lowest bit index of the range. */
  function FirstBit(start: Bound): (r: nat)
    ensures start.Included? ==> r == start.n
    ensures start.Excluded? ==> r == start.n + 1
    ensures start.Unbounded? ==> r == 0
  {
    match start
    case Included(n) => n
    case Excluded(n) => n + 1
    case Unbounded => 0
  }

  /**
   * `BitRange::last_bit::<T>` for a `w`-bit type `T`: the highest bit index
   * of the range. `Excluded(0)` underflows, which panics.
   */
  function LastBit(end: Bound, w: nat): (r: nat)
    requires w >= 1
    requires end.Excluded? ==> end.n >= 1
    ensures end.Included? ==> r == end.n
    ensures end.Excluded? ==> r + 1 == end.n
    ensures end.Unbounded? ==> r + 1 == w
  {
    match end
    case Included(n) => n
    case Excluded(n) => n - 1
    case Unbounded => w - 1
  }

  /** `x.get_bit(i)` */
  predicate GetBit(x: nat, i: nat, w: nat)
    requires i < w
  {
    And(x, Pow2(i)) != 0
  }

  /** `x.set_bit(i, b)`: the new value of `x`. */
  function SetBit(x: nat, i: nat, b: bool, w: nat): nat
    requires i < w
  {
    if b then Or(x, Pow2(i)) else And(x, Not(Pow2(i), w))
  }

  /** `x.toggle_bit(i)`: the new value of `x`. */
  function ToggleBit(x: nat, i: nat, w: nat): nat
    requires i < w
  {
    SetBit(x, i, !GetBit(x, i, w), w)
  }

  /** `x.get_bits(first..=last)` */
  function GetBits(x: nat, first: nat, last: nat, w: nat): nat
    requires first < w && last < w
  {
    Shr(And(x, Mask(first, last, w)), first)
  }

  /**
   * `x.set_bits(first..=last, v)`: the new value of `x`. The width
   * computation `last - first` underflows, and panics, when `last < first`.
   */
  function SetBits(x: nat, first: nat, last: nat, v: nat, w: nat): nat
    requires first <= last < w
  {
    var mask1 := Mask(first, last, w);
    var mask2 := Mask(0, last - first, w);
    Or(And(x, Not(mask1, w)), Shl(And(v, mask2), first, w))
  }

  // ---------------------------------------------------------------------
  // Properties of the Bits operations
  // ---------------------------------------------------------------------

  /** `get_bit(i)` reads bit `i`. */
  lemma GetBitIsBit(x: nat, i: nat, w: nat)
    requires i < w
    ensures GetBit(x, i, w) <==> Bit(x, i)
  {
    BitAnd(x, Pow2(i), i);
    BitPow2(i, i);
    if Bit(x, i) {
      BitOfZero(i);
    } else {
      forall j: nat
        ensures Bit(And(x, Pow2(i)), j) == Bit(0, j)
      {
        BitAnd(x, Pow2(i), j);
        BitPow2(i, j);
        BitOfZero(j);
      }
      BitsEqual(And(x, Pow2(i)), 0);
    }
  }

  /** `set_bit(i, b)` sets bit `i` to `b` and leaves every other bit of a `w`-bit value. */
  lemma SetBitBits(x: nat, i: nat, b: bool, w: nat, j: nat)
    requires i < w && x < Pow2(w)
    ensures Bit(SetBit(x, i, b, w), j) <==> if j == i then b else Bit(x, j)
  {
    BitPow2(i, j);
    if b {
      BitOr(x, Pow2(i), j);
    } else {
      BitAnd(x, Not(Pow2(i), w), j);
      BitNot(Pow2(i), w, j);
      if j >= w {
        BitAboveWidth(x, w, j);
      }
    }
  }

  /** `set_bit` keeps a value inside its type. */
  lemma SetBitInRange(x: nat, i: nat, b: bool, w: nat)
    requires i < w && x < Pow2(w)
    ensures SetBit(x, i, b, w) < Pow2(w)
  {
    forall j: nat | j >= w
      ensures !Bit(SetBit(x, i, b, w), j)
    {
      SetBitBits(x, i, b, w, j);
      BitAboveWidth(x, w, j);
    }
    BelowWidth(SetBit(x, i, b, w), w);
  }

  /** `get_bit(i)` after `set_bit(i, b)` is `b`. */
  lemma GetAfterSetBit(x: nat, i: nat, b: bool, w: nat)
    requires i < w && x < Pow2(w)
    ensures GetBit(SetBit(x, i, b, w), i, w) == b
  {
    GetBitIsBit(SetBit(x, i, b, w), i, w);
    SetBitBits(x, i, b, w, i);
  }

  /** `toggle_bit(i)` flips bit `i` and no other. */
  lemma ToggleBitBits(x: nat, i: nat, w: nat, j: nat)
    requires i < w && x < Pow2(w)
    ensures Bit(ToggleBit(x, i, w), j) <==> if j == i then !Bit(x, i) else Bit(x, j)
  {
    GetBitIsBit(x, i, w);
    SetBitBits(x, i, !GetBit(x, i, w), w, j);
  }

  /** Toggling twice restores the value. */
  lemma ToggleTwice(x: nat, i: nat, w: nat)
    requires i < w && x < Pow2(w)
    ensures ToggleBit(ToggleBit(x, i, w), i, w) == x
  {
    var y := ToggleBit(x, i, w);
    SetBitInRange(x, i, !GetBit(x, i, w), w);
    forall j: nat
      ensures Bit(ToggleBit(y, i, w), j) == Bit(x, j)
    {
      ToggleBitBits(x, i, w, j);
      ToggleBitBits(y, i, w, j);
      ToggleBitBits(x, i, w, i);
    }
    BitsEqual(ToggleBit(y, i, w), x);
  }

  /** Bit `i` of `get_bits(first..=last)` is bit `first + i` of the field. */
  lemma GetBitsBits(x: nat, first: nat, last: nat, w: nat, i: nat)
    requires first < w && last < w
    ensures Bit(GetBits(x, first, last, w), i) <==> first + i <= last && Bit(x, first + i)
  {
    BitShr(And(x, Mask(first, last, w)), first, i);
    BitAnd(x, Mask(first, last, w), i + first);
    MaskBits(first, last, w, i + first);
  }

  /** `get_bits` returns the field shifted down to bit 0: less than 2^(field width). */
  lemma GetBitsBound(x: nat, first: nat, last: nat, w: nat)
    requires first <= last < w
    ensures GetBits(x, first, last, w) < Pow2(last - first + 1)
  {
    forall i: nat | i >= last - first + 1
      ensures !Bit(GetBits(x, first, last, w), i)
    {
      GetBitsBits(x, first, last, w, i);
    }
    BelowWidth(GetBits(x, first, last, w), last - first + 1);
  }

  /**
   * `set_bits(first..=last, v)` puts the low bits of `v` into the range,
   * dropping the bits of `v` that do not fit, and leaves every bit outside
   * the range unchanged.
   */
  lemma SetBitsBits(x: nat, first: nat, last: nat, v: nat, w: nat, i: nat)
    requires first <= last < w
    ensures Bit(SetBits(x, first, last, v, w), i) <==>
      if first <= i <= last then Bit(v, i - first) else i < w && Bit(x, i)
  {
    var mask1 := Mask(first, last, w);
    var mask2 := Mask(0, last - first, w);
    BitOr(And(x, Not(mask1, w)), Shl(And(v, mask2), first, w), i);
    BitAnd(x, Not(mask1, w), i);
    BitNot(mask1, w, i);
    MaskBits(first, last, w, i);
    BitShl(And(v, mask2), first, w, i);
    if i >= first {
      BitAnd(v, mask2, i - first);
      MaskBits(0, last - first, w, i - first);
    }
  }

  /** `set_bits` keeps a value inside its type. */
  lemma SetBitsInRange(x: nat, first: nat, last: nat, v: nat, w: nat)
    requires first <= last < w
    ensures SetBits(x, first, last, v, w) < Pow2(w)
  {
    forall i: nat | i >= w
      ensures !Bit(SetBits(x, first, last, v, w), i)
    {
      SetBitsBits(x, first, last, v, w, i);
    }
    BelowWidth(SetBits(x, first, last, v, w), w);
  }

  /** `get_bits` after `set_bits` on the same range returns the value, when it fits. */
  lemma GetAfterSetBits(x: nat, first: nat, last: nat, v: nat, w: nat)
    requires first <= last < w
    requires v < Pow2(last - first + 1)
    ensures GetBits(SetBits(x, first, last, v, w), first, last, w) == v
  {
    var y := SetBits(x, first, last, v, w);
    forall i: nat
      ensures Bit(GetBits(y, first, last, w), i) == Bit(v, i)
    {
      GetBitsBits(y, first, last, w, i);
      SetBitsBits(x, first, last, v, w, first + i);
      if first + i > last {
        BitAboveWidth(v, last - first + 1, i);
      }
    }
    BitsEqual(GetBits(y, first, last, w), v);
  }

  /** `set_bits` with a value that does not fit keeps only its low bits. */
  lemma SetBitsTruncates(x: nat, first: nat, last: nat, v: nat, w: nat)
    requires first <= last < w
    ensures SetBits(x, first, last, v, w) == SetBits(x, first, last, Trunc(v, last - first + 1), w)
  {
    forall i: nat
      ensures Bit(SetBits(x, first, last, v, w), i) == Bit(SetBits(x, first, last, Trunc(v, last - first + 1), w), i)
    {
      SetBitsBits(x, first, last, v, w, i);
      SetBitsBits(x, first, last, Trunc(v, last - first + 1), w, i);
      if first <= i {
        BitTrunc(v, last - first + 1, i - first);
      }
    }
    BitsEqual(SetBits(x, first, last, v, w), SetBits(x, first, last, Trunc(v, last - first + 1), w));
  }

  /** Writing back what `get_bits` read changes nothing. */
  lemma SetBitsOfGetBits(x: nat, first: nat, last: nat, w: nat)
    requires first <= last < w && x < Pow2(w)
    ensures SetBits(x, first, last, GetBits(x, first, last, w), w) == x
  {
    var y := SetBits(x, first, last, GetBits(x, first, last, w), w);
    forall i: nat
      ensures Bit(y, i) == Bit(x, i)
    {
      SetBitsBits(x, first, last, GetBits(x, first, last, w), w, i);
      if first <= i {
        GetBitsBits(x, first, last, w, i - first);
      }
      if i >= w {
        BitAboveWidth(x, w, i);
      }
    }
    BitsEqual(y, x);
  }

  /** Bit `i` of `x` is the last binary digit of `x / 2^i`. */
  lemma {:induction false} BitIsDigit(x: nat, i: nat)
    ensures Bit(x, i) <==> (x / Pow2(i)) % 2 == 1
  {
    if i > 0 {
      BitIsDigit(x / 2, i - 1);
      DivOfHalf(x, Pow2(i - 1));
    }
  }

  /** Adding `2^k` to a value below `2^k` sets bit `k` and keeps every other bit. */
  lemma {:induction false} BitsOfSum(x: nat, k: nat, i: nat)
    requires x < Pow2(k)
    ensures Bit(x + Pow2(k), i) <==> i == k || Bit(x, i)
    decreases k
  {
    if k == 0 {
      BitPow2(0, i);
      assert x == 0;
    } else if i > 0 {
      assert (x + Pow2(k)) / 2 == x / 2 + Pow2(k - 1);
      BitsOfSum(x / 2, k - 1, i - 1);
    }
  }

  // ---------------------------------------------------------------------
  // Fields of a register: each accessor touches its own bits only
  // ---------------------------------------------------------------------

  /** `x` and `y` agree on every bit outside `first..=last`. */
  ghost predicate AgreeOutside(x: nat, y: nat, first: nat, last: nat)
  {
    forall i: nat :: (i < first || last < i) ==> (Bit(x, i) <==> Bit(y, i))
  }

  /** `set_bit(i, b)` on a `w`-bit value: bit `i` reads `b`, the value stays in its type, and no other bit changes. */
  lemma SetBitOnly(x: nat, i: nat, b: bool, w: nat)
    requires i < w && x < Pow2(w)
    ensures SetBit(x, i, b, w) < Pow2(w)
    ensures GetBit(SetBit(x, i, b, w), i, w) == b
    ensures AgreeOutside(SetBit(x, i, b, w), x, i, i)
  {
    SetBitInRange(x, i, b, w);
    GetAfterSetBit(x, i, b, w);
    forall j: nat | j < i || i < j
      ensures Bit(SetBit(x, i, b, w), j) <==> Bit(x, j)
    {
      SetBitBits(x, i, b, w, j);
    }
  }

  /**
   * `set_bits(first..=last, v)` with a `v` that fits: the field reads `v`,
   * the value stays in its type, and no bit outside the field changes.
   */
  lemma SetBitsOnly(x: nat, first: nat, last: nat, v: nat, w: nat)
    requires first <= last < w && x < Pow2(w)
    requires v < Pow2(last - first + 1)
    ensures SetBits(x, first, last, v, w) < Pow2(w)
    ensures GetBits(SetBits(x, first, last, v, w), first, last, w) == v
    ensures AgreeOutside(SetBits(x, first, last, v, w), x, first, last)
  {
    SetBitsInRange(x, first, last, v, w);
    GetAfterSetBits(x, first, last, v, w);
    forall j: nat | j < first || last < j
      ensures Bit(SetBits(x, first, last, v, w), j) <==> Bit(x, j)
    {
      SetBitsBits(x, first, last, v, w, j);
      if j >= w {
        BitAboveWidth(x, w, j);
      }
    }
  }

  /** `get_bit(i)` reads bit `i` only: values that agree outside a field not holding `i` read alike. */
  lemma GetBitOutside(x: nat, y: nat, i: nat, first: nat, last: nat, w: nat)
    requires i < w && (i < first || last < i)
    requires AgreeOutside(x, y, first, last)
    ensures GetBit(x, i, w) == GetBit(y, i, w)
  {
    GetBitIsBit(x, i, w);
    GetBitIsBit(y, i, w);
  }

  /** `get_bits(f..=l)` reads its own field only: values that agree outside a disjoint field read alike. */
  lemma GetBitsOutside(x: nat, y: nat, f: nat, l: nat, first: nat, last: nat, w: nat)
    requires f <= l < w && (l < first || last < f)
    requires AgreeOutside(x, y, first, last)
    ensures GetBits(x, f, l, w) == GetBits(y, f, l, w)
  {
    forall k: nat
      ensures Bit(GetBits(x, f, l, w), k) == Bit(GetBits(y, f, l, w), k)
    {
      GetBitsBits(x, f, l, w, k);
      GetBitsBits(y, f, l, w, k);
    }
    BitsEqual(GetBits(x, f, l, w), GetBits(y, f, l, w));
  }

  // ---------------------------------------------------------------------
  // The unit-test vectors of amd64/src/util.rs
  // ---------------------------------------------------------------------

  /** The set bits of 0xE0 = 0b1110_0000. */
  lemma BitsOfE0(i: nat)
    ensures Bit(0xE0, i) <==> 5 <= i <= 7
  {
    if i >= 8 {
      Pow2Values();
      BitAboveWidth(0xE0, 8, i);
    } else if i == 0 {
    } else if i == 1 {
    } else if i == 2 {
    } else if i == 3 {
    } else if i == 4 {
    } else if i == 5 {
    } else if i == 6 {
    }
  }

  /** `mask!(u32, 5, 7) == 0b11100000` */
  lemma MaskExample()
    ensures Mask(5, 7, 32) == 0xE0
  {
    forall i: nat
      ensures Bit(Mask(5, 7, 32), i) == Bit(0xE0, i)
    {
      MaskBits(5, 7, 32, i);
      BitsOfE0(i);
    }
    BitsEqual(Mask(5, 7, 32), 0xE0);
  }

  /**
   * `0b1100_0110_0011_1101.get_bits(4..=7) == 0b0011`. The value is a
   * parameter so that the solver reasons about its bits instead of
   * evaluating the operators on literals.
   */
  lemma GetBitsExample(x: nat)
    requires x == 0xC63D
    ensures GetBits(x, 4, 7, 16) == 3
  {
    forall i: nat
      ensures Bit(GetBits(x, 4, 7, 16), i) == Bit(3, i)
    {
      GetBitsBits(x, 4, 7, 16, i);
      GetBitsExampleBit(x, i);
    }
    BitsEqual(GetBits(x, 4, 7, 16), 3);
  }

  lemma GetBitsExampleBit(x: nat, i: nat)
    requires x == 0xC63D
    ensures (4 + i <= 7 && Bit(x, 4 + i)) == Bit(3, i)
  {
    BitIsDigit(3, i);
    if i == 0 {
      BitIsDigit(x, 4);
    } else if i == 1 {
      BitIsDigit(x, 5);
    } else if i == 2 {
      BitIsDigit(x, 6);
    } else if i == 3 {
      BitIsDigit(x, 7);
    } else {
      BitAboveWidth(3, 2, i);
    }
  }

  /** `0b1101.set_bits(4..=7, 0b0011) == 0b0011_1101`, with the operands as parameters. */
  lemma SetBitsExample(x: nat, v: nat)
    requires x == 0xD && v == 3
    ensures SetBits(x, 4, 7, v, 16) == 0x3D
  {
    forall i: nat
      ensures Bit(SetBits(x, 4, 7, v, 16), i) == Bit(0x3D, i)
    {
      SetBitsBits(x, 4, 7, v, 16, i);
      SetBitsExampleBit(x, v, i);
    }
    BitsEqual(SetBits(x, 4, 7, v, 16), 0x3D);
  }

  lemma SetBitsExampleBit(x: nat, v: nat, i: nat)
    requires x == 0xD && v == 3
    ensures (if 4 <= i <= 7 then Bit(v, i - 4) else i < 16 && Bit(x, i)) == Bit(0x3D, i)
  {
    if i < 4 {
      BitIsDigit(x, i);
      BitIsDigit(0x3D, i);
      if i == 0 {} else if i == 1 {} else if i == 2 {}
    } else if i < 8 {
      BitIsDigit(v, i - 4);
      BitIsDigit(0x3D, i);
      if i == 4 {} else if i == 5 {} else if i == 6 {}
    } else {
      BitAboveWidth(x, 4, i);
      BitAboveWidth(0x3D, 8, i);
    }
  }
}

=== FILE: bump_alloc.dfy ===
/**
 * The early-boot bump allocator of the kmem crate
 * (kmem/src/physical/alloc/bump.rs).
 *
 * It is fed an iterator of frame regions. Its state is the region it
 * currently allocates from and the regions the iterator has not yet
 * produced. Both searches chain the current region in front of the
 * iterator and consume the iterator up to the region they find.
 */
module BumpAlloc {
  import opened Common
  import opened Frames

  datatype Bump = Bump(current: Option<PageFrameRegion>, rest: seq<PageFrameRegion>)

  /** The regions still to be allocated from, current region first. */
  function Pending(b: Bump): (rs: seq<PageFrameRegion>)
    ensures |rs| == |b.rest| + (if b.current.Some? then 1 else 0)
  {
    (if b.current.Some? then [b.current.value] else []) + b.rest
  }

  /** Frame `n` is in some pending region. */
  predicate HoldsFrame(b: Bump, n: nat)
  {
    exists i :: 0 <= i < |Pending(b)| && InRegion(Pending(b)[i], n)
  }

  /** `BumpAllocator::new(regions)`: the first region becomes current. */
  function New(regions: seq<PageFrameRegion>): (b: Bump)
    ensures Pending(b) == regions
  {
    if |regions| == 0 then Bump(None, []) else Bump(Some(regions[0]), regions[1..])
  }

  /** Index of the first non-empty region. */
  function FirstNonEmpty(rs: seq<PageFrameRegion>): (r: Option<nat>)
    ensures r.None? <==> forall i :: 0 <= i < |rs| ==> IsEmpty(rs[i])
    ensures r.Some? ==> r.value < |rs| && !IsEmpty(rs[r.value])
    ensures r.Some? ==> forall j :: 0 <= j < r.value ==> IsEmpty(rs[j])
  {
    if |rs| == 0 then None
    else if !IsEmpty(rs[0]) then Some(0)
    else match FirstNonEmpty(rs[1..])
      case None => None
      case Some(k) => Some(k + 1)
  }

  /** The region with its first frame taken. */
  function TakeFirst(r: PageFrameRegion): PageFrameRegion
  {
    PageFrameRegion(PageFrame(r.start.number + 1), r.end)
  }

  /**
   * `alloc()`: move to the first non-empty region, hand out its first frame
   * and advance its start.
   */
  function Alloc(b: Bump): (r: (Option<PageFrame>, Bump))
    ensures r.0.None? <==> forall i :: 0 <= i < |Pending(b)| ==> IsEmpty(Pending(b)[i])
    ensures r.0.None? ==> Pending(r.1) == []
    ensures r.0.Some? ==> var k := FirstNonEmpty(Pending(b)).value;
      r.0.value == Pending(b)[k].start &&
      Pending(r.1) == [TakeFirst(Pending(b)[k])] + Pending(b)[k + 1..]
  {
    var pending := Pending(b);
    match FirstNonEmpty(pending)
    case None => (None, Bump(None, []))
    case Some(k) => (Some(pending[k].start), Bump(Some(TakeFirst(pending[k])), pending[k + 1..]))
  }

  /** `free(frame)` always panics. */
  function FreeFrame(b: Bump, frame: PageFrame): (r: Outcome<Bump>)
    ensures r.Panic?
  {
    Panic
  }

  /** Index of the first region that ends after frame `f`. */
  function FirstEndingAfter(rs: seq<PageFrameRegion>, f: nat): (r: Option<nat>)
    ensures r.None? <==> forall i :: 0 <= i < |rs| ==> rs[i].end.number <= f
    ensures r.Some? ==> r.value < |rs| && rs[r.value].end.number > f
    ensures r.Some? ==> forall j :: 0 <= j < r.value ==> rs[j].end.number <= f
  {
    if |rs| == 0 then None
    else if rs[0].end.number > f then Some(0)
    else match FirstEndingAfter(rs[1..], f)
      case None => None
      case Some(k) => Some(k + 1)
  }

  /** The region with its start raised to at least `f`. */
  function RaiseStart(r: PageFrameRegion, f: nat): PageFrameRegion
  {
    PageFrameRegion(PageFrame(if r.start.number < f then f else r.start.number), r.end)
  }

  /**
   * `reserve_until(f)`: skip the regions that end at or before `f` and
   * raise the start of the first one that does not.
   */
  function ReserveUntil(b: Bump, f: PageFrame): (r: Bump)
    ensures FirstEndingAfter(Pending(b), f.number).None? ==> Pending(r) == []
    ensures FirstEndingAfter(Pending(b), f.number).Some? ==>
      var k := FirstEndingAfter(Pending(b), f.number).value;
      Pending(r) == [RaiseStart(Pending(b)[k], f.number)] + Pending(b)[k + 1..]
  {
    var pending := Pending(b);
    match FirstEndingAfter(pending, f.number)
    case None => Bump(None, [])
    case Some(k) => Bump(Some(RaiseStart(pending[k], f.number)), pending[k + 1..])
  }

  /** `reserve_until_address(a)`: reserve up to the first frame at or above `a`. */
  function ReserveUntilAddress(b: Bump, a: Word): (r: Outcome<Bump>)
    ensures r.Done? <==> a <= WORD_LIMIT - PAGE_SIZE
    ensures r.Done? ==> exists f: nat :: a <= f * PAGE_SIZE < a + PAGE_SIZE && r.value == ReserveUntil(b, PageFrame(f))
  {
    match NextAbove(a)
    case Panic => Panic
    case Done(f) => Done(ReserveUntil(b, f))
  }

  // ---------------------------------------------------------------------
  // Properties across operations
  // ---------------------------------------------------------------------

  /** `alloc` hands out a pending frame, and creates no new pending frames. */
  lemma AllocFromPending(b: Bump, n: nat)
    requires Alloc(b).0.Some?
    ensures HoldsFrame(b, Alloc(b).0.value.number)
    ensures HoldsFrame(Alloc(b).1, n) ==> HoldsFrame(b, n)
    ensures !InRegion(Alloc(b).1.current.value, Alloc(b).0.value.number)
  {
    var k := FirstNonEmpty(Pending(b)).value;
    assert InRegion(Pending(b)[k], Alloc(b).0.value.number);
    if HoldsFrame(Alloc(b).1, n) {
      var i :| 0 <= i < |Pending(Alloc(b).1)| && InRegion(Pending(Alloc(b).1)[i], n);
      if i == 0 {
        assert InRegion(Pending(b)[k], n);
      } else {
        assert InRegion(Pending(b)[k + i], n);
      }
    }
  }

  /** Once `alloc` has returned none it keeps returning none. */
  lemma ExhaustedStaysExhausted(b: Bump)
    requires Alloc(b).0.None?
    ensures Alloc(Alloc(b).1) == (None, Alloc(b).1)
  {
  }

  /** Two allocations from the same region return consecutive frames. */
  lemma ConsecutiveFrames(b: Bump)
    requires Alloc(b).0.Some? && !IsEmpty(Alloc(b).1.current.value)
    ensures Alloc(Alloc(b).1).0 == Some(PageFrame(Alloc(b).0.value.number + 1))
  {
    var b1 := Alloc(b).1;
    assert FirstNonEmpty(Pending(b1)) == Some(0);
  }

  /** The regions are ordered and do not overlap. */
  predicate Sorted(rs: seq<PageFrameRegion>)
  {
    forall i, j :: 0 <= i < j < |rs| ==> rs[i].end.number <= rs[j].start.number
  }

  /** Over sorted regions, `reserve_until(f)` leaves only frames at or above `f` pending. */
  lemma ReserveUntilReserves(b: Bump, f: PageFrame, n: nat)
    requires Sorted(Pending(b))
    requires HoldsFrame(ReserveUntil(b, f), n)
    ensures n >= f.number && HoldsFrame(b, n)
  {
    var pending := Pending(b);
    var ps := Pending(ReserveUntil(b, f));
    var i :| 0 <= i < |ps| && InRegion(ps[i], n);
    var k := FirstEndingAfter(pending, f.number).value;
    RaisedTail(pending, k, f.number, i, n);
    assert InRegion(pending[k + i], n);
  }

  /**
   * A frame in region `i` of the sorted regions from `k` on, the first one
   * raised to start at `f`, is at or above `f` and in region `k + i`.
   */
  lemma RaisedTail(rs: seq<PageFrameRegion>, k: nat, f: nat, i: nat, n: nat)
    requires Sorted(rs) && k < |rs| && rs[k].end.number > f
    requires i < |rs| - k && InRegion(([RaiseStart(rs[k], f)] + rs[k + 1..])[i], n)
    ensures n >= f && InRegion(rs[k + i], n)
  {
    if i > 0 {
      assert ([RaiseStart(rs[k], f)] + rs[k + 1..])[i] == rs[k + i];
      assert rs[k].end.number <= rs[k + i].start.number;
    }
  }
}

=== FILE: bytes.dfy ===
/**
 * Bytes in memory and the little-endian integers the firmware tables store.
 *
 * ACPI tables and Multiboot2 tags are packed structures in memory; the
 * kernel reads their fields as `u8`, `u16`, `u32` and `u64` values on a
 * little-endian machine. The model holds a memory area as a sequence of
 * bytes and a field as the value of its bytes, lowest first.
 */
module Bytes {

  /** A `u8`. */
  type Byte = x: nat | x < 256

  /** The value of `bs` read as a little-endian unsigned integer. */
  function Le(bs: seq<Byte>): (v: nat)
    ensures v < Power(|bs|)
  {
    if |bs| == 0 then 0 else bs[0] + 256 * Le(bs[1..])
  }

  /** 256 to the power `n`: the number of values `n` bytes can hold. */
  function Power(n: nat): (p: nat)
    ensures p > 0
  {
    if n == 0 then 1 else 256 * Power(n - 1)
  }

  /** The `n` bytes of `v`, lowest first; `v` is truncated to `n` bytes. */
  function LeBytes(v: nat, n: nat): (bs: seq<Byte>)
    ensures |bs| == n
  {
    if n == 0 then [] else [v % 256] + LeBytes(v / 256, n - 1)
  }

  /** The field of `n` bytes at offset `off`. */
  function Field(mem: seq<Byte>, off: nat, n: nat): (v: nat)
    requires off + n <= |mem|
    ensures v < Power(n)
  {
    Le(mem[off..off + n])
  }

  /** Writing a value that fits and reading it back gives the value. */
  lemma {:induction false} LeOfLeBytes(v: nat, n: nat)
    requires v < Power(n)
    ensures Le(LeBytes(v, n)) == v
  {
    if n > 0 {
      LeOfLeBytes(v / 256, n - 1);
      assert LeBytes(v, n)[1..] == LeBytes(v / 256, n - 1);
    }
  }

  /** Reading bytes and writing the value back gives the bytes. */
  lemma {:induction false} LeBytesOfLe(bs: seq<Byte>)
    ensures LeBytes(Le(bs), |bs|) == bs
  {
    if |bs| > 0 {
      LeBytesOfLe(bs[1..]);
      assert Le(bs) % 256 == bs[0];
      assert Le(bs) / 256 == Le(bs[1..]);
    }
  }

  /** Two byte strings of the same length with the same value are the same bytes. */
  lemma LeInjective(a: seq<Byte>, b: seq<Byte>)
    requires |a| == |b| && Le(a) == Le(b)
    ensures a == b
  {
    LeBytesOfLe(a);
    LeBytesOfLe(b);
  }
}

=== FILE: checksum.dfy ===
/**
 * The ACPI table checksum (acpi/src/util.rs), section 5.2.6 of the ACPI
 * specification: the bytes of a table, added with wrap-around in a `u8`,
 * must sum to zero.
 */
module Checksum {
  import opened Bytes

  /** `acc.wrapping_add(b)` on `u8` */
  function WrappingAdd(acc: Byte, b: Byte): Byte
  {
    (acc + b) % 256
  }

  /** The fold of `acpi_checksum`, from the running sum `acc` over `data`. */
  function Fold(acc: Byte, data: seq<Byte>): Byte
    decreases |data|
  {
    if |data| == 0 then acc else Fold(WrappingAdd(acc, data[0]), data[1..])
  }

  /** `acpi_checksum(data)`: the sum of the bytes modulo 256. */
  function Sum8(data: seq<Byte>): (c: Byte)
    ensures c == Total(data) % 256
  {
    FoldIsTotal(0, data);
    Fold(0, data)
  }

  /** The plain sum of the bytes, the reference the checksum is measured against. */
  function Total(data: seq<Byte>): nat
  {
    if |data| == 0 then 0 else Total(data[..|data| - 1]) + data[|data| - 1]
  }

  /** The data is valid when its checksum is zero. */
  predicate Valid(data: seq<Byte>)
  {
    Sum8(data) == 0
  }

  /** `acpi_table_checksum_with_length(table, length)`: the checksum of the first `length` bytes from the table's start. */
  function ChecksumWithLength(mem: seq<Byte>, length: nat): (c: Byte)
    requires length <= |mem|
    ensures c == Total(mem[..length]) % 256
  {
    Sum8(mem[..length])
  }

  /** The wrapping fold is the plain sum taken modulo 256. */
  lemma {:induction false} FoldIsTotal(acc: Byte, data: seq<Byte>)
    ensures Fold(acc, data) == (acc + Total(data)) % 256
    decreases |data|
  {
    if |data| > 0 {
      var init := data[..|data| - 1];
      var last := data[|data| - 1];
      FoldSnoc(acc, init, last);
      assert init + [last] == data;
      FoldIsTotal(acc, init);
    }
  }

  /** Folding one more byte at the end adds it with wrap-around. */
  lemma {:induction false} FoldSnoc(acc: Byte, data: seq<Byte>, b: Byte)
    ensures Fold(acc, data + [b]) == WrappingAdd(Fold(acc, data), b)
    decreases |data|
  {
    if |data| > 0 {
      assert (data + [b])[1..] == data[1..] + [b];
      FoldSnoc(WrappingAdd(acc, data[0]), data[1..], b);
    }
  }

  /** The checksum is the sum of the bytes modulo 256, so `Valid` holds iff the bytes sum to a multiple of 256. */
  lemma Sum8IsTotal(data: seq<Byte>)
    ensures Sum8(data) == Total(data) % 256
    ensures Valid(data) <==> Total(data) % 256 == 0
  {
    FoldIsTotal(0, data);
  }

  /** The checksum of two parts is the wrapping sum of their checksums. */
  lemma {:induction false} Sum8Append(a: seq<Byte>, b: seq<Byte>)
    ensures Sum8(a + b) == WrappingAdd(Sum8(a), Sum8(b))
  {
    TotalAppend(a, b);
    Sum8IsTotal(a);
    Sum8IsTotal(b);
    Sum8IsTotal(a + b);
    ModSum(Total(a), Total(b));
  }

  /** Taking the remainder of each part first does not change the remainder of a sum. */
  lemma ModSum(x: nat, y: nat)
    ensures (x + y) % 256 == (x % 256 + y % 256) % 256
  {
    var qx, rx := x / 256, x % 256;
    var qy, ry := y / 256, y % 256;
    assert x + y == 256 * (qx + qy) + (rx + ry);
  }

  lemma {:induction false} TotalAppend(a: seq<Byte>, b: seq<Byte>)
    ensures Total(a + b) == Total(a) + Total(b)
    decreases |b|
  {
    if |b| == 0 {
      assert a + b == a;
    } else {
      var init := b[..|b| - 1];
      assert (a + b)[..|a + b| - 1] == a + init;
      assert (a + b)[|a + b| - 1] == b[|b| - 1];
      TotalAppend(a, init);
    }
  }

  /**
   * Changing one byte to a different value changes the checksum, so a valid
   * table with one corrupted byte is invalid.
   */
  lemma OneByteChanges(data: seq<Byte>, i: nat, b: Byte)
    requires i < |data| && b != data[i]
    ensures Sum8(data[i := b]) != Sum8(data)
    ensures Valid(data) ==> !Valid(data[i := b])
  {
    var before := data[..i];
    var after := data[i + 1..];
    assert data == before + [data[i]] + after;
    assert data[i := b] == before + [b] + after;
    Sum8Append(before + [data[i]], after);
    Sum8Append(before + [b], after);
    Sum8Append(before, [data[i]]);
    Sum8Append(before, [b]);
    Sum8Single(data[i]);
    Sum8Single(b);
    Cancel(Sum8(before), data[i], b);
    Cancel(Sum8(after), Sum8(before + [data[i]]), Sum8(before + [b]));
  }

  /** The checksum of one byte is that byte. */
  lemma Sum8Single(b: Byte)
    ensures Sum8([b]) == b
  {
    assert [b][1..] == [];
    assert Fold(0, [b]) == Fold(WrappingAdd(0, b), []);
  }

  /** Adding the same byte to two different bytes gives two different sums. */
  lemma Cancel(a: Byte, x: Byte, y: Byte)
    requires x != y
    ensures WrappingAdd(a, x) != WrappingAdd(a, y)
    ensures WrappingAdd(x, a) != WrappingAdd(y, a)
  {
  }

  /** The checksum of the first `length` bytes depends on those bytes and on no other. */
  lemma WithLengthReadsPrefix(mem: seq<Byte>, mem': seq<Byte>, length: nat, i: nat, b: Byte)
    requires length <= |mem| && length <= |mem'| && mem[..length] == mem'[..length]
    requires i < |mem|
    ensures ChecksumWithLength(mem, length) == ChecksumWithLength(mem', length)
    ensures i >= length ==> ChecksumWithLength(mem[i := b], length) == ChecksumWithLength(mem, length)
    ensures i < length && b != mem[i] ==> ChecksumWithLength(mem[i := b], length) != ChecksumWithLength(mem, length)
  {
    if i >= length {
      assert mem[i := b][..length] == mem[..length];
    } else if b != mem[i] {
      assert mem[i := b][..length] == mem[..length][i := b];
      assert mem[..length][i] == mem[i];
      OneByteChanges(mem[..length], i, b);
    }
  }

  /** The byte a table's author stores in the checksum field: it makes the sum zero. */
  function Balance(data: seq<Byte>): (c: Byte)
    ensures Valid(data + [c])
  {
    var c := (256 - Sum8(data)) % 256;
    Sum8Append(data, [c]);
    Sum8Single(c);
    c
  }
}

=== FILE: cmdline.dfy ===
/**
 * The kernel command-line tokenizer (learnos_kernel/src/kaal/util/cmdline.rs).
 *
 * `CmdLine` is an iterator over the unparsed rest of the command line. Each
 * call of `next` skips whitespace, reads a key, and if an `=` follows reads
 * a value: `key=value` gives a key-value pair, a lone `key` a flag. A key
 * ends at whitespace or `=`, a value only at whitespace, and either may be
 * quoted to hold any character but the quote. The model keeps the rest of
 * the line as a string and returns it next to each result.
 */
module CmdLine {
  import opened Common

  /**
   * `char::is_whitespace`: the characters with the Unicode White_Space
   * property.
   */
  predicate IsWhitespace(c: char)
  {
    var n := c as int;
    (0x09 <= n <= 0x0D) || n == 0x20 || n == 0x85 || n == 0xA0 || n == 0x1680
    || (0x2000 <= n <= 0x200A) || n == 0x2028 || n == 0x2029 || n == 0x202F
    || n == 0x205F || n == 0x3000
  }

  /** `skip_whitespace` (`trim_start`): drops the whitespace at the front. */
  function TrimStart(s: string): (r: string)
    ensures |r| <= |s| && r == s[|s| - |r|..]
    ensures forall i :: 0 <= i < |s| - |r| ==> IsWhitespace(s[i])
    ensures r == [] || !IsWhitespace(r[0])
  {
    if |s| > 0 && IsWhitespace(s[0]) then TrimStart(s[1..]) else s
  }

  /** Where a symbol ends: at whitespace, and unless `acceptEquals` also at `=`. */
  predicate EndsSymbol(c: char, acceptEquals: bool)
  {
    (!acceptEquals && c == '=') || IsWhitespace(c)
  }

  /** `find` with the closure of `parse_symbol`: the first character that ends a symbol. */
  function FindEnd(s: string, acceptEquals: bool): (r: Option<nat>)
    ensures r.Some? ==> (r.value < |s| && EndsSymbol(s[r.value], acceptEquals)
      && forall j :: 0 <= j < r.value ==> !EndsSymbol(s[j], acceptEquals))
    ensures r.None? <==> forall j :: 0 <= j < |s| ==> !EndsSymbol(s[j], acceptEquals)
  {
    if |s| == 0 then None
    else if EndsSymbol(s[0], acceptEquals) then Some(0)
    else match FindEnd(s[1..], acceptEquals)
      case None => None
      case Some(i) => Some(i + 1)
  }

  /** `find('"')`: the first quote. */
  function FindQuote(s: string): (r: Option<nat>)
    ensures r.Some? ==> r.value < |s| && s[r.value] == '"' && '"' !in s[..r.value]
    ensures r.None? <==> '"' !in s
  {
    if |s| == 0 then None
    else if s[0] == '"' then Some(0)
    else match FindQuote(s[1..])
      case None => None
      case Some(i) =>
        assert s[..i + 1] == [s[0]] + s[1..][..i];
        Some(i + 1)
  }

  /** No character of `s` ends a symbol. */
  predicate NoEnd(s: string, acceptEquals: bool)
  {
    forall j :: 0 <= j < |s| ==> !EndsSymbol(s[j], acceptEquals)
  }

  /**
   * `parse_symbol(accept_equals)`: nothing from an empty line; otherwise the
   * symbol and the rest of the line, quoted if the line starts with a quote.
   */
  function ParseSymbol(raw: string, acceptEquals: bool): (r: Option<(string, string)>)
    ensures r.None? <==> raw == []
    ensures r.Some? ==> (IsSuffix(r.value.1, raw)
      && (|r.value.1| < |raw| || (r.value.0 == [] && r.value.1 == raw)))
  {
    if |raw| == 0 then None
    else if raw[0] == '"' then Some(ParseQuoted(raw))
    else Some(ParseUnquoted(raw, acceptEquals))
  }

  /**
   * The quoted branch of `parse_symbol`: the symbol runs from after the
   * opening quote to the next quote, which is consumed, or to the end of the
   * line if there is none; it never holds a quote.
   */
  function ParseQuoted(raw: string): (r: (string, string))
    requires |raw| > 0 && raw[0] == '"'
    ensures '"' !in r.0
    ensures (raw == ['"'] + r.0 && r.1 == []) || raw == ['"'] + r.0 + ['"'] + r.1
    ensures IsSuffix(r.1, raw) && |r.1| < |raw|
  {
    var rest := raw[1..];
    match FindQuote(rest)
    case None =>
      assert raw == ['"'] + rest;
      (rest, [])
    case Some(pos) =>
      assert raw == ['"'] + rest[..pos] + ['"'] + rest[pos + 1..];
      (rest[..pos], rest[pos + 1..])
  }

  /**
   * The unquoted branch of `parse_symbol`: the symbol runs up to the first
   * character that ends it, which stays in the rest, or to the end of the
   * line.
   */
  function ParseUnquoted(raw: string, acceptEquals: bool): (r: (string, string))
    ensures raw == r.0 + r.1 && NoEnd(r.0, acceptEquals)
    ensures r.1 == [] || EndsSymbol(r.1[0], acceptEquals)
    ensures IsSuffix(r.1, raw) && (|r.1| < |raw| || r.0 == [])
  {
    match FindEnd(raw, acceptEquals)
    case None =>
      assert raw == raw + [];
      (raw, [])
    case Some(pos) =>
      assert raw == raw[..pos] + raw[pos..];
      (raw[..pos], raw[pos..])
  }

  /** `a` is what is left of `b` after some characters were consumed from its front. */
  predicate IsSuffix(a: string, b: string)
  {
    |a| <= |b| && a == b[|b| - |a|..]
  }

  lemma SuffixTransitive(a: string, b: string, c: string)
    requires IsSuffix(a, b) && IsSuffix(b, c)
    ensures IsSuffix(a, c)
  {
    assert c[|c| - |b|..][|b| - |a|..] == c[|c| - |a|..];
  }

  /** `parse_equals`: consumes a leading `=` and says whether there was one. */
  function ParseEquals(raw: string): (r: (bool, string))
    ensures r.0 <==> |raw| > 0 && raw[0] == '='
    ensures r.0 ==> raw == ['='] + r.1
    ensures !r.0 ==> r.1 == raw
  {
    if |raw| > 0 && raw[0] == '=' then
      assert raw == ['='] + raw[1..];
      (true, raw[1..])
    else (false, raw)
  }

  /** `CmdLineToken` */
  datatype Token = Flag(key: string) | KeyValuePair(key: string, value: string)

  /**
   * `CmdLine::next`: after the whitespace, nothing if the line is used up;
   * otherwise a key, and a key-value pair if `=` follows it (with an empty
   * value when nothing follows the `=`), a flag if not. Every token
   * consumes at least one character, and the rest is a suffix of the line.
   */
  function Next(raw: string): (r: (Option<Token>, string))
    ensures r.0.None? <==> TrimStart(raw) == []
    ensures r.0.None? ==> r.1 == []
    ensures r.0.Some? ==> |r.1| < |raw| && IsSuffix(r.1, raw)
  {
    var line := TrimStart(raw);
    NextConsumes(line);
    SuffixTransitive(NextOfLine(line).1, line, raw);
    NextOfLine(line)
  }

  /** `next` after `skip_whitespace`, on a line that starts with no whitespace. */
  function NextOfLine(line: string): (r: (Option<Token>, string))
  {
    match ParseSymbol(line, false)
    case None => (None, line)
    case Some((key, afterKey)) =>
      var (equals, afterEquals) := ParseEquals(afterKey);
      if equals then
        match ParseSymbol(afterEquals, true)
        case None => (Some(KeyValuePair(key, [])), afterEquals)
        case Some((value, rest)) => (Some(KeyValuePair(key, value)), rest)
      else (Some(Flag(key)), afterEquals)
  }

  /** On a line without leading whitespace, a token consumes at least one character. */
  lemma NextConsumes(line: string)
    requires line == [] || !IsWhitespace(line[0])
    ensures NextOfLine(line).0.None? <==> line == []
    ensures NextOfLine(line).0.None? ==> NextOfLine(line).1 == []
    ensures NextOfLine(line).0.Some? ==> |NextOfLine(line).1| < |line| && IsSuffix(NextOfLine(line).1, line)
  {
    if line != [] {
      var (key, afterKey) := ParseSymbol(line, false).value;
      var (equals, afterEquals) := ParseEquals(afterKey);
      assert IsSuffix(afterEquals, afterKey);
      SuffixTransitive(afterEquals, afterKey, line);
      if equals {
        assert |afterEquals| < |line|;
        match ParseSymbol(afterEquals, true)
        case None =>
        case Some((value, rest)) =>
          SuffixTransitive(rest, afterEquals, line);
      } else {
        assert line[0] != '=' && line[0] != '"' ==> key != [];
      }
    }
  }

  /**
   * `CmdLine` is fused in effect: once `next` has returned nothing, the rest
   * is empty and `next` returns nothing again.
   */
  lemma NextFused(raw: string)
    requires Next(raw).0.None?
    ensures Next(Next(raw).1) == (None, [])
  {
  }

  /**
   * `CmdLine::parse(raw).collect()`: calling `next` until it returns
   * nothing. A line yields no token exactly when it is all whitespace, and
   * never more tokens than it has characters.
   */
  function Tokens(raw: string): (ts: seq<Token>)
    ensures ts == [] <==> TrimStart(raw) == []
    ensures |ts| <= |raw|
    decreases |raw|
  {
    match Next(raw)
    case (None, _) => []
    case (Some(t), rest) => [t] + Tokens(rest)
  }

  /** Whitespace in front of a line changes none of its tokens. */
  lemma TokensAfterWhitespace(ws: string, raw: string)
    requires forall i :: 0 <= i < |ws| ==> IsWhitespace(ws[i])
    ensures Tokens(ws + raw) == Tokens(raw)
  {
    TrimWhitespace(ws, raw);
  }

  /** Trimming whitespace in front of a line gives the line trimmed. */
  lemma {:induction false} TrimWhitespace(ws: string, raw: string)
    requires forall i :: 0 <= i < |ws| ==> IsWhitespace(ws[i])
    ensures TrimStart(ws + raw) == TrimStart(raw)
  {
    if |ws| > 0 {
      assert (ws + raw)[1..] == ws[1..] + raw;
      TrimWhitespace(ws[1..], raw);
    } else {
      assert ws + raw == raw;
    }
  }

  /**
   * The unquoted split is unique: a line that is a symbol without an ending
   * character, followed by nothing or by an ending character, splits there.
   */
  lemma ParseUnquotedAt(sym: string, rest: string, acceptEquals: bool)
    requires NoEnd(sym, acceptEquals) && (rest == [] || EndsSymbol(rest[0], acceptEquals))
    ensures ParseUnquoted(sym + rest, acceptEquals) == (sym, rest)
  {
    var raw := sym + rest;
    var r := ParseUnquoted(raw, acceptEquals);
    assert r.0 == raw[..|r.0|] && sym == raw[..|sym|];
  }

  /** The quoted split: a quote, a string without quotes, and a closing quote. */
  lemma ParseQuotedAt(sym: string, rest: string)
    requires '"' !in sym
    ensures ParseQuoted(Quote(sym) + rest) == (sym, rest)
  {
    var raw := Quote(sym) + rest;
    assert raw[1..] == sym + (['"'] + rest);
    assert raw[1..][|sym|] == '"';
    assert raw[1..][..|sym|] == sym;
  }

  /** A string in quotes. */
  function Quote(s: string): string
  {
    ['"'] + s + ['"']
  }

  /**
   * An unterminated quote takes the rest of the line: a line of a quote
   * and then no quote is one flag naming the rest.
   */
  lemma UnterminatedQuote(s: string)
    requires '"' !in s
    ensures Next(['"'] + s) == (Some(Flag(s)), [])
  {
    var raw := ['"'] + s;
    assert raw[1..] == s;
  }

  /** A key that parses unquoted: not empty, no leading quote, no whitespace or `=`. */
  predicate PlainKey(k: string)
  {
    |k| > 0 && k[0] != '"' && NoEnd(k, false)
  }

  /** A value that parses unquoted: no leading quote and no whitespace; it may be empty. */
  predicate PlainValue(v: string)
  {
    (v == [] || v[0] != '"') && NoEnd(v, true)
  }

  /** What may follow an unquoted token: the end of the line or whitespace. */
  predicate Separates(rest: string)
  {
    rest == [] || IsWhitespace(rest[0])
  }

  /** A symbol as written on the command line, in quotes or not. */
  function Written(s: string, quoted: bool): string
  {
    if quoted then Quote(s) else s
  }

  /** A key that reads back as written: without quotes if plain, in quotes if it holds no quote. */
  predicate KeyWritable(k: string, quoted: bool)
  {
    if quoted then '"' !in k else PlainKey(k)
  }

  /** A value that reads back as written. */
  predicate ValueWritable(v: string, quoted: bool)
  {
    if quoted then '"' !in v else PlainValue(v)
  }

  /** A written key parses back to the key, leaving what follows it. */
  lemma KeyParses(k: string, quoted: bool, after: string)
    requires KeyWritable(k, quoted) && (quoted || after == [] || EndsSymbol(after[0], false))
    ensures TrimStart(Written(k, quoted) + after) == Written(k, quoted) + after
    ensures ParseSymbol(Written(k, quoted) + after, false) == Some((k, after))
  {
    KeyStarts(k, quoted, after);
    KeySymbol(k, quoted, after);
  }

  /** A written key starts with no whitespace. */
  lemma KeyStarts(k: string, quoted: bool, after: string)
    requires KeyWritable(k, quoted)
    ensures TrimStart(Written(k, quoted) + after) == Written(k, quoted) + after
  {
    var line := Written(k, quoted) + after;
    if quoted {
      assert line[0] == '"';
    } else {
      assert line[0] == k[0];
    }
  }

  /** A written key is the symbol `parse_symbol` reads, up to what follows it. */
  lemma KeySymbol(k: string, quoted: bool, after: string)
    requires KeyWritable(k, quoted) && (quoted || after == [] || EndsSymbol(after[0], false))
    ensures ParseSymbol(Written(k, quoted) + after, false) == Some((k, after))
  {
    var line := Written(k, quoted) + after;
    if quoted {
      assert line[0] == '"';
      ParseQuotedAt(k, after);
    } else {
      assert line[0] == k[0];
      ParseUnquotedAt(k, after, false);
    }
  }

  /** A written value parses back to the value; an empty unquoted value at the end reads as nothing. */
  lemma ValueParses(v: string, quoted: bool, rest: string)
    requires ValueWritable(v, quoted) && (quoted || Separates(rest))
    ensures Written(v, quoted) + rest != [] ==> ParseSymbol(Written(v, quoted) + rest, true) == Some((v, rest))
  {
    var line := Written(v, quoted) + rest;
    if quoted {
      ParseQuotedAt(v, rest);
    } else if line != [] {
      assert line[0] == if v == [] then rest[0] else v[0];
      ParseUnquotedAt(v, rest, true);
    }
  }

  /**
   * A written key followed by whitespace or the end (or, when quoted, by
   * anything but `=`) is a flag.
   */
  lemma FlagNext(k: string, quoted: bool, rest: string)
    requires KeyWritable(k, quoted)
    requires if quoted then rest == [] || rest[0] != '=' else Separates(rest)
    ensures Next(Written(k, quoted) + rest) == (Some(Flag(k)), rest)
  {
    KeyParses(k, quoted, rest);
  }

  /**
   * A written key, `=` and a written value make a pair; an unquoted value
   * must be followed by whitespace or the end. The value of `k=` at the end
   * of the line is empty.
   */
  lemma PairNext(k: string, keyQuoted: bool, v: string, valueQuoted: bool, rest: string)
    requires KeyWritable(k, keyQuoted) && ValueWritable(v, valueQuoted)
    requires valueQuoted || Separates(rest)
    ensures Next(Written(k, keyQuoted) + ("=" + Written(v, valueQuoted) + rest)) == (Some(KeyValuePair(k, v)), rest)
  {
    var after := "=" + Written(v, valueQuoted) + rest;
    PairLineNext(k, keyQuoted, v, valueQuoted, rest);
    KeyParses(k, keyQuoted, after);
    NextOfTrimmed(Written(k, keyQuoted) + after);
  }

  /** `next` after `skip_whitespace` on a written pair. */
  lemma PairLineNext(k: string, keyQuoted: bool, v: string, valueQuoted: bool, rest: string)
    requires KeyWritable(k, keyQuoted) && ValueWritable(v, valueQuoted)
    requires valueQuoted || Separates(rest)
    ensures NextOfLine(Written(k, keyQuoted) + ("=" + Written(v, valueQuoted) + rest)) == (Some(KeyValuePair(k, v)), rest)
  {
    var tail := Written(v, valueQuoted) + rest;
    var after := "=" + Written(v, valueQuoted) + rest;
    KeyParses(k, keyQuoted, after);
    ValueParses(v, valueQuoted, rest);
    WrittenEmpty(v, valueQuoted, rest);
    Regroup("=", Written(v, valueQuoted), rest);
    PairOfLine(Written(k, keyQuoted) + after, k, after, v, tail, rest);
  }

  /** Only the empty value written without quotes, followed by nothing, is empty. */
  lemma WrittenEmpty(v: string, quoted: bool, rest: string)
    ensures Written(v, quoted) + rest == [] ==> !quoted && v == [] && rest == []
  {
    if quoted {
      assert |Written(v, quoted)| == |v| + 2;
    }
  }

  lemma Regroup<T>(a: seq<T>, b: seq<T>, c: seq<T>)
    ensures a + b + c == a + (b + c)
  {
  }

  lemma RegroupPair<T>(a: seq<T>, b: seq<T>, c: seq<T>, d: seq<T>, e: seq<T>)
    ensures a + b + c + d + e == a + (b + c + (d + e))
  {
  }

  lemma AppendEmpty<T>(a: seq<T>)
    ensures a + [] == a
  {
  }

  /** On a line that starts with no whitespace, `next` goes straight to the symbol. */
  lemma NextOfTrimmed(line: string)
    requires TrimStart(line) == line
    ensures Next(line) == NextOfLine(line)
  {
  }

  /** The steps of `next` on a line without leading whitespace that holds `key=value`. */
  lemma PairOfLine(line: string, k: string, after: string, v: string, tail: string, rest: string)
    requires ParseSymbol(line, false) == Some((k, after))
    requires after == "=" + tail
    requires tail != [] ==> ParseSymbol(tail, true) == Some((v, rest))
    requires tail == [] ==> v == [] && rest == []
    ensures NextOfLine(line) == (Some(KeyValuePair(k, v)), rest)
  {
    assert ParseEquals(after) == (true, tail) by {
      assert after == ['='] + tail;
    }
  }

  /** A token written as `key` or `key=value`, with or without quotes. */
  function Render(t: Token, quoted: bool): string
  {
    match t
    case Flag(k) => Written(k, quoted)
    case KeyValuePair(k, v) => Written(k, quoted) + ("=" + Written(v, quoted))
  }

  /** Tokens written one after another, each followed by a space. */
  function RenderAll(ts: seq<Token>, quoted: bool): string
  {
    if ts == [] then [] else Render(ts[0], quoted) + (" " + RenderAll(ts[1..], quoted))
  }

  /** A token whose key and value read back as written. */
  predicate Writable(t: Token, quoted: bool)
  {
    KeyWritable(t.key, quoted) && (t.KeyValuePair? ==> ValueWritable(t.value, quoted))
  }

  /** A written token followed by whitespace parses back to the token. */
  lemma RenderNext(t: Token, quoted: bool, tail: string)
    requires Writable(t, quoted) && |tail| > 0 && IsWhitespace(tail[0])
    ensures Next(Render(t, quoted) + tail) == (Some(t), tail)
  {
    match t
    case Flag(k) => FlagNext(k, quoted, tail);
    case KeyValuePair(k, v) =>
      assert Render(t, quoted) + tail == Written(k, quoted) + ("=" + Written(v, quoted) + tail);
      PairNext(k, quoted, v, quoted, tail);
  }

  /** `collect` after one token: the token, then the tokens of the rest. */
  lemma TokensStep(raw: string, t: Token, rest: string)
    requires Next(raw) == (Some(t), rest)
    ensures Tokens(raw) == [t] + Tokens(rest)
  {
  }

  /** A line of whitespace has no tokens. */
  lemma TokensOfWhitespace(ws: string)
    requires forall i :: 0 <= i < |ws| ==> IsWhitespace(ws[i])
    ensures Tokens(ws) == []
  {
    TrimWhitespace(ws, []);
    assert ws + [] == ws;
  }

  /** A line whose first token is followed by whitespace and then a line with known tokens. */
  lemma TokensCons(raw: string, t: Token, ws: string, rest: string, ts: seq<Token>)
    requires forall i :: 0 <= i < |ws| ==> IsWhitespace(ws[i])
    requires Next(raw) == (Some(t), ws + rest) && Tokens(rest) == ts
    ensures Tokens(raw) == [t] + ts
  {
    TokensStep(raw, t, ws + rest);
    TokensAfterWhitespace(ws, rest);
  }

  lemma HeadTail<T>(s: seq<T>)
    requires |s| > 0
    ensures [s[0]] + s[1..] == s
  {
  }

  /**
   * Writing tokens out and parsing the line gives the tokens back: without
   * quotes for plain keys and values, and with quotes for any key and value
   * that hold no quote.
   */
  lemma {:induction false} RoundTrip(ts: seq<Token>, quoted: bool)
    requires forall i :: 0 <= i < |ts| ==> Writable(ts[i], quoted)
    ensures Tokens(RenderAll(ts, quoted)) == ts
  {
    if ts != [] {
      var rest := RenderAll(ts[1..], quoted);
      var line := RenderAll(ts, quoted);
      assert Next(line) == (Some(ts[0]), " " + rest) by {
        RenderNext(ts[0], quoted, " " + rest);
      }
      RoundTrip(ts[1..], quoted);
      TokensCons(line, ts[0], " ", rest, ts[1..]);
      HeadTail(ts);
    }
  }

  /** A line holding one token and nothing after it. */
  lemma TokensSingle(raw: string, t: Token)
    requires Next(raw) == (Some(t), [])
    ensures Tokens(raw) == [t]
  {
    TokensStep(raw, t, []);
  }

  /** Whitespace only, and at least one character of it. */
  predicate IsGap(ws: string)
  {
    |ws| > 0 && forall i :: 0 <= i < |ws| ==> IsWhitespace(ws[i])
  }

  /** A written flag followed by whitespace is the first token. */
  lemma {:induction false} FlagGapNext(k: string, quoted: bool, ws: string, rest: string)
    requires KeyWritable(k, quoted) && IsGap(ws)
    ensures Next(Written(k, quoted) + ws + rest) == (Some(Flag(k)), ws + rest)
  {
    Regroup(Written(k, quoted), ws, rest);
    assert (ws + rest)[0] == ws[0];
    FlagNext(k, quoted, ws + rest);
  }

  /** A written pair followed by whitespace is the first token. */
  lemma {:induction false} PairGapNext(k: string, keyQuoted: bool, v: string, valueQuoted: bool, ws: string, rest: string)
    requires KeyWritable(k, keyQuoted) && ValueWritable(v, valueQuoted) && IsGap(ws)
    ensures Next(Written(k, keyQuoted) + "=" + Written(v, valueQuoted) + ws + rest) == (Some(KeyValuePair(k, v)), ws + rest)
  {
    RegroupPair(Written(k, keyQuoted), "=", Written(v, valueQuoted), ws, rest);
    assert (ws + rest)[0] == ws[0];
    PairNext(k, keyQuoted, v, valueQuoted, ws + rest);
  }

  /** A written flag, whitespace, and a line with known tokens. */
  lemma {:induction false} TokensAfterFlag(k: string, quoted: bool, ws: string, rest: string, ts: seq<Token>)
    requires KeyWritable(k, quoted) && IsGap(ws) && Tokens(rest) == ts
    ensures Tokens(Written(k, quoted) + ws + rest) == [Flag(k)] + ts
  {
    FlagGapNext(k, quoted, ws, rest);
    TokensCons(Written(k, quoted) + ws + rest, Flag(k), ws, rest, ts);
  }

  /** A written pair, whitespace, and a line with known tokens. */
  lemma {:induction false} TokensAfterPair(k: string, keyQuoted: bool, v: string, valueQuoted: bool, ws: string, rest: string, ts: seq<Token>)
    requires KeyWritable(k, keyQuoted) && ValueWritable(v, valueQuoted) && IsGap(ws) && Tokens(rest) == ts
    ensures Tokens(Written(k, keyQuoted) + "=" + Written(v, valueQuoted) + ws + rest) == [KeyValuePair(k, v)] + ts
  {
    PairGapNext(k, keyQuoted, v, valueQuoted, ws, rest);
    TokensCons(Written(k, keyQuoted) + "=" + Written(v, valueQuoted) + ws + rest, KeyValuePair(k, v), ws, rest, ts);
  }

  /** A line of one key-value pair. */
  lemma {:induction false} TokensOfPair(k: string, keyQuoted: bool, v: string, valueQuoted: bool)
    requires KeyWritable(k, keyQuoted) && ValueWritable(v, valueQuoted)
    ensures Tokens(Written(k, keyQuoted) + "=" + Written(v, valueQuoted)) == [KeyValuePair(k, v)]
  {
    var line := Written(k, keyQuoted) + "=" + Written(v, valueQuoted);
    assert Next(line) == (Some(KeyValuePair(k, v)), []) by {
      AppendEmpty("=" + Written(v, valueQuoted));
      Regroup(Written(k, keyQuoted), "=", Written(v, valueQuoted));
      PairNext(k, keyQuoted, v, valueQuoted, []);
    }
    TokensSingle(line, KeyValuePair(k, v));
  }

  /** A line of one flag. */
  lemma {:induction false} TokensOfFlag(k: string, quoted: bool)
    requires KeyWritable(k, quoted)
    ensures Tokens(Written(k, quoted)) == [Flag(k)]
  {
    assert Next(Written(k, quoted)) == (Some(Flag(k)), []) by {
      AppendEmpty(Written(k, quoted));
      FlagNext(k, quoted, []);
    }
    TokensSingle(Written(k, quoted), Flag(k));
  }

  /*
   * The unit tests of learnos_kernel/src/kaal/util/cmdline.rs. Each line is
   * given as the concatenation of its keys, values and separators, which
   * spells out the test's string literal.
   */

  /** learnos_kernel/src/kaal/util/cmdline.rs:111: `foo` is a flag. */
  lemma ExampleFlag(foo: string)
    requires foo == "foo"
    ensures Tokens(foo) == [Flag(foo)]
  {
    TokensOfFlag(foo, false);
  }

  /** learnos_kernel/src/kaal/util/cmdline.rs:112: `"foo bar"` is a flag holding a space. */
  lemma ExampleQuotedFlag(fooBar: string)
    requires fooBar == "foo bar"
    ensures Tokens(Quote(fooBar)) == [Flag(fooBar)]
  {
    TokensOfFlag(fooBar, true);
  }

  /** learnos_kernel/src/kaal/util/cmdline.rs:117: `foo=bar` is a pair. */
  lemma ExamplePair(foo: string, bar: string)
    requires foo == "foo" && bar == "bar"
    ensures Tokens(foo + "=" + bar) == [KeyValuePair(foo, bar)]
  {
    TokensOfPair(foo, false, bar, false);
  }

  /** learnos_kernel/src/kaal/util/cmdline.rs:118: in `"foo bar"=baz=qux` the value runs past the second `=`. */
  lemma ExampleValueWithEquals(fooBar: string, bazQux: string)
    requires fooBar == "foo bar" && bazQux == "baz=qux"
    ensures Tokens(Quote(fooBar) + "=" + bazQux) == [KeyValuePair(fooBar, bazQux)]
  {
    TokensOfPair(fooBar, true, bazQux, false);
  }

  /** learnos_kernel/src/kaal/util/cmdline.rs:119: `"foo bar"=` at the end of the line has an empty value. */
  lemma ExampleEmptyValue(fooBar: string)
    requires fooBar == "foo bar"
    ensures Tokens(Quote(fooBar) + "=") == [KeyValuePair(fooBar, [])]
  {
    TokensOfPair(fooBar, true, [], false);
    assert Quote(fooBar) + "=" + Written([], false) == Quote(fooBar) + "=";
  }

  /** learnos_kernel/src/kaal/util/cmdline.rs:120: `"foo bar=fun"="hello world"` is quoted on both sides. */
  lemma ExampleQuotedPair(fooBarFun: string, hello: string)
    requires fooBarFun == "foo bar=fun" && hello == "hello world"
    ensures Tokens(Quote(fooBarFun) + "=" + Quote(hello)) == [KeyValuePair(fooBarFun, hello)]
  {
    TokensOfPair(fooBarFun, true, hello, true);
  }

  /** A written pair followed by nothing but whitespace. */
  lemma {:induction false} PairAtEnd(k: string, keyQuoted: bool, v: string, valueQuoted: bool, ws: string)
    requires KeyWritable(k, keyQuoted) && ValueWritable(v, valueQuoted) && IsGap(ws)
    ensures Tokens(Written(k, keyQuoted) + "=" + Written(v, valueQuoted) + ws) == [KeyValuePair(k, v)]
  {
    var line := Written(k, keyQuoted) + "=" + Written(v, valueQuoted) + ws;
    assert Next(line) == (Some(KeyValuePair(k, v)), ws + []) by {
      PairGapNext(k, keyQuoted, v, valueQuoted, ws, []);
      AppendEmpty(line);
    }
    assert Tokens([]) == [];
    TokensCons(line, KeyValuePair(k, v), ws, [], []);
  }

  /** A written flag followed by nothing but whitespace. */
  lemma {:induction false} FlagAtEnd(k: string, quoted: bool, ws: string)
    requires KeyWritable(k, quoted) && IsGap(ws)
    ensures Tokens(Written(k, quoted) + ws) == [Flag(k)]
  {
    var line := Written(k, quoted) + ws;
    assert Next(line) == (Some(Flag(k)), ws + []) by {
      FlagGapNext(k, quoted, ws, []);
      AppendEmpty(line);
    }
    assert Tokens([]) == [];
    TokensCons(line, Flag(k), ws, [], []);
  }

  /** A plain flag, whitespace, a plain pair and trailing whitespace. */
  lemma {:induction false} FlagThenPair(k1: string, k2: string, v2: string, gap: string, end: string)
    requires PlainKey(k1) && PlainKey(k2) && PlainValue(v2) && IsGap(gap) && IsGap(end)
    ensures Tokens(k1 + gap + (k2 + "=" + v2 + end)) == [Flag(k1), KeyValuePair(k2, v2)]
  {
    var second := k2 + "=" + v2 + end;
    PairAtEnd(k2, false, v2, false, end);
    TokensAfterFlag(k1, false, gap, second, [KeyValuePair(k2, v2)]);
  }

  /** A plain flag, a plain pair and a quoted flag, each followed by whitespace. */
  lemma {:induction false} FlagPairQuotedFlag(k1: string, k2: string, v2: string, k3: string, gap1: string, gap2: string, end: string)
    requires PlainKey(k1) && PlainKey(k2) && PlainValue(v2) && '"' !in k3
    requires IsGap(gap1) && IsGap(gap2) && IsGap(end)
    ensures Tokens(k1 + gap1 + (k2 + "=" + v2 + gap2 + (Quote(k3) + end)))
      == [Flag(k1), KeyValuePair(k2, v2), Flag(k3)]
  {
    var third := Quote(k3) + end;
    FlagAtEnd(k3, true, end);
    var second := k2 + "=" + v2 + gap2 + third;
    assert Tokens(second) == [KeyValuePair(k2, v2), Flag(k3)] by {
      TokensAfterPair(k2, false, v2, false, gap2, third, [Flag(k3)]);
    }
    TokensAfterFlag(k1, false, gap1, second, [KeyValuePair(k2, v2), Flag(k3)]);
  }

  /**
   * learnos_kernel/src/kaal/util/cmdline.rs:125: `foo  bar=baz   ` is a flag
   * and a pair; runs of whitespace separate tokens and end the line.
   */
  lemma ExampleWhitespace(foo: string, bar: string, baz: string, two: string, three: string)
    requires foo == "foo" && bar == "bar" && baz == "baz" && two == "  " && three == "   "
    ensures Tokens(foo + two + (bar + "=" + baz + three)) == [Flag(foo), KeyValuePair(bar, baz)]
  {
    FlagThenPair(foo, bar, baz, two, three);
  }

  /**
   * learnos_kernel/src/kaal/util/cmdline.rs:126-128: `foo  bar=baz  "what=a fun" `
   * ends with a quoted flag that holds `=` and a space.
   */
  lemma ExampleQuotedLast(foo: string, bar: string, baz: string, what: string, two: string, one: string)
    requires foo == "foo" && bar == "bar" && baz == "baz" && what == "what=a fun" && two == "  " && one == " "
    ensures Tokens(foo + two + (bar + "=" + baz + two + (Quote(what) + one)))
      == [Flag(foo), KeyValuePair(bar, baz), Flag(what)]
  {
    FlagPairQuotedFlag(foo, bar, baz, what, two, two, one);
  }
}

=== FILE: common.dfy ===
/**
 * Shared result types of the model.
 *
 * The kernel is written in Rust: a lookup that may find nothing returns an
 * `Option`, and a failed `assert!`, `panic!`, `expect` or `unwrap` aborts the
 * kernel. The model makes the abort an explicit `Panic` outcome so that
 * every operation is a total function whose error paths can be stated.
 */
module Common {

  datatype Option<T> = None | Some(value: T)

  /** The result of an operation that may abort the kernel. */
  datatype Outcome<T> = Done(value: T) | Panic

  /** Number of values a 64-bit machine word (`usize`, `u64`) can hold. */
  const WORD_LIMIT: nat := 0x1_0000_0000_0000_0000

  /** Number of values a `u32` can hold. */
  const U32_LIMIT: nat := 0x1_0000_0000

  /** A value of a 64-bit unsigned machine word. */
  type Word = x: nat | x < WORD_LIMIT

  /** A value of a `u32`. */
  type U32 = x: nat | x < U32_LIMIT

  /** A value of a `u16`. */
  type U16 = x: nat | x < 0x1_0000

  /** A value of a `u8`. */
  type U8 = x: nat | x < 256

  /**
   * The same word as a 64-bit vector, for the register and page-table
   * encodings, built bit by bit from the top so that its value is `n`.
   */
  function ToWord(n: nat): (w: bv64)
    requires n < WORD_LIMIT
    ensures w as nat == n
  {
    if n == 0 then 0
    else
      var high := ToWord(n / 2);
      BelowTopBit(high);
      Double(high);
      if n % 2 == 0 then high << 1 else (high << 1) | 1
  }

  /** A vector whose value is below 2^63 has its top bit clear. */
  lemma BelowTopBit(x: bv64)
    requires x as nat < 0x8000_0000_0000_0000
    ensures x < 0x8000_0000_0000_0000
  {
  }

  /** Without its top bit, shifting left by one doubles the value. */
  lemma Double(x: bv64)
    requires x < 0x8000_0000_0000_0000
    ensures (x << 1) as nat == 2 * (x as nat)
    ensures ((x << 1) | 1) as nat == 2 * (x as nat) + 1
  {
  }

  /** Two vectors with the same value are the same vector. */
  lemma SameValue(a: bv64, b: bv64)
    requires a as nat == b as nat
    ensures a == b
  {
    FromValue(a, a as nat);
    FromValue(b, b as nat);
  }

  /** A vector is the conversion of its value. */
  lemma FromValue(x: bv64, n: nat)
    requires x as nat == n
    ensures x == n as bv64
  {
  }
}

=== FILE: direct.dfy ===
/**
 * The direct linear mapping of physical memory (kmem/src/paging/direct.rs).
 *
 * A window of `size` bytes of physical memory starting at `physicalBase` is
 * visible at `virtualBase`. Translation in either direction shifts by the
 * difference of the bases and aborts the kernel for an address outside the
 * window.
 */
module Direct {
  import opened Common

  datatype DirectMapping = DirectMapping(virtualBase: Word, physicalBase: Word, size: Word)

  /**
   * Neither end of the window overflows a machine word; otherwise the
   * comparisons in `contains_phys` and `contains_virt` would overflow.
   */
  predicate WellFormed(m: DirectMapping)
  {
    m.physicalBase + m.size < WORD_LIMIT && m.virtualBase + m.size < WORD_LIMIT
  }

  /** `mapping.contains_phys(p)` */
  predicate ContainsPhys(m: DirectMapping, p: Word)
  {
    p >= m.physicalBase && p < m.physicalBase + m.size
  }

  /** `mapping.contains_virt(v)` */
  predicate ContainsVirt(m: DirectMapping, v: Word)
  {
    v >= m.virtualBase && v < m.virtualBase + m.size
  }

  /** `mapping.phys_to_virt(p)`: panics outside the window. */
  function PhysToVirt(m: DirectMapping, p: Word): (r: Outcome<Word>)
    requires WellFormed(m)
    ensures r.Done? <==> ContainsPhys(m, p)
    ensures r.Done? ==> ContainsVirt(m, r.value) && r.value - m.virtualBase == p - m.physicalBase
  {
    if !ContainsPhys(m, p) then Panic else Done(p - m.physicalBase + m.virtualBase)
  }

  /** `mapping.virt_to_phys(v)`: panics outside the window. */
  function VirtToPhys(m: DirectMapping, v: Word): (r: Outcome<Word>)
    requires WellFormed(m)
    ensures r.Done? <==> ContainsVirt(m, v)
    ensures r.Done? ==> ContainsPhys(m, r.value) && r.value - m.physicalBase == v - m.virtualBase
  {
    if !ContainsVirt(m, v) then Panic else Done(v - m.virtualBase + m.physicalBase)
  }

  /** Translating there and back is the identity on both sides of the window. */
  lemma RoundTrip(m: DirectMapping, p: Word, v: Word)
    requires WellFormed(m)
    ensures ContainsPhys(m, p) ==> VirtToPhys(m, PhysToVirt(m, p).value) == Done(p)
    ensures ContainsVirt(m, v) ==> PhysToVirt(m, VirtToPhys(m, v).value) == Done(v)
  {
  }

  /** The window is exactly `[base, base + size)`: its first byte is inside, the byte after it is not. */
  lemma WindowEdges(m: DirectMapping)
    requires WellFormed(m)
    ensures m.size > 0 ==> ContainsPhys(m, m.physicalBase) && ContainsVirt(m, m.virtualBase)
    ensures !ContainsPhys(m, m.physicalBase + m.size) && !ContainsVirt(m, m.virtualBase + m.size)
    ensures m.physicalBase > 0 ==> !ContainsPhys(m, m.physicalBase - 1)
  {
  }

  /** The unit test: 10000 frames from physical 0x1000 mapped at 0xFFFF_FFFF_0000_0000. */
  lemma UnitTest()
    ensures var m := DirectMapping(0xFFFF_FFFF_0000_0000, 0x1000, 4096 * 10000);
      var high := 0x1000 + 4096 * 10000;
      && WellFormed(m)
      && ContainsPhys(m, 0x4000)
      && PhysToVirt(m, 0x4000) == Done(0xFFFF_FFFF_0000_3000)
      && VirtToPhys(m, PhysToVirt(m, 0x4000).value) == Done(0x4000)
      && ContainsPhys(m, 0x1000) && VirtToPhys(m, PhysToVirt(m, 0x1000).value) == Done(0x1000)
      && ContainsPhys(m, high - 1) && VirtToPhys(m, PhysToVirt(m, high - 1).value) == Done(high - 1)
      && !ContainsPhys(m, 0x1000 - 1) && !ContainsPhys(m, high)
  {
  }
}

=== FILE: frame_table.dfy ===
/**
 * The page-frame table (kmem/src/physical/mgmt.rs).
 *
 * The table holds one state per physical page frame; entry `i` describes
 * frame `i`. The raw pointer and the length of the source become a sequence.
 * Marking a region checks the region against the table length and every
 * entry in it for being free, and aborts the kernel otherwise.
 */
module FrameTable {
  import opened Common
  import opened Frames

  datatype State = Free | Allocated | Reserved

  type Table = seq<State>

  /** `size_of::<PageFrameInfo>()`: the state is a one-byte enum. */
  const ENTRY_SIZE: nat := 1

  /** `PageFrameTable::required_size_bytes(n)` */
  function RequiredSizeBytes(n: nat): (r: nat)
    ensures r == n
  {
    n * ENTRY_SIZE
  }

  /** `PageFrameTable::from_addr(addr, n)`: a table of `n` free frames. */
  function FromAddr(n: nat): (t: Table)
    ensures |t| == n
    ensures forall i :: 0 <= i < n ==> t[i] == Free
  {
    seq(n, _ => Free)
  }

  /** Every frame of the region is inside the table and free. */
  predicate RegionFree(t: Table, region: PageFrameRegion)
  {
    forall i :: region.start.number <= i < region.end.number ==> i < |t| && t[i] == Free
  }

  /** `region_iter_mut`'s bounds assertion. */
  predicate RegionInTable(t: Table, region: PageFrameRegion)
  {
    region.start.number < |t| && region.end.number <= |t|
  }

  /**
   * The common body of `mark_allocated` and `mark_reserved`: bounds check,
   * then each frame in order must be free and is set to `s`.
   */
  function MarkRegion(t: Table, region: PageFrameRegion, s: State): (r: Outcome<Table>)
    ensures r.Done? <==> RegionInTable(t, region) && RegionFree(t, region)
    ensures r.Done? ==> |r.value| == |t|
    ensures r.Done? ==> forall i :: 0 <= i < |t| ==>
      r.value[i] == if InRegion(region, i) then s else t[i]
  {
    if !RegionInTable(t, region) then Panic
    else if exists i :: region.start.number <= i < region.end.number && t[i] != Free then Panic
    else Done(seq(|t|, i requires 0 <= i < |t| => if InRegion(region, i) then s else t[i]))
  }

  /** `table.mark_allocated(region)` */
  function MarkAllocated(t: Table, region: PageFrameRegion): (r: Outcome<Table>)
    ensures r.Done? <==> RegionInTable(t, region) && RegionFree(t, region)
    ensures r.Done? ==> |r.value| == |t| && forall i :: 0 <= i < |t| ==>
      r.value[i] == if InRegion(region, i) then Allocated else t[i]
  {
    MarkRegion(t, region, Allocated)
  }

  /** `table.mark_reserved(region)` */
  function MarkReserved(t: Table, region: PageFrameRegion): (r: Outcome<Table>)
    ensures r.Done? <==> RegionInTable(t, region) && RegionFree(t, region)
    ensures r.Done? ==> |r.value| == |t| && forall i :: 0 <= i < |t| ==>
      r.value[i] == if InRegion(region, i) then Reserved else t[i]
  {
    MarkRegion(t, region, Reserved)
  }

  /** Marking panics on the second attempt: the frames are no longer free. */
  lemma MarkTwicePanics(t: Table, region: PageFrameRegion, s: State, s': State)
    requires s != Free && !IsEmpty(region) && MarkRegion(t, region, s).Done?
    ensures MarkRegion(MarkRegion(t, region, s).value, region, s') == Panic
  {
    var t' := MarkRegion(t, region, s).value;
    assert t'[region.start.number] == s;
  }

  /** The number of entries of `t` in state `s`. */
  function Count(t: Table, s: State): (c: nat)
    ensures c <= |t|
  {
    if |t| == 0 then 0 else Count(t[..|t| - 1], s) + (if t[|t| - 1] == s then 1 else 0)
  }

  datatype PageFrameStats = PageFrameStats(totalCount: nat, reservedCount: nat, allocatedCount: nat)

  /** `table.stats()`: one pass over the table counting allocated and reserved frames. */
  method Stats(t: Table) returns (st: PageFrameStats)
    ensures st.totalCount == |t|
    ensures st.allocatedCount == Count(t, Allocated)
    ensures st.reservedCount == Count(t, Reserved)
    ensures st.totalCount - st.allocatedCount - st.reservedCount == Count(t, Free)
  {
    var alloced, reserved := 0, 0;
    for i := 0 to |t|
      invariant alloced == Count(t[..i], Allocated)
      invariant reserved == Count(t[..i], Reserved)
    {
      assert t[..i + 1][..i] == t[..i];
      match t[i]
      case Allocated => alloced := alloced + 1;
      case Reserved => reserved := reserved + 1;
      case Free =>
    }
    assert t[..|t|] == t;
    CountPartition(t);
    st := PageFrameStats(|t|, reserved, alloced);
  }

  /** Every frame is in exactly one state. */
  lemma {:induction false} CountPartition(t: Table)
    ensures Count(t, Free) + Count(t, Allocated) + Count(t, Reserved) == |t|
  {
    if |t| > 0 {
      CountPartition(t[..|t| - 1]);
    }
  }
}

=== FILE: frames.dfy ===
/**
 * Page frames and page-frame regions (kmem/src/physical/mod.rs).
 *
 * Frame `n` is the 4 KiB of physical memory `[n * 4096, n * 4096 + 4096)`.
 * `>> PAGE_ALIGN_BITS` on a word is division by `PAGE_SIZE`. A region is the
 * half-open interval of frame numbers `[start, end)`.
 */
module Frames {
  import opened Common
  import opened Arith
  import opened Align
  import opened Addr

  const PAGE_ALIGN_BITS: nat := 12
  const PAGE_SIZE: nat := 4096

  /** Number of frames in the 64-bit physical address space. */
  const FRAME_LIMIT: nat := 0x10_0000_0000_0000

  lemma PageSizeIsPow2()
    ensures IsPow2(PAGE_SIZE) && PAGE_SIZE == Pow2(PAGE_ALIGN_BITS)
  {
    Pow2Values();
    Pow2IsPow2(12);
  }

  datatype PageFrame = PageFrame(number: nat)

  /** `PageFrame::next_above(addr)`: the first frame starting at or above `addr`. */
  function NextAbove(addr: Word): (r: Outcome<PageFrame>)
    ensures r.Done? <==> addr <= WORD_LIMIT - PAGE_SIZE
    ensures r.Done? ==> addr <= r.value.number * PAGE_SIZE < addr + PAGE_SIZE
  {
    PageSizeIsPow2();
    match AlignUp(addr, PAGE_SIZE)
    case Panic => Panic
    case Done(v) => Done(PageFrame(v / PAGE_SIZE))
  }

  /** `PageFrame::including(addr)`: the frame that contains `addr`. */
  function Including(addr: Word): (r: PageFrame)
    ensures r.number * PAGE_SIZE <= addr < r.number * PAGE_SIZE + PAGE_SIZE
    ensures r.number < FRAME_LIMIT
  {
    PageSizeIsPow2();
    PageFrame(AlignDown(addr, PAGE_SIZE).value / PAGE_SIZE)
  }

  /** `frame.start_address()` */
  function StartAddress(f: PageFrame): (r: Word)
    requires f.number < FRAME_LIMIT
    ensures Including(r) == f
    ensures r % PAGE_SIZE == 0
  {
    f.number * PAGE_SIZE
  }

  /** `frame.end_address()`: the first byte after the frame. */
  function EndAddress(f: PageFrame): (r: Word)
    requires f.number + 1 < FRAME_LIMIT
    ensures r > 0 && Including(r - 1) == f
    ensures NextAbove(r) == Done(PageFrame(f.number + 1))
  {
    f.number * PAGE_SIZE + PAGE_SIZE
  }

  /** Every address lies in the frame `including` returns, and only in that one. */
  lemma IncludingIsUnique(addr: Word, n: nat)
    requires n * PAGE_SIZE <= addr < n * PAGE_SIZE + PAGE_SIZE
    ensures Including(addr) == PageFrame(n)
  {
  }

  /** `next_above` and `including` agree exactly on frame starts. */
  lemma NextAboveOfAligned(addr: Word)
    requires addr <= WORD_LIMIT - PAGE_SIZE
    ensures NextAbove(addr) == Done(Including(addr)) <==> addr % PAGE_SIZE == 0
  {
  }

  /** A region of frames `[start, end)`. */
  datatype PageFrameRegion = PageFrameRegion(start: PageFrame, end: PageFrame)

  /** Frame `n` belongs to the region. */
  predicate InRegion(r: PageFrameRegion, n: nat)
  {
    r.start.number <= n < r.end.number
  }

  /** Frame `n` lies entirely inside the bytes `[s, e)`. */
  predicate FrameWithin(n: nat, s: nat, e: nat)
  {
    s <= n * PAGE_SIZE && n * PAGE_SIZE + PAGE_SIZE <= e
  }

  /** Frame `n` shares a byte with `[s, e)`, or holds `s` when the range is empty and `s` is inside the frame. */
  predicate FrameOverlaps(n: nat, s: nat, e: nat)
  {
    n * PAGE_SIZE < e && s < n * PAGE_SIZE + PAGE_SIZE
  }

  /**
   * `PageFrameRegion::new_included_in(range)`: the largest region inside the
   * range. Rounding the start up panics for a start in the last frame.
   */
  function NewIncludedIn(range: AddrRange): (r: Outcome<PageFrameRegion>)
    requires range.start.value + range.length < WORD_LIMIT
    ensures r.Done? <==> range.start.value <= WORD_LIMIT - PAGE_SIZE
    ensures r.Done? ==> forall n: nat ::
      InRegion(r.value, n) <==> FrameWithin(n, range.start.value, End(range).value)
  {
    match NextAbove(range.start.value)
    case Panic => Panic
    case Done(start) => Done(PageFrameRegion(start, Including(End(range).value)))
  }

  /**
   * `PageFrameRegion::new_including(range)`: the smallest region covering the
   * range. The end is rounded up by hand, so the last frame does not overflow.
   */
  function NewIncluding(range: AddrRange): (r: PageFrameRegion)
    requires range.start.value + range.length < WORD_LIMIT
    ensures forall n: nat :: InRegion(r, n) <==> FrameOverlaps(n, range.start.value, End(range).value)
    ensures r.end.number <= FRAME_LIMIT
  {
    var end := End(range).value;
    var endBase := end / PAGE_SIZE;
    var endOffset := if end % PAGE_SIZE != 0 then 1 else 0;
    PageFrameRegion(Including(range.start.value), PageFrame(endBase + endOffset))
  }

  /** `region.length()`: an inverted region has length 0. */
  function Length(r: PageFrameRegion): (len: nat)
    ensures len == 0 <==> IsEmpty(r)
    ensures forall n: nat :: InRegion(r, n) <==> r.start.number <= n < r.start.number + len
  {
    if r.start.number > r.end.number then 0 else r.end.number - r.start.number
  }

  /** `region.is_empty()` */
  predicate IsEmpty(r: PageFrameRegion)
  {
    r.start.number >= r.end.number
  }

  /** A region is empty iff its length is 0 iff it holds no frame. */
  lemma EmptyIffNoFrames(r: PageFrameRegion)
    ensures IsEmpty(r) <==> Length(r) == 0
    ensures IsEmpty(r) <==> forall n: nat :: !InRegion(r, n)
  {
    if !IsEmpty(r) {
      assert InRegion(r, r.start.number);
    }
  }

  /** The unit-test vectors of kmem/src/physical/mod.rs: a = 0x400F, b = 0x4EF0, c = 0x7FFF. */
  lemma IncludedInExampleAB()
    ensures IsEmpty(NewIncludedIn(FromBounds(Addr(0x400F), Addr(0x4EF0))).value)
  {
    var r := NewIncludedIn(FromBounds(Addr(0x400F), Addr(0x4EF0)));
    assert NextAbove(0x400F).value.number == 5;
    assert Including(0x4EF0).number == 4;
  }

  lemma IncludedInExampleAC()
    ensures NewIncludedIn(FromBounds(Addr(0x400F), Addr(0x7FFF))) == Done(PageFrameRegion(PageFrame(5), PageFrame(7)))
  {
    assert NextAbove(0x400F).value.number == 5;
    assert Including(0x7FFF).number == 7;
  }

  lemma IncludingExamples()
    ensures NewIncluding(FromBounds(Addr(0x400F), Addr(0x4EF0))) == PageFrameRegion(PageFrame(4), PageFrame(5))
    ensures NewIncluding(FromBounds(Addr(0x400F), Addr(0x7FFF))) == PageFrameRegion(PageFrame(4), PageFrame(8))
  {
    assert Including(0x400F).number == 4;
  }

  /** The whole 64-bit address space is covered by 2^52 frames, with no overflow. */
  lemma WholeMemory()
    ensures var r := NewIncluding(FromBounds(Addr(0), Addr(0xFFFF_FFFF_FFFF_FFFF)));
      !IsEmpty(r) && Length(r) == FRAME_LIMIT
  {
    assert Including(0).number == 0;
  }
}

=== FILE: idt.dfy ===
/**
 * Interrupt descriptor table entries (amd64/src/idt.rs).
 *
 * An `IdtEntry` is the 16-byte gate descriptor of section 6.14.1 of the
 * Intel 64 and IA-32 Architectures Software Developer's Manual, Volume 3A:
 * the handler address split over three offset fields, the code-segment
 * selector, and the `type_attr` byte laid out as `[P:1][DPL:2][0:1][Type:4]`.
 * The model keeps the struct's fields as numbers and reads the byte through
 * `Packed` fields: the gate type is bits 0-3, the descriptor privilege level
 * bits 5-6 and the present flag bit 7. The setters take `&mut self` in the
 * source and are methods returning the updated entry here.
 */
module Idt {
  import opened Common
  import opened Arith
  import opened Packed
  import Bits

  /**
   * `GateType(u8)`. Its field is private, so the only gate types are the
   * constants below and the values `gate_type()` reads back; all are below 16.
   */
  type GateType = x: nat | x < 16

  const CALL_GATE: GateType := 0x0C
  const INTERRUPT_GATE: GateType := 0x0E
  const TRAP_GATE: GateType := 0x0F

  /** `Ring` (bare_metal/src/segments.rs): a privilege level from 0 (kernel) to 3 (user). */
  type Ring = x: nat | x < 4

  /** `Ring::new(ring)`: none above ring 3. */
  function NewRing(ring: nat): Option<Ring>
  {
    if ring <= 3 then Some(ring) else None
  }

  /** A handler is a function pointer, never null. */
  type Handler = x: Word | x != 0 witness 1

  datatype IdtEntry = IdtEntry(
    offsetLow: U16, selector: U16, reservedIst: U8, typeAttr: U8,
    offsetMiddle: U16, offsetHigh: U32, reserved: U32)

  // ---------------------------------------------------------------------
  // The getters
  // ---------------------------------------------------------------------

  /** `present()`: bit 7 of `type_attr`. */
  predicate Present(e: IdtEntry)
    ensures Present(e) <==> Bits.Bit(e.typeAttr, 7)
  {
    GetBitIsField(e.typeAttr, 7, 8);
    Bits.GetBitIsBit(e.typeAttr, 7, 8);
    assert Pow2(7) == 0x80;
    Field(e.typeAttr, 0x80, 2) == 1
  }

  /** `gate_type()`: bits 0-3 of `type_attr`. */
  function GateTypeOf(e: IdtEntry): (t: GateType)
    ensures forall i: nat :: Bits.Bit(t, i) <==> i < 4 && Bits.Bit(e.typeAttr, i)
  {
    FieldBits(e.typeAttr, 0, 4);
    assert Pow2(4) == 16;
    Field(e.typeAttr, 1, 16)
  }

  /**
   * `descriptor_privilege()`: bits 5-6 of `type_attr`, through `Ring::new`
   * and `unwrap`. Two bits never exceed ring 3, so the unwrap never panics.
   */
  function DescriptorPrivilege(e: IdtEntry): (r: Ring)
    ensures forall i: nat :: Bits.Bit(r, i) <==> i < 2 && Bits.Bit(e.typeAttr, 5 + i)
  {
    FieldBits(e.typeAttr, 5, 2);
    assert Pow2(5) == 0x20 && Pow2(2) == 4;
    NewRing(Field(e.typeAttr, 0x20, 4)).value
  }

  /** Bit 4 of `type_attr`, which the descriptor format requires to be zero. */
  function ZeroBit(e: IdtEntry): nat
  {
    Field(e.typeAttr, 0x10, 2)
  }

  /**
   * `handler()`: the three offsets joined into one address (they occupy
   * disjoint bits, so the source's `|` is a sum), none when it is zero.
   */
  function HandlerOf(e: IdtEntry): (r: Option<Handler>)
    ensures r.None? <==> e.offsetLow == 0 && e.offsetMiddle == 0 && e.offsetHigh == 0
    ensures r.Some? ==> (Field(r.value, 1, 0x1_0000) == e.offsetLow
      && Field(r.value, 0x1_0000, 0x1_0000) == e.offsetMiddle
      && Field(r.value, 0x1_0000_0000, 0x1_0000_0000) == e.offsetHigh)
  {
    var addr := JoinedAddress(e);
    FieldOfParts(addr, e.offsetHigh, e.offsetMiddle, e.offsetLow, 0x1_0000, 0x1_0000);
    assert e.offsetMiddle * 0x1_0000 + e.offsetLow < 0x1_0000_0000;
    FieldOfParts(addr, 0, e.offsetHigh, e.offsetMiddle * 0x1_0000 + e.offsetLow, 0x1_0000_0000, 0x1_0000_0000);
    if addr != 0 then Some(addr) else None
  }

  function JoinedAddress(e: IdtEntry): (addr: Word)
  {
    e.offsetLow + e.offsetMiddle * 0x1_0000 + e.offsetHigh * 0x1_0000_0000
  }

  // ---------------------------------------------------------------------
  // The setters
  // ---------------------------------------------------------------------

  /** The address `set_handler` transmutes an optional handler to: null for none. */
  function Address(handler: Option<Handler>): Word
  {
    if handler.None? then 0 else handler.value
  }

  /** The three offset fields of an address put back together give the address. */
  lemma OffsetsJoin(addr: Word)
    ensures Field(addr, 1, 0x1_0000) + Field(addr, 0x1_0000, 0x1_0000) * 0x1_0000
      + Field(addr, 0x1_0000_0000, 0x1_0000_0000) * 0x1_0000_0000 == addr
  {
    Decompose(addr, 0x1_0000, 0x1_0000);
    DivModUnique(addr / 0x1_0000_0000, 0x1_0000_0000, 0, addr / 0x1_0000_0000);
  }

  /**
   * `set_handler(handler)`: bits 0-15, 16-31 and 32-63 of the address go to
   * the low, middle and high offsets. `handler()` then reads back exactly
   * the handler that was set, and no other field changes.
   */
  method SetHandler(e: IdtEntry, handler: Option<Handler>) returns (r: IdtEntry)
    ensures HandlerOf(r) == handler
    ensures r.(offsetLow := e.offsetLow, offsetMiddle := e.offsetMiddle, offsetHigh := e.offsetHigh) == e
  {
    var addr := Address(handler);
    OffsetsJoin(addr);
    r := e.(offsetLow := Field(addr, 1, 0x1_0000),
            offsetMiddle := Field(addr, 0x1_0000, 0x1_0000),
            offsetHigh := Field(addr, 0x1_0000_0000, 0x1_0000_0000));
  }

  /** `set_selector(selector)` */
  function SetSelector(e: IdtEntry, selector: U16): IdtEntry
  {
    e.(selector := selector)
  }

  /**
   * `set_present(value)`: sets or clears bit 7. Only `type_attr` changes, and
   * within it only bit 7, so the other fields read as before.
   */
  method SetPresent(e: IdtEntry, value: bool) returns (r: IdtEntry)
    ensures Present(r) == value
    ensures r == e.(typeAttr := r.typeAttr) && SameOutside(r.typeAttr, e.typeAttr, 0x80, 2)
    ensures GateTypeOf(r) == GateTypeOf(e) && DescriptorPrivilege(r) == DescriptorPrivilege(e)
    ensures ZeroBit(r) == ZeroBit(e)
  {
    var b := if value then 1 else 0;
    SetFieldOnly(e.typeAttr, 0x80, 2, b);
    SetFieldBelow(e.typeAttr, 0x80, 2, b, 0x100);
    r := e.(typeAttr := SetField(e.typeAttr, 0x80, 2, b));
    FieldBelow(r.typeAttr, e.typeAttr, 0x80, 2, 1, 16);
    FieldBelow(r.typeAttr, e.typeAttr, 0x80, 2, 0x20, 4);
    FieldBelow(r.typeAttr, e.typeAttr, 0x80, 2, 0x10, 2);
  }

  /**
   * `set_gate_type(gate_type)`: bits 0-3 of `type_attr` replaced by the gate
   * type, every other bit kept.
   */
  method SetGateType(e: IdtEntry, gateType: GateType) returns (r: IdtEntry)
    ensures GateTypeOf(r) == gateType
    ensures r == e.(typeAttr := r.typeAttr) && SameOutside(r.typeAttr, e.typeAttr, 1, 16)
    ensures Present(r) == Present(e) && DescriptorPrivilege(r) == DescriptorPrivilege(e)
    ensures ZeroBit(r) == ZeroBit(e)
  {
    SetFieldOnly(e.typeAttr, 1, 16, gateType);
    SetFieldBelow(e.typeAttr, 1, 16, gateType, 0x100);
    r := e.(typeAttr := SetField(e.typeAttr, 1, 16, gateType));
    FieldAbove(r.typeAttr, e.typeAttr, 1, 16, 0x80, 2);
    FieldAbove(r.typeAttr, e.typeAttr, 1, 16, 0x20, 4);
    FieldAbove(r.typeAttr, e.typeAttr, 1, 16, 0x10, 2);
  }

  /**
   * `set_descriptor_privilege(ring)`: bits 5-6 of `type_attr` replaced by the
   * ring number, every other bit kept.
   */
  method SetDescriptorPrivilege(e: IdtEntry, ring: Ring) returns (r: IdtEntry)
    ensures DescriptorPrivilege(r) == ring
    ensures r == e.(typeAttr := r.typeAttr) && SameOutside(r.typeAttr, e.typeAttr, 0x20, 4)
    ensures Present(r) == Present(e) && GateTypeOf(r) == GateTypeOf(e)
    ensures ZeroBit(r) == ZeroBit(e)
  {
    SetFieldOnly(e.typeAttr, 0x20, 4, ring);
    SetFieldBelow(e.typeAttr, 0x20, 4, ring, 0x100);
    r := e.(typeAttr := SetField(e.typeAttr, 0x20, 4, ring));
    FieldAbove(r.typeAttr, e.typeAttr, 0x20, 4, 0x80, 2);
    FieldBelow(r.typeAttr, e.typeAttr, 0x20, 4, 1, 16);
    FieldBelow(r.typeAttr, e.typeAttr, 0x20, 4, 0x10, 2);
  }

  // ---------------------------------------------------------------------
  // Constructors
  // ---------------------------------------------------------------------

  /** `type_attr` is determined by the present flag, the privilege level, bit 4 and the gate type. */
  lemma TypeAttrOfFields(e: IdtEntry)
    ensures e.typeAttr == (if Present(e) then 0x80 else 0) + DescriptorPrivilege(e) * 0x20
      + ZeroBit(e) * 0x10 + GateTypeOf(e)
  {
    var t := e.typeAttr;
    ByteOfFields(t);
    assert Present(e) == (Field(t, 0x80, 2) == 1) && GateTypeOf(e) == Field(t, 1, 16);
    assert DescriptorPrivilege(e) == Field(t, 0x20, 4);
  }

  /** A byte is the sum of its fields at bit 7, bits 5-6, bit 4 and bits 0-3. */
  lemma ByteOfFields(t: nat)
    requires t < 0x100
    ensures t == Field(t, 0x80, 2) * 0x80 + Field(t, 0x20, 4) * 0x20 + Field(t, 0x10, 2) * 0x10 + Field(t, 1, 16)
  {
    Decompose(t, 0x80, 2);
    Decompose(t, 0x20, 4);
    Decompose(t, 0x10, 2);
    FieldOfLow(t, 0x80, 0x20, 4);
    FieldOfLow(t, 0x20, 0x10, 2);
    FieldOfLow(t, 0x10, 1, 16);
  }

  /**
   * `IdtEntry::empty()`: a non-present interrupt gate with privilege level 0,
   * the invalid selector 0 and no handler.
   */
  function Empty(): (e: IdtEntry)
    ensures !Present(e) && GateTypeOf(e) == INTERRUPT_GATE && DescriptorPrivilege(e) == 0
    ensures e.selector == 0 && ZeroBit(e) == 0
    ensures e.reservedIst == 0 && e.reserved == 0
  {
    IdtEntry(0, 0, 0, INTERRUPT_GATE, 0, 0, 0)
  }

  /** The empty entry has no handler. */
  lemma EmptyHasNoHandler()
    ensures HandlerOf(Empty()).None?
  {
  }

  /**
   * `IdtEntry::new(...)`: the empty entry with each field set in turn. Every
   * getter returns its argument, the reserved fields and bit 4 stay zero,
   * and so `type_attr` is exactly the packed present flag, privilege level
   * and gate type.
   */
  method New(gateType: GateType, selector: U16, handler: Option<Handler>, ring: Ring, present: bool) returns (e: IdtEntry)
    ensures GateTypeOf(e) == gateType && e.selector == selector && HandlerOf(e) == handler
    ensures DescriptorPrivilege(e) == ring && Present(e) == present
    ensures e.reservedIst == 0 && e.reserved == 0
    ensures e.typeAttr == (if present then 0x80 else 0) + ring * 0x20 + gateType
  {
    e := Empty();
    e := SetGateType(e, gateType);
    e := SetSelector(e, selector);
    e := SetHandler(e, handler);
    e := SetDescriptorPrivilege(e, ring);
    e := SetPresent(e, present);
    TypeAttrOfFields(e);
  }

  /** The entry of the unit test at amd64/src/idt.rs:207-216: a present ring-2 trap gate. */
  method NewExample(h: Handler) returns (e: IdtEntry)
    ensures HandlerOf(e) == Some(h) && e.selector == 32
    ensures DescriptorPrivilege(e) == 2 && GateTypeOf(e) == TRAP_GATE && Present(e)
    ensures e.typeAttr == 0xCF
  {
    e := New(TRAP_GATE, 32, Some(h), 2, true);
  }

  /** Number of entries in an `Idt`; an `u8` index always lies inside. */
  const ENTRY_COUNT: nat := 256

  /**
   * `Idt::new()`: every entry is the empty entry, and the `u8` indexing of
   * `Index` and `IndexMut` reaches all of them without going out of bounds.
   */
  function NewIdt(): (idt: seq<IdtEntry>)
    ensures |idt| == ENTRY_COUNT
    ensures forall idx: U8 :: idx < |idt| && idt[idx] == Empty()
  {
    seq(ENTRY_COUNT, _ => Empty())
  }
}

=== FILE: init.dfy ===
/**
 * Boot-time construction of the page-frame table
 * (learnos_kernel/src/kaal/mem/init.rs).
 *
 * The table gets one entry per frame up to the highest frame any memory-map
 * region reaches. It is placed at the start of the first available region,
 * clipped to lie above the heap start, that is large enough for it. Then the
 * unavailable regions are marked reserved, and the table's own frames, the
 * kernel image and everything below the heap start are marked allocated.
 * Every mark aborts the kernel when it meets a frame that is not free, so a
 * memory map whose regions overlap makes the construction panic.
 *
 * As written, the last mark, over everything below the heap start, also
 * meets the kernel image's frames, which the mark before it allocated, so
 * `InitializeAsWritten` panics for any kernel image below the heap start.
 * `InitializePageFrameTable` marks only the frames there that are still
 * free, as the source's comment on that mark describes.
 */
module Init {
  import opened Common
  import opened Addr
  import opened Frames
  import opened FrameTable
  import opened Direct

  /** `PhysicalMemoryRegion` (learnos_kernel/src/kaal/mem/layout.rs) */
  datatype PhysicalMemoryRegion = PhysicalMemoryRegion(frames: PageFrameRegion, available: bool)

  /** `PhysicalMemoryLayout`: only the kernel image and the heap start are read here. */
  datatype PhysicalMemoryLayout = PhysicalMemoryLayout(
    kernelMemory: AddrRange, multibootMemory: AddrRange, bootMemory: AddrRange, heapStart: Addr)

  type MemoryMap = seq<PhysicalMemoryRegion>

  /**
   * Every region ends below the last frame of the address space, so frame
   * start addresses and region sizes in bytes fit a machine word.
   */
  predicate MapInBounds(mm: MemoryMap)
  {
    forall i :: 0 <= i < |mm| ==> mm[i].frames.end.number < FRAME_LIMIT
  }

  /** The kernel image's end does not overflow. */
  predicate LayoutInBounds(layout: PhysicalMemoryLayout)
  {
    layout.kernelMemory.start.value + layout.kernelMemory.length < WORD_LIMIT
  }

  /** An available region, with its start raised to the heap start frame. */
  function Clip(r: PhysicalMemoryRegion, heapStartFrame: nat): PageFrameRegion
  {
    PageFrameRegion(PageFrame(if r.frames.start.number < heapStartFrame then heapStartFrame else r.frames.start.number), r.frames.end)
  }

  /** Region `r` is an available region of the memory map, clipped to the heap start frame. */
  predicate ClippedFrom(mm: MemoryMap, heapStartFrame: nat, r: PageFrameRegion)
  {
    exists i :: 0 <= i < |mm| && mm[i].available && r == Clip(mm[i], heapStartFrame)
  }

  /** Frame `n` is available in the memory map and at or above the heap start frame. */
  predicate AvailableAbove(mm: MemoryMap, heapStartFrame: nat, n: nat)
  {
    exists i :: 0 <= i < |mm| && mm[i].available && InRegion(mm[i].frames, n) && heapStartFrame <= n
  }

  /** Frame `n` lies in one of the regions. */
  predicate Covered(rs: seq<PageFrameRegion>, n: nat)
  {
    exists k :: 0 <= k < |rs| && InRegion(rs[k], n)
  }

  /**
   * The `available_regions` iterator: the available regions, clipped to the
   * heap start frame, empty ones dropped, in memory-map order.
   */
  function AvailableRegions(mm: MemoryMap, heapStartFrame: nat): (rs: seq<PageFrameRegion>)
    ensures forall k :: 0 <= k < |rs| ==> !IsEmpty(rs[k]) && heapStartFrame <= rs[k].start.number
    ensures forall k :: 0 <= k < |rs| ==> ClippedFrom(mm, heapStartFrame, rs[k])
    ensures forall n: nat :: Covered(rs, n) <==> AvailableAbove(mm, heapStartFrame, n)
  {
    if |mm| == 0 then []
    else
      var rest := AvailableRegions(mm[1..], heapStartFrame);
      var c := Clip(mm[0], heapStartFrame);
      assert forall k :: 0 <= k < |rest| ==> ClippedFrom(mm, heapStartFrame, rest[k]) by {
        forall k | 0 <= k < |rest| ensures ClippedFrom(mm, heapStartFrame, rest[k]) {
          var i :| 0 <= i < |mm[1..]| && mm[1..][i].available && rest[k] == Clip(mm[1..][i], heapStartFrame);
          assert mm[i + 1] == mm[1..][i];
        }
      }
      if mm[0].available && !IsEmpty(c) then
        var rs := [c] + rest;
        assert rs[0] == c && rs[1..] == rest;
        assert forall n: nat :: Covered(rs, n) <==> AvailableAbove(mm, heapStartFrame, n) by {
          forall n: nat ensures Covered(rs, n) <==> AvailableAbove(mm, heapStartFrame, n) {
            CoveredCons(rs, n);
            AvailableAboveCons(mm, heapStartFrame, n);
          }
        }
        assert forall k :: 1 <= k < |rs| ==> rs[k] == rest[k - 1];
        rs
      else
        assert forall n: nat :: Covered(rest, n) <==> AvailableAbove(mm, heapStartFrame, n) by {
          forall n: nat ensures Covered(rest, n) <==> AvailableAbove(mm, heapStartFrame, n) {
            AvailableAboveCons(mm, heapStartFrame, n);
          }
        }
        rest
  }

  lemma AvailableAboveCons(mm: MemoryMap, heapStartFrame: nat, n: nat)
    requires |mm| > 0
    ensures AvailableAbove(mm, heapStartFrame, n) <==>
      (mm[0].available && InRegion(Clip(mm[0], heapStartFrame), n)) || AvailableAbove(mm[1..], heapStartFrame, n)
  {
    if AvailableAbove(mm, heapStartFrame, n) {
      var i :| 0 <= i < |mm| && mm[i].available && InRegion(mm[i].frames, n) && heapStartFrame <= n;
      if i > 0 {
        assert mm[1..][i - 1] == mm[i];
      }
    }
    if AvailableAbove(mm[1..], heapStartFrame, n) {
      var i :| 0 <= i < |mm[1..]| && mm[1..][i].available && InRegion(mm[1..][i].frames, n) && heapStartFrame <= n;
      assert mm[i + 1] == mm[1..][i];
    }
  }

  /** `page_frame_count`: the largest region end in the memory map, or 0 for an empty map. */
  function FrameCount(mm: MemoryMap): (c: nat)
    ensures forall i :: 0 <= i < |mm| ==> mm[i].frames.end.number <= c
    ensures c == 0 || exists i :: 0 <= i < |mm| && mm[i].frames.end.number == c
  {
    if |mm| == 0 then 0
    else
      var rest := FrameCount(mm[1..]);
      assert forall i :: 1 <= i < |mm| ==> mm[i] == mm[1..][i - 1];
      if mm[0].frames.end.number >= rest then
        mm[0].frames.end.number
      else
        var i :| 0 <= i < |mm[1..]| && mm[1..][i].frames.end.number == rest;
        assert mm[i + 1].frames.end.number == rest;
        rest
  }

  /** The region can hold a table of `size` bytes. */
  predicate Fits(r: PageFrameRegion, size: nat)
  {
    Length(r) * PAGE_SIZE >= size
  }

  /** The `find` over the available regions: the index of the first region that fits. */
  function FirstFit(rs: seq<PageFrameRegion>, size: nat): (k: Option<nat>)
    ensures k.None? <==> forall j :: 0 <= j < |rs| ==> !Fits(rs[j], size)
    ensures k.Some? ==> k.value < |rs| && Fits(rs[k.value], size)
    ensures k.Some? ==> forall j :: 0 <= j < k.value ==> !Fits(rs[j], size)
  {
    if |rs| == 0 then None
    else if Fits(rs[0], size) then Some(0)
    else
      assert forall j :: 1 <= j < |rs| ==> rs[j] == rs[1..][j - 1];
      match FirstFit(rs[1..], size)
      case None => None
      case Some(k) => Some(k + 1)
  }

  /** The frame where the heap starts; computing it panics for a heap start in the last frame. */
  function HeapStartFrame(layout: PhysicalMemoryLayout): (r: Outcome<nat>)
    ensures r.Done? <==> layout.heapStart.value <= WORD_LIMIT - PAGE_SIZE
    ensures r.Done? ==> layout.heapStart.value <= r.value * PAGE_SIZE < layout.heapStart.value + PAGE_SIZE
  {
    match NextAbove(layout.heapStart.value)
    case Panic => Panic
    case Done(f) => Done(f.number)
  }

  /**
   * `page_frame_table_addr`: the start address of the first clipped available
   * region large enough for the table; panics when there is none.
   */
  function TableAddress(layout: PhysicalMemoryLayout, mm: MemoryMap): (r: Outcome<Word>)
    requires MapInBounds(mm)
    ensures r.Done? <==> (HeapStartFrame(layout).Done? &&
      exists k :: 0 <= k < |AvailableRegions(mm, HeapStartFrame(layout).value)| &&
        Fits(AvailableRegions(mm, HeapStartFrame(layout).value)[k], RequiredSizeBytes(FrameCount(mm))))
    ensures r.Done? ==> r.value % PAGE_SIZE == 0 && layout.heapStart.value <= r.value
    ensures r.Done? ==> r.value + RequiredSizeBytes(FrameCount(mm)) < WORD_LIMIT
    ensures r.Done? ==> AvailableAbove(mm, HeapStartFrame(layout).value, r.value / PAGE_SIZE)
  {
    match HeapStartFrame(layout)
    case Panic => Panic
    case Done(h) =>
      var rs := AvailableRegions(mm, h);
      var size := RequiredSizeBytes(FrameCount(mm));
      assert HeapStartFrame(layout).value == h;
      match FirstFit(rs, size)
      case None => Panic
      case Some(k) =>
        assert Fits(rs[k], size);
        assert ClippedFrom(mm, h, rs[k]);
        var i :| 0 <= i < |mm| && mm[i].available && rs[k] == Clip(mm[i], h);
        assert rs[k].end.number < FRAME_LIMIT;
        StartPlusFits(rs[k], size);
        assert InRegion(rs[k], rs[k].start.number);
        assert Covered(rs, rs[k].start.number);
        Done(StartAddress(rs[k].start))
  }

  /** A region that fits `size` bytes and ends inside the address space has room for them after its start address. */
  lemma StartPlusFits(r: PageFrameRegion, size: nat)
    requires Fits(r, size) && !IsEmpty(r) && r.end.number < FRAME_LIMIT
    ensures r.start.number * PAGE_SIZE + size < WORD_LIMIT
  {
    assert Length(r) * PAGE_SIZE == r.end.number * PAGE_SIZE - r.start.number * PAGE_SIZE;
    assert r.end.number * PAGE_SIZE < FRAME_LIMIT * PAGE_SIZE;
  }

  /** `PageFrameRegion::new_including(PhysAddrRange::new(addr, size))`: the table's own frames. */
  function TableFrames(addr: Word, size: nat): PageFrameRegion
    requires addr + size < WORD_LIMIT
  {
    NewIncluding(AddrRange(Addr(addr), size))
  }

  /** The kernel image's frames. */
  function KernelFrames(layout: PhysicalMemoryLayout): PageFrameRegion
    requires LayoutInBounds(layout)
  {
    NewIncluding(layout.kernelMemory)
  }

  /** The frames of `[0, heap_start)`. */
  function LowFrames(layout: PhysicalMemoryLayout): (r: PageFrameRegion)
    ensures forall n: nat :: InRegion(r, n) <==> n * PAGE_SIZE < layout.heapStart.value
  {
    NewIncluding(FromBounds(Addr(0), layout.heapStart))
  }

  /** Frame `n` lies in an unavailable region of the memory map. */
  predicate Unavailable(mm: MemoryMap, n: nat)
  {
    exists i :: 0 <= i < |mm| && !mm[i].available && InRegion(mm[i].frames, n)
  }

  lemma UnavailableCons(mm: MemoryMap, n: nat)
    requires |mm| > 0
    ensures Unavailable(mm, n) <==> (!mm[0].available && InRegion(mm[0].frames, n)) || Unavailable(mm[1..], n)
  {
    if Unavailable(mm, n) {
      var i :| 0 <= i < |mm| && !mm[i].available && InRegion(mm[i].frames, n);
      if i > 0 {
        assert mm[1..][i - 1] == mm[i];
      }
    }
    if Unavailable(mm[1..], n) {
      var i :| 0 <= i < |mm[1..]| && !mm[1..][i].available && InRegion(mm[1..][i].frames, n);
      assert mm[i + 1] == mm[1..][i];
    }
  }

  /**
   * Marks every unavailable region reserved, in memory-map order; the first
   * region that meets a non-free frame aborts.
   */
  function MarkUnavailable(t: Table, mm: MemoryMap): (r: Outcome<Table>)
    ensures r.Done? ==> |r.value| == |t|
    ensures r.Done? ==> forall n :: 0 <= n < |t| ==>
      r.value[n] == if Unavailable(mm, n) then Reserved else t[n]
    decreases |mm|
  {
    if |mm| == 0 then Done(t)
    else
      var first := if mm[0].available then Done(t) else MarkReserved(t, mm[0].frames);
      match first
      case Panic => Panic
      case Done(t1) =>
        var r := MarkUnavailable(t1, mm[1..]);
        if r.Done? then
          assert forall n :: 0 <= n < |t| ==> r.value[n] == if Unavailable(mm, n) then Reserved else t[n] by {
            forall n | 0 <= n < |t| ensures r.value[n] == if Unavailable(mm, n) then Reserved else t[n] {
              UnavailableCons(mm, n);
            }
          }
          r
        else
          r
  }

  lemma CoveredCons(rs: seq<PageFrameRegion>, n: nat)
    requires |rs| > 0
    ensures Covered(rs, n) <==> InRegion(rs[0], n) || Covered(rs[1..], n)
  {
    if Covered(rs, n) {
      var k :| 0 <= k < |rs| && InRegion(rs[k], n);
      if k > 0 {
        assert rs[1..][k - 1] == rs[k];
      }
    }
    if Covered(rs[1..], n) {
      var k :| 0 <= k < |rs[1..]| && InRegion(rs[1..][k], n);
      assert rs[k + 1] == rs[1..][k];
    }
  }

  /**
   * The three `mark_allocated` calls, in order; each aborts when it meets a
   * frame that is not free, so on success every marked frame was free before.
   */
  function MarkAllocatedRegions(t: Table, rs: seq<PageFrameRegion>): (r: Outcome<Table>)
    ensures r.Done? ==> |r.value| == |t|
    ensures r.Done? ==> forall n :: 0 <= n < |t| ==>
      r.value[n] == if Covered(rs, n) then Allocated else t[n]
    ensures r.Done? ==> forall n :: 0 <= n < |t| && Covered(rs, n) ==> t[n] == Free
    decreases |rs|
  {
    if |rs| == 0 then Done(t)
    else
      match MarkAllocated(t, rs[0])
      case Panic => Panic
      case Done(t1) =>
        var r := MarkAllocatedRegions(t1, rs[1..]);
        if r.Done? then
          assert forall n :: 0 <= n < |t| ==> (Covered(rs, n) <==> InRegion(rs[0], n) || Covered(rs[1..], n)) by {
            forall n | 0 <= n < |t| ensures Covered(rs, n) <==> InRegion(rs[0], n) || Covered(rs[1..], n) {
              CoveredCons(rs, n);
            }
          }
          r
        else
          r
  }

  /** Two frame regions share no frame. */
  predicate Disjoint(a: PageFrameRegion, b: PageFrameRegion)
  {
    IsEmpty(a) || IsEmpty(b) || a.end.number <= b.start.number || b.end.number <= a.start.number
  }

  /** What the finished table says about frame `n`. */
  function ExpectedState(mm: MemoryMap, marked: seq<PageFrameRegion>, n: nat): State
  {
    if Unavailable(mm, n) then Reserved
    else if Covered(marked, n) then Allocated
    else Free
  }

  /**
   * `initialize_page_frame_table(layout, memory_map, mapping)` as written. The
   * table's location only matters through the direct mapping's bounds check.
   */
  function InitializeAsWritten(layout: PhysicalMemoryLayout, mm: MemoryMap, mapping: DirectMapping): (r: Outcome<Table>)
    requires MapInBounds(mm) && LayoutInBounds(layout) && WellFormed(mapping)
    ensures TableAddress(layout, mm).Panic? ==> r.Panic?
    ensures r.Done? ==> ContainsPhys(mapping, TableAddress(layout, mm).value)
    ensures r.Done? ==> |r.value| == FrameCount(mm)
    ensures r.Done? ==> forall n :: 0 <= n < |r.value| ==>
      r.value[n] == ExpectedState(mm, MarkedRegions(layout, mm, TableAddress(layout, mm).value), n)
  {
    match TableAddress(layout, mm)
    case Panic => Panic
    case Done(addr) =>
      if !ContainsPhys(mapping, addr) then Panic
      else MarkPassesAsWritten(FrameCount(mm), mm, MarkedRegions(layout, mm, addr))
  }

  /**
   * The two marking passes of the source on a fresh table of `count` frames:
   * the unavailable regions reserved, then the regions `rs` allocated.
   */
  function MarkPassesAsWritten(count: nat, mm: MemoryMap, rs: seq<PageFrameRegion>): (r: Outcome<Table>)
    ensures r.Done? ==> |r.value| == count
    ensures r.Done? ==> forall n :: 0 <= n < count ==> r.value[n] == ExpectedState(mm, rs, n)
  {
    var t0 := FromAddr(count);
    match MarkUnavailable(t0, mm)
    case Panic => Panic
    case Done(t1) =>
      match MarkAllocatedRegions(t1, rs)
      case Panic => Panic
      case Done(t2) =>
        FinalTable(mm, rs, t0, t1, t2);
        Done(t2)
  }

  /** Composes the contracts of the two marking passes over a table of free frames. */
  lemma FinalTable(mm: MemoryMap, rs: seq<PageFrameRegion>, t0: Table, t1: Table, t2: Table)
    requires forall n :: 0 <= n < |t0| ==> t0[n] == Free
    requires |t1| == |t0| && forall n :: 0 <= n < |t0| ==> t1[n] == if Unavailable(mm, n) then Reserved else t0[n]
    requires |t2| == |t1| && forall n :: 0 <= n < |t1| ==> t2[n] == if Covered(rs, n) then Allocated else t1[n]
    requires forall n :: 0 <= n < |t1| && Covered(rs, n) ==> t1[n] == Free
    ensures |t2| == |t0|
    ensures forall n :: 0 <= n < |t2| ==> t2[n] == ExpectedState(mm, rs, n)
  {
  }

  /** The marking of the unavailable regions succeeds when they are free, inside the table and pairwise disjoint. */
  lemma {:induction false} MarkUnavailableSucceeds(t: Table, mm: MemoryMap)
    requires forall i :: 0 <= i < |mm| && !mm[i].available ==>
      RegionInTable(t, mm[i].frames) && RegionFree(t, mm[i].frames)
    requires forall i, j :: 0 <= i < j < |mm| && !mm[i].available && !mm[j].available ==>
      Disjoint(mm[i].frames, mm[j].frames)
    ensures MarkUnavailable(t, mm).Done?
    decreases |mm|
  {
    if |mm| > 0 {
      var t1 := if mm[0].available then t else MarkReserved(t, mm[0].frames).value;
      assert forall i :: 1 <= i < |mm| ==> mm[1..][i - 1] == mm[i];
      forall i | 0 <= i < |mm[1..]| && !mm[1..][i].available
        ensures RegionInTable(t1, mm[1..][i].frames) && RegionFree(t1, mm[1..][i].frames)
      {
        assert mm[1..][i] == mm[i + 1];
      }
      forall i, j | 0 <= i < j < |mm[1..]| && !mm[1..][i].available && !mm[1..][j].available
        ensures Disjoint(mm[1..][i].frames, mm[1..][j].frames)
      {
        assert mm[1..][i] == mm[i + 1] && mm[1..][j] == mm[j + 1];
      }
      MarkUnavailableSucceeds(t1, mm[1..]);
    }
  }

  /** The allocation marks succeed when their regions are free, inside the table and pairwise disjoint. */
  lemma {:induction false} MarkAllocatedRegionsSucceeds(t: Table, rs: seq<PageFrameRegion>)
    requires forall k :: 0 <= k < |rs| ==> RegionInTable(t, rs[k]) && RegionFree(t, rs[k])
    requires forall k, l :: 0 <= k < l < |rs| ==> Disjoint(rs[k], rs[l])
    ensures MarkAllocatedRegions(t, rs).Done?
    decreases |rs|
  {
    if |rs| > 0 {
      var t1 := MarkAllocated(t, rs[0]).value;
      assert forall k :: 1 <= k < |rs| ==> rs[1..][k - 1] == rs[k];
      MarkAllocatedRegionsSucceeds(t1, rs[1..]);
    }
  }

  /** The regions `initialize_page_frame_table` marks allocated, given the table's address. */
  function MarkedRegions(layout: PhysicalMemoryLayout, mm: MemoryMap, addr: Word): (rs: seq<PageFrameRegion>)
    requires LayoutInBounds(layout) && addr + RequiredSizeBytes(FrameCount(mm)) < WORD_LIMIT
    ensures |rs| == 3
  {
    [TableFrames(addr, RequiredSizeBytes(FrameCount(mm))), KernelFrames(layout), LowFrames(layout)]
  }

  /**
   * The regions the construction marks do not overlap: the unavailable
   * memory-map regions among themselves, the three allocated regions among
   * themselves, and each allocated region with each unavailable one. Each
   * marked region also starts inside the table.
   */
  predicate NonOverlapping(layout: PhysicalMemoryLayout, mm: MemoryMap, addr: Word)
    requires LayoutInBounds(layout) && addr + RequiredSizeBytes(FrameCount(mm)) < WORD_LIMIT
  {
    var rs := MarkedRegions(layout, mm, addr);
    var count := FrameCount(mm);
    && (forall i :: 0 <= i < |mm| && !mm[i].available ==> mm[i].frames.start.number < count)
    && (forall i, j :: 0 <= i < j < |mm| && !mm[i].available && !mm[j].available ==>
          Disjoint(mm[i].frames, mm[j].frames))
    && (forall k :: 0 <= k < 3 ==> rs[k].start.number < count && rs[k].end.number <= count)
    && Disjoint(rs[0], rs[1]) && Disjoint(rs[0], rs[2]) && Disjoint(rs[1], rs[2])
    && (forall i, k :: 0 <= i < |mm| && 0 <= k < 3 && !mm[i].available ==> Disjoint(mm[i].frames, rs[k]))
  }

  /**
   * With room for the table, a table address inside the direct mapping and
   * non-overlapping regions, the construction does not panic.
   */
  lemma AsWrittenSucceeds(layout: PhysicalMemoryLayout, mm: MemoryMap, mapping: DirectMapping)
    requires MapInBounds(mm) && LayoutInBounds(layout) && WellFormed(mapping)
    requires TableAddress(layout, mm).Done?
    requires ContainsPhys(mapping, TableAddress(layout, mm).value)
    requires NonOverlapping(layout, mm, TableAddress(layout, mm).value)
    ensures InitializeAsWritten(layout, mm, mapping).Done?
  {
    PassesSucceed(layout, mm, TableAddress(layout, mm).value);
    AsWrittenUnfold(layout, mm, mapping);
  }

  /** Both marking passes succeed on non-overlapping regions. */
  lemma PassesSucceed(layout: PhysicalMemoryLayout, mm: MemoryMap, addr: Word)
    requires LayoutInBounds(layout) && addr + RequiredSizeBytes(FrameCount(mm)) < WORD_LIMIT
    requires NonOverlapping(layout, mm, addr)
    ensures MarkUnavailable(FromAddr(FrameCount(mm)), mm).Done?
    ensures MarkAllocatedRegions(MarkUnavailable(FromAddr(FrameCount(mm)), mm).value,
                                 MarkedRegions(layout, mm, addr)).Done?
  {
    var rs := MarkedRegions(layout, mm, addr);
    ThreeDisjoint(rs);
    MarkingSucceeds(mm, rs, FrameCount(mm));
  }

  /** Three regions that pairwise do not overlap. */
  lemma ThreeDisjoint(rs: seq<PageFrameRegion>)
    requires |rs| == 3 && Disjoint(rs[0], rs[1]) && Disjoint(rs[0], rs[2]) && Disjoint(rs[1], rs[2])
    ensures forall k, l :: 0 <= k < l < |rs| ==> Disjoint(rs[k], rs[l])
  {
  }

  /**
   * Both marking passes succeed on a fresh table of `count` frames when the
   * regions lie inside it and do not overlap.
   */
  lemma MarkingSucceeds(mm: MemoryMap, rs: seq<PageFrameRegion>, count: nat)
    requires forall i :: 0 <= i < |mm| ==> mm[i].frames.end.number <= count
    requires forall i :: 0 <= i < |mm| && !mm[i].available ==> mm[i].frames.start.number < count
    requires forall i, j :: 0 <= i < j < |mm| && !mm[i].available && !mm[j].available ==>
      Disjoint(mm[i].frames, mm[j].frames)
    requires forall k :: 0 <= k < |rs| ==> rs[k].start.number < count && rs[k].end.number <= count
    requires forall k, l :: 0 <= k < l < |rs| ==> Disjoint(rs[k], rs[l])
    requires forall i, k :: 0 <= i < |mm| && 0 <= k < |rs| && !mm[i].available ==> Disjoint(mm[i].frames, rs[k])
    ensures MarkUnavailable(FromAddr(count), mm).Done?
    ensures MarkAllocatedRegions(MarkUnavailable(FromAddr(count), mm).value, rs).Done?
  {
    var t0 := FromAddr(count);
    forall i | 0 <= i < |mm| && !mm[i].available
      ensures RegionInTable(t0, mm[i].frames) && RegionFree(t0, mm[i].frames)
    {
    }
    MarkUnavailableSucceeds(t0, mm);
    AllocatedRegionsFree(mm, rs, t0);
    MarkAllocatedRegionsSucceeds(MarkUnavailable(t0, mm).value, rs);
  }

  /** After the reserved marks, regions disjoint from every unavailable region are still free. */
  lemma AllocatedRegionsFree(mm: MemoryMap, rs: seq<PageFrameRegion>, t0: Table)
    requires forall n :: 0 <= n < |t0| ==> t0[n] == Free
    requires MarkUnavailable(t0, mm).Done?
    requires forall k :: 0 <= k < |rs| ==> rs[k].start.number < |t0| && rs[k].end.number <= |t0|
    requires forall i, k :: 0 <= i < |mm| && 0 <= k < |rs| && !mm[i].available ==> Disjoint(mm[i].frames, rs[k])
    ensures forall k :: 0 <= k < |rs| ==>
      RegionInTable(MarkUnavailable(t0, mm).value, rs[k]) && RegionFree(MarkUnavailable(t0, mm).value, rs[k])
  {
    var t1 := MarkUnavailable(t0, mm).value;
    forall k | 0 <= k < |rs| ensures RegionInTable(t1, rs[k]) && RegionFree(t1, rs[k]) {
      forall n | rs[k].start.number <= n < rs[k].end.number ensures n < |t1| && t1[n] == Free {
        assert forall i :: 0 <= i < |mm| && !mm[i].available ==> !InRegion(mm[i].frames, n) by {
          forall i | 0 <= i < |mm| && !mm[i].available ensures !InRegion(mm[i].frames, n) {
            assert Disjoint(mm[i].frames, rs[k]);
          }
        }
      }
    }
  }

  /** The construction succeeds when both of its marking passes do. */
  lemma AsWrittenUnfold(layout: PhysicalMemoryLayout, mm: MemoryMap, mapping: DirectMapping)
    requires MapInBounds(mm) && LayoutInBounds(layout) && WellFormed(mapping)
    requires TableAddress(layout, mm).Done?
    requires ContainsPhys(mapping, TableAddress(layout, mm).value)
    requires MarkUnavailable(FromAddr(FrameCount(mm)), mm).Done?
    requires MarkAllocatedRegions(MarkUnavailable(FromAddr(FrameCount(mm)), mm).value,
                                  MarkedRegions(layout, mm, TableAddress(layout, mm).value)).Done?
    ensures InitializeAsWritten(layout, mm, mapping).Done?
  {
  }

  // ---------------------------------------------------------------------
  // The overlap between the kernel image and the frames below the heap
  // ---------------------------------------------------------------------

  /** Two of the allocated regions sharing a frame make the allocation marks panic. */
  lemma {:induction false} OverlapPanics(t: Table, rs: seq<PageFrameRegion>, k: nat, l: nat, n: nat)
    requires k < l < |rs| && InRegion(rs[k], n) && InRegion(rs[l], n)
    ensures MarkAllocatedRegions(t, rs).Panic?
    decreases k
  {
    match MarkAllocated(t, rs[0])
    case Panic =>
    case Done(t1) =>
      assert rs[1..][l - 1] == rs[l];
      if k == 0 {
        assert Covered(rs[1..], n);
        assert t1[n] == Allocated;
      } else {
        assert rs[1..][k - 1] == rs[k];
        OverlapPanics(t1, rs[1..], k - 1, l - 1, n);
      }
  }

  /**
   * As written, the construction panics whenever the kernel image is not
   * empty and starts below the heap start: the second `mark_allocated`
   * marks the kernel's first frame, and the third, over everything below
   * the heap start, meets that frame again.
   */
  lemma KernelBelowHeapPanics(layout: PhysicalMemoryLayout, mm: MemoryMap, mapping: DirectMapping)
    requires MapInBounds(mm) && LayoutInBounds(layout) && WellFormed(mapping)
    requires layout.kernelMemory.length > 0 && layout.kernelMemory.start.value < layout.heapStart.value
    ensures InitializeAsWritten(layout, mm, mapping).Panic?
  {
    match TableAddress(layout, mm)
    case Panic =>
    case Done(addr) =>
      var n := layout.kernelMemory.start.value / PAGE_SIZE;
      KernelFrameIsLow(layout, n);
      PassesOverlapPanics(FrameCount(mm), mm, MarkedRegions(layout, mm, addr), 1, 2, n);
  }

  /** Two of the allocated regions sharing a frame make the source's marking passes panic. */
  lemma PassesOverlapPanics(count: nat, mm: MemoryMap, rs: seq<PageFrameRegion>, k: nat, l: nat, n: nat)
    requires k < l < |rs| && InRegion(rs[k], n) && InRegion(rs[l], n)
    ensures MarkPassesAsWritten(count, mm, rs).Panic?
  {
    match MarkUnavailable(FromAddr(count), mm)
    case Panic =>
    case Done(t1) =>
      OverlapPanics(t1, rs, k, l, n);
  }

  /** The frame holding the kernel image's first byte lies in both the kernel's and the low frames. */
  lemma KernelFrameIsLow(layout: PhysicalMemoryLayout, n: nat)
    requires LayoutInBounds(layout)
    requires layout.kernelMemory.length > 0 && layout.kernelMemory.start.value < layout.heapStart.value
    requires n == layout.kernelMemory.start.value / PAGE_SIZE
    ensures InRegion(KernelFrames(layout), n) && InRegion(LowFrames(layout), n)
  {
    assert n * PAGE_SIZE <= layout.kernelMemory.start.value < n * PAGE_SIZE + PAGE_SIZE;
  }

  /**
   * The last mark as its comment describes it, the rest below the heap
   * start: the bounds check stays, the region's frames that are still free
   * become allocated, and frames already reserved or allocated keep their
   * state instead of aborting the kernel.
   */
  function MarkRest(t: Table, region: PageFrameRegion): (r: Outcome<Table>)
    ensures r.Done? <==> RegionInTable(t, region)
    ensures r.Done? ==> |r.value| == |t|
    ensures r.Done? ==> forall n :: 0 <= n < |t| ==>
      (InRegion(region, n) ==> r.value[n] != Free) &&
      (r.value[n] != t[n] ==> InRegion(region, n) && t[n] == Free && r.value[n] == Allocated)
  {
    if !RegionInTable(t, region) then Panic
    else Done(seq(|t|, i requires 0 <= i < |t| => if InRegion(region, i) && t[i] == Free then Allocated else t[i]))
  }

  /** Where the source's mark does not panic, the corrected mark does the same. */
  lemma MarkRestAgrees(t: Table, region: PageFrameRegion)
    requires MarkAllocated(t, region).Done?
    ensures MarkRest(t, region) == MarkAllocated(t, region)
  {
    var a := MarkRest(t, region).value;
    var b := MarkAllocated(t, region).value;
    assert forall i :: 0 <= i < |t| ==> a[i] == b[i];
    assert a == b;
  }

  /**
   * The marking passes of the corrected construction on a fresh table of
   * `count` frames: the unavailable regions reserved, the regions `rs`
   * allocated, then the rest of `low` allocated.
   */
  function MarkPasses(count: nat, mm: MemoryMap, rs: seq<PageFrameRegion>, low: PageFrameRegion): (r: Outcome<Table>)
    ensures r.Done? ==> |r.value| == count
    ensures r.Done? ==> forall n :: 0 <= n < count ==> r.value[n] == ExpectedState(mm, rs + [low], n)
  {
    var t0 := FromAddr(count);
    match MarkUnavailable(t0, mm)
    case Panic => Panic
    case Done(t1) =>
      match MarkAllocatedRegions(t1, rs)
      case Panic => Panic
      case Done(t2) =>
        match MarkRest(t2, low)
        case Panic => Panic
        case Done(t3) =>
          FinalTableWithRest(mm, rs, low, t0, t1, t2, t3);
          Done(t3)
  }

  /**
   * `initialize_page_frame_table` with the frames below the heap start
   * marked by `MarkRest`. On success every unavailable frame is reserved,
   * every other frame of the table, the kernel image or below the heap start
   * is allocated, and the rest are free.
   */
  function InitializePageFrameTable(layout: PhysicalMemoryLayout, mm: MemoryMap, mapping: DirectMapping): (r: Outcome<Table>)
    requires MapInBounds(mm) && LayoutInBounds(layout) && WellFormed(mapping)
    ensures TableAddress(layout, mm).Panic? ==> r.Panic?
    ensures r.Done? ==> ContainsPhys(mapping, TableAddress(layout, mm).value)
    ensures r.Done? ==> |r.value| == FrameCount(mm)
    ensures r.Done? ==> forall n :: 0 <= n < |r.value| ==>
      r.value[n] == ExpectedState(mm, MarkedRegions(layout, mm, TableAddress(layout, mm).value), n)
  {
    match TableAddress(layout, mm)
    case Panic => Panic
    case Done(addr) =>
      if !ContainsPhys(mapping, addr) then Panic
      else
        var rs := MarkedRegions(layout, mm, addr);
        SplitLast(rs);
        MarkPasses(FrameCount(mm), mm, rs[..2], rs[2])
  }

  lemma SplitLast(rs: seq<PageFrameRegion>)
    requires |rs| == 3
    ensures rs[..2] + [rs[2]] == rs
  {
  }

  /** Composes the contracts of the marking passes of the corrected construction. */
  lemma FinalTableWithRest(mm: MemoryMap, rs: seq<PageFrameRegion>, low: PageFrameRegion,
                           t0: Table, t1: Table, t2: Table, t3: Table)
    requires forall n :: 0 <= n < |t0| ==> t0[n] == Free
    requires |t1| == |t0| && forall n :: 0 <= n < |t0| ==> t1[n] == if Unavailable(mm, n) then Reserved else t0[n]
    requires |t2| == |t1| && forall n :: 0 <= n < |t1| ==> t2[n] == if Covered(rs, n) then Allocated else t1[n]
    requires forall n :: 0 <= n < |t1| && Covered(rs, n) ==> t1[n] == Free
    requires |t3| == |t2| && forall n :: 0 <= n < |t2| ==>
      (InRegion(low, n) ==> t3[n] != Free) &&
      (t3[n] != t2[n] ==> InRegion(low, n) && t2[n] == Free && t3[n] == Allocated)
    ensures |t3| == |t0|
    ensures forall n :: 0 <= n < |t3| ==> t3[n] == ExpectedState(mm, rs + [low], n)
  {
    forall n | 0 <= n < |t3| ensures t3[n] == ExpectedState(mm, rs + [low], n) {
      CoveredSnoc(rs, low, n);
    }
  }

  lemma CoveredSnoc(rs: seq<PageFrameRegion>, r: PageFrameRegion, n: nat)
    ensures Covered(rs + [r], n) <==> Covered(rs, n) || InRegion(r, n)
  {
    if Covered(rs + [r], n) {
      var k :| 0 <= k < |rs + [r]| && InRegion((rs + [r])[k], n);
      if k < |rs| {
        assert (rs + [r])[k] == rs[k];
      }
    }
    if Covered(rs, n) {
      var k :| 0 <= k < |rs| && InRegion(rs[k], n);
      assert (rs + [r])[k] == rs[k];
    }
    if InRegion(r, n) {
      assert (rs + [r])[|rs|] == r;
    }
  }

  /**
   * What the corrected marking passes need: the unavailable regions start
   * inside the table and do not overlap, the allocated regions lie inside
   * the table and overlap neither each other nor an unavailable region, and
   * `low` lies inside the table; it may overlap any of them.
   */
  predicate PassesApart(mm: MemoryMap, rs: seq<PageFrameRegion>, low: PageFrameRegion, count: nat)
  {
    && (forall i :: 0 <= i < |mm| && !mm[i].available ==> mm[i].frames.start.number < count)
    && (forall i, j :: 0 <= i < j < |mm| && !mm[i].available && !mm[j].available ==>
          Disjoint(mm[i].frames, mm[j].frames))
    && (forall k :: 0 <= k < |rs| ==> rs[k].start.number < count && rs[k].end.number <= count)
    && (forall k, l :: 0 <= k < l < |rs| ==> Disjoint(rs[k], rs[l]))
    && (forall i, k :: 0 <= i < |mm| && 0 <= k < |rs| && !mm[i].available ==> Disjoint(mm[i].frames, rs[k]))
    && low.start.number < count && low.end.number <= count
  }

  /**
   * With room for the table inside the direct mapping, the corrected
   * construction succeeds even where the kernel image or reserved memory
   * lies below the heap start.
   */
  lemma InitSucceeds(layout: PhysicalMemoryLayout, mm: MemoryMap, mapping: DirectMapping)
    requires MapInBounds(mm) && LayoutInBounds(layout) && WellFormed(mapping)
    requires TableAddress(layout, mm).Done?
    requires ContainsPhys(mapping, TableAddress(layout, mm).value)
    requires var rs := MarkedRegions(layout, mm, TableAddress(layout, mm).value);
      PassesApart(mm, rs[..2], rs[2], FrameCount(mm))
    ensures InitializePageFrameTable(layout, mm, mapping).Done?
  {
    var rs := MarkedRegions(layout, mm, TableAddress(layout, mm).value);
    RestSucceeds(mm, rs[..2], rs[2], FrameCount(mm));
  }

  /** The corrected marking passes succeed when only the reserved and allocated regions are kept apart. */
  lemma RestSucceeds(mm: MemoryMap, rs: seq<PageFrameRegion>, low: PageFrameRegion, count: nat)
    requires forall i :: 0 <= i < |mm| ==> mm[i].frames.end.number <= count
    requires PassesApart(mm, rs, low, count)
    ensures MarkPasses(count, mm, rs, low).Done?
  {
    MarkingSucceeds(mm, rs, count);
  }
}

=== FILE: ioapic.dfy ===
/**
 * The I/O APIC (amd64/src/ioapic.rs), following section 3.2 of the Intel
 * 82093AA I/O Advanced Programmable Interrupt Controller datasheet.
 *
 * The chip is reached through an index register and a data window: the
 * model keeps the 32-bit registers behind the window as a map from
 * register index to value. A redirection-table entry is a 64-bit value
 * stored in two consecutive registers, low half first. As in module Apic,
 * a field of `n` bits from bit `first` is `Field(e, 2^first, 2^n)`.
 */
module IoApic {
  import opened Common
  import opened Packed
  import opened Apic
  import Arith
  import Bits

  // ---------------------------------------------------------------------
  // Redirection-table entries: vector bits 0-7, delivery mode bits 8-10,
  // destination mode bit 11, delivery status bit 12, input polarity bit
  // 13, trigger mode bit 15, mask bit 16, destination bits 56-63
  // ---------------------------------------------------------------------

  /** `RedirectionEntry(u64)` */
  type Entry = Word

  /** The unit of the destination field: 2^56. */
  const DESTINATION_UNIT: nat := 0x100_0000_0000_0000

  datatype DestinationMode = Physical | Logical

  /** `vector()`: bits 0-7. */
  function Vector(e: Entry): (v: U8)
    ensures forall i: nat :: Bits.Bit(v, i) <==> i < 8 && Bits.Bit(e, i)
  {
    FieldBits(e, 0, 8);
    Arith.Pow2Values();
    Field(e, 1, 0x100)
  }

  /** The raw delivery-mode field, bits 8-10. */
  function DeliveryModeField(e: Entry): (f: U8)
    ensures f < 8
  {
    Field(e, 0x100, 8)
  }

  /** `delivery_mode()`: the `unwrap` panics on the reserved values 3 and 6. */
  function DeliveryModeOf(e: Entry): (r: Outcome<DeliveryMode>)
    ensures r.Panic? <==> DeliveryModeField(e) == 3 || DeliveryModeField(e) == 6
    ensures r.Done? ==> DeliveryModeCode(r.value) == DeliveryModeField(e)
  {
    match ParseDeliveryMode(DeliveryModeField(e))
    case Some(m) => Done(m)
    case None => Panic
  }

  /** `destination_mode()`: bit 11 set means logical. */
  function DestinationModeOf(e: Entry): (m: DestinationMode)
    ensures m == Logical <==> Bits.Bit(e, 11)
  {
    GetBitIsField(e, 11, 64);
    Bits.GetBitIsBit(e, 11, 64);
    assert Arith.Pow2(11) == 0x800;
    if Field(e, 0x800, 2) == 1 then Logical else Physical
  }

  /** `delivery_status()` as written: a set bit 12 reads as `Idle`. */
  function DeliveryStatusAsWritten(e: Entry): (s: DeliveryStatus)
    ensures s == Idle <==> Bits.Bit(e, 12)
  {
    GetBitIsField(e, 12, 64);
    Bits.GetBitIsBit(e, 12, 64);
    Arith.Pow2Values();
    if Field(e, 0x1000, 2) == 1 then Idle else SendPending
  }

  /** The delivery status as the datasheet defines it: bit 12 is 1 while a send is pending. */
  function DeliveryStatusOf(e: Entry): (s: DeliveryStatus)
    ensures s == SendPending <==> Bits.Bit(e, 12)
  {
    GetBitIsField(e, 12, 64);
    Bits.GetBitIsBit(e, 12, 64);
    Arith.Pow2Values();
    if Field(e, 0x1000, 2) == 1 then SendPending else Idle
  }

  /**
   * The getter as written reports the opposite of bit 12 for every entry:
   * the all-zero entry, idle by the datasheet, reads as send pending.
   */
  lemma DeliveryStatusInverted(e: Entry)
    ensures DeliveryStatusAsWritten(e) == SendPending <==> Field(e, 0x1000, 2) == 0
    ensures DeliveryStatusAsWritten(e) != DeliveryStatusOf(e)
    ensures DeliveryStatusOf(0) == Idle && DeliveryStatusAsWritten(0) == SendPending
  {
  }

  /** `input_polarity()`: bit 13 set means active low. */
  function InputPolarity(e: Entry): (p: Polarity)
    ensures p == LowActive <==> Bits.Bit(e, 13)
  {
    GetBitIsField(e, 13, 64);
    Bits.GetBitIsBit(e, 13, 64);
    assert Arith.Pow2(13) == 0x2000;
    if Field(e, 0x2000, 2) == 1 then LowActive else HighActive
  }

  /** `trigger_mode()`: bit 15 set means level triggered. */
  function TriggerModeOf(e: Entry): (m: TriggerMode)
    ensures m == LevelTriggered <==> Bits.Bit(e, 15)
  {
    GetBitIsField(e, 15, 64);
    Bits.GetBitIsBit(e, 15, 64);
    assert Arith.Pow2(15) == 0x8000;
    if Field(e, 0x8000, 2) == 1 then LevelTriggered else EdgeTriggered
  }

  /** `masked()`: bit 16. */
  predicate Masked(e: Entry)
    ensures Masked(e) <==> Bits.Bit(e, 16)
  {
    GetBitIsField(e, 16, 64);
    Bits.GetBitIsBit(e, 16, 64);
    Arith.Pow2Values();
    Field(e, 0x1_0000, 2) == 1
  }

  /** `destination()`: bits 56-63. */
  function Destination(e: Entry): (d: U8)
    ensures forall i: nat :: Bits.Bit(d, i) <==> i < 8 && Bits.Bit(e, 56 + i)
  {
    FieldBits(e, 56, 8);
    Arith.Pow2Values();
    assert Arith.Pow2(56) == DESTINATION_UNIT;
    Field(e, DESTINATION_UNIT, 0x100)
  }

  /** Every field of an entry, as its getters read it; the delivery mode is its raw 3-bit value. */
  datatype EntryView = EntryView(
    vector: U8, deliveryMode: U8, destinationMode: DestinationMode, deliveryStatus: DeliveryStatus,
    polarity: Polarity, triggerMode: TriggerMode, masked: bool, destination: U8)

  function Decode(e: Entry): EntryView
  {
    EntryView(Vector(e), DeliveryModeField(e), DestinationModeOf(e), DeliveryStatusOf(e),
      InputPolarity(e), TriggerModeOf(e), Masked(e), Destination(e))
  }

  /** `set_vector(v)`: the vector reads back and every other field keeps its value. */
  method SetVector(e: Entry, v: U8) returns (r: Entry)
    ensures SameOutside(r, e, 1, 0x100)
    ensures Decode(r) == Decode(e).(vector := v)
  {
    SetFieldOnly(e, 1, 0x100, v);
    SetFieldBelow(e, 1, 0x100, v, WORD_LIMIT);
    r := SetField(e, 1, 0x100, v);
    FieldAbove(r, e, 1, 0x100, 0x100, 8);
    FieldAbove(r, e, 1, 0x100, 0x800, 2);
    FieldAbove(r, e, 1, 0x100, 0x1000, 2);
    FieldAbove(r, e, 1, 0x100, 0x2000, 2);
    FieldAbove(r, e, 1, 0x100, 0x8000, 2);
    FieldAbove(r, e, 1, 0x100, 0x1_0000, 2);
    FieldAbove(r, e, 1, 0x100, DESTINATION_UNIT, 0x100);
  }

  /** `set_delivery_mode(m)`: the mode reads back and every other field keeps its value. */
  method SetDeliveryMode(e: Entry, m: DeliveryMode) returns (r: Entry)
    ensures DeliveryModeOf(r) == Done(m)
    ensures SameOutside(r, e, 0x100, 8)
    ensures Decode(r) == Decode(e).(deliveryMode := DeliveryModeCode(m))
  {
    SetFieldOnly(e, 0x100, 8, DeliveryModeCode(m));
    SetFieldBelow(e, 0x100, 8, DeliveryModeCode(m), WORD_LIMIT);
    ParseDeliveryModeCode(m);
    r := SetField(e, 0x100, 8, DeliveryModeCode(m));
    FieldBelow(r, e, 0x100, 8, 1, 0x100);
    FieldAbove(r, e, 0x100, 8, 0x800, 2);
    FieldAbove(r, e, 0x100, 8, 0x1000, 2);
    FieldAbove(r, e, 0x100, 8, 0x2000, 2);
    FieldAbove(r, e, 0x100, 8, 0x8000, 2);
    FieldAbove(r, e, 0x100, 8, 0x1_0000, 2);
    FieldAbove(r, e, 0x100, 8, DESTINATION_UNIT, 0x100);
  }

  /** `set_destination_mode(m)`: the mode reads back and every other field keeps its value. */
  method SetDestinationMode(e: Entry, m: DestinationMode) returns (r: Entry)
    ensures SameOutside(r, e, 0x800, 2)
    ensures Decode(r) == Decode(e).(destinationMode := m)
  {
    var b := if m == Logical then 1 else 0;
    SetFieldOnly(e, 0x800, 2, b);
    SetFieldBelow(e, 0x800, 2, b, WORD_LIMIT);
    r := SetField(e, 0x800, 2, b);
    FieldBelow(r, e, 0x800, 2, 1, 0x100);
    FieldBelow(r, e, 0x800, 2, 0x100, 8);
    FieldAbove(r, e, 0x800, 2, 0x1000, 2);
    FieldAbove(r, e, 0x800, 2, 0x2000, 2);
    FieldAbove(r, e, 0x800, 2, 0x8000, 2);
    FieldAbove(r, e, 0x800, 2, 0x1_0000, 2);
    FieldAbove(r, e, 0x800, 2, DESTINATION_UNIT, 0x100);
  }

  /** `set_input_polarity(p)`: the polarity reads back and every other field keeps its value. */
  method SetInputPolarity(e: Entry, p: Polarity) returns (r: Entry)
    ensures SameOutside(r, e, 0x2000, 2)
    ensures Decode(r) == Decode(e).(polarity := p)
  {
    var b := if p == LowActive then 1 else 0;
    SetFieldOnly(e, 0x2000, 2, b);
    SetFieldBelow(e, 0x2000, 2, b, WORD_LIMIT);
    r := SetField(e, 0x2000, 2, b);
    FieldBelow(r, e, 0x2000, 2, 1, 0x100);
    FieldBelow(r, e, 0x2000, 2, 0x100, 8);
    FieldBelow(r, e, 0x2000, 2, 0x800, 2);
    FieldBelow(r, e, 0x2000, 2, 0x1000, 2);
    FieldAbove(r, e, 0x2000, 2, 0x8000, 2);
    FieldAbove(r, e, 0x2000, 2, 0x1_0000, 2);
    FieldAbove(r, e, 0x2000, 2, DESTINATION_UNIT, 0x100);
  }

  /** `set_trigger_mode(m)`: the mode reads back and every other field keeps its value. */
  method SetTriggerMode(e: Entry, m: TriggerMode) returns (r: Entry)
    ensures SameOutside(r, e, 0x8000, 2)
    ensures Decode(r) == Decode(e).(triggerMode := m)
  {
    var b := if m == LevelTriggered then 1 else 0;
    SetFieldOnly(e, 0x8000, 2, b);
    SetFieldBelow(e, 0x8000, 2, b, WORD_LIMIT);
    r := SetField(e, 0x8000, 2, b);
    FieldBelow(r, e, 0x8000, 2, 1, 0x100);
    FieldBelow(r, e, 0x8000, 2, 0x100, 8);
    FieldBelow(r, e, 0x8000, 2, 0x800, 2);
    FieldBelow(r, e, 0x8000, 2, 0x1000, 2);
    FieldBelow(r, e, 0x8000, 2, 0x2000, 2);
    FieldAbove(r, e, 0x8000, 2, 0x1_0000, 2);
    FieldAbove(r, e, 0x8000, 2, DESTINATION_UNIT, 0x100);
  }

  /** `set_masked(b)`: the mask reads back and every other field keeps its value. */
  method SetMasked(e: Entry, masked: bool) returns (r: Entry)
    ensures SameOutside(r, e, 0x1_0000, 2)
    ensures Decode(r) == Decode(e).(masked := masked)
  {
    var b := if masked then 1 else 0;
    SetFieldOnly(e, 0x1_0000, 2, b);
    SetFieldBelow(e, 0x1_0000, 2, b, WORD_LIMIT);
    r := SetField(e, 0x1_0000, 2, b);
    FieldBelow(r, e, 0x1_0000, 2, 1, 0x100);
    FieldBelow(r, e, 0x1_0000, 2, 0x100, 8);
    FieldBelow(r, e, 0x1_0000, 2, 0x800, 2);
    FieldBelow(r, e, 0x1_0000, 2, 0x1000, 2);
    FieldBelow(r, e, 0x1_0000, 2, 0x2000, 2);
    FieldBelow(r, e, 0x1_0000, 2, 0x8000, 2);
    FieldAbove(r, e, 0x1_0000, 2, DESTINATION_UNIT, 0x100);
  }

  /** `set_destination(d)`: the destination reads back and every other field keeps its value. */
  method SetDestination(e: Entry, d: U8) returns (r: Entry)
    ensures SameOutside(r, e, DESTINATION_UNIT, 0x100)
    ensures Decode(r) == Decode(e).(destination := d)
  {
    SetFieldOnly(e, DESTINATION_UNIT, 0x100, d);
    SetFieldBelow(e, DESTINATION_UNIT, 0x100, d, WORD_LIMIT);
    r := SetField(e, DESTINATION_UNIT, 0x100, d);
    FieldBelow(r, e, DESTINATION_UNIT, 0x100, 1, 0x100);
    FieldBelow(r, e, DESTINATION_UNIT, 0x100, 0x100, 8);
    FieldBelow(r, e, DESTINATION_UNIT, 0x100, 0x800, 2);
    FieldBelow(r, e, DESTINATION_UNIT, 0x100, 0x1000, 2);
    FieldBelow(r, e, DESTINATION_UNIT, 0x100, 0x2000, 2);
    FieldBelow(r, e, DESTINATION_UNIT, 0x100, 0x8000, 2);
    FieldBelow(r, e, DESTINATION_UNIT, 0x100, 0x1_0000, 2);
  }

  // ---------------------------------------------------------------------
  // The register file behind the index/data window
  // ---------------------------------------------------------------------

  const ID_REG: nat := 0
  const VER_REG: nat := 1
  const ARB_REG: nat := 2
  const REDIRECTION_ENTRY_REG_BASE: nat := 0x10

  /**
   * The registers by index. The model has no device behind them: a
   * register holds what was last written to it, and one never written
   * reads as zero.
   */
  type Registers = map<nat, U32>

  function Stored(regs: Registers, index: nat): U32
  {
    if index in regs then regs[index] else 0
  }

  /** `id()`: bits 24-27 of the identification register. */
  function Id(regs: Registers): (id: U8)
    ensures id < 16
  {
    Field(Stored(regs, ID_REG), 0x100_0000, 16)
  }

  /** `version()`: bits 0-7 of the version register. */
  function Version(regs: Registers): (v: U32)
    ensures v < 0x100
  {
    Field(Stored(regs, VER_REG), 1, 0x100)
  }

  /** `max_redirection_entries()`: bits 16-23 of the version register. */
  function MaxRedirectionEntries(regs: Registers): (n: U32)
    ensures n < 0x100
  {
    Field(Stored(regs, VER_REG), 0x1_0000, 0x100)
  }

  /** `arbitration_priority()`: bits 24-27 of the arbitration register. */
  function ArbitrationPriority(regs: Registers): (p: U32)
    ensures p < 16
  {
    Field(Stored(regs, ARB_REG), 0x100_0000, 16)
  }

  /**
   * The identification getters read exactly their fields: whatever the
   * other bits of the registers hold, registers carrying an id, a version,
   * a redirection count and an arbitration priority in the datasheet's
   * positions read them back.
   */
  lemma IdentificationFields(regs: Registers, id: nat, version: nat, maxEntries: nat, priority: nat,
                             idAbove: nat, idBelow: nat, verAbove: nat, verMiddle: nat, arbAbove: nat, arbBelow: nat)
    requires id < 16 && priority < 16 && version < 0x100 && maxEntries < 0x100
    requires idAbove < 16 && idBelow < 0x100_0000 && arbAbove < 16 && arbBelow < 0x100_0000
    requires verAbove < 0x100 && verMiddle < 0x100
    ensures var regs' := regs[ID_REG := idAbove * 0x1000_0000 + id * 0x100_0000 + idBelow]
                             [VER_REG := verAbove * 0x100_0000 + maxEntries * 0x1_0000 + verMiddle * 0x100 + version]
                             [ARB_REG := arbAbove * 0x1000_0000 + priority * 0x100_0000 + arbBelow];
      Id(regs') == id && Version(regs') == version
      && MaxRedirectionEntries(regs') == maxEntries && ArbitrationPriority(regs') == priority
  {
    var verValue := verAbove * 0x100_0000 + maxEntries * 0x1_0000 + verMiddle * 0x100 + version;
    FieldOfParts(idAbove * 0x1000_0000 + id * 0x100_0000 + idBelow, idAbove, id, idBelow, 0x100_0000, 16);
    FieldOfParts(arbAbove * 0x1000_0000 + priority * 0x100_0000 + arbBelow, arbAbove, priority, arbBelow, 0x100_0000, 16);
    FieldOfParts(verValue, verAbove, maxEntries, verMiddle * 0x100 + version, 0x1_0000, 0x100);
    FieldOfParts(verValue, verAbove * 0x1_0000 + maxEntries * 0x100 + verMiddle, version, 0, 1, 0x100);
  }

  /** The first of the two registers of entry `index`: `REDIRECTION_ENTRY_REG_BASE + index * 2`. */
  function EntryRegister(index: nat): nat
  {
    REDIRECTION_ENTRY_REG_BASE + index * 2
  }

  /** The two halves of an entry, as `set_redirection_entry` splits it. */
  function Low(e: Entry): U32
  {
    e % U32_LIMIT
  }

  function High(e: Entry): U32
  {
    e / U32_LIMIT
  }

  /** An entry is its two halves put back together, high half above the low. */
  lemma Halves(e: Entry)
    ensures High(e) * U32_LIMIT + Low(e) == e
  {
  }

  /**
   * `redirection_entry(index)`: the low half from the entry's first
   * register, the high half from the next. The `u32` register arithmetic
   * must not overflow.
   */
  function RedirectionEntry(regs: Registers, index: nat): (e: Entry)
    requires EntryRegister(index) + 1 < U32_LIMIT
    ensures Low(e) == Stored(regs, EntryRegister(index))
    ensures High(e) == Stored(regs, EntryRegister(index) + 1)
  {
    var reg := EntryRegister(index);
    Stored(regs, reg + 1) * U32_LIMIT + Stored(regs, reg)
  }

  /** `set_redirection_entry(index, e)` as written: both halves go to the entry's first register. */
  function SetRedirectionEntryAsWritten(regs: Registers, index: nat, e: Entry): (r: Registers)
    requires EntryRegister(index) < U32_LIMIT
    ensures Stored(r, EntryRegister(index)) == High(e)
    ensures forall i :: i != EntryRegister(index) ==> Stored(r, i) == Stored(regs, i)
  {
    var reg := EntryRegister(index);
    regs[reg := Low(e)][reg := High(e)]
  }

  /** `set_redirection_entry(index, e)` with the high half written to the second register. */
  function SetRedirectionEntry(regs: Registers, index: nat, e: Entry): (r: Registers)
    requires EntryRegister(index) + 1 < U32_LIMIT
    ensures RedirectionEntry(r, index) == e
    ensures forall i :: i != EntryRegister(index) && i != EntryRegister(index) + 1 ==> Stored(r, i) == Stored(regs, i)
  {
    var reg := EntryRegister(index);
    Halves(e);
    regs[reg := Low(e)][reg + 1 := High(e)]
  }

  /** Writing one entry leaves every other entry and the identification registers as they were. */
  lemma SetLeavesOtherEntries(regs: Registers, index: nat, other: nat, e: Entry)
    requires EntryRegister(index) + 1 < U32_LIMIT && EntryRegister(other) + 1 < U32_LIMIT
    requires other != index
    ensures RedirectionEntry(SetRedirectionEntry(regs, index, e), other) == RedirectionEntry(regs, other)
    ensures Id(SetRedirectionEntry(regs, index, e)) == Id(regs)
    ensures Version(SetRedirectionEntry(regs, index, e)) == Version(regs)
    ensures ArbitrationPriority(SetRedirectionEntry(regs, index, e)) == ArbitrationPriority(regs)
  {
    var r := SetRedirectionEntry(regs, index, e);
    assert Stored(r, EntryRegister(other)) == Stored(regs, EntryRegister(other));
    assert Stored(r, EntryRegister(other) + 1) == Stored(regs, EntryRegister(other) + 1);
  }

  /**
   * As written, reading an entry back after writing it gives the entry's
   * high half in the low register and the old high register unchanged.
   */
  lemma AsWrittenReadBack(regs: Registers, index: nat, e: Entry)
    requires EntryRegister(index) + 1 < U32_LIMIT
    ensures RedirectionEntry(SetRedirectionEntryAsWritten(regs, index, e), index)
      == Stored(regs, EntryRegister(index) + 1) * U32_LIMIT + High(e)
  {
  }

  /**
   * The as-written write does not round-trip: the masked entry with
   * vector 0x30 and every other field zero, written to entry 0 of a zeroed
   * chip, reads back unmasked with vector 0.
   */
  lemma AsWrittenUnmasks(e: Entry)
    requires e == 0x1_0030
    ensures Masked(e) && Vector(e) == 0x30
    ensures var back := RedirectionEntry(SetRedirectionEntryAsWritten(map[], 0, e), 0);
      !Masked(back) && Vector(back) == 0 && back != e
  {
    FieldOfParts(e, 0, 1, 0x30, 0x1_0000, 2);
    FieldOfParts(e, 0x100, 0x30, 0, 1, 0x100);
    AsWrittenReadBack(map[], 0, e);
  }
}

=== FILE: legacy_frames.dfy ===
/**
 * The kernel's older page-frame regions (learnos_kernel/src/memory/mod.rs),
 * used by the memory-map bump allocator.
 *
 * `PageFrameNumber::next_above`, `including`, `start_address`,
 * `end_address`, `length` and `is_empty` are the same code as in the kmem
 * crate, so the `Frames` definitions serve for both. The region
 * constructors differ: they take two addresses, and `new_including` rounds
 * its end with `align_up`, which panics in the last frame of the address
 * space.
 */
module LegacyFrames {
  import opened Common
  import opened Frames

  /** `PageFrameRegion::new_included_in(start, end)`: the largest region inside `[start, end)`. */
  function NewIncludedIn(start: Word, end: Word): (r: Outcome<PageFrameRegion>)
    ensures r.Done? <==> start <= WORD_LIMIT - PAGE_SIZE
    ensures r.Done? ==> forall n: nat :: InRegion(r.value, n) <==> FrameWithin(n, start, end)
  {
    match NextAbove(start)
    case Panic => Panic
    case Done(first) => Done(PageFrameRegion(first, Including(end)))
  }

  /**
   * `PageFrameRegion::new_including(start, end)`: the smallest region
   * covering `[start, end)`; it panics when `end` lies in the last frame.
   */
  function NewIncluding(start: Word, end: Word): (r: Outcome<PageFrameRegion>)
    ensures r.Done? <==> end <= WORD_LIMIT - PAGE_SIZE
    ensures r.Done? ==> forall n: nat :: InRegion(r.value, n) <==> FrameOverlaps(n, start, end)
  {
    match NextAbove(end)
    case Panic => Panic
    case Done(last) => Done(PageFrameRegion(Including(start), last))
  }

  /** Where it does not panic, the older `new_including` agrees with kmem's. */
  lemma NewIncludingAgrees(start: Word, end: Word)
    requires start <= end <= WORD_LIMIT - PAGE_SIZE
    ensures NewIncluding(start, end) == Done(Frames.NewIncluding(Addr.FromBounds(Addr.Addr(start), Addr.Addr(end))))
  {
  }

  /** The unit-test vectors of learnos_kernel/src/memory/mod.rs. */
  lemma LegacyRegionExamples()
    ensures IsEmpty(NewIncludedIn(0x400F, 0x4EF0).value)
    ensures NewIncludedIn(0x400F, 0x7FFF) == Done(PageFrameRegion(PageFrame(5), PageFrame(7)))
    ensures NewIncluding(0x400F, 0x4EF0) == Done(PageFrameRegion(PageFrame(4), PageFrame(5)))
    ensures NewIncluding(0x400F, 0x7FFF) == Done(PageFrameRegion(PageFrame(4), PageFrame(8)))
  {
    assert NextAbove(0x400F).value.number == 5;
    assert Including(0x4EF0).number == 4;
    assert Including(0x7FFF).number == 7;
    assert Including(0x400F).number == 4;
    assert NextAbove(0x4EF0).value.number == 5;
    assert NextAbove(0x7FFF).value.number == 8;
  }

  /** The whole address space cannot be covered: rounding its end up overflows. */
  lemma WholeMemoryPanics()
    ensures NewIncluding(0, 0xFFFF_FFFF_FFFF_FFFF) == Panic
  {
  }
}

=== FILE: madt.dfy ===
/**
 * The Multiple APIC Description Table (acpi/src/madt.rs), section 5.2.12 of
 * the ACPI specification: the header, the 32-bit local APIC address and
 * flags, then variable-length records, each starting with its type and its
 * length in bytes, up to the table's length.
 *
 * A record is referred to by its offset from the table's start.
 */
module Madt {
  import opened Common
  import opened Bytes
  import Bits
  import opened Sdt

  /** Offset of the first record: the header, `local_apic_address` and `flags`. */
  const FIRST_RECORD: nat := 44

  /** The most bytes the kernel reads from one record (the address override's 12). */
  const RECORD_EXTENT: nat := 12

  /** The type codes of the records the kernel knows (`ENTRY_TYPE`). */
  const PROCESSOR_LOCAL_APIC: Byte := 0
  const IO_APIC: Byte := 1
  const INTERRUPT_SOURCE_OVERRIDE: Byte := 2
  const NON_MASKABLE_INTERRUPT: Byte := 4
  const LOCAL_APIC_ADDRESS_OVERRIDE: Byte := 5

  /**
   * The table, and the bytes of any record that starts inside it, are in
   * `mem`.
   */
  predicate Mapped(mem: seq<Byte>)
  {
    Readable(mem) && FIRST_RECORD <= |mem| && Length(mem) + RECORD_EXTENT <= |mem| + 1
  }

  /** `MadtEntry`: a record decoded by its type. */
  datatype Entry =
    | ProcessorLocalApic(processorId: Byte, apicId: Byte, flags: nat)
    | IoApic(ioApicId: Byte, address: nat, gsiBase: nat)
    | InterruptSourceOverride(busSource: Byte, irqSource: Byte, gsi: nat, flags: nat)
    | LocalApicAddressOverride(address: nat)
    | NonMaskableInterrupt(processorId: Byte, flags: nat, lint: Byte)
    | Unknown(entryType: Byte, recordLength: Byte)

  /** The type code a decoded record came from, for the kinds the kernel knows. */
  function TypeCode(e: Entry): Option<Byte>
  {
    match e
    case ProcessorLocalApic(_, _, _) => Some(PROCESSOR_LOCAL_APIC)
    case IoApic(_, _, _) => Some(IO_APIC)
    case InterruptSourceOverride(_, _, _, _) => Some(INTERRUPT_SOURCE_OVERRIDE)
    case LocalApicAddressOverride(_) => Some(LOCAL_APIC_ADDRESS_OVERRIDE)
    case NonMaskableInterrupt(_, _, _) => Some(NON_MASKABLE_INTERRUPT)
    case Unknown(_, _) => None
  }

  /** `MadtEntry::from_header`: the record at `at`, viewed with the layout its type selects. */
  function FromHeader(mem: seq<Byte>, at: nat): (e: Entry)
    requires at + RECORD_EXTENT <= |mem|
    ensures TypeCode(e) == Some(mem[at]) || (e == Unknown(mem[at], mem[at + 1]) && TypeCode(e).None?)
  {
    var t := mem[at];
    if t == PROCESSOR_LOCAL_APIC then ProcessorLocalApic(mem[at + 2], mem[at + 3], Field(mem, at + 4, 4))
    else if t == IO_APIC then IoApic(mem[at + 2], Field(mem, at + 4, 4), Field(mem, at + 8, 4))
    else if t == LOCAL_APIC_ADDRESS_OVERRIDE then LocalApicAddressOverride(Field(mem, at + 4, 8))
    else if t == INTERRUPT_SOURCE_OVERRIDE then InterruptSourceOverride(mem[at + 2], mem[at + 3], Field(mem, at + 4, 4), Field(mem, at + 8, 2))
    else if t == NON_MASKABLE_INTERRUPT then NonMaskableInterrupt(mem[at + 2], Field(mem, at + 3, 2), mem[at + 5])
    else Unknown(t, mem[at + 1])
  }

  /** Types 0, 1, 2, 4 and 5 decode to their own kind; every other type decodes to `Unknown`. */
  lemma FromHeaderByType(mem: seq<Byte>, at: nat)
    requires at + RECORD_EXTENT <= |mem|
    ensures FromHeader(mem, at).Unknown? <==> mem[at] !in {0, 1, 2, 4, 5}
    ensures FromHeader(mem, at).ProcessorLocalApic? <==> mem[at] == 0
    ensures FromHeader(mem, at).IoApic? <==> mem[at] == 1
    ensures FromHeader(mem, at).InterruptSourceOverride? <==> mem[at] == 2
    ensures FromHeader(mem, at).NonMaskableInterrupt? <==> mem[at] == 4
    ensures FromHeader(mem, at).LocalApicAddressOverride? <==> mem[at] == 5
  {
  }

  /** `ProcessorLocalApic::processor_enabled`: `flags & 1 != 0`. */
  predicate ProcessorEnabled(e: Entry)
    requires e.ProcessorLocalApic?
  {
    Bits.And(e.flags, 1) != 0
  }

  /** A processor is enabled exactly when bit 0 of its flags is set. */
  lemma EnabledIsBitZero(e: Entry)
    requires e.ProcessorLocalApic?
    ensures ProcessorEnabled(e) <==> Bits.Bit(e.flags, 0)
    ensures ProcessorEnabled(e) <==> e.flags % 2 == 1
  {
    var x := e.flags;
    if x > 0 {
      assert Bits.And(x / 2, 0) == 0;
    }
  }

  /** `MadtHeaderIter`: the offset of the next record and the table's end. */
  datatype HeaderIter = HeaderIter(current: nat, last: nat)

  /** `entry_headers`: from the first record to the table's length. */
  function EntryHeaders(mem: seq<Byte>): (it: HeaderIter)
    requires |mem| >= HEADER_SIZE
    ensures it.current == FIRST_RECORD && it.last == Length(mem)
  {
    HeaderIter(FIRST_RECORD, Length(mem))
  }

  /**
   * `MadtHeaderIter::next`: past the end it asserts that the records
   * ended exactly at the table's end ("Entry sizes didn't add up") and
   * yields nothing; otherwise it yields the record at `current` and moves
   * on by the record's length.
   */
  function Next(mem: seq<Byte>, it: HeaderIter): (r: Outcome<(Option<nat>, HeaderIter)>)
    requires it.last + 1 <= |mem|
    ensures r.Panic? <==> it.current > it.last
    ensures r.Done? && r.value.0.None? <==> it.current == it.last
    ensures r.Done? && r.value.0.None? ==> r.value.1 == it
    ensures r.Done? && r.value.0.Some? ==>
      r.value.0.value == it.current && r.value.1 == HeaderIter(it.current + mem[it.current + 1], it.last)
  {
    if it.current >= it.last then
      if it.current == it.last then Done((None, it)) else Panic
    else
      Done((Some(it.current), HeaderIter(it.current + mem[it.current + 1], it.last)))
  }

  /** Once the iterator has returned `None` it keeps returning `None` (it is fused). */
  lemma NextFused(mem: seq<Byte>, it: HeaderIter)
    requires it.last + 1 <= |mem|
    requires Next(mem, it).Done? && Next(mem, it).value.0.None?
    ensures Next(mem, Next(mem, it).value.1) == Next(mem, it)
  {
  }

  /**
   * How a walk over the records ends: with the records it visited, with
   * the "Entry sizes didn't add up" panic, or never, when a record of
   * length zero makes the iterator yield the same record forever.
   */
  datatype Walk<T> = Finished(value: T) | Misfit | Endless

  /** The offsets of all records the iterator yields from `it`. */
  function WalkFrom(mem: seq<Byte>, it: HeaderIter): Walk<seq<nat>>
    requires it.last + 1 <= |mem|
    decreases it.last - it.current
  {
    match Next(mem, it)
    case Panic => Misfit
    case Done((item, rest)) =>
      if item.None? then Finished([])
      else if mem[item.value + 1] == 0 then Endless
      else match WalkFrom(mem, rest)
        case Finished(more) => Finished([item.value] + more)
        case Misfit => Misfit
        case Endless => Endless
  }

  /** All records of the table. */
  function Records(mem: seq<Byte>): Walk<seq<nat>>
    requires Mapped(mem)
  {
    WalkFrom(mem, EntryHeaders(mem))
  }

  /**
   * The records `recs` cover the bytes from `from` to `to` exactly: each
   * starts where the previous one ends and has a nonzero length, and the
   * last ends at `to`.
   */
  predicate Tiles(mem: seq<Byte>, from: nat, recs: seq<nat>, to: nat)
    requires to + 1 <= |mem|
    decreases |recs|
  {
    if |recs| == 0 then from == to
    else recs[0] == from && from < to && mem[from + 1] > 0 && Tiles(mem, from + mem[from + 1], recs[1..], to)
  }

  /**
   * The walk ends normally with `recs` exactly when `recs` tile the bytes
   * from the first record to the table's end.
   */
  lemma {:induction false} WalkTiles(mem: seq<Byte>, it: HeaderIter, recs: seq<nat>)
    requires it.last + 1 <= |mem|
    ensures WalkFrom(mem, it) == Finished(recs) <==> Tiles(mem, it.current, recs, it.last)
    decreases it.last - it.current, |recs|
  {
    if it.current < it.last && mem[it.current + 1] > 0 {
      var rest := HeaderIter(it.current + mem[it.current + 1], it.last);
      if |recs| > 0 {
        WalkTiles(mem, rest, recs[1..]);
        assert [recs[0]] + recs[1..] == recs;
      }
      match WalkFrom(mem, rest)
      case Finished(more) =>
        WalkTiles(mem, rest, more);
      case Misfit =>
      case Endless =>
    }
  }

  /** The decoded records. */
  function Entries(mem: seq<Byte>, recs: seq<nat>): (es: seq<Entry>)
    requires forall i :: 0 <= i < |recs| ==> recs[i] + RECORD_EXTENT <= |mem|
    ensures |es| == |recs| && forall i :: 0 <= i < |recs| ==> es[i] == FromHeader(mem, recs[i])
  {
    if |recs| == 0 then [] else [FromHeader(mem, recs[0])] + Entries(mem, recs[1..])
  }

  /** Every record a walk over a mapped table yields starts inside the table. */
  lemma {:induction false} WalkInside(mem: seq<Byte>, it: HeaderIter)
    requires it.last + 1 <= |mem|
    requires WalkFrom(mem, it).Finished?
    ensures forall i :: 0 <= i < |WalkFrom(mem, it).value| ==>
      it.current <= WalkFrom(mem, it).value[i] < it.last
    decreases it.last - it.current
  {
    if it.current < it.last {
      WalkInside(mem, HeaderIter(it.current + mem[it.current + 1], it.last));
    }
  }

  /** `processor_local_apics`: the processor records, in table order. */
  function LocalApics(es: seq<Entry>): (ps: seq<Entry>)
    ensures forall e :: e in ps <==> e in es && e.ProcessorLocalApic?
  {
    if |es| == 0 then []
    else (if es[0].ProcessorLocalApic? then [es[0]] else []) + LocalApics(es[1..])
  }

  /** `io_apics`: the I/O APIC records, in table order. */
  function IoApics(es: seq<Entry>): (ps: seq<Entry>)
    ensures forall e :: e in ps <==> e in es && e.IoApic?
  {
    if |es| == 0 then []
    else (if es[0].IoApic? then [es[0]] else []) + IoApics(es[1..])
  }

  /**
   * `LocalApics` is the order-keeping filter: it distributes over
   * concatenation and keeps a single record exactly when it is a processor
   * record, so each such record appears as often and in the same place
   * as in the table.
   */
  lemma {:induction false} LocalApicsFilter(a: seq<Entry>, b: seq<Entry>)
    ensures LocalApics(a + b) == LocalApics(a) + LocalApics(b)
    ensures |a| == 1 ==> LocalApics(a) == if a[0].ProcessorLocalApic? then a else []
  {
    if |a| > 0 {
      var head := if a[0].ProcessorLocalApic? then [a[0]] else [];
      assert (a + b)[0] == a[0] && (a + b)[1..] == a[1..] + b;
      assert LocalApics(a + b) == head + LocalApics(a[1..] + b);
      assert LocalApics(a) == head + LocalApics(a[1..]);
      LocalApicsFilter(a[1..], b);
    } else {
      assert a + b == b;
    }
  }

  /** `IoApics` is the order-keeping filter of the I/O APIC records, as `LocalApicsFilter` states for processors. */
  lemma {:induction false} IoApicsFilter(a: seq<Entry>, b: seq<Entry>)
    ensures IoApics(a + b) == IoApics(a) + IoApics(b)
    ensures |a| == 1 ==> IoApics(a) == if a[0].IoApic? then a else []
  {
    if |a| > 0 {
      var head := if a[0].IoApic? then [a[0]] else [];
      assert (a + b)[0] == a[0] && (a + b)[1..] == a[1..] + b;
      assert IoApics(a + b) == head + IoApics(a[1..] + b);
      assert IoApics(a) == head + IoApics(a[1..]);
      IoApicsFilter(a[1..], b);
    } else {
      assert a + b == b;
    }
  }

  /** The address in the first address-override record, if any. */
  function FirstOverride(es: seq<Entry>): Option<nat>
  {
    if |es| == 0 then None
    else if es[0].LocalApicAddressOverride? then Some(es[0].address)
    else FirstOverride(es[1..])
  }

  /**
   * `FirstOverride` finds an override exactly when there is one, and then
   * the one that no other override precedes.
   */
  lemma {:induction false} FirstOverrideIsFirst(es: seq<Entry>)
    ensures FirstOverride(es).Some? <==> exists i :: 0 <= i < |es| && es[i].LocalApicAddressOverride?
    ensures FirstOverride(es).Some? ==>
      exists i :: (0 <= i < |es| && es[i] == LocalApicAddressOverride(FirstOverride(es).value)
        && forall j :: 0 <= j < i ==> !es[j].LocalApicAddressOverride?)
  {
    if |es| > 0 && !es[0].LocalApicAddressOverride? {
      FirstOverrideIsFirst(es[1..]);
      var r := FirstOverride(es[1..]);
      if r.Some? {
        var i :| (0 <= i < |es[1..]| && es[1..][i] == LocalApicAddressOverride(r.value)
          && forall j :: 0 <= j < i ==> !es[1..][j].LocalApicAddressOverride?);
        assert es[i + 1] == LocalApicAddressOverride(r.value);
        assert forall j :: 0 < j < i + 1 ==> es[j] == es[1..][j - 1];
      }
      if exists i :: 0 <= i < |es| && es[i].LocalApicAddressOverride? {
        var i :| 0 <= i < |es| && es[i].LocalApicAddressOverride?;
        assert es[1..][i - 1].LocalApicAddressOverride?;
      }
    }
  }

  /**
   * The `find_map` of `local_apic_address` from `it`: it stops at the first
   * address override, which a record of length zero can still be. It walks
   * the records the iterator yields, so it ends normally whenever the whole
   * walk does, and reaches the size panic only where the whole walk does.
   */
  function FindOverride(mem: seq<Byte>, it: HeaderIter): (r: Walk<Option<nat>>)
    requires it.last + RECORD_EXTENT <= |mem| + 1
    ensures WalkFrom(mem, it).Finished? ==> r.Finished?
    ensures r.Misfit? ==> WalkFrom(mem, it).Misfit?
    decreases it.last - it.current
  {
    match Next(mem, it)
    case Panic => Misfit
    case Done((item, rest)) =>
      if item.None? then Finished(None)
      else
        var e := FromHeader(mem, item.value);
        if e.LocalApicAddressOverride? then Finished(Some(e.address))
        else if mem[item.value + 1] == 0 then Endless
        else FindOverride(mem, rest)
  }

  /**
   * `local_apic_address`: the address of the first address-override
   * record, or the table's 32-bit `local_apic_address` when there is none.
   * On a table whose records add up to its length, that is the first
   * override among the decoded records, or the header field when no record
   * overrides it.
   */
  function LocalApicAddress(mem: seq<Byte>): (r: Walk<nat>)
    requires Mapped(mem)
    ensures Records(mem).Finished? ==>
      forall i :: 0 <= i < |Records(mem).value| ==> Records(mem).value[i] + RECORD_EXTENT <= |mem|
    ensures Records(mem).Finished? ==>
      var es := Entries(mem, Records(mem).value);
      r == Finished(if FirstOverride(es).Some? then FirstOverride(es).value else Field(mem, HEADER_SIZE, 4))
  {
    assert Records(mem).Finished? ==> FindOverride(mem, EntryHeaders(mem)) == Finished(FirstOverride(Entries(mem, Records(mem).value))) by {
      if Records(mem).Finished? {
        FindOverrideOfWalk(mem, EntryHeaders(mem));
      }
    }
    match FindOverride(mem, EntryHeaders(mem))
    case Finished(found) => Finished(if found.Some? then found.value else Field(mem, HEADER_SIZE, 4))
    case Misfit => Misfit
    case Endless => Endless
  }

  /** Over records that walk to the end, the search finds the first override among the decoded records. */
  lemma {:induction false} FindOverrideOfWalk(mem: seq<Byte>, it: HeaderIter)
    requires it.last + RECORD_EXTENT <= |mem| + 1
    requires WalkFrom(mem, it).Finished?
    ensures forall i :: 0 <= i < |WalkFrom(mem, it).value| ==> WalkFrom(mem, it).value[i] + RECORD_EXTENT <= |mem|
    ensures FindOverride(mem, it) == Finished(FirstOverride(Entries(mem, WalkFrom(mem, it).value)))
    decreases it.last - it.current
  {
    WalkInside(mem, it);
    if it.current < it.last {
      var rest := HeaderIter(it.current + mem[it.current + 1], it.last);
      assert Next(mem, it) == Done((Some(it.current), rest));
      FindOverrideOfWalk(mem, rest);
      var recs := WalkFrom(mem, it).value;
      assert recs == [it.current] + WalkFrom(mem, rest).value;
      assert Entries(mem, recs) == [FromHeader(mem, it.current)] + Entries(mem, recs[1..]);
    }
  }
}

=== FILE: multiboot.dfy ===
/**
 * The Multiboot2 boot information structure (multiboot2/src/lib.rs).
 *
 * The boot information is a `u32` total size, a reserved `u32` and then a
 * list of tags, each an 8-byte header (`u32` type, `u32` size including the
 * header) followed by its payload and padding to the next multiple of 8
 * bytes; a tag of type 0 ends the list (section 3.6 of the Multiboot2
 * Specification, version 2.0). The kernel walks the tags with a raw pointer;
 * the model holds the structure as a sequence of bytes and the pointer as an
 * offset into it.
 */
module Multiboot2 {
  import opened Common
  import opened Bytes
  import Align
  import Utf8

  /** The tag types the kernel recognises (`TagType`). */
  const END: nat := 0
  const BOOT_CMD_LINE: nat := 1
  const BOOT_LOADER_NAME: nat := 2
  const MODULE: nat := 3
  const MEMORY_MAP: nat := 6

  /** Size of a tag header, and offset of the first tag after `total_size` and `reserved`. */
  const TAG_HEADER: nat := 8
  const FIRST_TAG: nat := 8

  /**
   * `size_of` the packed tag structs: the header, then for a module the
   * `mod_start` and `mod_end` words, then the first byte of the string.
   */
  const MODULE_TAG_SIZE: nat := 17
  const BOOT_LOADER_TAG_SIZE: nat := 9
  const BOOT_CMD_LINE_TAG_SIZE: nat := 9

  /** A tag header (`Tag`): its type and its size in bytes, header included. */
  datatype Tag = Tag(tagType: U32, size: U32)

  /** The tag header at offset `at`. */
  function TagAt(mem: seq<Byte>, at: nat): Tag
    requires at + TAG_HEADER <= |mem|
  {
    assert Power(4) == U32_LIMIT;
    Tag(Field(mem, at, 4), Field(mem, at + 4, 4))
  }

  /**
   * `Tag::next`: the tag at `at` is followed by the next one after its size
   * rounded up to a multiple of 8. The gap is the smallest multiple of 8 that
   * holds the tag, so it is empty only for a tag of size 0.
   */
  function NextOffset(t: Tag, at: nat): (next: nat)
    ensures (next - at) % 8 == 0 && at + t.size <= next < at + t.size + 8
    ensures next == at <==> t.size == 0
  {
    assert Align.IsPow2(8);
    at + Align.AlignUp(t.size, 8).value
  }

  /** `TagsIter`: the position of the tag the next call reads. */
  datatype TagsIter = TagsIter(current: nat)

  /** `Multiboot2Info::tags`: the iterator starts at the first tag. */
  function Tags(): TagsIter
  {
    TagsIter(FIRST_TAG)
  }

  /**
   * `TagsIter::next`: an end tag yields nothing and leaves the iterator where
   * it is; any other tag is yielded and the iterator moves past it.
   */
  function Next(mem: seq<Byte>, it: TagsIter): (r: (Option<nat>, TagsIter))
    requires it.current + TAG_HEADER <= |mem|
    ensures r.0.None? <==> TagAt(mem, it.current).tagType == END
    ensures r.0.None? ==> r.1 == it
    ensures r.0.Some? ==> r.0.value == it.current && r.1.current == NextOffset(TagAt(mem, it.current), it.current)
  {
    var t := TagAt(mem, it.current);
    if t.tagType == END then (None, it)
    else (Some(it.current), TagsIter(NextOffset(t, it.current)))
  }

  /**
   * `impl FusedIterator for TagsIter`: once `next` has returned nothing it
   * returns nothing on every later call.
   */
  lemma NextFused(mem: seq<Byte>, it: TagsIter, calls: nat)
    requires it.current + TAG_HEADER <= |mem| && Next(mem, it).0.None?
    ensures Repeat(mem, it, calls) == it && Next(mem, Repeat(mem, it, calls)).0.None?
  {
    if calls > 0 {
      NextFused(mem, it, calls - 1);
    }
  }

  /** The iterator after `calls` further calls of `next`, when none has left the structure. */
  function Repeat(mem: seq<Byte>, it: TagsIter, calls: nat): TagsIter
    requires it.current + TAG_HEADER <= |mem|
    decreases calls
  {
    if calls == 0 then it
    else
      var after := Next(mem, it).1;
      if after.current + TAG_HEADER <= |mem| then Repeat(mem, after, calls - 1) else after
  }

  /**
   * The outcome of iterating to the end: the offsets of the tags yielded, or
   * `Malformed` when the walk reads past the structure or meets a non-end tag
   * of size 0 (which `next` yields forever, since it never moves past it).
   */
  datatype Walk = Walked(offsets: seq<nat>) | Malformed

  /** Calling `next` from position `at` until it returns nothing. */
  function WalkFrom(mem: seq<Byte>, at: nat): Walk
    decreases |mem| - at
  {
    if at + TAG_HEADER > |mem| then Malformed
    else match Next(mem, TagsIter(at))
      case (None, _) => Walked([])
      case (Some(_), after) =>
        if after.current <= at then Malformed
        else match WalkFrom(mem, after.current)
          case Malformed => Malformed
          case Walked(rest) => Walked([at] + rest)
  }

  /** Iterating over all tags of the boot information. */
  function AllTags(mem: seq<Byte>): Walk
  {
    WalkFrom(mem, Tags().current)
  }

  /** Where the tag after the last of `offsets` begins: the end tag of a well-formed list. */
  function EndOf(mem: seq<Byte>, start: nat, offsets: seq<nat>): nat
    requires |offsets| > 0 ==> Last(offsets) + TAG_HEADER <= |mem|
  {
    if |offsets| == 0 then start else NextOffset(TagAt(mem, Last(offsets)), Last(offsets))
  }

  function Last(s: seq<nat>): nat
    requires |s| > 0
  {
    s[|s| - 1]
  }

  /** A tag header at `at` lies in memory and is neither an end tag nor empty. */
  predicate Proper(mem: seq<Byte>, at: nat)
  {
    at + TAG_HEADER <= |mem| && TagAt(mem, at).tagType != END && TagAt(mem, at).size > 0
  }

  /**
   * The tag list as the Multiboot2 layout describes it, independent of the
   * iterator: the first tag sits at `start`, each tag follows the previous
   * one at its padded size, none is an end tag or empty, and an end tag
   * follows the last one.
   */
  predicate IsTagList(mem: seq<Byte>, start: nat, offsets: seq<nat>)
  {
    (forall i :: 0 <= i < |offsets| ==> Proper(mem, offsets[i]))
    && (|offsets| > 0 ==> offsets[0] == start)
    && (forall i :: 0 <= i < |offsets| - 1 ==>
          offsets[i + 1] == NextOffset(TagAt(mem, offsets[i]), offsets[i]))
    && EndOf(mem, start, offsets) + TAG_HEADER <= |mem|
    && TagAt(mem, EndOf(mem, start, offsets)).tagType == END
  }

  /** Splitting a tag list after its first tag. */
  lemma TagListCons(mem: seq<Byte>, start: nat, offsets: seq<nat>)
    requires |offsets| > 0 && Proper(mem, start) && offsets[0] == start
    ensures IsTagList(mem, start, offsets) <==>
      IsTagList(mem, NextOffset(TagAt(mem, start), start), offsets[1..])
  {
    var next := NextOffset(TagAt(mem, start), start);
    var rest := offsets[1..];
    if |rest| > 0 {
      assert Last(offsets) == Last(rest);
    }
    if IsTagList(mem, next, rest) {
      forall i | 0 <= i < |offsets| - 1
        ensures offsets[i + 1] == NextOffset(TagAt(mem, offsets[i]), offsets[i])
      {
        if i > 0 {
          assert offsets[i] == rest[i - 1] && offsets[i + 1] == rest[i];
        }
      }
      forall i | 0 <= i < |offsets|
        ensures Proper(mem, offsets[i])
      {
        if i > 0 {
          assert offsets[i] == rest[i - 1];
        }
      }
    }
    if IsTagList(mem, start, offsets) && |rest| > 0 {
      assert rest[0] == offsets[1];
    }
  }

  /**
   * One step of the walk: past a proper tag, the walk is that tag followed
   * by the walk from the next one.
   */
  lemma WalkStep(mem: seq<Byte>, start: nat)
    requires Proper(mem, start)
    ensures var next := NextOffset(TagAt(mem, start), start);
      next > start
      && WalkFrom(mem, start) == match WalkFrom(mem, next)
        case Malformed => Malformed
        case Walked(rest) => Walked([start] + rest)
  {
  }

  /**
   * Iterating until `next` returns nothing yields exactly the tag list: the
   * walk succeeds with `offsets` if and only if `offsets` is the list of
   * tags before the end tag.
   */
  lemma {:induction false} WalkIsTagList(mem: seq<Byte>, start: nat, offsets: seq<nat>)
    ensures WalkFrom(mem, start) == Walked(offsets) <==> IsTagList(mem, start, offsets)
    decreases |mem| - start
  {
    if Proper(mem, start) && |offsets| > 0 && offsets[0] == start {
      var next := NextOffset(TagAt(mem, start), start);
      WalkStep(mem, start);
      WalkIsTagList(mem, next, offsets[1..]);
      TagListCons(mem, start, offsets);
      assert offsets == [start] + offsets[1..];
    } else if Proper(mem, start) {
      WalkStep(mem, start);
    }
  }

  /** The offsets of a sequence in strictly increasing order. */
  predicate Increasing(s: seq<nat>)
  {
    forall i, j :: 0 <= i < j < |s| ==> s[i] < s[j]
  }

  /** Each tag of `offsets`, header and size, lies inside the structure. */
  predicate TagsInside(mem: seq<Byte>, offsets: seq<nat>)
  {
    forall i :: 0 <= i < |offsets| ==>
      offsets[i] + TAG_HEADER <= |mem| && offsets[i] + TagAt(mem, offsets[i]).size <= |mem|
  }

  /**
   * A walk that yields a tag yields the one at its start and then the walk
   * from the next tag, whose header lies inside the structure.
   */
  lemma WalkedCons(mem: seq<Byte>, start: nat)
    requires WalkFrom(mem, start).Walked? && |WalkFrom(mem, start).offsets| > 0
    ensures var next := NextOffset(TagAt(mem, start), start);
      start + TAG_HEADER <= |mem| && start < next && next + TAG_HEADER <= |mem|
      && start + TagAt(mem, start).size <= next && (next - start) % 8 == 0
      && WalkFrom(mem, next).Walked?
      && WalkFrom(mem, start).offsets == [start] + WalkFrom(mem, next).offsets
  {
    assert Proper(mem, start);
    WalkStep(mem, start);
  }

  /** Every offset lies at or after `start`, at a multiple of 8 from it. */
  predicate AlignedFrom(start: nat, offsets: seq<nat>)
  {
    forall i :: 0 <= i < |offsets| ==> start <= offsets[i] && (offsets[i] - start) % 8 == 0
  }

  /** Putting `start` in front of offsets aligned from a later multiple of 8. */
  lemma AlignedCons(start: nat, next: nat, rest: seq<nat>)
    requires start <= next && (next - start) % 8 == 0 && AlignedFrom(next, rest)
    ensures AlignedFrom(start, [start] + rest)
  {
    var offs := [start] + rest;
    forall i | 0 < i < |offs|
      ensures start <= offs[i] && (offs[i] - start) % 8 == 0
    {
      var k := (next - start) / 8;
      var m := (rest[i - 1] - next) / 8;
      assert offs[i] - start == 8 * (k + m);
    }
  }

  /** The tags of a walk lie at or after its start, at multiples of 8 from it. */
  lemma {:induction false} WalkedTagsAligned(mem: seq<Byte>, start: nat)
    requires WalkFrom(mem, start).Walked?
    ensures AlignedFrom(start, WalkFrom(mem, start).offsets)
    decreases |mem| - start
  {
    if |WalkFrom(mem, start).offsets| > 0 {
      WalkedCons(mem, start);
      var next := NextOffset(TagAt(mem, start), start);
      WalkedTagsAligned(mem, next);
      AlignedCons(start, next, WalkFrom(mem, next).offsets);
    }
  }

  /** Putting a tag that lies inside the structure in front of others that do. */
  lemma TagsInsideCons(mem: seq<Byte>, start: nat, rest: seq<nat>)
    requires start + TAG_HEADER <= |mem| && start + TagAt(mem, start).size <= |mem|
    requires TagsInside(mem, rest)
    ensures TagsInside(mem, [start] + rest)
  {
    var offs := [start] + rest;
    forall i | 0 < i < |offs|
      ensures offs[i] + TAG_HEADER <= |mem| && offs[i] + TagAt(mem, offs[i]).size <= |mem|
    {
      assert offs[i] == rest[i - 1];
    }
  }

  /** Every tag of a walk lies inside the structure, size included. */
  lemma {:induction false} WalkedTagsInside(mem: seq<Byte>, start: nat)
    requires WalkFrom(mem, start).Walked?
    ensures TagsInside(mem, WalkFrom(mem, start).offsets)
    decreases |mem| - start
  {
    if |WalkFrom(mem, start).offsets| > 0 {
      WalkedCons(mem, start);
      var next := NextOffset(TagAt(mem, start), start);
      WalkedTagsInside(mem, next);
      TagsInsideCons(mem, start, WalkFrom(mem, next).offsets);
    }
  }

  /** Putting a smaller offset in front of increasing offsets that all follow it. */
  lemma IncreasingCons(start: nat, next: nat, rest: seq<nat>)
    requires start < next && AlignedFrom(next, rest) && Increasing(rest)
    ensures Increasing([start] + rest)
  {
    var offs := [start] + rest;
    forall i, j | 0 <= i < j < |offs|
      ensures offs[i] < offs[j]
    {
      assert offs[j] == rest[j - 1];
      if i > 0 {
        assert offs[i] == rest[i - 1];
      }
    }
  }

  /** The tags of a walk come in strictly increasing order. */
  lemma {:induction false} WalkedTagsIncreasing(mem: seq<Byte>, start: nat)
    requires WalkFrom(mem, start).Walked?
    ensures Increasing(WalkFrom(mem, start).offsets)
    decreases |mem| - start
  {
    if |WalkFrom(mem, start).offsets| > 0 {
      WalkedCons(mem, start);
      var next := NextOffset(TagAt(mem, start), start);
      WalkedTagsIncreasing(mem, next);
      WalkedTagsAligned(mem, next);
      IncreasingCons(start, next, WalkFrom(mem, next).offsets);
    }
  }

  /** The index in `offsets` of the first tag of type `tagType`. */
  function FirstOfType(mem: seq<Byte>, offsets: seq<nat>, tagType: nat): (r: Option<nat>)
    requires TagsInside(mem, offsets)
    ensures r.Some? ==> (r.value < |offsets| && TagAt(mem, offsets[r.value]).tagType == tagType
      && forall j :: 0 <= j < r.value ==> TagAt(mem, offsets[j]).tagType != tagType)
    ensures r.None? <==> forall i :: 0 <= i < |offsets| ==> TagAt(mem, offsets[i]).tagType != tagType
  {
    if |offsets| == 0 then None
    else if TagAt(mem, offsets[0]).tagType == tagType then Some(0)
    else
      assert forall i :: 0 < i < |offsets| ==> offsets[i] == offsets[1..][i - 1];
      match FirstOfType(mem, offsets[1..], tagType)
      case None => None
      case Some(i) => Some(i + 1)
  }

  /** The walk of a compliant bootloader's structure ends at an end tag. */
  predicate WellFormed(mem: seq<Byte>)
  {
    AllTags(mem).Walked?
  }

  /**
   * `tags().find(|t| t.tag_type() == tag_type)`, which `memory_map`,
   * `boot_cmd_line` and `bootloader_name` use with types 6, 1 and 2: a tag
   * of that type, or none when no tag has it. The structure must be well
   * formed, as the source relies on a compliant bootloader.
   */
  function FindTag(mem: seq<Byte>, tagType: nat): (r: Option<nat>)
    requires WellFormed(mem)
    ensures r.Some? ==> (r.value in AllTags(mem).offsets
      && r.value + TAG_HEADER <= |mem| && r.value + TagAt(mem, r.value).size <= |mem|
      && TagAt(mem, r.value).tagType == tagType)
  {
    WalkedTagsInside(mem, FIRST_TAG);
    var offs := AllTags(mem).offsets;
    match FirstOfType(mem, offs, tagType)
    case None => None
    case Some(i) => Some(offs[i])
  }

  /**
   * `FindTag` finds nothing exactly when no tag has the requested type, and
   * otherwise the tag it returns comes before every other tag of that type.
   */
  lemma FindTagFirst(mem: seq<Byte>, tagType: nat)
    requires WellFormed(mem)
    ensures var offs := AllTags(mem).offsets;
      TagsInside(mem, offs)
      && (FindTag(mem, tagType).None? <==> forall i :: 0 <= i < |offs| ==> TagAt(mem, offs[i]).tagType != tagType)
      && (FindTag(mem, tagType).Some? ==>
            forall i :: 0 <= i < |offs| && offs[i] < FindTag(mem, tagType).value ==> TagAt(mem, offs[i]).tagType != tagType)
  {
    WalkedTagsInside(mem, FIRST_TAG);
    WalkedTagsIncreasing(mem, FIRST_TAG);
    var offs := AllTags(mem).offsets;
    var k := FirstOfType(mem, offs, tagType);
    if k.Some? {
      forall i | 0 <= i < |offs| && offs[i] < offs[k.value]
        ensures TagAt(mem, offs[i]).tagType != tagType
      {
        assert i < k.value;
      }
    }
  }

  /** The tags of `offsets` whose type is `tagType`, in order. */
  function OfType(mem: seq<Byte>, offsets: seq<nat>, tagType: nat): (r: seq<nat>)
    requires TagsInside(mem, offsets)
    ensures forall x :: x in r <==> x in offsets && TagAt(mem, x).tagType == tagType
  {
    if |offsets| == 0 then []
    else
      assert forall i :: 0 < i < |offsets| ==> offsets[i] == offsets[1..][i - 1];
      var rest := OfType(mem, offsets[1..], tagType);
      assert offsets == [offsets[0]] + offsets[1..];
      if TagAt(mem, offsets[0]).tagType == tagType then [offsets[0]] + rest else rest
  }

  /** Filtering keeps the order: the tags of one type come in increasing order. */
  lemma {:induction false} OfTypeIncreasing(mem: seq<Byte>, offsets: seq<nat>, tagType: nat)
    requires TagsInside(mem, offsets) && Increasing(offsets)
    ensures Increasing(OfType(mem, offsets, tagType))
  {
    if |offsets| > 0 {
      assert forall i :: 0 < i < |offsets| ==> offsets[i] == offsets[1..][i - 1];
      OfTypeIncreasing(mem, offsets[1..], tagType);
      if TagAt(mem, offsets[0]).tagType == tagType {
        var rest := OfType(mem, offsets[1..], tagType);
        TailAbove(offsets);
        assert forall x :: x in rest ==> x in offsets[1..];
        ConsIncreasing(offsets[0], rest);
      }
    }
  }

  /** In an increasing sequence every later element is above the first. */
  lemma TailAbove(s: seq<nat>)
    requires |s| > 0 && Increasing(s)
    ensures forall x :: x in s[1..] ==> s[0] < x
  {
    forall x | x in s[1..]
      ensures s[0] < x
    {
      var k :| 0 <= k < |s[1..]| && s[1..][k] == x;
      assert s[k + 1] == x;
    }
  }

  /** An element below everything in an increasing sequence can go in front. */
  lemma ConsIncreasing(a: nat, rest: seq<nat>)
    requires Increasing(rest) && forall x :: x in rest ==> a < x
    ensures Increasing([a] + rest)
  {
    var r := [a] + rest;
    forall i, j | 0 <= i < j < |r|
      ensures r[i] < r[j]
    {
      assert r[j] == rest[j - 1] && rest[j - 1] in rest;
      if i > 0 {
        assert r[i] == rest[i - 1];
      }
    }
  }

  /** `modules()`: the module tags, in the order the walk meets them. */
  function Modules(mem: seq<Byte>): (r: seq<nat>)
    requires WellFormed(mem)
    ensures forall x :: x in r <==> x in AllTags(mem).offsets && x + TAG_HEADER <= |mem| && TagAt(mem, x).tagType == MODULE
    ensures Increasing(r)
  {
    WalkedTagsInside(mem, FIRST_TAG);
    WalkedTagsIncreasing(mem, FIRST_TAG);
    OfTypeIncreasing(mem, AllTags(mem).offsets, MODULE);
    OfType(mem, AllTags(mem).offsets, MODULE)
  }

  /**
   * The string of a tag whose packed struct is `structSize` bytes long, its
   * last byte being the first byte of the string: `cmd_line` and `name`
   * assert that the tag is at least that large ("size >= size_of") and take
   * `size - size_of` bytes from the string's first byte. The string so
   * ends one byte before the tag does, leaving out the terminating NUL.
   * `str::from_utf8(..).expect` then panics unless the bytes are
   * well-formed UTF-8.
   */
  function TagString(mem: seq<Byte>, at: nat, structSize: nat): (r: Outcome<seq<Byte>>)
    requires structSize > TAG_HEADER
    requires at + TAG_HEADER <= |mem| && at + TagAt(mem, at).size <= |mem|
    ensures r.Done? <==> TagAt(mem, at).size >= structSize && Utf8.WellFormed(StringBytes(mem, at, structSize))
    ensures r.Done? ==> (|r.value| == TagAt(mem, at).size - structSize
      && r.value + [mem[at + TagAt(mem, at).size - 1]] == mem[at + structSize - 1 .. at + TagAt(mem, at).size])
  {
    var size := TagAt(mem, at).size;
    if size < structSize then Panic
    else
      var s := StringBytes(mem, at, structSize);
      SliceThenLast(mem, at + structSize - 1, at + size);
      if Utf8.WellFormed(s) then Done(s) else Panic
  }

  /** A slice is the slice one shorter followed by its last byte. */
  lemma SliceThenLast(mem: seq<Byte>, a: nat, b: nat)
    requires a < b <= |mem|
    ensures mem[a .. b - 1] + [mem[b - 1]] == mem[a .. b]
  {
  }

  /**
   * The bytes from the string's first byte up to the tag's last byte,
   * which a string tag holds when it is at least as large as its struct.
   */
  function StringBytes(mem: seq<Byte>, at: nat, structSize: nat): seq<Byte>
    requires structSize > 0
    requires at + TAG_HEADER <= |mem| && at + TagAt(mem, at).size <= |mem|
  {
    if TagAt(mem, at).size >= structSize then mem[at + structSize - 1 .. at + TagAt(mem, at).size - 1] else []
  }

  /** `ModuleTag::cmd_line`: the module's command line, or a panic on a short tag or invalid UTF-8. */
  function ModuleCmdLine(mem: seq<Byte>, at: nat): (r: Outcome<seq<Byte>>)
    requires at + TAG_HEADER <= |mem| && at + TagAt(mem, at).size <= |mem|
    ensures r.Done? <==> TagAt(mem, at).size >= MODULE_TAG_SIZE && Utf8.WellFormed(StringBytes(mem, at, MODULE_TAG_SIZE))
    ensures r.Done? ==> r.value == StringBytes(mem, at, MODULE_TAG_SIZE)
  {
    TagString(mem, at, MODULE_TAG_SIZE)
  }

  /** `BootLoaderTag::name`: the boot loader's name, or a panic on a short tag or invalid UTF-8. */
  function BootLoaderName(mem: seq<Byte>, at: nat): (r: Outcome<seq<Byte>>)
    requires at + TAG_HEADER <= |mem| && at + TagAt(mem, at).size <= |mem|
    ensures r.Done? <==> TagAt(mem, at).size >= BOOT_LOADER_TAG_SIZE && Utf8.WellFormed(StringBytes(mem, at, BOOT_LOADER_TAG_SIZE))
    ensures r.Done? ==> r.value == StringBytes(mem, at, BOOT_LOADER_TAG_SIZE)
  {
    TagString(mem, at, BOOT_LOADER_TAG_SIZE)
  }

  /** `BootCommandLineTag::cmd_line`: the kernel's command line, or a panic on a short tag or invalid UTF-8. */
  function BootCmdLineOf(mem: seq<Byte>, at: nat): (r: Outcome<seq<Byte>>)
    requires at + TAG_HEADER <= |mem| && at + TagAt(mem, at).size <= |mem|
    ensures r.Done? <==> TagAt(mem, at).size >= BOOT_CMD_LINE_TAG_SIZE && Utf8.WellFormed(StringBytes(mem, at, BOOT_CMD_LINE_TAG_SIZE))
    ensures r.Done? ==> r.value == StringBytes(mem, at, BOOT_CMD_LINE_TAG_SIZE)
  {
    TagString(mem, at, BOOT_CMD_LINE_TAG_SIZE)
  }

  /**
   * A boot loader name tag of size 10 holds one string byte and the NUL:
   * the byte 0x41 ("A") is returned, the byte 0xFF, which never occurs in
   * UTF-8, makes `name` panic.
   */
  lemma InvalidNamePanics(good: seq<Byte>, bad: seq<Byte>)
    requires good == [2, 0, 0, 0, 10, 0, 0, 0, 0x41, 0]
    requires bad == [2, 0, 0, 0, 10, 0, 0, 0, 0xFF, 0]
    ensures TagAt(good, 0).size == 10 && BootLoaderName(good, 0) == Done([0x41])
    ensures TagAt(bad, 0).size == 10 && BootLoaderName(bad, 0) == Panic
  {
    assert Field(good, 4, 4) == 10 && Field(bad, 4, 4) == 10 by {
      assert good[4..8] == bad[4..8] == [10, 0, 0, 0];
      assert Le([10, 0, 0, 0]) == 10;
    }
    assert StringBytes(good, 0, BOOT_LOADER_TAG_SIZE) == [0x41];
    assert StringBytes(bad, 0, BOOT_LOADER_TAG_SIZE) == [0xFF];
    assert Utf8.WellFormed([0x41]) by {
      assert Utf8.CharLength([0x41]) == Some(1);
      assert [0x41][1..] == [];
    }
  }

  /**
   * `Multiboot2Info::boot_cmd_line`: the string of the first command-line
   * tag, none without one; it panics where that tag's string does.
   */
  function BootCmdLine(mem: seq<Byte>): (r: Outcome<Option<seq<Byte>>>)
    requires WellFormed(mem)
    ensures FindTag(mem, BOOT_CMD_LINE).None? ==> r == Done(None)
    ensures FindTag(mem, BOOT_CMD_LINE).Some? ==>
      var at := FindTag(mem, BOOT_CMD_LINE).value;
      (r.Done? <==> TagAt(mem, at).size >= BOOT_CMD_LINE_TAG_SIZE && Utf8.WellFormed(StringBytes(mem, at, BOOT_CMD_LINE_TAG_SIZE)))
      && (r.Done? ==>
            r.value.Some? && r.value.value == StringBytes(mem, at, BOOT_CMD_LINE_TAG_SIZE)
            && |r.value.value| == TagAt(mem, at).size - BOOT_CMD_LINE_TAG_SIZE)
  {
    match FindTag(mem, BOOT_CMD_LINE)
    case None => Done(None)
    case Some(at) =>
      match BootCmdLineOf(mem, at)
      case Panic => Panic
      case Done(s) => Done(Some(s))
  }

  /** `Multiboot2Info::bootloader_name`, as `boot_cmd_line` for the first name tag. */
  function BootLoader(mem: seq<Byte>): (r: Outcome<Option<seq<Byte>>>)
    requires WellFormed(mem)
    ensures FindTag(mem, BOOT_LOADER_NAME).None? ==> r == Done(None)
    ensures FindTag(mem, BOOT_LOADER_NAME).Some? ==>
      var at := FindTag(mem, BOOT_LOADER_NAME).value;
      (r.Done? <==> TagAt(mem, at).size >= BOOT_LOADER_TAG_SIZE && Utf8.WellFormed(StringBytes(mem, at, BOOT_LOADER_TAG_SIZE)))
      && (r.Done? ==>
            r.value.Some? && r.value.value == StringBytes(mem, at, BOOT_LOADER_TAG_SIZE)
            && |r.value.value| == TagAt(mem, at).size - BOOT_LOADER_TAG_SIZE)
  {
    match FindTag(mem, BOOT_LOADER_NAME)
    case None => Done(None)
    case Some(at) =>
      match BootLoaderName(mem, at)
      case Panic => Panic
      case Done(s) => Done(Some(s))
  }
}

=== FILE: packed.dfy ===
/**
 * Fields packed into an unsigned integer, in arithmetic form.
 *
 * A field that holds `size` values and whose lowest digit has weight
 * `unit` (a power of two for the register fields of the model) is
 * `(x / unit) % size`; replacing it keeps the digits below `unit` and the
 * digits from `unit * size` up. For fields at bit positions this is what
 * `get_bits` and `set_bits` compute (`GetBitsIsField`, `SetBitsIsSetField`),
 * and stating register fields this way lets the solver work with division
 * by constants instead of evaluating the bitwise operators.
 */
module Packed {
  import opened Arith
  import opened Bits

  /** The field of `x` holding `size` values whose lowest digit has weight `unit`. */
  function Field(x: nat, unit: nat, size: nat): (f: nat)
    requires unit > 0 && size > 0
    ensures f < size
  {
    (x / unit) % size
  }

  /** `x` with that field replaced by `v`. */
  function SetField(x: nat, unit: nat, size: nat, v: nat): nat
    requires unit > 0 && size > 0 && v < size
  {
    ProductNat(x / (unit * size), unit * size);
    ProductNat(v, unit);
    (x / (unit * size)) * (unit * size) + v * unit + x % unit
  }

  lemma ProductNat(a: nat, b: nat)
    ensures a * b >= 0
  {
  }

  /** `x` and `y` agree on every digit outside the field: below `unit` and from `unit * size` up. */
  predicate SameOutside(x: nat, y: nat, unit: nat, size: nat)
    requires unit > 0 && size > 0
  {
    x % unit == y % unit && x / (unit * size) == y / (unit * size)
  }

  // ---------------------------------------------------------------------
  // Division facts
  // ---------------------------------------------------------------------

  /** Dividing by `a` and then by `b` is dividing by `a * b`. */
  lemma DivDiv(x: nat, a: nat, b: nat)
    requires a > 0 && b > 0
    ensures x / (a * b) == (x / a) / b
    ensures x % (a * b) == ((x / a) % b) * a + x % a
  {
    var q := (x / a) / b;
    var m := (x / a) % b;
    assert x / a == q * b + m;
    assert x == (x / a) * a + x % a;
    assert x == q * (a * b) + (m * a + x % a) by {
      assert (q * b + m) * a == q * (a * b) + m * a;
    }
    assert m * a + x % a < a * b by {
      assert m <= b - 1;
      assert m * a <= (b - 1) * a;
    }
    DivModUnique(x, a * b, q, m * a + x % a);
  }

  /** `x` is put back together from its three parts: above, in and below the field. */
  lemma Decompose(x: nat, unit: nat, size: nat)
    requires unit > 0 && size > 0
    ensures x == (x / (unit * size)) * (unit * size) + Field(x, unit, size) * unit + x % unit
  {
    DivDiv(x, unit, size);
    assert x == (x / (unit * size)) * (unit * size) + x % (unit * size);
  }

  // ---------------------------------------------------------------------
  // The setter and the getters
  // ---------------------------------------------------------------------

  /** A field value and a part below the field stay below the field's span. */
  lemma BelowSpan(f: nat, low: nat, unit: nat, size: nat)
    requires f < size && low < unit
    ensures f * unit + low < unit * size
  {
    assert f * unit <= (size - 1) * unit;
  }

  /** The part above the field counts in units of the field's span. */
  lemma Regroup(high: nat, f: nat, unit: nat, size: nat)
    ensures high * (unit * size) + f * unit == (high * size + f) * unit
  {
    MulAssoc(high, size, unit);
  }

  /**
   * A value put together from a part above the field, a field value and a
   * part below the field has exactly those three parts.
   */
  lemma FieldOfParts(x: nat, high: nat, f: nat, low: nat, unit: nat, size: nat)
    requires unit > 0 && size > 0 && f < size && low < unit
    requires x == high * (unit * size) + f * unit + low
    ensures Field(x, unit, size) == f && x % unit == low && x / (unit * size) == high
  {
    BelowSpan(f, low, unit, size);
    DivModUnique(x, unit * size, high, f * unit + low);
    Regroup(high, f, unit, size);
    DivModUnique(x, unit, high * size + f, low);
    DivModUnique(high * size + f, size, high, f);
  }

  /** `SetField` on a value given by its parts replaces the field part. */
  lemma SetFieldOfParts(x: nat, high: nat, f: nat, low: nat, unit: nat, size: nat, v: nat)
    requires unit > 0 && size > 0 && f < size && low < unit && v < size
    requires x == high * (unit * size) + f * unit + low
    ensures SetField(x, unit, size, v) == high * (unit * size) + v * unit + low
  {
    FieldOfParts(x, high, f, low, unit, size);
  }

  /**
   * A value whose field reads `v` and which agrees outside the field with a
   * value given by its parts is that value with the field part replaced.
   */
  lemma SetFromParts(r: nat, x: nat, high: nat, f: nat, low: nat, unit: nat, size: nat, v: nat)
    requires unit > 0 && size > 0 && f < size && low < unit && v < size
    requires x == high * (unit * size) + f * unit + low
    requires Field(r, unit, size) == v && SameOutside(r, x, unit, size)
    ensures r == high * (unit * size) + v * unit + low
  {
    FieldOfParts(x, high, f, low, unit, size);
    FieldOfParts(high * (unit * size) + v * unit + low, high, v, low, unit, size);
    SameFieldAndOutside(r, high * (unit * size) + v * unit + low, unit, size);
  }

  /** After `SetField`, the field reads `v` and nothing outside it has changed. */
  lemma SetFieldOnly(x: nat, unit: nat, size: nat, v: nat)
    requires unit > 0 && size > 0 && v < size
    ensures Field(SetField(x, unit, size, v), unit, size) == v
    ensures SameOutside(SetField(x, unit, size, v), x, unit, size)
  {
    FieldOfParts(SetField(x, unit, size, v), x / (unit * size), v, x % unit, unit, size);
  }

  /** `SetField` keeps a value below any bound that is a multiple of the field's span. */
  lemma SetFieldBelow(x: nat, unit: nat, size: nat, v: nat, bound: nat)
    requires unit > 0 && size > 0 && v < size
    requires x < bound && bound % (unit * size) == 0
    ensures SetField(x, unit, size, v) < bound
  {
    var span := unit * size;
    var base := (x / span) * span;
    assert base <= x;
    MultipleMod(span, x / span);
    assert base % span == 0 by {
      assert base == span * (x / span);
    }
    MultiplesApart(span, base, bound);
    assert v * unit + x % unit < span by {
      assert v <= size - 1;
      assert v * unit <= (size - 1) * unit;
    }
  }

  /** Writing back what the field held changes nothing. */
  lemma SetFieldOfField(x: nat, unit: nat, size: nat)
    requires unit > 0 && size > 0
    ensures SetField(x, unit, size, Field(x, unit, size)) == x
  {
    Decompose(x, unit, size);
  }

  /** Values agreeing outside a field are equal when they also agree inside it. */
  lemma SameFieldAndOutside(x: nat, y: nat, unit: nat, size: nat)
    requires unit > 0 && size > 0
    requires SameOutside(x, y, unit, size) && Field(x, unit, size) == Field(y, unit, size)
    ensures x == y
  {
    Decompose(x, unit, size);
    Decompose(y, unit, size);
  }

  /**
   * A field that lies wholly below another (its span divides the other's
   * unit) reads alike in values that agree outside the other.
   */
  lemma FieldBelow(x: nat, y: nat, unit: nat, size: nat, unit2: nat, size2: nat)
    requires unit > 0 && size > 0 && unit2 > 0 && size2 > 0
    requires unit % (unit2 * size2) == 0
    requires SameOutside(x, y, unit, size)
    ensures Field(x, unit2, size2) == Field(y, unit2, size2)
  {
    FieldOfLow(x, unit, unit2, size2);
    FieldOfLow(y, unit, unit2, size2);
  }

  /** A field inside the digits below `m` reads the same in `x` and in `x % m`. */
  lemma FieldOfLow(x: nat, m: nat, unit: nat, size: nat)
    requires m > 0 && unit > 0 && size > 0 && m % (unit * size) == 0
    ensures Field(x, unit, size) == Field(x % m, unit, size)
  {
    var span := unit * size;
    var k := m / span;
    var q := x / m;
    assert m == k * span;
    assert x == q * m + x % m;
    MulAssoc(q, k, span);
    ShiftByMultiple(x % m, q * k, unit, size);
  }

  lemma MulAssoc(a: nat, b: nat, c: nat)
    ensures a * (b * c) == (a * b) * c
  {
  }

  /** Adding a multiple of the field's span leaves the field as it was. */
  lemma ShiftByMultiple(y: nat, t: nat, unit: nat, size: nat)
    requires unit > 0 && size > 0
    ensures Field(t * (unit * size) + y, unit, size) == Field(y, unit, size)
  {
    assert t * (unit * size) == (t * size) * unit;
    AddMultiple(unit, t * size, y);
    AddMultiple(size, t, y / unit);
  }

  /**
   * A field that lies wholly above another (the other's span divides its
   * unit) reads alike in values that agree outside the other.
   */
  lemma FieldAbove(x: nat, y: nat, unit: nat, size: nat, unit2: nat, size2: nat)
    requires unit > 0 && size > 0 && unit2 > 0 && size2 > 0
    requires unit2 % (unit * size) == 0
    requires SameOutside(x, y, unit, size)
    ensures Field(x, unit2, size2) == Field(y, unit2, size2)
  {
    var span := unit * size;
    var k := unit2 / span;
    assert unit2 == span * k;
    DivDiv(x, span, k);
    DivDiv(y, span, k);
  }

  /** Agreeing outside a field is transitive. */
  lemma SameOutsideTrans(x: nat, y: nat, z: nat, unit: nat, size: nat)
    requires unit > 0 && size > 0
    requires SameOutside(x, y, unit, size) && SameOutside(y, z, unit, size)
    ensures SameOutside(x, z, unit, size)
  {
  }

  // ---------------------------------------------------------------------
  // The bit-level operations in arithmetic form
  // ---------------------------------------------------------------------

  /** `x >> n` is `x / 2^n`. */
  lemma {:induction false} ShrIsQuotient(x: nat, n: nat)
    ensures Shr(x, n) == x / Pow2(n)
  {
    if n > 0 {
      ShrIsQuotient(x / 2, n - 1);
      DivOfHalf(x, Pow2(n - 1));
    }
  }

  /** Keeping the low `n` bits of `x` is `x % 2^n`. */
  lemma {:induction false} TruncIsRemainder(x: nat, n: nat)
    ensures Trunc(x, n) == x % Pow2(n)
  {
    if n > 0 {
      TruncIsRemainder(x / 2, n - 1);
      ModOfDouble(x, Pow2(n - 1));
    }
  }

  /** A field is the low bits of a shift. */
  lemma FieldIsShrTrunc(x: nat, first: nat, n: nat)
    ensures Field(x, Pow2(first), Pow2(n)) == Trunc(Shr(x, first), n)
  {
    ShrIsQuotient(x, first);
    TruncIsRemainder(Shr(x, first), n);
  }

  /** `get_bits` is the low bits of a shift. */
  lemma GetBitsIsShrTrunc(x: nat, first: nat, last: nat, w: nat)
    requires first <= last < w
    ensures GetBits(x, first, last, w) == Trunc(Shr(x, first), last - first + 1)
  {
    var a, b := GetBits(x, first, last, w), Trunc(Shr(x, first), last - first + 1);
    forall i: nat
      ensures Bit(a, i) == Bit(b, i)
    {
      GetBitsBits(x, first, last, w, i);
      BitTrunc(Shr(x, first), last - first + 1, i);
      BitShr(x, first, i);
    }
    BitsEqual(a, b);
  }

  /** Bit `i` of the `n`-bit field from bit `first` is bit `first + i` of `x`. */
  lemma FieldBits(x: nat, first: nat, n: nat)
    requires n > 0
    ensures forall i: nat :: Bit(Field(x, Pow2(first), Pow2(n)), i) <==> i < n && Bit(x, first + i)
  {
    forall i: nat
      ensures Bit(Field(x, Pow2(first), Pow2(n)), i) <==> i < n && Bit(x, first + i)
    {
      GetBitsIsField(x, first, first + n - 1, first + n);
      GetBitsBits(x, first, first + n - 1, first + n, i);
    }
  }

  /** `x.get_bits(first..=last)` is the field of `2^(last - first + 1)` values from bit `first`. */
  lemma GetBitsIsField(x: nat, first: nat, last: nat, w: nat)
    requires first <= last < w
    ensures GetBits(x, first, last, w) == Field(x, Pow2(first), Pow2(last - first + 1))
  {
    GetBitsIsShrTrunc(x, first, last, w);
    FieldIsShrTrunc(x, first, last - first + 1);
  }

  /** `x.get_bit(i)` is the one-bit field at `2^i`. */
  lemma GetBitIsField(x: nat, i: nat, w: nat)
    requires i < w
    ensures GetBit(x, i, w) <==> Field(x, Pow2(i), 2) == 1
  {
    GetBitIsBit(x, i, w);
    BitIsDigit(x, i);
  }

  /** Agreeing bit by bit below `first` is agreeing in the low `first` bits. */
  lemma AgreeBelow(x: nat, y: nat, first: nat, last: nat)
    requires AgreeOutside(x, y, first, last)
    ensures Trunc(x, first) == Trunc(y, first)
  {
    var a, b := Trunc(x, first), Trunc(y, first);
    forall i: nat
      ensures Bit(a, i) == Bit(b, i)
    {
      BitTrunc(x, first, i);
      BitTrunc(y, first, i);
    }
    BitsEqual(a, b);
  }

  /** Agreeing bit by bit above `last` is agreeing in the bits from `last + 1` up. */
  lemma AgreeAbove(x: nat, y: nat, first: nat, last: nat)
    requires AgreeOutside(x, y, first, last)
    ensures Shr(x, last + 1) == Shr(y, last + 1)
  {
    var a, b := Shr(x, last + 1), Shr(y, last + 1);
    forall i: nat
      ensures Bit(a, i) == Bit(b, i)
    {
      BitShr(x, last + 1, i);
      BitShr(y, last + 1, i);
    }
    BitsEqual(a, b);
  }

  /** Agreeing bit by bit outside `first..=last` is agreeing outside the field. */
  lemma AgreeOutsideIsSameOutside(x: nat, y: nat, first: nat, last: nat)
    requires first <= last
    requires AgreeOutside(x, y, first, last)
    ensures SameOutside(x, y, Pow2(first), Pow2(last - first + 1))
  {
    AgreeBelow(x, y, first, last);
    AgreeAbove(x, y, first, last);
    TruncIsRemainder(x, first);
    TruncIsRemainder(y, first);
    ShrIsQuotient(x, last + 1);
    ShrIsQuotient(y, last + 1);
    Pow2Add(first, last - first + 1);
  }

  /** `x.set_bits(first..=last, v)`, for a `v` that fits, is `SetField` on the same field. */
  lemma SetBitsIsSetField(x: nat, first: nat, last: nat, v: nat, w: nat)
    requires first <= last < w && x < Pow2(w)
    requires v < Pow2(last - first + 1)
    ensures SetBits(x, first, last, v, w) == SetField(x, Pow2(first), Pow2(last - first + 1), v)
  {
    var unit := Pow2(first);
    var size := Pow2(last - first + 1);
    var r := SetBits(x, first, last, v, w);
    SetBitsOnly(x, first, last, v, w);
    AgreeOutsideIsSameOutside(r, x, first, last);
    GetBitsIsField(r, first, last, w);
    SetFieldOnly(x, unit, size, v);
    SameFieldAndOutside(r, SetField(x, unit, size, v), unit, size);
  }

  /** `x.set_bit(i, b)` is `SetField` on the one-bit field at `2^i`. */
  lemma SetBitIsSetField(x: nat, i: nat, b: bool, w: nat)
    requires i < w && x < Pow2(w)
    ensures SetBit(x, i, b, w) == SetField(x, Pow2(i), 2, if b then 1 else 0)
  {
    var r := SetBit(x, i, b, w);
    SetBitOnly(x, i, b, w);
    AgreeOutsideIsSameOutside(r, x, i, i);
    GetBitIsField(r, i, w);
    SetFieldOnly(x, Pow2(i), 2, if b then 1 else 0);
    assert Pow2(1) == 2;
    SameFieldAndOutside(r, SetField(x, Pow2(i), 2, if b then 1 else 0), Pow2(i), 2);
  }
}

=== FILE: paging.dfy ===
/**
 * `map` and `resolve` of the recursively mapped address space
 * (kmem/src/paging/mod.rs) over an abstract four-level page-table hierarchy.
 *
 * Page tables live in physical frames: memory is a map from frame numbers to
 * tables of 512 entries, and a frame that is absent or does not hold 512
 * entries reads as zeroes. Each entry is held decoded, as its flags and the
 * frame of its base address; `Encode` and `Decode` relate that to the 64-bit
 * format of the Pte module. Addresses are 64-bit values as integers. Through the recursive mapping the kernel reaches
 * entry `index_at_level(level, vaddr)` of the table at `level` on the path of
 * `vaddr`, and that table is the frame named by the entry one level up; the
 * model follows that path directly. New tables come from the first-fit
 * allocator over the page-frame table. TLB invalidation has no effect on the
 * model.
 */
module Paging {
  import opened Common
  import opened Pte
  import opened Recursive
  import opened Frames
  import opened FrameTable
  import SlowAlloc
  import Arith

  /** Frames whose start address fits the address field of an entry, bits 12-51. */
  const TABLE_FRAME_LIMIT: nat := 0x100_0000_0000

  /**
   * A page-table entry as `map` and `resolve` use it: its flags and the
   * frame its base address names. `Encode` and `Decode` relate it to the
   * 64-bit entry; `map` writes entries with no other bit set and `resolve`
   * reads no other bit.
   */
  datatype Slot = Slot(flags: Flags, frame: nat)

  /** `PageTableEntry::new()` */
  const EMPTY: Slot := Slot(0, 0)

  /** The address field of an entry, bits 12-51, as a frame number. */
  function FrameBits(e: Entry): bv40
  {
    ((e & ADDR_MASK) >> 12) as bv40
  }

  /** The flags of an entry and the frame its base address names. */
  function Decode(e: Entry): (d: Slot)
    ensures d.frame < TABLE_FRAME_LIMIT
  {
    Slot(FlagsOf(e), FrameBits(e) as nat)
  }

  /** An entry with no bit set outside the flags and the address field. */
  predicate Clean(e: Entry)
  {
    e & !(ADDR_MASK | 0xFF) == 0
  }

  /** The entry `map` builds from the start address of frame `x` and flags `f` decodes to them. */
  lemma DecodeOf(x: bv40, f: Flags)
    ensures Clean(MakeEntry((x as bv64) << 12, f))
    ensures Decode(MakeEntry((x as bv64) << 12, f)) == Slot(f, x as nat)
  {
  }

  /** A clean entry is rebuilt from its decoding, so two clean entries with the same decoding are equal. */
  lemma DecodeDetermines(e1: Entry, e2: Entry)
    requires Clean(e1) && Clean(e2)
    ensures e1 == MakeEntry((FrameBits(e1) as bv64) << 12, FlagsOf(e1))
    ensures Decode(e1) == Decode(e2) ==> e1 == e2
  {
    Rebuilt(e1);
    Rebuilt(e2);
    if Decode(e1) == Decode(e2) {
      SameFrame(FrameBits(e1), FrameBits(e2));
    }
  }

  /** The empty entry decodes to no flags and frame 0. */
  lemma DecodeNew()
    ensures Clean(New()) && Decode(New()) == EMPTY
  {
  }

  lemma Rebuilt(e: Entry)
    requires Clean(e)
    ensures MakeEntry((FrameBits(e) as bv64) << 12, FlagsOf(e)) == e
  {
  }

  lemma SameFrame(x: bv40, y: bv40)
    requires x as nat == y as nat
    ensures x == y
  {
    assert x == (x as nat) as bv40;
    assert y == (y as nat) as bv40;
  }

  type Memory = map<nat, seq<Slot>>

  /** A table of 512 empty entries. */
  function Zeroes(): (z: seq<Slot>)
    ensures |z| == 512 && forall j :: 0 <= j < 512 ==> z[j] == EMPTY
  {
    seq(512, _ => EMPTY)
  }

  /** The table stored in frame `f`. */
  function TableOf(mem: Memory, f: nat): (t: seq<Slot>)
    ensures |t| == 512
  {
    if f in mem && |mem[f]| == 512 then mem[f] else Zeroes()
  }

  /** Entry `i` of the table in frame `f`. */
  function Read(mem: Memory, f: nat, i: nat): Slot
    requires i < 512
  {
    TableOf(mem, f)[i]
  }

  /** Store entry `e` at index `i` of the table in frame `f`. */
  function Write(mem: Memory, f: nat, i: nat, e: Slot): (r: Memory)
    requires i < 512
    ensures TableOf(r, f) == TableOf(mem, f)[i := e]
    ensures forall g :: g != f ==> TableOf(r, g) == TableOf(mem, g)
  {
    mem[f := TableOf(mem, f)[i := e]]
  }

  /** `memset(table, PAGE_SIZE, 0)`: every entry of frame `f` becomes zero. */
  function Clear(mem: Memory, f: nat): (r: Memory)
    ensures TableOf(r, f) == Zeroes()
    ensures forall g :: g != f ==> TableOf(r, g) == TableOf(mem, g)
  {
    mem[f := Zeroes()]
  }

  /** `index_at_level(level, vaddr)`: bits `12 + 9 * level` to `20 + 9 * level` of the address. */
  function Idx(level: nat, v: Word): (i: nat)
    requires level <= PML4
    ensures i < 512
  {
    if level == 0 then (v / 0x1000) % 512
    else if level == 1 then (v / 0x20_0000) % 512
    else if level == 2 then (v / 0x4000_0000) % 512
    else (v / 0x80_0000_0000) % 512
  }

  /** `vaddr & ((1 << (12 + 9 * level)) - 1)`: the offset of the address inside a page mapped at `level`. */
  function Offset(v: Word, level: nat): (o: nat)
    requires level <= PML4
  {
    if level == 0 then v % 0x1000
    else if level == 1 then v % 0x20_0000
    else if level == 2 then v % 0x4000_0000
    else v % 0x80_0000_0000
  }

  /** `addr.is_aligned(1 << (12 + 9 * level))` */
  predicate AlignedAt(x: Word, level: nat)
    requires level <= PML4
  {
    Offset(x, level) == 0
  }

  predicate Present(e: Slot)
  {
    Contains(e.flags, PRESENT)
  }

  /** The entry maps a large page (`SIZE`); in a PT entry the same bit is the PAT bit. */
  predicate Huge(e: Slot)
  {
    Contains(e.flags, SIZE)
  }

  /** `flags.contains(SIZE | PRESENT)` holds exactly when both flags are set. */
  lemma ContainsBoth(f: Flags)
    ensures Contains(f, SIZE | PRESENT) <==> Contains(f, SIZE) && Contains(f, PRESENT)
  {
  }

  /** The entry that links a new table in frame `f`: its start address, `PRESENT | WRITABLE`. */
  function TableEntry(f: nat): (e: Slot)
    ensures Present(e) && !Huge(e) && e.frame == f
  {
    Slot(PRESENT | WRITABLE, f)
  }

  /** The 64-bit entry `map_impl_rec` writes for a new table in frame `x` decodes to `TableEntry`. */
  lemma TableEntryEncodes(x: bv40)
    ensures ((x as bv64) << 12) as nat == StartAddress(PageFrame(x as nat))
    ensures Decode(MakeEntry((x as bv64) << 12, PRESENT | WRITABLE)) == TableEntry(x as nat)
  {
    Widen(x);
    ShiftByPage(x as bv64);
    DecodeOf(x, PRESENT | WRITABLE);
  }

  lemma Widen(z: bv40)
    ensures z as bv64 < 0x100_0000_0000
    ensures (z as bv64) as nat == z as nat
  {
  }

  lemma ShiftByPage(x: bv64)
    requires x < 0x100_0000_0000
    ensures (x << 12) as nat == 4096 * (x as nat)
  {
  }

  /** `paddr & ADDR_MASK`: the address bits 12-51 of `paddr`. */
  function AddressBits(paddr: Word): (a: nat)
    ensures a % 0x1000 == 0 && a <= paddr
  {
    (paddr / 0x1000) % TABLE_FRAME_LIMIT * 0x1000
  }

  /** An address inside the 52-bit physical space and aligned to 4 KiB keeps all its bits. */
  lemma AddressBitsOfAligned(paddr: Word)
    requires paddr < 0x10_0000_0000_0000 && paddr % 0x1000 == 0
    ensures AddressBits(paddr) == paddr
  {
    var n := paddr / 0x1000;
    assert n * 0x1000 == paddr;
    assert n < TABLE_FRAME_LIMIT;
  }

  /** The flags `map_impl_rec` gives a new mapping: `SIZE` too above the PT level. */
  function LeafFlags(level: nat): Flags
  {
    if level > PT then PRESENT | WRITABLE | SIZE else PRESENT | WRITABLE
  }

  /** The entry that maps `paddr` at `level`. */
  function LeafEntry(paddr: Word, level: nat): (e: Slot)
    ensures Present(e) && (level > PT ==> Huge(e))
    ensures e.frame * 0x1000 == AddressBits(paddr)
  {
    Slot(LeafFlags(level), (paddr / 0x1000) % TABLE_FRAME_LIMIT)
  }

  datatype MapError = InvalidLevel(level: nat) | MappingExists | OutOfMemory

  datatype Status = Ok | Err(error: MapError)

  /** The page tables and the page-frame table the allocator owns. */
  datatype Space = Space(mem: Memory, frames: Table)

  datatype Mapped = Mapped(status: Status, space: Space)

  /**
   * `map_impl_rec(vaddr, paddr, target, pfa, level)` acting on the table in
   * `frame`. With `checkRemap` false this is the code as written: a present
   * entry at the target level that is not a large page falls through to the
   * descent, which panics at the PT level (`expect`) or walks into the table
   * below. With `checkRemap` true a present entry at the target level is
   * reported as `MappingExists`.
   */
  function MapImplRec(checkRemap: bool, s: Space, frame: nat, v: Word, paddr: Word, target: nat, level: nat): (r: Outcome<Mapped>)
    requires target <= PML4 && level <= PML4
    requires |s.frames| <= TABLE_FRAME_LIMIT
    decreases level, 1
  {
    var i := Idx(level, v);
    var e := Read(s.mem, frame, i);
    if level == target && !Present(e) then
      Done(Mapped(Ok, Space(Write(s.mem, frame, i, LeafEntry(paddr, level)), s.frames)))
    else if checkRemap && level == target then
      Done(Mapped(Err(MappingExists), s))
    else if !Contains(e.flags, SIZE | PRESENT) then
      if level == PT then
        Panic
      else if !Present(e) then
        MapNewTable(checkRemap, s, frame, v, paddr, target, level)
      else
        MapImplRec(checkRemap, s, e.frame, v, paddr, target, level - 1)
    else
      Done(Mapped(Err(MappingExists), s))
  }

  /**
   * The allocating branch of `map_impl_rec`: a new table from the allocator,
   * linked from the entry at `level` and cleared, then the call one level
   * down, rolled back if that fails.
   */
  function MapNewTable(checkRemap: bool, s: Space, frame: nat, v: Word, paddr: Word, target: nat, level: nat): (r: Outcome<Mapped>)
    requires target <= PML4 && PT < level <= PML4
    requires |s.frames| <= TABLE_FRAME_LIMIT
    decreases level, 0
  {
    var i := Idx(level, v);
    var (newTable, frames1) := SlowAlloc.Alloc(s.frames);
    if newTable.None? then
      Done(Mapped(Err(OutOfMemory), s))
    else
      var f := newTable.value.number;
      var mem1 := Clear(Write(s.mem, frame, i, TableEntry(f)), f);
      Rollback(MapImplRec(checkRemap, Space(mem1, frames1), f, v, paddr, target, level - 1), frame, i, Read(s.mem, frame, i), newTable.value)
  }

  /**
   * The end of the allocating branch: on an error below, the entry gets its
   * old value back and the new table's frame is freed.
   */
  function Rollback(inner: Outcome<Mapped>, frame: nat, i: nat, previous: Slot, newTable: PageFrame): Outcome<Mapped>
    requires i < 512
  {
    match inner
    case Panic => Panic
    case Done(m) =>
      if m.status.Ok? then inner
      else
        match SlowAlloc.FreeFrame(m.space.frames, newTable)
        case Panic => Panic
        case Done(frames) => Done(Mapped(m.status, Space(Write(m.space.mem, frame, i, previous), frames)))
  }

  /** `map(vaddr, paddr, level, pfa)` as written, starting at the PML4 table in frame `root`. */
  function MapAsWritten(s: Space, root: nat, v: Word, paddr: Word, level: nat): (r: Outcome<Mapped>)
    requires |s.frames| <= TABLE_FRAME_LIMIT
    ensures level >= 2 ==> r == Done(Mapped(Err(InvalidLevel(level)), s))
    ensures level < 2 && !(AlignedAt(paddr, level) && AlignedAt(v, level)) ==> r == Panic
  {
    if level >= 2 then Done(Mapped(Err(InvalidLevel(level)), s))
    else if !AlignedAt(paddr, level) || !AlignedAt(v, level) then Panic
    else MapImplRec(false, s, root, v, paddr, level, PML4)
  }

  /** `map` with a present entry at the target level reported as `MappingExists`. */
  function Map(s: Space, root: nat, v: Word, paddr: Word, level: nat): (r: Outcome<Mapped>)
    requires |s.frames| <= TABLE_FRAME_LIMIT
    ensures level >= 2 ==> r == Done(Mapped(Err(InvalidLevel(level)), s))
    ensures level < 2 && !(AlignedAt(paddr, level) && AlignedAt(v, level)) ==> r == Panic
  {
    if level >= 2 then Done(Mapped(Err(InvalidLevel(level)), s))
    else if !AlignedAt(paddr, level) || !AlignedAt(v, level) then Panic
    else MapImplRec(true, s, root, v, paddr, level, PML4)
  }

  // ---------------------------------------------------------------------
  // The walk, and what `map` keeps
  // ---------------------------------------------------------------------

  /** The tables on `vaddr`'s path from `frame` at `level` down, as far as present small-page entries lead. */
  function PathFrames(mem: Memory, frame: nat, v: Word, level: nat): (p: seq<nat>)
    requires level <= PML4
    ensures |p| > 0 && p[0] == frame
    decreases level
  {
    var e := Read(mem, frame, Idx(level, v));
    if level > PT && Present(e) && !Huge(e) then [frame] + PathFrames(mem, e.frame, v, level - 1)
    else [frame]
  }

  predicate NoDup(p: seq<nat>)
  {
    forall i, j :: 0 <= i < j < |p| ==> p[i] != p[j]
  }

  /** Frame `g` is a page-frame-table frame the allocator will not hand out. */
  predicate InUse(t: Table, g: nat)
  {
    g < |t| && t[g] != Free
  }

  /** The tables on the path are distinct and none of them is free in the page-frame table. */
  predicate PathOk(s: Space, frame: nat, v: Word, level: nat)
    requires level <= PML4
  {
    var p := PathFrames(s.mem, frame, v, level);
    NoDup(p) && forall k :: 0 <= k < |p| ==> InUse(s.frames, p[k])
  }

  /** A frame not free in `t` keeps its state in `t'`. */
  ghost predicate KeepsInUse(t: Table, t': Table)
  {
    |t'| == |t| && forall g: nat :: InUse(t, g) ==> t'[g] == t[g]
  }

  /** Every frame in use keeps its table in `mem'`, except those listed in `except`. */
  ghost predicate TablesKept(t: Table, mem: Memory, mem': Memory, except: seq<nat>)
  {
    forall g: nat :: InUse(t, g) && g !in except ==> TableOf(mem', g) == TableOf(mem, g)
  }

  /**
   * What `map_impl_rec` changes. Frames in use keep their state, and their
   * tables stay the same except on the path; on an error the page-frame
   * table and every table in use are as before (the rollback). With the
   * remap check and a target at or below the current level it never panics.
   */
  lemma {:induction false} MapImplRecFrame(checkRemap: bool, s: Space, frame: nat, v: Word, paddr: Word, target: nat, level: nat)
    requires target <= PML4 && level <= PML4
    requires |s.frames| <= TABLE_FRAME_LIMIT
    requires PathOk(s, frame, v, level)
    ensures var r := MapImplRec(checkRemap, s, frame, v, paddr, target, level);
      checkRemap && target <= level ==> r.Done?
    ensures var r := MapImplRec(checkRemap, s, frame, v, paddr, target, level);
      r.Done? ==> KeepsInUse(s.frames, r.value.space.frames)
    ensures var r := MapImplRec(checkRemap, s, frame, v, paddr, target, level);
      r.Done? ==> TablesKept(s.frames, s.mem, r.value.space.mem, PathFrames(s.mem, frame, v, level))
    ensures var r := MapImplRec(checkRemap, s, frame, v, paddr, target, level);
      r.Done? && r.value.status.Err? ==> r.value.space.frames == s.frames && TablesKept(s.frames, s.mem, r.value.space.mem, [])
    decreases level, 3
  {
    var i := Idx(level, v);
    var e := Read(s.mem, frame, i);
    ContainsBoth(e.flags);
    if level == target && !Present(e) {
    } else if checkRemap && level == target {
    } else if !Contains(e.flags, SIZE | PRESENT) {
      if level == PT {
      } else if !Present(e) {
        AllocateBranch(checkRemap, s, frame, v, paddr, target, level);
      } else {
        DescendBranch(checkRemap, s, frame, v, paddr, target, level);
      }
    }
  }

  /** `MapImplRecFrame` where a new table is allocated. */
  lemma {:induction false} AllocateBranch(checkRemap: bool, s: Space, frame: nat, v: Word, paddr: Word, target: nat, level: nat)
    requires target <= PML4 && PT < level <= PML4
    requires |s.frames| <= TABLE_FRAME_LIMIT
    requires PathOk(s, frame, v, level)
    requires !Present(Read(s.mem, frame, Idx(level, v))) && level != target
    ensures var r := MapImplRec(checkRemap, s, frame, v, paddr, target, level);
      checkRemap && target <= level ==> r.Done?
    ensures var r := MapImplRec(checkRemap, s, frame, v, paddr, target, level);
      r.Done? ==> KeepsInUse(s.frames, r.value.space.frames)
    ensures var r := MapImplRec(checkRemap, s, frame, v, paddr, target, level);
      r.Done? ==> TablesKept(s.frames, s.mem, r.value.space.mem, PathFrames(s.mem, frame, v, level))
    ensures var r := MapImplRec(checkRemap, s, frame, v, paddr, target, level);
      r.Done? && r.value.status.Err? ==> r.value.space.frames == s.frames && TablesKept(s.frames, s.mem, r.value.space.mem, [])
    decreases level, 1
  {
    NewTableUnfold(checkRemap, s, frame, v, paddr, target, level);
    var p := PathFrames(s.mem, frame, v, level);
    assert p == [frame];
    assert InUse(s.frames, p[0]);
    NewTableFrame(checkRemap, s, frame, v, paddr, target, level, MapNewTable(checkRemap, s, frame, v, paddr, target, level));
  }

  /** What the allocating branch keeps: everything but the entry in `frame` and, on an error, even that. */
  lemma {:induction false} NewTableFrame(checkRemap: bool, s: Space, frame: nat, v: Word, paddr: Word, target: nat, level: nat, r: Outcome<Mapped>)
    requires target <= PML4 && target != level && PT < level <= PML4
    requires |s.frames| <= TABLE_FRAME_LIMIT
    requires InUse(s.frames, frame)
    requires r == MapNewTable(checkRemap, s, frame, v, paddr, target, level)
    ensures checkRemap && target < level ==> r.Done?
    ensures r.Done? ==> KeepsInUse(s.frames, r.value.space.frames)
    ensures r.Done? ==> TablesKept(s.frames, s.mem, r.value.space.mem, [frame])
    ensures r.Done? && r.value.status.Err? ==> r.value.space.frames == s.frames && TablesKept(s.frames, s.mem, r.value.space.mem, [])
    decreases level, 0
  {
    var i := Idx(level, v);
    var (newTable, frames1) := SlowAlloc.Alloc(s.frames);
    if newTable.None? {
      NewTableNone(checkRemap, s, frame, v, paddr, target, level);
    } else {
      var f := newTable.value.number;
      var s1 := Space(Clear(Write(s.mem, frame, i, TableEntry(f)), f), frames1);
      var inner := MapImplRec(checkRemap, s1, f, v, paddr, target, level - 1);
      NewTableSome(checkRemap, s, frame, v, paddr, target, level);
      FreshTableFrame(checkRemap, s1, f, v, paddr, target, level - 1, inner);
      RollbackFacts(s, s1, inner, frame, i, Read(s.mem, frame, i), newTable.value);
    }
  }

  /** `MapImplRecFrame` on a new, cleared table `f`: its path is `f` alone. */
  lemma {:induction false} FreshTableFrame(checkRemap: bool, s: Space, f: nat, v: Word, paddr: Word, target: nat, level: nat, r: Outcome<Mapped>)
    requires target <= PML4 && level <= PML4
    requires |s.frames| <= TABLE_FRAME_LIMIT
    requires TableOf(s.mem, f) == Zeroes() && InUse(s.frames, f)
    requires r == MapImplRec(checkRemap, s, f, v, paddr, target, level)
    ensures checkRemap && target <= level ==> r.Done?
    ensures r.Done? ==> KeepsInUse(s.frames, r.value.space.frames)
    ensures r.Done? ==> TablesKept(s.frames, s.mem, r.value.space.mem, [f])
    ensures r.Done? && r.value.status.Err? ==> r.value.space.frames == s.frames && TablesKept(s.frames, s.mem, r.value.space.mem, [])
    decreases level, 4
  {
    assert Read(s.mem, f, Idx(level, v)) == EMPTY;
    assert PathFrames(s.mem, f, v, level) == [f];
    SingletonPathOk(s, f, v, level);
    MapImplRecFrame(checkRemap, s, f, v, paddr, target, level);
  }

  /** Above the target level, an entry that is not present leads to the allocating branch. */
  lemma NewTableUnfold(checkRemap: bool, s: Space, frame: nat, v: Word, paddr: Word, target: nat, level: nat)
    requires target <= PML4 && PT < level <= PML4
    requires |s.frames| <= TABLE_FRAME_LIMIT
    requires !Present(Read(s.mem, frame, Idx(level, v))) && level != target
    ensures MapImplRec(checkRemap, s, frame, v, paddr, target, level) == MapNewTable(checkRemap, s, frame, v, paddr, target, level)
  {
    ContainsBoth(Read(s.mem, frame, Idx(level, v)).flags);
  }

  /** A path of one frame in use is well formed. */
  lemma SingletonPathOk(s: Space, f: nat, v: Word, level: nat)
    requires level <= PML4
    requires PathFrames(s.mem, f, v, level) == [f] && InUse(s.frames, f)
    ensures PathOk(s, f, v, level)
  {
  }

  /** In the allocating branch `map_impl_rec` is the rollback of the call on the new table. */
  lemma AllocateUnfold(checkRemap: bool, s: Space, frame: nat, v: Word, paddr: Word, target: nat, level: nat)
    requires target <= PML4 && PT < level <= PML4
    requires |s.frames| <= TABLE_FRAME_LIMIT
    requires !Present(Read(s.mem, frame, Idx(level, v))) && level != target
    requires SlowAlloc.Alloc(s.frames).0.Some?
    ensures var i := Idx(level, v);
      var (newTable, frames1) := SlowAlloc.Alloc(s.frames);
      var f := newTable.value.number;
      var s1 := Space(Clear(Write(s.mem, frame, i, TableEntry(f)), f), frames1);
      MapImplRec(checkRemap, s, frame, v, paddr, target, level)
        == Rollback(MapImplRec(checkRemap, s1, f, v, paddr, target, level - 1), frame, i, Read(s.mem, frame, i), newTable.value)
  {
    ContainsBoth(Read(s.mem, frame, Idx(level, v)).flags);
  }

  /**
   * The allocating branch, given what the call below keeps: the new table's
   * frame `f` was free and is the only frame whose state `s1` changes, and
   * `s1` differs from `s` only in the entry at `frame` and in `f`'s table.
   */
  lemma RollbackFacts(s: Space, s1: Space, inner: Outcome<Mapped>, frame: nat, i: nat, e: Slot, newTable: PageFrame)
    requires i < 512 && InUse(s.frames, frame) && e == Read(s.mem, frame, i)
    requires SlowAlloc.Alloc(s.frames) == (Some(newTable), s1.frames)
    requires forall g: nat :: g != frame && g != newTable.number ==> TableOf(s1.mem, g) == TableOf(s.mem, g)
    requires TableOf(s1.mem, frame) == TableOf(s.mem, frame)[i := TableOf(s1.mem, frame)[i]]
    requires inner.Done? ==> KeepsInUse(s1.frames, inner.value.space.frames)
    requires inner.Done? ==> TablesKept(s1.frames, s1.mem, inner.value.space.mem, [newTable.number])
    requires inner.Done? && inner.value.status.Err? ==> inner.value.space.frames == s1.frames && TablesKept(s1.frames, s1.mem, inner.value.space.mem, [])
    ensures inner.Done? ==> Rollback(inner, frame, i, e, newTable).Done?
    ensures var r := Rollback(inner, frame, i, e, newTable);
      r.Done? ==> KeepsInUse(s.frames, r.value.space.frames)
    ensures var r := Rollback(inner, frame, i, e, newTable);
      r.Done? ==> TablesKept(s.frames, s.mem, r.value.space.mem, [frame])
    ensures var r := Rollback(inner, frame, i, e, newTable);
      r.Done? && r.value.status.Err? ==> r.value.space.frames == s.frames && TablesKept(s.frames, s.mem, r.value.space.mem, [])
  {
    var f := newTable.number;
    if inner.Done? {
      var m := inner.value;
      if m.status.Err? {
        SlowAlloc.AllocThenFree(s.frames);
        var mem2 := Write(m.space.mem, frame, i, e);
        assert TableOf(mem2, frame) == TableOf(s.mem, frame);
      }
    }
  }

  /** `MapImplRecFrame` where the walk descends into an existing table. */
  lemma {:induction false} DescendBranch(checkRemap: bool, s: Space, frame: nat, v: Word, paddr: Word, target: nat, level: nat)
    requires target <= PML4 && PT < level <= PML4
    requires |s.frames| <= TABLE_FRAME_LIMIT
    requires PathOk(s, frame, v, level)
    requires var e := Read(s.mem, frame, Idx(level, v)); Present(e) && !Huge(e) && (level == target ==> !checkRemap)
    ensures var r := MapImplRec(checkRemap, s, frame, v, paddr, target, level);
      checkRemap && target <= level ==> r.Done?
    ensures var r := MapImplRec(checkRemap, s, frame, v, paddr, target, level);
      r.Done? ==> KeepsInUse(s.frames, r.value.space.frames)
    ensures var r := MapImplRec(checkRemap, s, frame, v, paddr, target, level);
      r.Done? ==> TablesKept(s.frames, s.mem, r.value.space.mem, PathFrames(s.mem, frame, v, level))
    ensures var r := MapImplRec(checkRemap, s, frame, v, paddr, target, level);
      r.Done? && r.value.status.Err? ==> r.value.space.frames == s.frames && TablesKept(s.frames, s.mem, r.value.space.mem, [])
    decreases level, 0
  {
    var e := Read(s.mem, frame, Idx(level, v));
    ContainsBoth(e.flags);
    var child := e.frame;
    var p := PathFrames(s.mem, frame, v, level);
    assert p == [frame] + PathFrames(s.mem, child, v, level - 1);
    SubPathOk(s, frame, v, level);
    MapImplRecFrame(checkRemap, s, child, v, paddr, target, level - 1);
  }

  /** The path below a present small-page entry is a well-formed path too. */
  lemma SubPathOk(s: Space, frame: nat, v: Word, level: nat)
    requires PT < level <= PML4
    requires PathOk(s, frame, v, level)
    requires var e := Read(s.mem, frame, Idx(level, v)); Present(e) && !Huge(e)
    ensures PathOk(s, (Read(s.mem, frame, Idx(level, v))).frame, v, level - 1)
  {
    var e := Read(s.mem, frame, Idx(level, v));
    var p := PathFrames(s.mem, frame, v, level);
    var q := PathFrames(s.mem, e.frame, v, level - 1);
    assert p == [frame] + q;
    forall k | 0 <= k < |q|
      ensures InUse(s.frames, q[k])
    {
      assert q[k] == p[k + 1];
    }
    forall i, j | 0 <= i < j < |q|
      ensures q[i] != q[j]
    {
      assert q[i] == p[i + 1] && q[j] == p[j + 1];
    }
  }

  // ---------------------------------------------------------------------
  // resolve
  // ---------------------------------------------------------------------

  /** The address of `vaddr` inside a page mapped at `level` from `base`: the base plus the offset bits of the level. */
  function PageAddress(base: nat, v: Word, level: nat): nat
    requires level <= PML4
  {
    base + Offset(v, level)
  }

  /** A page address keeps the address's offset in its 4 KiB page. */
  lemma PageAddressOffset(base: nat, v: Word, level: nat)
    requires level <= PML4 && base % 0x1000 == 0
    ensures PageAddress(base, v, level) % 0x1000 == v % 0x1000
  {
    var m: nat := if level == 0 then 1 else if level == 1 then 0x200 else if level == 2 then 0x4_0000 else 0x800_0000;
    var o := Offset(v, level);
    assert o == v % (0x1000 * m);
    var q := v / (0x1000 * m);
    assert v == (q * m) * 0x1000 + o;
    var b := base / 0x1000;
    Arith.DivModUnique(v, 0x1000, q * m + o / 0x1000, o % 0x1000);
    Arith.DivModUnique(base + o, 0x1000, b + o / 0x1000, o % 0x1000);
  }

  /**
   * `resolve` from the table in `frame` at `level`, reading the entry at
   * each level of the path: none at an entry that is not present, otherwise
   * the base plus the offset bits of the level whose entry maps the page.
   */
  function ResolveFrom(mem: Memory, frame: nat, v: Word, level: nat): (r: Option<nat>)
    requires level <= PML4
    ensures r.Some? ==> r.value % 0x1000 == v % 0x1000
    decreases level
  {
    var e := Read(mem, frame, Idx(level, v));
    if !Present(e) then None
    else if level == PT || Huge(e) then
      PageAddressOffset(e.frame * 0x1000, v, level);
      Some(PageAddress(e.frame * 0x1000, v, level))
    else ResolveFrom(mem, e.frame, v, level - 1)
  }

  /**
   * `resolve(vaddr)` reading `entry_at_level(current_level, vaddr)` on
   * every pass. A translation keeps the offset inside the 4 KiB page.
   */
  function Resolve(mem: Memory, root: nat, v: Word): (r: Option<nat>)
    ensures r.Some? ==> r.value % 0x1000 == v % 0x1000
  {
    ResolveFrom(mem, root, v, PML4)
  }

  /**
   * `entry_at_level(PT, vaddr)` read through the recursive mapping: the
   * processor follows the entries at levels 3, 2 and 1 of the path, and one
   * that is not present faults, which aborts the kernel.
   */
  function PtEntryThroughRecursion(mem: Memory, root: nat, v: Word): Outcome<Slot>
  {
    var e3 := Read(mem, root, Idx(3, v));
    if !Present(e3) then Panic
    else
      var e2 := Read(mem, e3.frame, Idx(2, v));
      if !Present(e2) then Panic
      else
        var e1 := Read(mem, e2.frame, Idx(1, v));
        if !Present(e1) then Panic
        else Done(Read(mem, e1.frame, Idx(0, v)))
  }

  /** The loop of `resolve` as written, which looks at the same entry `e` on every pass. */
  function ResolveLoop(e: Slot, v: Word, level: nat): (r: Option<nat>)
    requires level <= PML4
    ensures r.Some? ==> r.value % 0x1000 == v % 0x1000
    decreases level
  {
    if !Present(e) then None
    else if level == PT || Huge(e) then
      PageAddressOffset(e.frame * 0x1000, v, level);
      Some(PageAddress(e.frame * 0x1000, v, level))
    else ResolveLoop(e, v, level - 1)
  }

  /**
   * `resolve(vaddr)` as written: the PT-level entry is read at every level.
   * It faults, as a panic, when an entry above the PT level on the path is
   * not present, and an answer keeps the offset inside the 4 KiB page.
   */
  function ResolveAsWritten(mem: Memory, root: nat, v: Word): (r: Outcome<Option<nat>>)
    ensures r.Panic? <==> (!Present(Read(mem, root, Idx(3, v)))
      || !Present(Read(mem, Read(mem, root, Idx(3, v)).frame, Idx(2, v)))
      || !Present(Read(mem, Read(mem, Read(mem, root, Idx(3, v)).frame, Idx(2, v)).frame, Idx(1, v))))
    ensures r.Done? && r.value.Some? ==> r.value.value % 0x1000 == v % 0x1000
  {
    match PtEntryThroughRecursion(mem, root, v)
    case Panic => Panic
    case Done(e) => Done(ResolveLoop(e, v, PML4))
  }

  /**
   * For an address mapped by a 4 KiB page, or not mapped at the PT level of
   * a complete path, the code as written agrees with the walk.
   */
  lemma ResolveAgreesOnSmallPages(mem: Memory, root: nat, v: Word)
    requires var e3 := Read(mem, root, Idx(3, v)); Present(e3) && !Huge(e3)
    requires var e2 := Read(mem, (Read(mem, root, Idx(3, v))).frame, Idx(2, v)); Present(e2) && !Huge(e2)
    requires var e1 := Read(mem, (Read(mem, Read(mem, root, Idx(3, v)).frame, Idx(2, v))).frame, Idx(1, v));
      Present(e1) && !Huge(e1) && !Huge(Read(mem, e1.frame, Idx(0, v)))
    ensures ResolveAsWritten(mem, root, v) == Done(Resolve(mem, root, v))
  {
  }

  /**
   * A 2 MiB page at virtual address 0: the walk finds it at the PD level,
   * but the code as written reads entry 0 of the frame the PD entry points
   * to as if it were the PT entry, finds nothing there and reports the
   * address unmapped. An address whose PML4 entry is absent faults instead
   * of resolving to none.
   */
  lemma ResolveMissesLargePage()
    ensures var mem := map[1 := Zeroes()[0 := Slot(0x03, 2)], 2 := Zeroes()[0 := Slot(0x03, 3)], 3 := Zeroes()[0 := Slot(0x83, 0x200)]];
      ResolveAsWritten(mem, 1, 0x1234) == Done(None) && Resolve(mem, 1, 0x1234) == Some(0x20_1234)
    ensures ResolveAsWritten(map[], 1, 0x1234) == Panic && Resolve(map[], 1, 0x1234) == None
  {
    var mem := map[1 := Zeroes()[0 := Slot(0x03, 2)], 2 := Zeroes()[0 := Slot(0x03, 3)], 3 := Zeroes()[0 := Slot(0x83, 0x200)]];
    assert Read(mem, 1, 0) == Slot(0x03, 2) && Read(mem, 2, 0) == Slot(0x03, 3) && Read(mem, 3, 0) == Slot(0x83, 0x200);
    assert Read(mem, 0x200, 0) == EMPTY;
  }


  // ---------------------------------------------------------------------
  // map, then resolve
  // ---------------------------------------------------------------------

  /** After a successful `map_impl_rec`, the walk from its table resolves `vaddr` through the new mapping. */
  lemma {:induction false} MapImplRecResolves(s: Space, frame: nat, v: Word, paddr: Word, target: nat, level: nat)
    requires target <= level <= PML4
    requires |s.frames| <= TABLE_FRAME_LIMIT
    requires PathOk(s, frame, v, level)
    ensures var r := MapImplRec(true, s, frame, v, paddr, target, level);
      r.Done? && r.value.status.Ok? ==> ResolveFrom(r.value.space.mem, frame, v, level) == Some(PageAddress(AddressBits(paddr), v, target))
    decreases level, 3
  {
    var e := Read(s.mem, frame, Idx(level, v));
    if level == target && !Present(e) {
      InstallResolves(s, frame, v, paddr, level);
    } else if level == target {
      ExistingUnfold(s, frame, v, paddr, level);
    } else if !Present(e) {
      AllocateResolves(s, frame, v, paddr, target, level);
    } else if !Huge(e) {
      DescendResolves(s, frame, v, paddr, target, level);
    } else {
      LargePageUnfold(true, s, frame, v, paddr, target, level);
    }
  }

  /** A new mapping installed at the current level is what the walk finds there. */
  lemma InstallResolves(s: Space, frame: nat, v: Word, paddr: Word, level: nat)
    requires level <= PML4
    requires |s.frames| <= TABLE_FRAME_LIMIT
    requires !Present(Read(s.mem, frame, Idx(level, v)))
    ensures var r := MapImplRec(true, s, frame, v, paddr, level, level);
      r.Done? && r.value.status.Ok? && ResolveFrom(r.value.space.mem, frame, v, level) == Some(PageAddress(AddressBits(paddr), v, level))
  {
    var i := Idx(level, v);
    InstallUnfold(true, s, frame, v, paddr, level);
    var mem' := Write(s.mem, frame, i, LeafEntry(paddr, level));
    LeafResolves(mem', frame, v, paddr, level);
  }

  /** At the target level an entry that is not present gets the new mapping. */
  lemma InstallUnfold(checkRemap: bool, s: Space, frame: nat, v: Word, paddr: Word, level: nat)
    requires level <= PML4
    requires |s.frames| <= TABLE_FRAME_LIMIT
    requires !Present(Read(s.mem, frame, Idx(level, v)))
    ensures MapImplRec(checkRemap, s, frame, v, paddr, level, level)
      == Done(Mapped(Ok, Space(Write(s.mem, frame, Idx(level, v), LeafEntry(paddr, level)), s.frames)))
  {
  }

  /** The walk stops at a mapping entry and adds the offset bits of its level. */
  lemma LeafResolves(mem: Memory, frame: nat, v: Word, paddr: Word, level: nat)
    requires level <= PML4
    requires Read(mem, frame, Idx(level, v)) == LeafEntry(paddr, level)
    ensures ResolveFrom(mem, frame, v, level) == Some(PageAddress(AddressBits(paddr), v, level))
  {
    var e := LeafEntry(paddr, level);
    assert Present(e) && (level > PT ==> Huge(e)) && e.frame * 0x1000 == AddressBits(paddr);
    StopResolves(mem, frame, v, level);
  }

  /** The walk stops at a present entry of the PT level or a present large-page entry. */
  lemma StopResolves(mem: Memory, frame: nat, v: Word, level: nat)
    requires level <= PML4
    requires var e := Read(mem, frame, Idx(level, v)); Present(e) && (level == PT || Huge(e))
    ensures ResolveFrom(mem, frame, v, level) == Some(PageAddress(Read(mem, frame, Idx(level, v)).frame * 0x1000, v, level))
  {
  }

  /** With the remap check, a present entry at the target level is an existing mapping. */
  lemma ExistingUnfold(s: Space, frame: nat, v: Word, paddr: Word, level: nat)
    requires level <= PML4
    requires |s.frames| <= TABLE_FRAME_LIMIT
    requires Present(Read(s.mem, frame, Idx(level, v)))
    ensures MapImplRec(true, s, frame, v, paddr, level, level) == Done(Mapped(Err(MappingExists), s))
  {
  }

  /** Above the target level, a present large-page entry is an existing mapping. */
  lemma LargePageUnfold(checkRemap: bool, s: Space, frame: nat, v: Word, paddr: Word, target: nat, level: nat)
    requires target < level <= PML4
    requires |s.frames| <= TABLE_FRAME_LIMIT
    requires var e := Read(s.mem, frame, Idx(level, v)); Present(e) && Huge(e)
    ensures MapImplRec(checkRemap, s, frame, v, paddr, target, level) == Done(Mapped(Err(MappingExists), s))
  {
    ContainsBoth(Read(s.mem, frame, Idx(level, v)).flags);
  }

  /** Through a present small-page entry `map_impl_rec` goes on in the table below. */
  lemma DescendUnfold(checkRemap: bool, s: Space, frame: nat, v: Word, paddr: Word, target: nat, level: nat)
    requires target <= PML4 && PT < level <= PML4
    requires |s.frames| <= TABLE_FRAME_LIMIT
    requires var e := Read(s.mem, frame, Idx(level, v)); Present(e) && !Huge(e) && (level == target ==> !checkRemap)
    ensures MapImplRec(checkRemap, s, frame, v, paddr, target, level)
      == MapImplRec(checkRemap, s, (Read(s.mem, frame, Idx(level, v))).frame, v, paddr, target, level - 1)
  {
    ContainsBoth(Read(s.mem, frame, Idx(level, v)).flags);
  }

  /** The first frame of a path without repetitions does not occur again. */
  lemma HeadNotInTail(p: seq<nat>, frame: nat, q: seq<nat>)
    requires p == [frame] + q && NoDup(p)
    ensures forall k :: 0 <= k < |q| ==> q[k] != frame
  {
    forall k | 0 <= k < |q|
      ensures q[k] != frame
    {
      assert q[k] == p[k + 1] && p[0] == frame;
      assert p[0] != p[k + 1];
    }
  }

  /** `MapImplRecResolves` where a new table is allocated. */
  lemma {:induction false} AllocateResolves(s: Space, frame: nat, v: Word, paddr: Word, target: nat, level: nat)
    requires target < level <= PML4
    requires |s.frames| <= TABLE_FRAME_LIMIT
    requires PathOk(s, frame, v, level)
    requires !Present(Read(s.mem, frame, Idx(level, v)))
    ensures var r := MapImplRec(true, s, frame, v, paddr, target, level);
      r.Done? && r.value.status.Ok? ==> ResolveFrom(r.value.space.mem, frame, v, level) == Some(PageAddress(AddressBits(paddr), v, target))
    decreases level, 1
  {
    NewTableUnfold(true, s, frame, v, paddr, target, level);
    assert InUse(s.frames, PathFrames(s.mem, frame, v, level)[0]);
    NewTableResolves(s, frame, v, paddr, target, level);
  }

  /** After a successful allocating branch the walk goes through the new table to the new mapping. */
  lemma {:induction false} NewTableResolves(s: Space, frame: nat, v: Word, paddr: Word, target: nat, level: nat)
    requires target < level <= PML4
    requires |s.frames| <= TABLE_FRAME_LIMIT
    requires InUse(s.frames, frame)
    ensures var r := MapNewTable(true, s, frame, v, paddr, target, level);
      r.Done? && r.value.status.Ok? ==> ResolveFrom(r.value.space.mem, frame, v, level) == Some(PageAddress(AddressBits(paddr), v, target))
    decreases level, 0
  {
    var i := Idx(level, v);
    var (newTable, frames1) := SlowAlloc.Alloc(s.frames);
    if newTable.None? {
      NewTableNone(true, s, frame, v, paddr, target, level);
    } else {
      var f := newTable.value.number;
      var mem0 := Write(s.mem, frame, i, TableEntry(f));
      var mem1 := Clear(mem0, f);
      var s1 := Space(mem1, frames1);
      var inner := MapImplRec(true, s1, f, v, paddr, target, level - 1);
      NewTableSome(true, s, frame, v, paddr, target, level);
      RollbackStatus(inner, frame, i, Read(s.mem, frame, i), newTable.value);
      if inner.Done? && inner.value.status.Ok? {
        FreshTableResolves(s1, f, v, paddr, target, level - 1, inner, frame);
        LinkedTableResolves(mem0, f, inner.value.space.mem, frame, v, level);
      }
    }
  }

  /** Mapping through a new, cleared table changes no other table in use and makes the walk from it find the mapping. */
  lemma {:induction false} FreshTableResolves(s: Space, f: nat, v: Word, paddr: Word, target: nat, level: nat, r: Outcome<Mapped>, other: nat)
    requires target <= level <= PML4
    requires |s.frames| <= TABLE_FRAME_LIMIT
    requires TableOf(s.mem, f) == Zeroes() && InUse(s.frames, f)
    requires InUse(s.frames, other) && other != f
    requires r == MapImplRec(true, s, f, v, paddr, target, level)
    ensures r.Done? && r.value.status.Ok? ==> TableOf(r.value.space.mem, other) == TableOf(s.mem, other)
    ensures r.Done? && r.value.status.Ok? ==> ResolveFrom(r.value.space.mem, f, v, level) == Some(PageAddress(AddressBits(paddr), v, target))
    decreases level, 4
  {
    assert Read(s.mem, f, Idx(level, v)) == EMPTY;
    assert PathFrames(s.mem, f, v, level) == [f];
    SingletonPathOk(s, f, v, level);
    MapImplRecFrame(true, s, f, v, paddr, target, level);
    MapImplRecResolves(s, f, v, paddr, target, level);
  }

  /** The allocating branch when the allocator has no free frame. */
  lemma NewTableNone(checkRemap: bool, s: Space, frame: nat, v: Word, paddr: Word, target: nat, level: nat)
    requires target <= PML4 && PT < level <= PML4
    requires |s.frames| <= TABLE_FRAME_LIMIT
    requires SlowAlloc.Alloc(s.frames).0.None?
    ensures MapNewTable(checkRemap, s, frame, v, paddr, target, level) == Done(Mapped(Err(OutOfMemory), s))
  {
  }

  /** The allocating branch with a new table: the call one level down on it, then the rollback. */
  lemma NewTableSome(checkRemap: bool, s: Space, frame: nat, v: Word, paddr: Word, target: nat, level: nat)
    requires target <= PML4 && PT < level <= PML4
    requires |s.frames| <= TABLE_FRAME_LIMIT
    requires SlowAlloc.Alloc(s.frames).0.Some?
    ensures var i := Idx(level, v);
      var (newTable, frames1) := SlowAlloc.Alloc(s.frames);
      var f := newTable.value.number;
      var s1 := Space(Clear(Write(s.mem, frame, i, TableEntry(f)), f), frames1);
      MapNewTable(checkRemap, s, frame, v, paddr, target, level)
        == Rollback(MapImplRec(checkRemap, s1, f, v, paddr, target, level - 1), frame, i, Read(s.mem, frame, i), newTable.value)
  {
  }

  /**
   * The walk through the entry at `frame` that links the new table `f`
   * continues in `f`, as long as the table in `frame` is kept.
   */
  lemma LinkedTableResolves(mem0: Memory, f: nat, mem': Memory, frame: nat, v: Word, level: nat)
    requires PT < level <= PML4 && f < TABLE_FRAME_LIMIT
    requires frame != f && TableOf(mem', frame) == TableOf(Clear(mem0, f), frame)
    requires Read(mem0, frame, Idx(level, v)) == TableEntry(f)
    ensures ResolveFrom(mem', frame, v, level) == ResolveFrom(mem', f, v, level - 1)
  {
    assert TableOf(mem', frame) == TableOf(mem0, frame);
    LinkResolves(mem', frame, v, level, f);
  }

  /** An entry linking the table in `f` passes the walk on to `f`. */
  lemma LinkResolves(mem: Memory, frame: nat, v: Word, level: nat, f: nat)
    requires PT < level <= PML4 && f < TABLE_FRAME_LIMIT
    requires Read(mem, frame, Idx(level, v)) == TableEntry(f)
    ensures ResolveFrom(mem, frame, v, level) == ResolveFrom(mem, f, v, level - 1)
  {
  }

  /** `MapImplRecResolves` where the walk descends into an existing table. */
  lemma {:induction false} DescendResolves(s: Space, frame: nat, v: Word, paddr: Word, target: nat, level: nat)
    requires target < level <= PML4
    requires |s.frames| <= TABLE_FRAME_LIMIT
    requires PathOk(s, frame, v, level)
    requires var e := Read(s.mem, frame, Idx(level, v)); Present(e) && !Huge(e)
    ensures var r := MapImplRec(true, s, frame, v, paddr, target, level);
      r.Done? && r.value.status.Ok? ==> ResolveFrom(r.value.space.mem, frame, v, level) == Some(PageAddress(AddressBits(paddr), v, target))
    decreases level, 0
  {
    var child := Read(s.mem, frame, Idx(level, v)).frame;
    var q := PathFrames(s.mem, child, v, level - 1);
    DescendPath(s, frame, v, level);
    DescendUnfold(true, s, frame, v, paddr, target, level);
    MapImplRecFrame(true, s, child, v, paddr, target, level - 1);
    MapImplRecResolves(s, child, v, paddr, target, level - 1);
    var r := MapImplRec(true, s, child, v, paddr, target, level - 1);
    if r.Done? && r.value.status.Ok? {
      KeptEntryResolves(s.mem, r.value.space.mem, s.frames, frame, v, level, q);
    }
  }

  /** Below a present small-page entry the path is well formed again and does not come back to `frame`. */
  lemma DescendPath(s: Space, frame: nat, v: Word, level: nat)
    requires PT < level <= PML4
    requires PathOk(s, frame, v, level)
    requires var e := Read(s.mem, frame, Idx(level, v)); Present(e) && !Huge(e)
    ensures var q := PathFrames(s.mem, Read(s.mem, frame, Idx(level, v)).frame, v, level - 1);
      InUse(s.frames, frame) && forall k :: 0 <= k < |q| ==> q[k] != frame
    ensures PathOk(s, Read(s.mem, frame, Idx(level, v)).frame, v, level - 1)
  {
    var p := PathFrames(s.mem, frame, v, level);
    var q := PathFrames(s.mem, Read(s.mem, frame, Idx(level, v)).frame, v, level - 1);
    assert p == [frame] + q;
    HeadNotInTail(p, frame, q);
    SubPathOk(s, frame, v, level);
    assert InUse(s.frames, p[0]);
  }

  /** A table kept by the call below still passes the walk on to the same table. */
  lemma KeptEntryResolves(mem: Memory, mem': Memory, t: Table, frame: nat, v: Word, level: nat, q: seq<nat>)
    requires PT < level <= PML4
    requires InUse(t, frame) && forall k :: 0 <= k < |q| ==> q[k] != frame
    requires TablesKept(t, mem, mem', q)
    requires var e := Read(mem, frame, Idx(level, v)); Present(e) && !Huge(e)
    ensures ResolveFrom(mem', frame, v, level) == ResolveFrom(mem', (Read(mem, frame, Idx(level, v))).frame, v, level - 1)
  {
    assert frame !in q;
    assert TableOf(mem', frame) == TableOf(mem, frame);
    StepResolves(mem', frame, v, level);
  }

  /** Through a present small-page entry the walk goes on in the table below. */
  lemma StepResolves(mem: Memory, frame: nat, v: Word, level: nat)
    requires PT < level <= PML4
    requires var e := Read(mem, frame, Idx(level, v)); Present(e) && !Huge(e)
    ensures ResolveFrom(mem, frame, v, level) == ResolveFrom(mem, (Read(mem, frame, Idx(level, v))).frame, v, level - 1)
  {
  }

  /**
   * `map` from the PML4 table in frame `root`: for a level below 2 and
   * aligned addresses it does not panic; on success `resolve` gives the new
   * translation and tables in use off the path are as before; on an error
   * the page-frame table and every table in use are as before.
   */
  lemma MapThenResolve(s: Space, root: nat, v: Word, paddr: Word, level: nat)
    requires |s.frames| <= TABLE_FRAME_LIMIT
    requires PathOk(s, root, v, PML4)
    requires level < 2 && AlignedAt(paddr, level) && AlignedAt(v, level)
    ensures Map(s, root, v, paddr, level).Done?
    ensures var r := Map(s, root, v, paddr, level).value;
      r.status.Ok? ==> Resolve(r.space.mem, root, v) == Some(PageAddress(AddressBits(paddr), v, level))
    ensures var r := Map(s, root, v, paddr, level).value;
      r.status.Ok? ==> KeepsInUse(s.frames, r.space.frames) && TablesKept(s.frames, s.mem, r.space.mem, PathFrames(s.mem, root, v, PML4))
    ensures var r := Map(s, root, v, paddr, level).value;
      r.status.Err? ==> !r.status.error.InvalidLevel? && r.space.frames == s.frames && TablesKept(s.frames, s.mem, r.space.mem, [])
  {
    MapImplRecFrame(true, s, root, v, paddr, level, PML4);
    MapImplRecResolves(s, root, v, paddr, level, PML4);
    MapErrors(s, root, v, paddr, level, PML4);
  }

  /** `map_impl_rec` reports only `MappingExists` and `OutOfMemory`, never an invalid level. */
  lemma {:induction false} MapErrors(s: Space, frame: nat, v: Word, paddr: Word, target: nat, level: nat)
    requires target <= PML4 && level <= PML4
    requires |s.frames| <= TABLE_FRAME_LIMIT
    ensures var r := MapImplRec(true, s, frame, v, paddr, target, level);
      r.Done? && r.value.status.Err? ==> !r.value.status.error.InvalidLevel?
    decreases level
  {
    var i := Idx(level, v);
    var e := Read(s.mem, frame, i);
    ContainsBoth(e.flags);
    if level != target && level > PT && !Present(e) {
      NewTableUnfold(true, s, frame, v, paddr, target, level);
      NewTableErrors(s, frame, v, paddr, target, level);
    } else if level != target && level > PT && !Huge(e) {
      MapErrors(s, e.frame, v, paddr, target, level - 1);
      DescendUnfold(true, s, frame, v, paddr, target, level);
    }
  }

  /** `MapErrors` for the allocating branch. */
  lemma {:induction false} NewTableErrors(s: Space, frame: nat, v: Word, paddr: Word, target: nat, level: nat)
    requires target <= PML4 && PT < level <= PML4
    requires |s.frames| <= TABLE_FRAME_LIMIT
    ensures var r := MapNewTable(true, s, frame, v, paddr, target, level);
      r.Done? && r.value.status.Err? ==> !r.value.status.error.InvalidLevel?
    decreases level, 0
  {
    var i := Idx(level, v);
    var (newTable, frames1) := SlowAlloc.Alloc(s.frames);
    if newTable.Some? {
      var f := newTable.value.number;
      var s1 := Space(Clear(Write(s.mem, frame, i, TableEntry(f)), f), frames1);
      MapErrors(s1, f, v, paddr, target, level - 1);
      RollbackStatus(MapImplRec(true, s1, f, v, paddr, target, level - 1), frame, i, Read(s.mem, frame, i), newTable.value);
    }
  }

  /** The rollback keeps the status of the call below. */
  lemma RollbackStatus(inner: Outcome<Mapped>, frame: nat, i: nat, previous: Slot, newTable: PageFrame)
    requires i < 512
    ensures var r := Rollback(inner, frame, i, previous, newTable);
      r.Done? ==> inner.Done? && r.value.status == inner.value.status
    ensures var r := Rollback(inner, frame, i, previous, newTable);
      r.Done? && r.value.status.Ok? ==> r == inner
  {
  }

  // ---------------------------------------------------------------------
  // The code as written
  // ---------------------------------------------------------------------

  /**
   * Whenever `map_impl_rec` as written does not panic, it does what the
   * corrected version does; they differ only where the code as written
   * panics. (`map` asks for levels 0 and 1 only.)
   */
  lemma {:induction false} MapImplRecAsWrittenAgrees(s: Space, frame: nat, v: Word, paddr: Word, target: nat, level: nat)
    requires target <= 1 && target <= level <= PML4
    requires |s.frames| <= TABLE_FRAME_LIMIT
    ensures var r := MapImplRec(false, s, frame, v, paddr, target, level);
      r.Done? ==> r == MapImplRec(true, s, frame, v, paddr, target, level)
    decreases level, 1
  {
    var e := Read(s.mem, frame, Idx(level, v));
    if level == target && !Present(e) {
      InstallUnfold(false, s, frame, v, paddr, level);
      InstallUnfold(true, s, frame, v, paddr, level);
    } else if level == target {
      TargetAgrees(s, frame, v, paddr, level);
    } else if !Present(e) {
      AllocateAgrees(s, frame, v, paddr, target, level);
    } else if !Huge(e) {
      DescendUnfold(false, s, frame, v, paddr, target, level);
      DescendUnfold(true, s, frame, v, paddr, target, level);
      MapImplRecAsWrittenAgrees(s, e.frame, v, paddr, target, level - 1);
    } else {
      LargePageUnfold(false, s, frame, v, paddr, target, level);
      LargePageUnfold(true, s, frame, v, paddr, target, level);
    }
  }

  /** At the target level a present entry is an existing mapping, unless the code as written panics. */
  lemma TargetAgrees(s: Space, frame: nat, v: Word, paddr: Word, level: nat)
    requires level <= 1
    requires |s.frames| <= TABLE_FRAME_LIMIT
    requires Present(Read(s.mem, frame, Idx(level, v)))
    ensures var r := MapImplRec(false, s, frame, v, paddr, level, level);
      r.Done? ==> r == Done(Mapped(Err(MappingExists), s))
  {
    var e := Read(s.mem, frame, Idx(level, v));
    ContainsBoth(e.flags);
    if level == 1 && !Huge(e) {
      BelowTarget(s, e.frame, v, paddr);
    }
  }

  /** `MapImplRecAsWrittenAgrees` where a new table is allocated. */
  lemma {:induction false} AllocateAgrees(s: Space, frame: nat, v: Word, paddr: Word, target: nat, level: nat)
    requires target <= 1 && target < level <= PML4
    requires |s.frames| <= TABLE_FRAME_LIMIT
    requires !Present(Read(s.mem, frame, Idx(level, v)))
    ensures var r := MapImplRec(false, s, frame, v, paddr, target, level);
      r.Done? ==> r == MapImplRec(true, s, frame, v, paddr, target, level)
    decreases level, 0
  {
    NewTableUnfold(false, s, frame, v, paddr, target, level);
    NewTableUnfold(true, s, frame, v, paddr, target, level);
    var i := Idx(level, v);
    var (newTable, frames1) := SlowAlloc.Alloc(s.frames);
    if newTable.None? {
      NewTableNone(false, s, frame, v, paddr, target, level);
      NewTableNone(true, s, frame, v, paddr, target, level);
    } else {
      var f := newTable.value.number;
      var s1 := Space(Clear(Write(s.mem, frame, i, TableEntry(f)), f), frames1);
      NewTableSome(false, s, frame, v, paddr, target, level);
      NewTableSome(true, s, frame, v, paddr, target, level);
      var inner := MapImplRec(false, s1, f, v, paddr, target, level - 1);
      MapImplRecAsWrittenAgrees(s1, f, v, paddr, target, level - 1);
      RollbackStatus(inner, frame, i, Read(s.mem, frame, i), newTable.value);
    }
  }

  /** Below a target of 1, the code as written panics or reports an existing mapping. */
  lemma BelowTarget(s: Space, frame: nat, v: Word, paddr: Word)
    requires |s.frames| <= TABLE_FRAME_LIMIT
    ensures var r := MapImplRec(false, s, frame, v, paddr, 1, PT);
      r == Panic || r == Done(Mapped(Err(MappingExists), s))
  {
  }

  /** `map` as written agrees with the corrected `map` whenever it does not panic. */
  lemma MapAsWrittenAgrees(s: Space, root: nat, v: Word, paddr: Word, level: nat)
    requires |s.frames| <= TABLE_FRAME_LIMIT
    ensures MapAsWritten(s, root, v, paddr, level).Done? ==> MapAsWritten(s, root, v, paddr, level) == Map(s, root, v, paddr, level)
  {
    if level < 2 && AlignedAt(paddr, level) && AlignedAt(v, level) {
      MapImplRecAsWrittenAgrees(s, root, v, paddr, level, PML4);
    }
  }

  /**
   * Mapping a 4 KiB page at an address that already has one: the code as
   * written reaches `expect` at the PT level, the corrected version reports
   * `MappingExists` and changes nothing.
   */
  lemma RemapPanics()
    ensures var s := RemapExample();
      MapAsWritten(s, 1, 0x1000, 0x6000, 0) == Panic && Map(s, 1, 0x1000, 0x6000, 0) == Done(Mapped(Err(MappingExists), s))
  {
    var s := RemapExample();
    var v := 0x1000;
    assert Read(s.mem, 1, Idx(3, v)) == Slot(0x03, 2);
    assert Read(s.mem, 2, Idx(2, v)) == Slot(0x03, 3);
    assert Read(s.mem, 3, Idx(1, v)) == Slot(0x03, 4);
    assert Read(s.mem, 4, Idx(0, v)) == Slot(0x03, 5);
    for b := 0 to 2
    {
      DescendUnfold(b == 1, s, 1, v, 0x6000, 0, 3);
      DescendUnfold(b == 1, s, 2, v, 0x6000, 0, 2);
      DescendUnfold(b == 1, s, 3, v, 0x6000, 0, 1);
    }
    ExistingUnfold(s, 4, v, 0x6000, 0);
    SmallPagePanics(s, 4, v, 0x6000);
  }

  /** Page tables that map virtual page 1 to frame 5 through frames 1 to 4; frame 5 is free. */
  function RemapExample(): (s: Space)
    ensures |s.frames| == 6
  {
    Space(map[1 := Zeroes()[0 := Slot(0x03, 2)], 2 := Zeroes()[0 := Slot(0x03, 3)], 3 := Zeroes()[0 := Slot(0x03, 4)], 4 := Zeroes()[1 := Slot(0x03, 5)]],
          [Reserved, Allocated, Allocated, Allocated, Allocated, Free])
  }

  /** As written, a present 4 KiB entry at the PT level reaches `expect`. */
  lemma SmallPagePanics(s: Space, frame: nat, v: Word, paddr: Word)
    requires |s.frames| <= TABLE_FRAME_LIMIT
    requires var e := Read(s.mem, frame, Idx(PT, v)); Present(e) && !Huge(e)
    ensures MapImplRec(false, s, frame, v, paddr, PT, PT) == Panic
  {
    ContainsBoth(Read(s.mem, frame, Idx(PT, v)).flags);
  }
}

=== FILE: pfa_bump.dfy ===
/**
 * The kernel's memory-map bump allocator
 * (learnos_kernel/src/memory/pfa/bump.rs).
 *
 * The allocator walks the Multiboot2 memory map on every request. Its only
 * state is the next frame number it may hand out; it moves that number up to
 * the first frame of each available region it passes and hands out frames
 * that lie wholly inside an available region.
 */
module PfaBump {
  import opened Common
  import opened Frames
  import LegacyFrames

  /** A Multiboot2 memory-map entry (learnos_kernel/src/multiboot2/memmap.rs). */
  datatype MemRegion = MemRegion(base: Word, length: Word, entryType: nat)

  /** Entry type 1 is RAM available to the operating system. */
  predicate IsAvailable(r: MemRegion)
  {
    r.entryType == 1
  }

  /**
   * The entry's end does not overflow, and its base is below the last frame,
   * where rounding up would overflow.
   */
  predicate WellFormed(r: MemRegion)
  {
    r.base + r.length < WORD_LIMIT && r.base <= WORD_LIMIT - PAGE_SIZE
  }

  /** Every available entry is well formed; the others are never rounded. */
  predicate MapWellFormed(rs: seq<MemRegion>)
  {
    forall i :: 0 <= i < |rs| && IsAvailable(rs[i]) ==> WellFormed(rs[i])
  }

  /**
   * `page_frames_in_region`: the frames wholly inside the entry. Adding the
   * length to the base panics when it overflows, and rounding the base up
   * panics in the last frame.
   */
  function FramesIn(r: MemRegion): (f: Outcome<PageFrameRegion>)
    ensures f.Done? <==> WellFormed(r)
    ensures f.Done? ==> forall n: nat :: InRegion(f.value, n) <==> FrameWithin(n, r.base, r.base + r.length)
  {
    if r.base + r.length >= WORD_LIMIT then Panic
    else LegacyFrames.NewIncludedIn(r.base, r.base + r.length)
  }

  datatype Pfa = Pfa(next: nat, regions: seq<MemRegion>)

  /** `BumpAllocator::new(regions)` */
  function New(regions: seq<MemRegion>): (p: Pfa)
    ensures p.next == 0 && p.regions == regions
  {
    Pfa(0, regions)
  }

  /** `reserve_until(f)`: the next frame becomes the larger of the two. */
  function ReserveUntil(p: Pfa, f: PageFrame): (r: Pfa)
    ensures r.regions == p.regions
    ensures r.next >= p.next && r.next >= f.number
    ensures r.next == p.next || r.next == f.number
  {
    Pfa(if f.number > p.next then f.number else p.next, p.regions)
  }

  /** `reserve_until_address(a)`: reserve up to the first frame at or above `a`. */
  function ReserveUntilAddress(p: Pfa, a: Word): (r: Outcome<Pfa>)
    ensures r.Done? <==> a <= WORD_LIMIT - PAGE_SIZE
    ensures r.Done? ==> r.value.regions == p.regions && r.value.next >= p.next
    ensures r.Done? ==> r.value.next * PAGE_SIZE >= a
  {
    match NextAbove(a)
    case Panic => Panic
    case Done(f) => Done(ReserveUntil(p, f))
  }

  /** Frame `n` lies wholly inside an available entry of the map. */
  predicate AvailableFrame(rs: seq<MemRegion>, n: nat)
  {
    exists i :: 0 <= i < |rs| && IsAvailable(rs[i]) && FrameWithin(n, rs[i].base, rs[i].base + rs[i].length)
  }

  /** Some available entry of the map is not well formed. */
  predicate HasMalformed(rs: seq<MemRegion>)
  {
    exists i :: 0 <= i < |rs| && IsAvailable(rs[i]) && !WellFormed(rs[i])
  }

  /**
   * The loop of `alloc`, from the given next frame over the remaining
   * entries: the frame handed out, if any, and the new next frame. The loop
   * panics when it rounds a malformed available entry before it finds a
   * frame; it never panics on a well-formed map.
   */
  function AllocScan(next: nat, rs: seq<MemRegion>): (r: Outcome<(Option<nat>, nat)>)
    ensures MapWellFormed(rs) ==> r.Done?
    ensures r.Panic? ==> HasMalformed(rs)
    ensures r.Done? ==> r.value.1 >= next
    ensures r.Done? && r.value.0.Some? ==> var n := r.value.0.value;
      n >= next && r.value.1 == n + 1 && AvailableFrame(rs, n)
    ensures r.Done? && r.value.0.None? ==> forall n: nat :: AvailableFrame(rs, n) ==> n < r.value.1
    decreases |rs|
  {
    if |rs| == 0 then Done((None, next))
    else if !IsAvailable(rs[0]) then
      var r := AllocScan(next, rs[1..]);
      TailFacts(rs, if r.Done? then r.value.0 else None);
      if r.Done? then PassedFrames(rs, r.value.1); r else r
    else
      match FramesIn(rs[0])
      case Panic => assert !WellFormed(rs[0]); Panic
      case Done(frames) =>
        var n := if next < frames.start.number then frames.start.number else next;
        if n < frames.end.number then
          assert InRegion(frames, n);
          Done((Some(n), n + 1))
        else
          var r := AllocScan(n, rs[1..]);
          TailFacts(rs, if r.Done? then r.value.0 else None);
          if r.Done? then PassedFrames(rs, r.value.1); r else r
  }

  /**
   * A bound above every available frame of the tail, and above the frames
   * of the first entry when it is available and well formed, is above every
   * available frame.
   */
  lemma PassedFrames(rs: seq<MemRegion>, bound: nat)
    requires |rs| > 0
    ensures ((forall n: nat :: AvailableFrame(rs[1..], n) ==> n < bound) &&
             (IsAvailable(rs[0]) ==> WellFormed(rs[0]) && FramesIn(rs[0]).value.end.number <= bound))
      ==> forall n: nat :: AvailableFrame(rs, n) ==> n < bound
  {
    forall n: nat | AvailableFrame(rs, n) && (forall m: nat :: AvailableFrame(rs[1..], m) ==> m < bound) &&
      (IsAvailable(rs[0]) ==> WellFormed(rs[0]) && FramesIn(rs[0]).value.end.number <= bound)
      ensures n < bound
    {
      var i :| 0 <= i < |rs| && IsAvailable(rs[i]) && FrameWithin(n, rs[i].base, rs[i].base + rs[i].length);
      if i == 0 {
        assert InRegion(FramesIn(rs[0]).value, n);
      } else {
        assert rs[1..][i - 1] == rs[i];
        assert AvailableFrame(rs[1..], n);
      }
    }
  }

  /** What holds of the tail holds of the whole map: a well-formed map, a malformed entry, an available frame. */
  lemma TailFacts(rs: seq<MemRegion>, f: Option<nat>)
    requires |rs| > 0
    ensures MapWellFormed(rs) ==> MapWellFormed(rs[1..])
    ensures HasMalformed(rs[1..]) ==> HasMalformed(rs)
    ensures f.Some? && AvailableFrame(rs[1..], f.value) ==> AvailableFrame(rs, f.value)
  {
    if MapWellFormed(rs) {
      forall i | 0 <= i < |rs[1..]| && IsAvailable(rs[1..][i])
        ensures WellFormed(rs[1..][i])
      {
        assert rs[1..][i] == rs[i + 1];
      }
    }
    if HasMalformed(rs[1..]) {
      var i :| 0 <= i < |rs[1..]| && IsAvailable(rs[1..][i]) && !WellFormed(rs[1..][i]);
      assert rs[i + 1] == rs[1..][i];
    }
    if f.Some? && AvailableFrame(rs[1..], f.value) {
      var i :| 0 <= i < |rs[1..]| && IsAvailable(rs[1..][i]) &&
        FrameWithin(f.value, rs[1..][i].base, rs[1..][i].base + rs[1..][i].length);
      assert rs[i + 1] == rs[1..][i];
    }
  }

  /**
   * `alloc()`: a frame wholly inside an available entry, at or above the
   * next frame, which then moves past it. When there is none, the next
   * frame has moved past every available frame of the map. It panics only
   * on a malformed available entry, and never on a well-formed map.
   */
  function Alloc(p: Pfa): (r: Outcome<(Option<PageFrame>, Pfa)>)
    ensures MapWellFormed(p.regions) ==> r.Done?
    ensures r.Panic? ==> HasMalformed(p.regions)
    ensures r.Done? ==> r.value.1.regions == p.regions && r.value.1.next >= p.next
    ensures r.Done? && r.value.0.Some? ==> var f := r.value.0.value.number;
      f >= p.next && r.value.1.next == f + 1 && AvailableFrame(p.regions, f)
    ensures r.Done? && r.value.0.None? ==> forall n: nat :: AvailableFrame(p.regions, n) ==> n < r.value.1.next
  {
    match AllocScan(p.next, p.regions)
    case Panic => Panic
    case Done((frame, next)) =>
      Done((if frame.Some? then Some(PageFrame(frame.value)) else None, Pfa(next, p.regions)))
  }

  /** `free(frame)` always panics. */
  function FreeFrame(p: Pfa, frame: PageFrame): (r: Outcome<Pfa>)
    ensures r.Panic?
  {
    Panic
  }

  /**
   * What `remaining_frames` counts for one entry: nothing for an entry that
   * is not available, which is filtered out before it is rounded.
   */
  function RemainingIn(next: nat, r: MemRegion): (c: Outcome<nat>)
    ensures c.Done? <==> (IsAvailable(r) ==> WellFormed(r))
    ensures !IsAvailable(r) ==> c == Done(0)
    ensures c.Done? && IsAvailable(r) ==> c.value <= Length(FramesIn(r).value)
    ensures c.Done? && IsAvailable(r) ==>
      (c.value == 0 <==> forall n: nat :: InRegion(FramesIn(r).value, n) ==> n < next)
  {
    if !IsAvailable(r) then Done(0)
    else
      match FramesIn(r)
      case Panic => Panic
      case Done(frames) =>
        if frames.end.number <= next then Done(0)
        else if next <= frames.start.number then
          assert !IsEmpty(frames) ==> InRegion(frames, frames.start.number);
          Done(Length(frames))
        else
          assert InRegion(frames, next);
          Done(Length(frames) - (next - frames.start.number))
  }

  /**
   * `remaining_frames()`: the available frames at or above the next frame.
   * It panics exactly when some available entry is malformed.
   */
  function RemainingFrames(next: nat, rs: seq<MemRegion>): (c: Outcome<nat>)
    ensures c.Done? <==> MapWellFormed(rs)
    ensures c.Done? ==> c.value <= TotalAvailableFrames(rs).value
  {
    if |rs| == 0 then Done(0)
    else
      TailFacts(rs, None);
      var head := RemainingIn(next, rs[0]);
      var tail := RemainingFrames(next, rs[1..]);
      if head.Panic? || tail.Panic? then
        assert !MapWellFormed(rs) by {
          if head.Done? { TailWellFormed(rs); }
        }
        Panic
      else
        TailWellFormed(rs);
        Done(head.value + tail.value)
  }

  /** A map is well formed exactly when its first entry and its tail are. */
  lemma TailWellFormed(rs: seq<MemRegion>)
    requires |rs| > 0
    ensures MapWellFormed(rs) <==> (IsAvailable(rs[0]) ==> WellFormed(rs[0])) && MapWellFormed(rs[1..])
  {
    if (IsAvailable(rs[0]) ==> WellFormed(rs[0])) && MapWellFormed(rs[1..]) {
      forall i | 0 <= i < |rs| && IsAvailable(rs[i])
        ensures WellFormed(rs[i])
      {
        if i > 0 {
          assert rs[i] == rs[1..][i - 1];
        }
      }
    }
    TailFacts(rs, None);
  }

  /**
   * `total_available_frames()`: the frames of all available entries. It
   * panics exactly when some available entry is malformed.
   */
  function TotalAvailableFrames(rs: seq<MemRegion>): (c: Outcome<nat>)
    ensures c.Done? <==> MapWellFormed(rs)
  {
    if |rs| == 0 then Done(0)
    else
      TailWellFormed(rs);
      var tail := TotalAvailableFrames(rs[1..]);
      if !IsAvailable(rs[0]) then tail
      else match FramesIn(rs[0])
        case Panic => Panic
        case Done(frames) => if tail.Panic? then Panic else Done(Length(frames) + tail.value)
  }

  /** Reserving more never increases what remains. */
  lemma {:induction false} RemainingShrinks(next: nat, next': nat, rs: seq<MemRegion>)
    requires next <= next'
    ensures RemainingFrames(next', rs).Done? <==> RemainingFrames(next, rs).Done?
    ensures RemainingFrames(next', rs).Done? ==> RemainingFrames(next', rs).value <= RemainingFrames(next, rs).value
  {
    if |rs| > 0 {
      RemainingShrinks(next, next', rs[1..]);
    }
  }

  /** With nothing reserved, every available frame remains. */
  lemma {:induction false} NothingReserved(rs: seq<MemRegion>)
    ensures RemainingFrames(0, rs) == TotalAvailableFrames(rs)
  {
    if |rs| > 0 {
      NothingReserved(rs[1..]);
    }
  }

  /**
   * A reserved entry at the top of memory is never rounded: the map of one
   * such entry and one available entry is accepted.
   */
  lemma ReservedTopAccepted(rs: seq<MemRegion>)
    requires rs == [MemRegion(0xFFFF_FFFF_FFFF_F000, 0x1000, 2), MemRegion(0x1000, 0x1000, 1)]
    ensures Alloc(New(rs)) == Done((Some(PageFrame(1)), Pfa(2, rs)))
    ensures RemainingFrames(0, rs) == Done(1)
  {
    var tail := rs[1..];
    assert tail == [MemRegion(0x1000, 0x1000, 1)] && tail[1..] == [];
    var frames := FramesIn(tail[0]).value;
    assert InRegion(frames, 1) && !InRegion(frames, 0) && !InRegion(frames, 2);
    assert frames.start.number == 1 && frames.end.number == 2;
    assert AllocScan(0, tail) == Done((Some(1), 2));
    assert AllocScan(0, rs) == AllocScan(0, tail);
    assert RemainingIn(0, tail[0]) == Done(1);
    assert RemainingFrames(0, tail) == Done(1);
    assert RemainingIn(0, rs[0]) == Done(0);
  }

  /**
   * Two available entries [0x1000, 0x3000) and [0x10000, 0x20000): after
   * `reserve_until_address(0x2000)` the first allocation is frame 2.
   */
  lemma AllocExample()
    ensures var p := New([MemRegion(0x1000, 0x2000, 1), MemRegion(0x10000, 0x10000, 1)]);
      ReserveUntilAddress(p, 0x2000).Done? &&
      Alloc(ReserveUntilAddress(p, 0x2000).value).Done? &&
      Alloc(ReserveUntilAddress(p, 0x2000).value).value.0 == Some(PageFrame(2))
  {
    var p := New([MemRegion(0x1000, 0x2000, 1), MemRegion(0x10000, 0x10000, 1)]);
    assert NextAbove(0x2000).value.number == 2;
    var q := ReserveUntilAddress(p, 0x2000).value;
    assert q.next == 2;
    var frames := FramesIn(q.regions[0]).value;
    assert InRegion(frames, 1) && InRegion(frames, 2) && !InRegion(frames, 3) && !InRegion(frames, 0);
    assert frames.start.number == 1 && frames.end.number == 3;
  }
}

=== FILE: pte.dfy ===
/**
 * The x86-64 page-table entry (learnos_kernel/src/memory/vmm/page_tables.rs),
 * following the 4-level paging entry format of section 4.5 of the Intel 64
 * and IA-32 Architectures Software Developer's Manual, Volume 3A.
 *
 * An entry is a 64-bit word: flags in bits 0-7, a 4096-aligned physical base
 * address in bits 12-51, the no-execute bit 63, and 14 bits that the
 * processor ignores and the kernel uses for its own data.
 */
module Pte {
  /** `PageTableEntry(u64)` */
  type Entry = bv64

  /** `Flags`, a `u8` bit set; all 256 combinations are valid. */
  type Flags = bv8

  const PRESENT: Flags := 0x01
  const WRITABLE: Flags := 0x02
  const USER: Flags := 0x04
  const PWT: Flags := 0x08
  const PCD: Flags := 0x10
  const ACCESSED: Flags := 0x20
  const DIRTY: Flags := 0x40
  /** The large-page bit; in a PT entry this position is the PAT bit. */
  const SIZE: Flags := 0x80

  const NO_EXECUTE: Entry := 0x8000_0000_0000_0000
  /** The physical base address bits 12-51. */
  const ADDR_MASK: Entry := 0x000F_FFFF_FFFF_F000
  /** The source's mask for the high user-data bits: bits 51-62. */
  const USER_DATA_HIGH_MASK_AS_WRITTEN: Entry := 0x7FF8_0000_0000_0000
  /** The ignored high bits 52-62, which do not overlap the address. */
  const USER_DATA_HIGH_MASK: Entry := 0x7FF0_0000_0000_0000
  /** The ignored low bits 9-11. */
  const USER_DATA_LOW_MASK: Entry := 0x0000_0000_0000_0E00

  /** `flags.contains(f)`: every bit of `f` is set. */
  predicate Contains(flags: Flags, f: Flags)
  {
    flags & f == f
  }

  /** `PageTableEntry::new()` */
  function New(): (e: Entry)
    ensures FlagsOf(e) == 0 && Base(e) == 0 && Executable(e) && UserData(e) == 0
  {
    0
  }

  /** `entry.flags()`: bits 0-7. */
  function FlagsOf(e: Entry): (f: Flags)
    ensures f as bv64 == e % 0x100
  {
    (e & 0xFF) as bv8
  }

  /** `entry.set_flags(f)`: replaces bits 0-7 and nothing else. */
  function SetFlags(e: Entry, f: Flags): (r: Entry)
    ensures FlagsOf(r) == f
    ensures r & !0xFF == e & !0xFF
  {
    (e & !0xFF) | (f as bv64)
  }

  /** `entry.executable()`: the no-execute bit is clear. */
  predicate Executable(e: Entry)
    ensures Executable(e) <==> e < NO_EXECUTE
  {
    e & NO_EXECUTE == 0
  }

  /** `entry.set_executable(x)`: sets or clears bit 63 and nothing else. */
  function SetExecutable(e: Entry, executable: bool): (r: Entry)
    ensures Executable(r) == executable
    ensures r & !NO_EXECUTE == e & !NO_EXECUTE
  {
    if !executable then e | NO_EXECUTE else e & !NO_EXECUTE
  }

  /** `entry.base()`: the physical address bits. */
  function Base(e: Entry): (a: bv64)
    ensures a & !ADDR_MASK == 0
    ensures a & 0xFFF == 0 && a < 0x0010_0000_0000_0000
  {
    e & ADDR_MASK
  }

  /** `entry.set_base(addr)`: stores the address bits of `addr`, leaves every other bit. */
  function SetBase(e: Entry, addr: bv64): (r: Entry)
    ensures Base(r) == addr & ADDR_MASK
    ensures r & !ADDR_MASK == e & !ADDR_MASK
  {
    (e & !ADDR_MASK) | (addr & ADDR_MASK)
  }

  /** `entry.user_data()` as written: bits 51-62 become result bits 2-13, bits 9-11 result bits 0-2. */
  function UserDataAsWritten(e: Entry): bv16
  {
    var high := ((e & USER_DATA_HIGH_MASK_AS_WRITTEN) >> 49) as bv16;
    var low := ((e & USER_DATA_LOW_MASK) >> 9) as bv16;
    high | low
  }

  /** `entry.set_user_data(u)` as written. */
  function SetUserDataAsWritten(e: Entry, u: bv16): Entry
  {
    (e & !USER_DATA_HIGH_MASK_AS_WRITTEN & !USER_DATA_LOW_MASK)
      | (((u as bv64) << 49) & USER_DATA_HIGH_MASK_AS_WRITTEN)
      | (((u as bv64) << 9) & USER_DATA_LOW_MASK)
  }

  /** `entry.user_data()` with the high mask on bits 52-62: result bits 3-13 and 0-2. */
  function UserData(e: Entry): (u: bv16)
    ensures u < 0x4000
  {
    var high := ((e & USER_DATA_HIGH_MASK) >> 49) as bv16;
    var low := ((e & USER_DATA_LOW_MASK) >> 9) as bv16;
    high | low
  }

  /** `entry.set_user_data(u)` with the high mask on bits 52-62. */
  function SetUserData(e: Entry, u: bv16): (r: Entry)
    ensures r & !(USER_DATA_HIGH_MASK | USER_DATA_LOW_MASK) == e & !(USER_DATA_HIGH_MASK | USER_DATA_LOW_MASK)
  {
    (e & !USER_DATA_HIGH_MASK & !USER_DATA_LOW_MASK)
      | (((u as bv64) << 49) & USER_DATA_HIGH_MASK)
      | (((u as bv64) << 9) & USER_DATA_LOW_MASK)
  }

  /** With the corrected mask, 14 bits of user data round-trip. */
  lemma UserDataRoundTrip(e: Entry, u: bv16)
    requires u < 0x4000
    ensures UserData(SetUserData(e, u)) == u
  {
  }

  /** With the corrected mask, storing user data leaves the base address. */
  lemma SetUserDataKeepsBase(e: Entry, u: bv16)
    ensures Base(SetUserData(e, u)) == Base(e)
  {
  }

  /** With the corrected mask, storing a base address leaves the user data. */
  lemma SetBaseKeepsUserData(e: Entry, a: bv64)
    ensures UserData(SetBase(e, a)) == UserData(e)
  {
  }

  /** Storing a base address leaves the flags. */
  lemma SetBaseKeepsFlags(e: Entry, a: bv64)
    ensures FlagsOf(SetBase(e, a)) == FlagsOf(e)
  {
  }

  /** Storing flags leaves the base address. */
  lemma SetFlagsKeepsBase(e: Entry, f: Flags)
    ensures Base(SetFlags(e, f)) == Base(e)
  {
  }

  /** As written, 14 bits of user data still round-trip: bit 2 is stored twice, in bits 11 and 51. */
  lemma UserDataAsWrittenRoundTrip(e: Entry, u: bv16)
    requires u < 0x4000
    ensures UserDataAsWritten(SetUserDataAsWritten(e, u)) == u
  {
  }

  /**
   * As written, bit 51 is both an address bit and a user-data bit: storing
   * an address with bit 51 set changes the user data, and storing user data
   * with bit 2 clear changes the address.
   */
  lemma UserDataOverlapsBase()
    ensures UserDataAsWritten(SetBase(SetUserDataAsWritten(New(), 0), 0x0008_0000_0000_0000)) == 4
    ensures Base(SetUserDataAsWritten(SetBase(New(), 0x0008_0000_0000_0000), 0)) == 0
  {
  }

  /**
   * The unit test: user data 0x3A75, flags PRESENT | SIZE | USER and address
   * 0x0008_0F7A_BA02_1000, set in two orders, all read back. The test values
   * agree in bit 51, so the overlap goes unnoticed; both masks pass.
   */
  lemma UnitTest()
    ensures var flags := PRESENT | SIZE | USER;
      var addr: bv64 := 0x0008_0F7A_BA02_1000;
      var e1 := SetBase(SetFlags(SetUserDataAsWritten(New(), 0x3A75), flags), addr);
      var e2 := SetUserDataAsWritten(SetFlags(e1, flags), 0x3A75);
      && UserDataAsWritten(e1) == 0x3A75 && FlagsOf(e1) == flags && Base(e1) == addr
      && UserDataAsWritten(e2) == 0x3A75 && FlagsOf(e2) == flags && Base(e2) == addr
    ensures var flags := PRESENT | SIZE | USER;
      var addr: bv64 := 0x0008_0F7A_BA02_1000;
      var e1 := SetBase(SetFlags(SetUserData(New(), 0x3A75), flags), addr);
      var e2 := SetUserData(SetFlags(e1, flags), 0x3A75);
      && UserData(e1) == 0x3A75 && FlagsOf(e1) == flags && Base(e1) == addr
      && UserData(e2) == 0x3A75 && FlagsOf(e2) == flags && Base(e2) == addr
  {
  }

  /** The entry `map` installs: base address `addr` and the given flags, everything else clear. */
  function MakeEntry(addr: bv64, f: Flags): (e: Entry)
    ensures Base(e) == addr & ADDR_MASK
    ensures FlagsOf(e) == f
  {
    SetFlagsKeepsBase(SetBase(New(), addr), f);
    SetFlags(SetBase(New(), addr), f)
  }
}

=== FILE: recursive.dfy ===
/**
 * Address arithmetic for a recursively mapped page-table hierarchy
 * (kmem/src/paging/mod.rs and learnos_kernel/src/memory/vmm/mod.rs).
 *
 * One entry of the top-level table (PML4) points back at the table itself.
 * Going through that entry once more per level turns a virtual address into
 * the virtual address of the page-table entry that maps it: the nine-bit
 * indices move down one level and the recursive index takes the top slot.
 * Levels count from 0 (PT, 4 KiB pages) to 3 (PML4).
 */
module Recursive {
  import opened Common

  /** `Level::PT` and `Level::PML4`. */
  const PT: nat := 0
  const PML4: nat := 3

  /** `level.child()`: the next lower level, none below the PT level. */
  function Child(level: nat): (r: Option<nat>)
    ensures r.None? <==> level == PT
    ensures r.Some? ==> r.value + 1 == level
  {
    if level == 0 then None else Some(level - 1)
  }

  /** `level.parent()` */
  function Parent(level: nat): (r: nat)
    ensures Child(r) == Some(level)
  {
    level + 1
  }

  /** Shift amounts that do not overflow a 64-bit shift. */
  predicate ShiftableLevel(level: nat)
  {
    12 + 9 * level < 64
  }

  /** The shift `12 + 9 * level` as a 64-bit amount, one case per level it does not overflow. */
  function LevelShift(level: nat): (s: bv64)
    requires ShiftableLevel(level)
  {
    if level == 0 then 12
    else if level == 1 then 21
    else if level == 2 then 30
    else if level == 3 then 39
    else if level == 4 then 48
    else 57
  }

  /** `index_at_level(level, vaddr)`: the nine-bit table index at `level`. */
  function IndexAtLevel(level: nat, v: bv64): (i: bv64)
    requires ShiftableLevel(level)
    ensures i < 512
  {
    (v >> LevelShift(level)) & 0x1FF
  }

  /** `CLEAR_PML4_MASK`: clears bits 39-47, the PML4 index. */
  const CLEAR_PML4_MASK: bv64 := 0xFFFF_007F_FFFF_FFFF

  /** The recursive-mapping index must name one of the 512 entries. */
  datatype CurrentRecursiveMapping = CurrentRecursiveMapping(recursiveIndex: bv64)

  /** `CurrentRecursiveMapping::new(index)`: panics for an index of 512 or more. */
  function NewMapping(index: bv64): (r: Outcome<CurrentRecursiveMapping>)
    ensures r.Done? <==> index < 512
    ensures r.Done? ==> r.value.recursiveIndex == index
  {
    if index < 512 then Done(CurrentRecursiveMapping(index)) else Panic
  }

  /** One pass of the loop in `entry_at_level`: shift down one level and put the recursive index on top. */
  function Step(addr: bv64, rec: bv64): (r: bv64)
    requires rec < 512
    ensures (r >> 39) & 0x1FF == rec
  {
    ((addr >> 9) & CLEAR_PML4_MASK) | (rec << 39)
  }

  /** `n` passes of the loop. */
  function Steps(addr: bv64, rec: bv64, n: nat): (r: bv64)
    requires rec < 512
    ensures n > 0 ==> (r >> 39) & 0x1FF == rec
  {
    if n == 0 then addr else Step(Steps(addr, rec, n - 1), rec)
  }

  /**
   * `mapping.entry_at_level(level, vaddr)`: `level + 1` passes, then the
   * upper 16 bits copied from bit 47 (canonical form) and the low three bits
   * cleared (8-byte alignment).
   */
  function EntryAtLevel(rec: bv64, level: nat, v: bv64): (r: bv64)
    requires rec < 512
    ensures r & 7 == 0
    ensures (r >> 39) & 0x1FF == rec
    ensures rec >= 256 ==> r >> 48 == 0xFFFF
    ensures rec < 256 ==> r >> 48 == 0
  {
    var addr := Steps(v, rec, level + 1);
    var canonical := if rec >= 256 then addr | 0xFFFF_0000_0000_0000 else addr & 0x0000_FFFF_FFFF_FFFF;
    canonical & 0xFFFF_FFFF_FFFF_FFF8
  }

  /** `mapping.table_at_level(level, vaddr)`: the entry's address aligned down to 4096. */
  function TableAtLevel(rec: bv64, level: nat, v: bv64): (r: bv64)
    requires rec < 512
    ensures r & 0xFFF == 0
  {
    EntryAtLevel(rec, level, v) & !0xFFF
  }

  /**
   * For the four real levels, the entry sits at `8 * index_at_level` inside
   * its table: the table address and the entry offset together give the entry.
   */
  lemma EntryIsIndexedInTable(rec: bv64, level: nat, v: bv64)
    requires rec < 512 && level <= PML4
    ensures EntryAtLevel(rec, level, v) & 0xFFF == IndexAtLevel(level, v) << 3
    ensures EntryAtLevel(rec, level, v) == TableAtLevel(rec, level, v) | (IndexAtLevel(level, v) << 3)
  {
    EntryOffset(rec, level, v);
    SplitAtPage(EntryAtLevel(rec, level, v), IndexAtLevel(level, v) << 3);
  }

  /** The first half of `EntryIsIndexedInTable`: the offset within the table. */
  lemma EntryOffset(rec: bv64, level: nat, v: bv64)
    requires rec < 512 && level <= PML4
    ensures EntryAtLevel(rec, level, v) & 0xFFF == IndexAtLevel(level, v) << 3
  {
    if level == 0 {
      EntryOffsetAt0(rec, v);
    } else if level == 1 {
      EntryOffsetAt1(rec, v);
    } else if level == 2 {
      EntryOffsetAt2(rec, v);
    } else {
      EntryOffsetAt3(rec, v);
    }
  }

  /** `EntryOffset` at the PT level. */
  lemma EntryOffsetAt0(rec: bv64, v: bv64)
    requires rec < 512
    ensures EntryAtLevel(rec, 0, v) & 0xFFF == IndexAtLevel(0, v) << 3
  {
    EntryKeepsLowBits(rec, 0, v);
    LowBitsAfter1(v, rec);
    OffsetIsIndex0(v);
  }

  /** `EntryOffset` at the PD level. */
  lemma EntryOffsetAt1(rec: bv64, v: bv64)
    requires rec < 512
    ensures EntryAtLevel(rec, 1, v) & 0xFFF == IndexAtLevel(1, v) << 3
  {
    EntryKeepsLowBits(rec, 1, v);
    LowBitsAfter2(v, rec);
    OffsetIsIndex1(v);
  }

  /** `EntryOffset` at the PDPT level. */
  lemma EntryOffsetAt2(rec: bv64, v: bv64)
    requires rec < 512
    ensures EntryAtLevel(rec, 2, v) & 0xFFF == IndexAtLevel(2, v) << 3
  {
    EntryKeepsLowBits(rec, 2, v);
    LowBitsAfter3(v, rec);
    OffsetIsIndex2(v);
  }

  /** `EntryOffset` at the PML4 level. */
  lemma EntryOffsetAt3(rec: bv64, v: bv64)
    requires rec < 512
    ensures EntryAtLevel(rec, 3, v) & 0xFFF == IndexAtLevel(3, v) << 3
  {
    EntryKeepsLowBits(rec, 3, v);
    LowBitsAfter4(v, rec);
    OffsetIsIndex3(v);
  }

  /** The canonical-form adjustment and the alignment keep bits 3-11 of the loop's result. */
  lemma EntryKeepsLowBits(rec: bv64, level: nat, v: bv64)
    requires rec < 512
    ensures EntryAtLevel(rec, level, v) & 0xFFF == Steps(v, rec, level + 1) & 0xFF8
  {
    CanonicalKeepsLowBits(Steps(v, rec, level + 1), rec >= 256);
  }

  /** Bits 3-11 after one pass hold the PT index, shifted by three. */
  lemma OffsetIsIndex0(v: bv64)
    ensures ((v >> 9) & 0xFFF) & 0xFF8 == IndexAtLevel(0, v) << 3
  {
    IndexAt0(v);
    ShiftedIndex0(v);
  }

  /** `index_at_level` at level 0 with its shift written out. */
  lemma IndexAt0(v: bv64)
    ensures IndexAtLevel(0, v) == (v >> 12) & 0x1FF
  {
  }

  /** Bits 3-11 of the address moved down by the loop are the index bits moved up by three. */
  lemma ShiftedIndex0(v: bv64)
    ensures ((v >> 9) & 0xFFF) & 0xFF8 == ((v >> 12) & 0x1FF) << 3
  {
  }

  /** Bits 3-11 after two passes hold the PD index, shifted by three. */
  lemma OffsetIsIndex1(v: bv64)
    ensures ((v >> 18) & 0xFFF) & 0xFF8 == IndexAtLevel(1, v) << 3
  {
    IndexAt1(v);
    ShiftedIndex1(v);
  }

  /** `index_at_level` at level 1 with its shift written out. */
  lemma IndexAt1(v: bv64)
    ensures IndexAtLevel(1, v) == (v >> 21) & 0x1FF
  {
  }

  /** Bits 3-11 of the address moved down by the loop are the index bits moved up by three. */
  lemma ShiftedIndex1(v: bv64)
    ensures ((v >> 18) & 0xFFF) & 0xFF8 == ((v >> 21) & 0x1FF) << 3
  {
  }

  /** Bits 3-11 after three passes hold the PDPT index, shifted by three. */
  lemma OffsetIsIndex2(v: bv64)
    ensures ((v >> 27) & 0xFFF) & 0xFF8 == IndexAtLevel(2, v) << 3
  {
    IndexAt2(v);
    ShiftedIndex2(v);
  }

  /** `index_at_level` at level 2 with its shift written out. */
  lemma IndexAt2(v: bv64)
    ensures IndexAtLevel(2, v) == (v >> 30) & 0x1FF
  {
  }

  /** Bits 3-11 of the address moved down by the loop are the index bits moved up by three. */
  lemma ShiftedIndex2(v: bv64)
    ensures ((v >> 27) & 0xFFF) & 0xFF8 == ((v >> 30) & 0x1FF) << 3
  {
  }

  /** Bits 3-11 after four passes hold the PML4 index, shifted by three. */
  lemma OffsetIsIndex3(v: bv64)
    ensures ((v >> 36) & 0xFFF) & 0xFF8 == IndexAtLevel(3, v) << 3
  {
    IndexAt3(v);
    ShiftedIndex3(v);
  }

  /** `index_at_level` at level 3 with its shift written out. */
  lemma IndexAt3(v: bv64)
    ensures IndexAtLevel(3, v) == (v >> 39) & 0x1FF
  {
  }

  /** Bits 3-11 of the address moved down by the loop are the index bits moved up by three. */
  lemma ShiftedIndex3(v: bv64)
    ensures ((v >> 36) & 0xFFF) & 0xFF8 == ((v >> 39) & 0x1FF) << 3
  {
  }

  /** The low twelve bits after one pass. */
  lemma LowBitsAfter1(v: bv64, rec: bv64)
    requires rec < 512
    ensures Steps(v, rec, 1) & 0xFFF == (v >> 9) & 0xFFF
  {
    assert Steps(v, rec, 1) == Step(v, rec);
    StepKeepsLowBits(v, rec);
  }

  /** The low twelve bits after two passes. */
  lemma LowBitsAfter2(v: bv64, rec: bv64)
    requires rec < 512
    ensures Steps(v, rec, 2) & 0xFFF == (v >> 18) & 0xFFF
  {
    var s1 := Step(v, rec);
    assert Steps(v, rec, 1) == s1;
    assert Steps(v, rec, 2) == Step(s1, rec);
    StepKeepsLowBits(s1, rec);
    StepKeepsLowBits(v, rec);
  }

  /** The low twelve bits after three passes. */
  lemma LowBitsAfter3(v: bv64, rec: bv64)
    requires rec < 512
    ensures Steps(v, rec, 3) & 0xFFF == (v >> 27) & 0xFFF
  {
    var s1 := Step(v, rec);
    var s2 := Step(s1, rec);
    assert Steps(v, rec, 1) == s1;
    assert Steps(v, rec, 2) == s2;
    assert Steps(v, rec, 3) == Step(s2, rec);
    StepKeepsLowBits(s2, rec);
    StepKeepsLowBits(s1, rec);
    StepKeepsLowBits(v, rec);
  }

  /** The low twelve bits after four passes. */
  lemma LowBitsAfter4(v: bv64, rec: bv64)
    requires rec < 512
    ensures Steps(v, rec, 4) & 0xFFF == (v >> 36) & 0xFFF
  {
    var s1 := Step(v, rec);
    var s2 := Step(s1, rec);
    var s3 := Step(s2, rec);
    assert Steps(v, rec, 1) == s1;
    assert Steps(v, rec, 2) == s2;
    assert Steps(v, rec, 3) == s3;
    assert Steps(v, rec, 4) == Step(s3, rec);
    StepKeepsLowBits(s3, rec);
    StepKeepsLowBits(s2, rec);
    StepKeepsLowBits(s1, rec);
    StepKeepsLowBits(v, rec);
  }

  /** A pass moves every bit below bit 39 down by nine places. */
  lemma StepKeepsLowBits(x: bv64, rec: bv64)
    requires rec < 512
    ensures Step(x, rec) & 0xFFF == (x >> 9) & 0xFFF
    ensures (Step(x, rec) >> 9) & 0xFFF == (x >> 18) & 0xFFF
    ensures (Step(x, rec) >> 18) & 0xFFF == (x >> 27) & 0xFFF
    ensures (Step(x, rec) >> 27) & 0xFFF == (x >> 36) & 0xFFF
  {
  }

  /** A word is its page part together with its offset part. */
  lemma SplitAtPage(e: bv64, offset: bv64)
    requires e & 0xFFF == offset
    ensures e == (e & !0xFFF) | offset
  {
  }

  /** The canonical-form adjustment and the alignment keep bits 3-11. */
  lemma CanonicalKeepsLowBits(addr: bv64, high: bool)
    ensures var c := if high then addr | 0xFFFF_0000_0000_0000 else addr & 0x0000_FFFF_FFFF_FFFF;
      (c & 0xFFFF_FFFF_FFFF_FFF8) & 0xFFF == addr & 0xFF8
  {
  }

  /** The recursive index the kernel's virtual-memory manager uses. */
  const PML4_RECURSIVE_MAPPING_INDEX: bv64 := 510

  /** The unit test of `index_at_level`: levels 3 to 0 give 257, 130, 68, 40. */
  lemma IndexAtLevelTest()
    ensures var a: bv64 := 0xFFFF_80A0_8882_8AAA;
      IndexAtLevel(3, a) == 257 && IndexAtLevel(2, a) == 130 && IndexAtLevel(1, a) == 68 && IndexAtLevel(0, a) == 40
  {
  }

  /** The unit test of `entry_at_level` with the recursive index 510. */
  lemma EntryAtLevelTest()
    ensures var a: bv64 := 0x0000_40A0_8882_8AAA;
      && EntryAtLevel(510, 0, a) == 0xFFFF_FF20_5044_4140
      && EntryAtLevel(510, 1, a) == 0xFFFF_FF7F_9028_2220
      && EntryAtLevel(510, 2, a) == 0xFFFF_FF7F_BFC8_1410
      && EntryAtLevel(510, 3, a) == 0xFFFF_FF7F_BFDF_E408
  {
    StepsExample();
  }

  /** The loop values of `entry_at_level` on the test address. */
  lemma StepsExample()
    ensures var a: bv64 := 0x0000_40A0_8882_8AAA;
      && Steps(a, 510, 1) == 0xFF20_5044_4145
      && Steps(a, 510, 2) == 0xFF7F_9028_2220
      && Steps(a, 510, 3) == 0xFF7F_BFC8_1411
      && Steps(a, 510, 4) == 0xFF7F_BFDF_E40A
  {
    var a: bv64 := 0x0000_40A0_8882_8AAA;
    assert Steps(a, 510, 1) == Step(a, 510) == 0xFF20_5044_4145;
    assert Steps(a, 510, 2) == Step(0xFF20_5044_4145, 510) == 0xFF7F_9028_2220;
    assert Steps(a, 510, 3) == Step(0xFF7F_9028_2220, 510) == 0xFF7F_BFC8_1411;
    assert Steps(a, 510, 4) == Step(0xFF7F_BFC8_1411, 510) == 0xFF7F_BFDF_E40A;
  }

  /** The unit test of `table_at_level` with the recursive index 510. */
  lemma TableAtLevelTest()
    ensures var a: bv64 := 0x0000_40A0_8882_8AAA;
      && TableAtLevel(510, 0, a) == 0xFFFF_FF20_5044_4000
      && TableAtLevel(510, 1, a) == 0xFFFF_FF7F_9028_2000
      && TableAtLevel(510, 2, a) == 0xFFFF_FF7F_BFC8_1000
      && TableAtLevel(510, 3, a) == 0xFFFF_FF7F_BFDF_E000
  {
    EntryAtLevelTest();
  }
}

=== FILE: rsdp.dfy ===
/**
 * The Root System Description Pointer (acpi/src/rsdp.rs), section 5.2.5 of
 * the ACPI specification: a 20-byte structure (36 bytes from revision 2 on)
 * found on a 16-byte boundary by its signature "RSD PTR ", with a checksum
 * over its first 20 bytes and, from revision 2 on, an extended checksum over
 * its `length` bytes.
 *
 * An RSDP is the sequence of bytes starting at its address; `Find` scans a
 * memory area whose byte `a` is the byte at address `a`.
 */
module Rsdp {
  import opened Common
  import opened Bytes
  import Checksum
  import Align
  import Sdt
  import Utf8

  /** `b"RSD PTR "` */
  const SIGNATURE: seq<Byte> := [0x52, 0x53, 0x44, 0x20, 0x50, 0x54, 0x52, 0x20]

  /** The signature read as one little-endian `u64`, the value `find` compares with. */
  const SIG: nat := 0x2052_5450_2044_5352

  /** `size_of::<Rsdp>()` and `size_of::<RsdpV2>()` */
  const V1_SIZE: nat := 20
  const V2_SIZE: nat := 36

  /** The fields of `Rsdp` after the signature. */
  datatype RsdpV1 = RsdpV1(checksum: Byte, oemId: seq<Byte>, revision: Byte, rsdtAddress: nat)

  /** The fields of `RsdpV2`: the first 20 bytes, then the extension. */
  datatype RsdpV2 = RsdpV2(v1: RsdpV1, length: nat, xsdtAddress: nat, extendedChecksum: Byte)

  function ParseV1(mem: seq<Byte>): (p: RsdpV1)
    requires |mem| >= V1_SIZE
    ensures |p.oemId| == 6 && p.rsdtAddress < Power(4)
  {
    RsdpV1(mem[8], mem[9..15], mem[15], Field(mem, 16, 4))
  }

  function ParseV2(mem: seq<Byte>): (p: RsdpV2)
    requires |mem| >= V2_SIZE
    ensures p.v1 == ParseV1(mem)
    ensures p.length < Power(4) && p.xsdtAddress < Power(8)
  {
    RsdpV2(ParseV1(mem), Field(mem, 20, 4), Field(mem, 24, 8), mem[32])
  }

  /** `Rsdp::revision` */
  function Revision(mem: seq<Byte>): Byte
    requires |mem| >= V1_SIZE
  {
    ParseV1(mem).revision
  }

  /**
   * `Rsdp::oem_id`: the six OEM id bytes as a string;
   * `str::from_utf8(..).expect` panics unless they are well-formed UTF-8.
   */
  function OemId(mem: seq<Byte>): (r: Outcome<seq<Byte>>)
    requires |mem| >= V1_SIZE
    ensures r.Done? <==> Utf8.WellFormed(mem[9..15])
    ensures r.Done? ==> r.value == mem[9..15] && |r.value| == 6
  {
    var id := ParseV1(mem).oemId;
    if Utf8.WellFormed(id) then Done(id) else Panic
  }

  /** `Rsdp::is_valid`: the signature matches and the first 20 bytes sum to zero. */
  predicate IsValid(mem: seq<Byte>)
    requires |mem| >= V1_SIZE
    ensures IsValid(mem) <==> mem[..8] == SIGNATURE && Checksum.Total(mem[..V1_SIZE]) % 256 == 0
  {
    mem[..8] == SIGNATURE && Checksum.ChecksumWithLength(mem, V1_SIZE) == 0
  }

  /** The 36 bytes of the version 2 layout and the `length` bytes its checksum covers are in `mem`. */
  predicate V2Readable(mem: seq<Byte>)
  {
    |mem| >= V2_SIZE && ParseV2(mem).length <= |mem|
  }

  /** `RsdpV2::is_valid`: the first 20 bytes are a valid RSDP and all `length` bytes sum to zero. */
  predicate V2IsValid(mem: seq<Byte>)
    requires V2Readable(mem)
  {
    IsValid(mem) && Checksum.ChecksumWithLength(mem, ParseV2(mem).length) == 0
  }

  /**
   * `as_v2` as written: it views the structure with the version 2 layout
   * when the revision is NOT 2, and keeps the view if the checksum over the
   * `length` field's count of bytes is zero.
   */
  function AsV2AsWritten(mem: seq<Byte>): (r: Option<RsdpV2>)
    requires |mem| >= V1_SIZE
    requires Revision(mem) != 2 ==> V2Readable(mem)
    ensures Revision(mem) == 2 ==> r.None?
    ensures r.Some? ==> r.value == ParseV2(mem)
  {
    if Revision(mem) != 2 && Checksum.ChecksumWithLength(mem, ParseV2(mem).length) == 0 then
      Some(ParseV2(mem))
    else
      None
  }

  /**
   * `as_v2` as intended: only revision 2 and later have the version 2
   * layout (later revisions keep it, section 5.2.5.3 of the ACPI
   * specification).
   */
  function AsV2(mem: seq<Byte>): (r: Option<RsdpV2>)
    requires |mem| >= V1_SIZE
    requires Revision(mem) >= 2 ==> V2Readable(mem)
    ensures r.Some? <==> Revision(mem) >= 2 && Checksum.ChecksumWithLength(mem, ParseV2(mem).length) == 0
    ensures r.Some? ==> r.value == ParseV2(mem)
  {
    if Revision(mem) >= 2 && Checksum.ChecksumWithLength(mem, ParseV2(mem).length) == 0 then
      Some(ParseV2(mem))
    else
      None
  }

  /** On a valid RSDP, `AsV2` succeeds exactly on a version 2 structure that `RsdpV2::is_valid` accepts. */
  lemma AsV2OfValid(mem: seq<Byte>)
    requires |mem| >= V1_SIZE && IsValid(mem)
    requires Revision(mem) >= 2 ==> V2Readable(mem)
    ensures AsV2(mem).Some? <==> Revision(mem) >= 2 && V2IsValid(mem)
  {
  }

  /**
   * As written, every valid ACPI 2.0 RSDP (revision 2) is denied its
   * version 2 view, which the intended `AsV2` grants.
   */
  lemma RevisionTwoDenied(mem: seq<Byte>)
    requires V2Readable(mem) && Revision(mem) == 2 && V2IsValid(mem)
    ensures AsV2AsWritten(mem).None?
    ensures AsV2(mem) == Some(ParseV2(mem))
  {
  }

  /** The first 20 bytes of a valid ACPI 2.0 RSDP: checksum byte 223, revision 2, every other field zero. */
  function ExampleHead(): (bs: seq<Byte>)
    ensures |bs| == V1_SIZE && bs[..8] == SIGNATURE && bs[15] == 2
  {
    SIGNATURE + [223, 0, 0, 0] + [0, 0, 0, 2] + [0, 0, 0, 0]
  }

  /** Its version 2 extension: length 36, extended checksum byte 220, every other field zero. */
  function ExampleTail(): (bs: seq<Byte>)
    ensures |bs| == V2_SIZE - V1_SIZE && bs[..4] == [36, 0, 0, 0]
  {
    [36, 0, 0, 0] + [0, 0, 0, 0] + [0, 0, 0, 0] + [220, 0, 0, 0]
  }

  function ExampleV2(): (mem: seq<Byte>)
    ensures |mem| == V2_SIZE && mem[..V1_SIZE] == ExampleHead()
  {
    ExampleHead() + ExampleTail()
  }

  /** The plain sum of four bytes. */
  lemma TotalOfFour(a: Byte, b: Byte, c: Byte, d: Byte)
    ensures Checksum.Total([a, b, c, d]) == a + b + c + d
  {
    assert [a, b, c, d][..3] == [a, b, c];
    assert [a, b, c][..2] == [a, b];
    assert [a, b][..1] == [a];
    assert Checksum.Total([a]) == a;
    assert Checksum.Total([a, b]) == a + b;
  }

  lemma ExampleHeadSum()
    ensures Checksum.Total(ExampleHead()) == 768
  {
    var s0, s1 := [0x52, 0x53, 0x44, 0x20], [0x50, 0x54, 0x52, 0x20];
    assert SIGNATURE == s0 + s1;
    TotalOfFour(0x52, 0x53, 0x44, 0x20);
    TotalOfFour(0x50, 0x54, 0x52, 0x20);
    TotalOfFour(223, 0, 0, 0);
    TotalOfFour(0, 0, 0, 2);
    TotalOfFour(0, 0, 0, 0);
    Checksum.TotalAppend(s0, s1);
    Checksum.TotalAppend(SIGNATURE, [223, 0, 0, 0]);
    Checksum.TotalAppend(SIGNATURE + [223, 0, 0, 0], [0, 0, 0, 2]);
    Checksum.TotalAppend(SIGNATURE + [223, 0, 0, 0] + [0, 0, 0, 2], [0, 0, 0, 0]);
  }

  lemma ExampleTailSum()
    ensures Checksum.Total(ExampleTail()) == 256
  {
    TotalOfFour(36, 0, 0, 0);
    TotalOfFour(0, 0, 0, 0);
    TotalOfFour(220, 0, 0, 0);
    Checksum.TotalAppend([36, 0, 0, 0], [0, 0, 0, 0]);
    Checksum.TotalAppend([36, 0, 0, 0] + [0, 0, 0, 0], [0, 0, 0, 0]);
    Checksum.TotalAppend([36, 0, 0, 0] + [0, 0, 0, 0] + [0, 0, 0, 0], [220, 0, 0, 0]);
  }

  /**
   * A 20-byte RSDP of revision 2 whose bytes sum to 768, followed by a
   * 16-byte extension with length 36 whose bytes sum to 256, is a valid
   * version 2 RSDP.
   */
  lemma RevisionTwoShape(head: seq<Byte>, tail: seq<Byte>)
    requires |head| == V1_SIZE && head[..8] == SIGNATURE && head[15] == 2 && Checksum.Total(head) == 768
    requires |tail| == V2_SIZE - V1_SIZE && tail[..4] == [36, 0, 0, 0] && Checksum.Total(tail) == 256
    ensures V2Readable(head + tail) && Revision(head + tail) == 2 && V2IsValid(head + tail)
  {
    var mem := head + tail;
    assert mem[20..24] == tail[..4];
    assert [36, 0, 0, 0][1..] == [0, 0, 0];
    assert [0, 0, 0][1..] == [0, 0];
    assert Le([36, 0, 0, 0]) == 36;
    assert mem[..36] == mem;
    assert mem[..20] == head;
    Checksum.TotalAppend(head, tail);
    Checksum.Sum8IsTotal(head);
    Checksum.Sum8IsTotal(mem);
  }

  /** The example is a valid version 2 RSDP that the as-written `as_v2` refuses and the intended one accepts. */
  lemma ExampleV2IsValid()
    ensures V2Readable(ExampleV2()) && Revision(ExampleV2()) == 2 && V2IsValid(ExampleV2())
    ensures AsV2AsWritten(ExampleV2()).None? && AsV2(ExampleV2()).Some?
  {
    ExampleHeadSum();
    ExampleTailSum();
    RevisionTwoShape(ExampleHead(), ExampleTail());
    RevisionTwoDenied(ExampleV2());
  }

  /**
   * `Rsdp::from_any` as written: it compares the 4-byte signature slice of
   * the generic table header with the 8-byte RSDP signature; slices of
   * different lengths are never equal, so it never succeeds.
   */
  function FromAnyAsWritten(mem: seq<Byte>): (r: Option<seq<Byte>>)
    requires |mem| >= Sdt.HEADER_SIZE
    ensures r.None?
  {
    if Sdt.Signature(mem) == SIGNATURE then Some(mem) else None
  }

  /** `Rsdp::from_any` as intended: the table's first 8 bytes are the RSDP signature. */
  function FromAny(mem: seq<Byte>): (r: Option<seq<Byte>>)
    requires |mem| >= Sdt.HEADER_SIZE
    ensures r.Some? <==> mem[..8] == SIGNATURE
    ensures r.Some? ==> r.value == mem
  {
    if mem[..8] == SIGNATURE then Some(mem) else None
  }

  /** The as-written `from_any` refuses even a table that starts with the RSDP signature, which the intended one accepts. */
  lemma FromAnyRefusesRsdp()
    ensures FromAnyAsWritten(ExampleV2()).None? && FromAny(ExampleV2()).Some?
  {
  }

  /** `RsdpV2::from_any`: `Rsdp::from_any`, then `as_v2`. */
  function V2FromAny(mem: seq<Byte>): (r: Option<RsdpV2>)
    requires |mem| >= Sdt.HEADER_SIZE
    requires Revision(mem) >= 2 ==> V2Readable(mem)
    ensures r.Some? <==> FromAny(mem).Some? && AsV2(mem).Some?
  {
    match FromAny(mem)
    case None => None
    case Some(m) => AsV2(m)
  }

  /** A valid RSDP starts at address `a` of `mem`. */
  predicate ValidAt(mem: seq<Byte>, a: nat)
    requires a + V1_SIZE <= |mem|
  {
    IsValid(mem[a..])
  }

  /** The value of eight little-endian bytes. */
  lemma LeOfEight(s: seq<Byte>)
    requires |s| == 8
    ensures Le(s) == (s[0] as nat) + 0x100 * (s[1] as nat) + 0x1_0000 * (s[2] as nat) + 0x100_0000 * (s[3] as nat) + 0x1_0000_0000 * (s[4] as nat)
      + 0x100_0000_0000 * (s[5] as nat) + 0x1_0000_0000_0000 * (s[6] as nat) + 0x100_0000_0000_0000 * (s[7] as nat)
  {
    assert Le(s[7..]) == s[7] by { assert s[7..][1..] == []; }
    assert Le(s[6..]) == (s[6] as nat) + 256 * (s[7] as nat) by { assert s[6..][1..] == s[7..]; }
    assert Le(s[5..]) == s[5] + 256 * Le(s[6..]) by { assert s[5..][1..] == s[6..]; }
    assert Le(s[4..]) == s[4] + 256 * Le(s[5..]) by { assert s[4..][1..] == s[5..]; }
    assert Le(s[3..]) == s[3] + 256 * Le(s[4..]) by { assert s[3..][1..] == s[4..]; }
    assert Le(s[2..]) == s[2] + 256 * Le(s[3..]) by { assert s[2..][1..] == s[3..]; }
    assert Le(s[1..]) == s[1] + 256 * Le(s[2..]) by { assert s[1..][1..] == s[2..]; }
  }

  /** The signature bytes are the bytes of `SIG`. */
  lemma SignatureValue(s: seq<Byte>)
    requires s == SIGNATURE
    ensures Le(s) == SIG
  {
    LeOfEight(s);
  }

  /** Where a valid RSDP starts, the `u64` that `find` compares is `SIG`. */
  lemma ValidHasSig(mem: seq<Byte>, a: nat)
    requires a + V1_SIZE <= |mem| && ValidAt(mem, a)
    ensures Field(mem, a, 8) == SIG
  {
    assert mem[a..a + 8] == mem[a..][..8];
    SignatureValue(mem[a..a + 8]);
  }

  /**
   * The loop of `find` from `current`: the first address, in steps of 16,
   * whose `u64` is `SIG` and which `is_valid`. Stepping on from the last
   * 16 bytes of the address space (`current += 16`) overflows, which
   * panics.
   */
  function FindFrom(mem: seq<Byte>, current: nat, end: Word): (r: Outcome<Option<nat>>)
    requires end + V1_SIZE <= |mem| + 1
    ensures r.Panic? ==> WORD_LIMIT - 16 < end
    ensures r.Done? && r.value.Some? ==> current <= r.value.value < end
    decreases end - current
  {
    if current >= end then Done(None)
    else if Field(mem, current, 8) == SIG && IsValid(mem[current..]) then Done(Some(current))
    else if current + 16 >= WORD_LIMIT then Panic
    else FindFrom(mem, current + 16, end)
  }

  /** `a` is one of the addresses a scan from `current` visits. */
  predicate Visits(current: nat, a: nat)
  {
    current <= a && (a - current) % 16 == 0
  }

  /** A visited address after `current` is visited by the scan from the next step. */
  lemma NextVisits(current: nat, a: nat)
    requires Visits(current, a) && a != current
    ensures Visits(current + 16, a)
  {
    var q := (a - current) / 16;
    assert a - current == 16 * q;
  }

  /** An address the scan from the next step visits is visited from `current`. */
  lemma EarlierVisits(current: nat, a: nat)
    requires Visits(current + 16, a)
    ensures Visits(current, a)
  {
    var q := (a - current - 16) / 16;
    assert a - current == 16 * (q + 1);
  }

  /** A scan from an aligned address visits only aligned addresses. */
  lemma FoundAligned(current: nat, a: nat)
    requires current % 16 == 0 && Visits(current, a)
    ensures a % 16 == 0
  {
    var q := (a - current) / 16;
    assert a == current + 16 * q;
  }

  /** Every multiple of 16 from `start` is visited by a scan from `start` rounded up to 16. */
  lemma AlignedVisits(start: nat, current: nat, a: nat)
    requires current % 16 == 0 && start <= current < start + 16
    requires a % 16 == 0 && start <= a
    ensures Visits(current, a)
  {
    var qc, qa := current / 16, a / 16;
    assert current == 16 * qc && a == 16 * qa;
    assert a - current == 16 * (qa - qc);
  }

  /**
   * `find(start, end)`: the scan starts at `start` rounded up to 16; the
   * rounding panics at the top of the address space, and so does the scan
   * when it reaches the last 16 bytes below `end` without finding an RSDP.
   */
  function Find(mem: seq<Byte>, start: Word, end: Word): (r: Outcome<Option<nat>>)
    requires end + V1_SIZE <= |mem| + 1
    ensures r.Panic? <==> (start > WORD_LIMIT - 16
      || (WORD_LIMIT - 16 < end && forall a: nat :: start <= a < end && a % 16 == 0 ==> !ValidAt(mem, a)))
  {
    SixteenIsPow2();
    match Align.AlignUp(start, 16)
    case Panic => Panic
    case Done(current) =>
      ScanFromStart(mem, start, current, end);
      FindFrom(mem, current, end)
  }

  lemma SixteenIsPow2()
    ensures Align.IsPow2(16)
  {
    assert Align.IsPow2(2);
    assert Align.IsPow2(4);
    assert Align.IsPow2(8);
  }

  /** A 16-byte aligned address below the top of the word is at most the last 16-byte slot. */
  lemma AlignedBelowTop(a: nat)
    requires a % 16 == 0 && a < WORD_LIMIT
    ensures a <= WORD_LIMIT - 16
  {
    var q := a / 16;
    assert a == 16 * q;
  }

  /**
   * The scan returns the first address it visits below `end` that holds a
   * valid RSDP, and `None` when no visited address does.
   */
  lemma {:induction false} FindFromFirst(mem: seq<Byte>, current: nat, end: Word)
    requires end + V1_SIZE <= |mem| + 1
    ensures var r := FindFrom(mem, current, end);
      r.Done? && r.value.Some? ==> Visits(current, r.value.value) && r.value.value < end && ValidAt(mem, r.value.value)
    ensures var r := FindFrom(mem, current, end);
      forall a: nat :: Visits(current, a) && a < end && (r.Done? && r.value.Some? ==> a < r.value.value) ==> !ValidAt(mem, a)
    decreases end - current
  {
    var r := FindFrom(mem, current, end);
    if current < end {
      if ValidAt(mem, current) {
        ValidHasSig(mem, current);
        assert r == Done(Some(current));
      } else if current + 16 < WORD_LIMIT {
        assert r == FindFrom(mem, current + 16, end);
        FindFromFirst(mem, current + 16, end);
        if r.Done? && r.value.Some? {
          EarlierVisits(current, r.value.value);
        }
        forall a: nat | Visits(current, a) && a != current
          ensures Visits(current + 16, a)
        {
          NextVisits(current, a);
        }
      } else {
        assert r == Panic;
        forall a: nat | Visits(current, a) && a != current
          ensures a >= end
        {
          NextVisits(current, a);
        }
      }
    }
  }

  /**
   * From an aligned address the scan panics exactly when it reaches the
   * last 16-byte slot of the address space below `end` and no visited
   * address holds a valid RSDP.
   */
  lemma {:induction false} FindFromPanics(mem: seq<Byte>, current: nat, end: Word)
    requires end + V1_SIZE <= |mem| + 1 && current % 16 == 0
    ensures FindFrom(mem, current, end).Panic? <==>
      current <= WORD_LIMIT - 16 < end && forall a: nat :: Visits(current, a) && a < end ==> !ValidAt(mem, a)
    decreases end - current
  {
    var r := FindFrom(mem, current, end);
    if current < end {
      AlignedBelowTop(current);
      if ValidAt(mem, current) {
        ValidHasSig(mem, current);
        assert r == Done(Some(current));
        assert Visits(current, current);
      } else if current + 16 < WORD_LIMIT {
        AlignedBelowTop(current + 16);
        assert r == FindFrom(mem, current + 16, end);
        FindFromPanics(mem, current + 16, end);
        forall a: nat | Visits(current, a) && a != current
          ensures Visits(current + 16, a)
        {
          NextVisits(current, a);
        }
        forall a: nat | Visits(current + 16, a)
          ensures Visits(current, a)
        {
          EarlierVisits(current, a);
        }
      } else {
        assert r == Panic;
        forall a: nat | Visits(current, a) && a != current
          ensures a >= end
        {
          NextVisits(current, a);
        }
      }
    }
  }

  /**
   * The scan from `start` rounded up to 16, stated over the aligned
   * addresses from `start`.
   */
  lemma ScanFromStart(mem: seq<Byte>, start: Word, current: Word, end: Word)
    requires end + V1_SIZE <= |mem| + 1
    requires current % 16 == 0 && start <= current < start + 16
    ensures var r := FindFrom(mem, current, end);
      r.Done? && r.value.Some? ==> start <= r.value.value < end && r.value.value % 16 == 0 && ValidAt(mem, r.value.value)
    ensures var r := FindFrom(mem, current, end);
      forall a: nat :: start <= a < end && a % 16 == 0 && (r.Done? && r.value.Some? ==> a < r.value.value) ==> !ValidAt(mem, a)
    ensures FindFrom(mem, current, end).Panic? <==>
      WORD_LIMIT - 16 < end && forall a: nat :: start <= a < end && a % 16 == 0 ==> !ValidAt(mem, a)
  {
    AlignedBelowTop(current);
    FindFromFirst(mem, current, end);
    FindFromPanics(mem, current, end);
    var r := FindFrom(mem, current, end);
    if r.Done? && r.value.Some? {
      FoundAligned(current, r.value.value);
    }
    forall a: nat | start <= a && a % 16 == 0
      ensures Visits(current, a)
    {
      AlignedVisits(start, current, a);
    }
    forall a: nat | Visits(current, a)
      ensures start <= a && a % 16 == 0
    {
      FoundAligned(current, a);
    }
  }

  /**
   * When it does not panic, `find` returns the first 16-byte aligned
   * address from `start` below `end` that holds a valid RSDP, or `None`
   * when there is none.
   */
  lemma FindReturnsFirst(mem: seq<Byte>, start: Word, end: Word)
    requires end + V1_SIZE <= |mem| + 1
    ensures var r := Find(mem, start, end);
      r.Done? && r.value.Some? ==> start <= r.value.value < end && r.value.value % 16 == 0 && ValidAt(mem, r.value.value)
    ensures var r := Find(mem, start, end);
      forall a: nat :: start <= a < end && a % 16 == 0 && (r.Done? && r.value.Some? ==> a < r.value.value) ==> !ValidAt(mem, a)
  {
    SixteenIsPow2();
    match Align.AlignUp(start, 16)
    case Panic =>
    case Done(current) =>
      ScanFromStart(mem, start, current, end);
  }

  /**
   * A scan of memory holding no signature that runs up to the top of the
   * address space panics: it steps on from the last 16-byte slot.
   */
  lemma TopOfMemoryPanics(mem: seq<Byte>)
    requires |mem| == WORD_LIMIT + V1_SIZE && forall i :: 0 <= i < |mem| ==> mem[i] == 0
    ensures Find(mem, WORD_LIMIT - 32, WORD_LIMIT - 1).Panic?
    ensures Find(mem, WORD_LIMIT - 32, WORD_LIMIT - 32).Done?
  {
    forall a: nat | a < WORD_LIMIT - 1
      ensures !ValidAt(mem, a)
    {
      assert mem[a..][0] == 0 != SIGNATURE[0];
    }
  }
}

=== FILE: rsdt.dfy ===
/**
 * The Root System Description Table (learnos_kernel/src/acpi/rsdt.rs),
 * section 5.2.7 of the ACPI specification: the header, followed by 32-bit
 * physical addresses of the other tables up to the table's length.
 */
module Rsdt {
  import opened Bytes
  import opened Sdt

  /** `size_of::<u32>()`, the width of an entry. */
  const ENTRY_WIDTH: nat := 4

  /** `Rsdt::is_valid` holds exactly on a checksum-valid table that `from_any` accepts as an RSDT. */
  lemma ValidIsCheckedRsdt(mem: seq<Byte>)
    requires Readable(mem)
    ensures TableFromRaw(RsdtTable, mem).Some?
        <==> TableFromRaw(AnyTable, mem).Some? && FromAny(RsdtTable, mem).Some?
    ensures TableFromRaw(RsdtTable, mem).Some? ==> TableFromRaw(XsdtTable, mem).None?
  {
  }

  /** `num_entries`: the number of whole entries after the header, `(length - 36) / 4`. */
  function NumEntries(mem: seq<Byte>): (n: nat)
    requires |mem| >= HEADER_SIZE && Length(mem) >= HEADER_SIZE
    ensures EntryOffset(ENTRY_WIDTH, n) <= Length(mem) < EntryOffset(ENTRY_WIDTH, n + 1)
  {
    (Length(mem) - HEADER_SIZE) / ENTRY_WIDTH
  }

  /** `sdt_pointers`: an iterator from the first entry to `num_entries`. */
  function SdtPointers(mem: seq<Byte>): (it: PointerIter)
    requires |mem| >= HEADER_SIZE && Length(mem) >= HEADER_SIZE
    ensures it.current == 0 && it.last == NumEntries(mem)
  {
    PointerIter(0, NumEntries(mem))
  }

  /**
   * The iterator yields exactly `num_entries` addresses, the `u32` entries
   * of the table in order, each zero-extended, all read from inside the
   * table's length.
   */
  lemma PointersAreEntries(mem: seq<Byte>)
    requires Readable(mem) && Length(mem) >= HEADER_SIZE
    ensures EntriesInMemory(mem, ENTRY_WIDTH, NumEntries(mem))
    ensures EntryOffset(ENTRY_WIDTH, NumEntries(mem)) <= Length(mem)
    ensures var r := Drain(mem, ENTRY_WIDTH, SdtPointers(mem));
      r.Done? && |r.value| == NumEntries(mem)
      && forall i :: 0 <= i < |r.value| ==> r.value[i] == Field(mem, EntryOffset(ENTRY_WIDTH, i), ENTRY_WIDTH) && r.value[i] < Power(4)
  {
    DrainYieldsEntries(mem, ENTRY_WIDTH, SdtPointers(mem));
  }
}

=== FILE: sdt.dfy ===
/**
 * ACPI system description tables (acpi/src/lib.rs), section 5.2.6 of the
 * ACPI specification: every table starts with the same 36-byte header whose
 * `length` field counts the bytes of the whole table, and whose bytes sum
 * to zero over that length.
 *
 * A table is the sequence of bytes starting at its address; the model
 * requires the bytes the kernel reads to be part of that sequence.
 */
module Sdt {
  import opened Common
  import opened Bytes
  import Checksum

  /** `size_of::<SdtHeader>()` of the packed header. */
  const HEADER_SIZE: nat := 36

  /** `b"RSDT"`, `b"XSDT"` and `b"APIC"`. */
  const RSDT_SIGNATURE: seq<Byte> := [0x52, 0x53, 0x44, 0x54]
  const XSDT_SIGNATURE: seq<Byte> := [0x58, 0x53, 0x44, 0x54]
  const MADT_SIGNATURE: seq<Byte> := [0x41, 0x50, 0x49, 0x43]

  /** The fields of `SdtHeader`, in the order of the packed layout. */
  datatype Header = Header(
    signature: seq<Byte>,
    length: nat,
    revision: Byte,
    checksum: Byte,
    oemId: seq<Byte>,
    oemTableId: seq<Byte>,
    oemRevision: nat,
    creatorId: nat,
    creatorRevision: nat)

  /** Every field has the width of its declaration: byte arrays of 4, 6 and 8, `u32` integers. */
  predicate WellFormed(h: Header)
  {
    |h.signature| == 4 && |h.oemId| == 6 && |h.oemTableId| == 8
    && h.length < Power(4) && h.oemRevision < Power(4)
    && h.creatorId < Power(4) && h.creatorRevision < Power(4)
  }

  /** The header at the start of `mem`. */
  function ParseHeader(mem: seq<Byte>): (h: Header)
    requires |mem| >= HEADER_SIZE
    ensures WellFormed(h)
  {
    Header(mem[..4], Field(mem, 4, 4), mem[8], mem[9], mem[10..16], mem[16..24],
           Field(mem, 24, 4), Field(mem, 28, 4), Field(mem, 32, 4))
  }

  /** The 36 bytes a header is stored as. */
  function EncodeHeader(h: Header): (bs: seq<Byte>)
    requires WellFormed(h)
    ensures |bs| == HEADER_SIZE
  {
    h.signature + LeBytes(h.length, 4) + [h.revision, h.checksum] + h.oemId + h.oemTableId
    + LeBytes(h.oemRevision, 4) + LeBytes(h.creatorId, 4) + LeBytes(h.creatorRevision, 4)
  }

  /** Storing a header and reading it back gives the header. */
  lemma ParseEncode(h: Header)
    requires WellFormed(h)
    ensures ParseHeader(EncodeHeader(h)) == h
  {
    var bs := EncodeHeader(h);
    assert bs[..4] == h.signature;
    assert bs[4..8] == LeBytes(h.length, 4);
    assert bs[8] == h.revision && bs[9] == h.checksum;
    assert bs[10..16] == h.oemId;
    assert bs[16..24] == h.oemTableId;
    assert bs[24..28] == LeBytes(h.oemRevision, 4);
    assert bs[28..32] == LeBytes(h.creatorId, 4);
    assert bs[32..36] == LeBytes(h.creatorRevision, 4);
    LeOfLeBytes(h.length, 4);
    LeOfLeBytes(h.oemRevision, 4);
    LeOfLeBytes(h.creatorId, 4);
    LeOfLeBytes(h.creatorRevision, 4);
  }

  /** Reading a header and storing it back gives the header's 36 bytes. */
  lemma EncodeParse(mem: seq<Byte>)
    requires |mem| >= HEADER_SIZE
    ensures EncodeHeader(ParseHeader(mem)) == mem[..HEADER_SIZE]
  {
    LeBytesOfLe(mem[4..8]);
    LeBytesOfLe(mem[24..28]);
    LeBytesOfLe(mem[28..32]);
    LeBytesOfLe(mem[32..36]);
    assert mem[..HEADER_SIZE] == mem[..4] + mem[4..8] + [mem[8], mem[9]] + mem[10..16] + mem[16..24]
      + mem[24..28] + mem[28..32] + mem[32..36];
  }

  /** `SdtHeader::signature` */
  function Signature(mem: seq<Byte>): seq<Byte>
    requires |mem| >= HEADER_SIZE
  {
    ParseHeader(mem).signature
  }

  /** `SdtHeader::length`: the `u32` at offset 4. */
  function Length(mem: seq<Byte>): nat
    requires |mem| >= HEADER_SIZE
  {
    ParseHeader(mem).length
  }

  /** The header and the `length` bytes the checksum covers are all in `mem`. */
  predicate Readable(mem: seq<Byte>)
  {
    |mem| >= HEADER_SIZE && Length(mem) <= |mem|
  }

  /** `acpi_table_checksum(table) == 0`: the checksum over the table's self-reported length. */
  predicate ChecksumValid(mem: seq<Byte>)
    requires Readable(mem)
  {
    Checksum.ChecksumWithLength(mem, Length(mem)) == 0
  }

  /** The typed views of a table the kernel uses. */
  datatype Kind = AnyTable | RsdtTable | XsdtTable | MadtTable

  /** The signature `from_any` demands of a kind; the generic view demands none. */
  function KindSignature(k: Kind): Option<seq<Byte>>
  {
    match k
    case AnyTable => None
    case RsdtTable => Some(RSDT_SIGNATURE)
    case XsdtTable => Some(XSDT_SIGNATURE)
    case MadtTable => Some(MADT_SIGNATURE)
  }

  /**
   * `is_valid` of each view: the checksum, and for the RSDT and XSDT also
   * the signature. The MADT's `is_valid` checks only the checksum.
   */
  predicate IsValid(k: Kind, mem: seq<Byte>)
    requires Readable(mem)
    ensures IsValid(k, mem) <==> (Checksum.Total(mem[..Length(mem)]) % 256 == 0
      && ((k.RsdtTable? || k.XsdtTable?) ==> Signature(mem) == KindSignature(k).value))
  {
    match k
    case AnyTable => ChecksumValid(mem)
    case MadtTable => ChecksumValid(mem)
    case RsdtTable => ChecksumValid(mem) && Signature(mem) == RSDT_SIGNATURE
    case XsdtTable => ChecksumValid(mem) && Signature(mem) == XSDT_SIGNATURE
  }

  /** `from_any`: view a table of any kind as kind `k`; the view is the same bytes. */
  function FromAny(k: Kind, mem: seq<Byte>): (r: Option<seq<Byte>>)
    requires |mem| >= HEADER_SIZE
    ensures r.Some? ==> r.value == mem
    ensures r.Some? <==> (KindSignature(k).None? || Signature(mem) == KindSignature(k).value)
  {
    match KindSignature(k)
    case None => Some(mem)
    case Some(sig) => if Signature(mem) == sig then Some(mem) else None
  }

  /** `table_from_raw`: the table at an address, if its view of kind `k` is valid. */
  function TableFromRaw(k: Kind, mem: seq<Byte>): (r: Option<seq<Byte>>)
    requires Readable(mem)
    ensures r.Some? <==> IsValid(k, mem)
    ensures r.Some? ==> r.value == mem
  {
    if IsValid(k, mem) then Some(mem) else None
  }

  /** The generic view always succeeds, and a typed view succeeds exactly on its signature. */
  lemma FromAnyBySignature(mem: seq<Byte>)
    requires |mem| >= HEADER_SIZE
    ensures FromAny(AnyTable, mem) == Some(mem)
    ensures FromAny(RsdtTable, mem).Some? <==> mem[..4] == RSDT_SIGNATURE
    ensures FromAny(XsdtTable, mem).Some? <==> mem[..4] == XSDT_SIGNATURE
    ensures FromAny(MadtTable, mem).Some? <==> mem[..4] == MADT_SIGNATURE
    ensures FromAny(RsdtTable, mem).Some? ==> FromAny(XsdtTable, mem).None? && FromAny(MadtTable, mem).None?
  {
  }

  /**
   * A table that `table_from_raw` accepts is rejected once any byte inside
   * its length is changed to another value that leaves the length field as
   * it was.
   */
  lemma CorruptionRejected(k: Kind, mem: seq<Byte>, i: nat, b: Byte)
    requires Readable(mem) && TableFromRaw(k, mem).Some?
    requires i < Length(mem) && b != mem[i]
    requires !(4 <= i < 8)
    ensures Readable(mem[i := b])
    ensures TableFromRaw(k, mem[i := b]).None?
  {
    var mem' := mem[i := b];
    assert mem'[4..8] == mem[4..8];
    assert Length(mem') == Length(mem);
    Checksum.WithLengthReadsPrefix(mem, mem, Length(mem), i, b);
  }

  /**
   * The pointer iterators of the RSDT and XSDT (`RsdtPointerIter`,
   * `XsdtPointerIter`): `current` and `last` count entries of `width` bytes
   * after the header.
   */
  datatype PointerIter = PointerIter(current: nat, last: nat)

  /** The entry widths: `u32` in the RSDT, `u64` in the XSDT. */
  predicate EntryWidth(width: nat)
  {
    width == 4 || width == 8
  }

  /** Offset of entry `i` from the table's start. */
  function EntryOffset(width: nat, i: nat): nat
  {
    HEADER_SIZE + width * i
  }

  /** Every entry up to `last` lies in `mem`. */
  predicate EntriesInMemory(mem: seq<Byte>, width: nat, last: nat)
  {
    EntryOffset(width, last) <= |mem|
  }

  /**
   * `next`: past the end the iterator asserts that it stopped exactly at
   * `last` and yields nothing; otherwise it yields the entry, zero-extended
   * to an address, and moves to the next one.
   */
  function PointerNext(mem: seq<Byte>, width: nat, it: PointerIter): (r: Outcome<(Option<nat>, PointerIter)>)
    requires EntryWidth(width) && EntriesInMemory(mem, width, it.last)
    ensures it.current > it.last <==> r.Panic?
    ensures r.Done? && r.value.0.None? ==> r.value.1 == it && it.current == it.last
    ensures r.Done? && r.value.0.Some? ==> r.value.1 == PointerIter(it.current + 1, it.last)
    ensures r.Done? && r.value.0.Some? ==> r.value.0.value < Power(width)
  {
    if it.current >= it.last then
      if it.current == it.last then Done((None, it)) else Panic
    else
      Done((Some(Field(mem, EntryOffset(width, it.current), width)), PointerIter(it.current + 1, it.last)))
  }

  /** The entries the iterator yields until it returns `None`. */
  function Drain(mem: seq<Byte>, width: nat, it: PointerIter): Outcome<seq<nat>>
    requires EntryWidth(width) && EntriesInMemory(mem, width, it.last)
    decreases it.last - it.current
  {
    match PointerNext(mem, width, it)
    case Panic => Panic
    case Done((item, rest)) =>
      if item.None? then Done([])
      else match Drain(mem, width, rest)
        case Panic => Panic
        case Done(more) => Done([item.value] + more)
  }

  /** The table's entries from `current` up to `last`, read directly. */
  function EntriesFrom(mem: seq<Byte>, width: nat, current: nat, last: nat): (es: seq<nat>)
    requires EntryWidth(width) && current <= last && EntriesInMemory(mem, width, last)
    ensures |es| == last - current
    ensures forall j :: 0 <= j < |es| ==> es[j] == Field(mem, EntryOffset(width, current + j), width)
    decreases last - current
  {
    if current == last then [] else [Field(mem, EntryOffset(width, current), width)] + EntriesFrom(mem, width, current + 1, last)
  }

  /** An iterator that has not passed its end yields exactly the entries from `current` to `last`, in order. */
  lemma {:induction false} DrainYieldsEntries(mem: seq<Byte>, width: nat, it: PointerIter)
    requires EntryWidth(width) && EntriesInMemory(mem, width, it.last) && it.current <= it.last
    ensures Drain(mem, width, it) == Done(EntriesFrom(mem, width, it.current, it.last))
    decreases it.last - it.current
  {
    if it.current < it.last {
      DrainYieldsEntries(mem, width, PointerIter(it.current + 1, it.last));
    }
  }

  /** Once the iterator has returned `None` it keeps returning `None` (it is fused). */
  lemma PointerFused(mem: seq<Byte>, width: nat, it: PointerIter)
    requires EntryWidth(width) && EntriesInMemory(mem, width, it.last)
    requires PointerNext(mem, width, it).Done? && PointerNext(mem, width, it).value.0.None?
    ensures PointerNext(mem, width, PointerNext(mem, width, it).value.1) == PointerNext(mem, width, it)
  {
  }
}

=== FILE: slow_alloc.dfy ===
/**
 * The first-fit page-frame allocator (kmem/src/physical/alloc/slow.rs).
 *
 * It owns the page-frame table and scans it from frame 0 on every request.
 * `upper_bound()` of the table is its length, and indexing the table
 * asserts that the index is below the length.
 */
module SlowAlloc {
  import opened Common
  import opened Frames
  import opened FrameTable

  /** The lowest free frame, if any. */
  function FirstFree(t: Table): (r: Option<nat>)
    ensures r.None? <==> forall i :: 0 <= i < |t| ==> t[i] != Free
    ensures r.Some? ==> r.value < |t| && t[r.value] == Free
    ensures r.Some? ==> forall j :: 0 <= j < r.value ==> t[j] != Free
  {
    if |t| == 0 then None
    else if t[0] == Free then Some(0)
    else match FirstFree(t[1..])
      case None => None
      case Some(k) => Some(k + 1)
  }

  /** `alloc()`: the lowest free frame becomes allocated. */
  function Alloc(t: Table): (r: (Option<PageFrame>, Table))
    ensures r.0.None? <==> forall i :: 0 <= i < |t| ==> t[i] != Free
    ensures r.0.None? ==> r.1 == t
    ensures r.0.Some? ==> var f := r.0.value.number;
      f < |t| && t[f] == Free && (forall j :: 0 <= j < f ==> t[j] != Free) &&
      r.1 == t[f := Allocated]
  {
    match FirstFree(t)
    case None => (None, t)
    case Some(f) => (Some(PageFrame(f)), t[f := Allocated])
  }

  /** `free(frame)`: the frame must be allocated and becomes free. */
  function FreeFrame(t: Table, frame: PageFrame): (r: Outcome<Table>)
    ensures r.Done? <==> frame.number < |t| && t[frame.number] == Allocated
    ensures r.Done? ==> |r.value| == |t| && r.value[frame.number] == Free
    ensures r.Done? ==> forall i :: 0 <= i < |t| && i != frame.number ==> r.value[i] == t[i]
  {
    if frame.number >= |t| then Panic
    else if t[frame.number] != Allocated then Panic
    else Done(t[frame.number := Free])
  }

  /** The `n` frames from `s` are inside the table and free. */
  predicate RunFree(t: Table, s: nat, n: nat)
  {
    s + n <= |t| && forall i :: s <= i < s + n ==> t[i] == Free
  }

  /**
   * `alloc_region(n)`: scan for the first run of `n` free frames, counting
   * the free frames seen since the last non-free one, and allocate the run.
   */
  method AllocRegion(t: Table, n: nat) returns (region: Option<PageFrameRegion>, t': Table)
    ensures region.None? <==> forall s :: 0 <= s <= |t| ==> !RunFree(t, s, n)
    ensures region.None? ==> t' == t
    ensures region.Some? ==> var s := region.value.start.number;
      region.value.end.number == s + n && RunFree(t, s, n) &&
      (forall s' :: 0 <= s' < s ==> !RunFree(t, s', n)) &&
      |t'| == |t| &&
      (forall i :: 0 <= i < |t| ==> t'[i] == if s <= i < s + n then Allocated else t[i])
    ensures region.Some? ==> FreeRegion(t', region.value) == Done(t)
  {
    var cur := 0;
    var freeCount := 0;
    while cur < |t| && freeCount < n
      invariant freeCount <= cur <= |t|
      invariant freeCount <= n
      invariant RunFree(t, cur - freeCount, freeCount)
      invariant freeCount < n ==> cur - freeCount == 0 || t[cur - freeCount - 1] != Free
      invariant forall s :: 0 <= s && s + n <= cur && RunFree(t, s, n) ==> s == cur - n && freeCount == n
      decreases |t| - cur
    {
      if t[cur] == Free {
        freeCount := freeCount + 1;
      } else {
        freeCount := 0;
      }
      cur := cur + 1;
    }
    if freeCount == n {
      t' := t;
      for i := cur - freeCount to cur
        invariant |t'| == |t|
        invariant forall j :: 0 <= j < |t| ==> t'[j] == if cur - n <= j < i then Allocated else t[j]
      {
        t' := t'[i := Allocated];
      }
      region := Some(PageFrameRegion(PageFrame(cur - n), PageFrame(cur)));
      assert FreeRegion(t', region.value).value == t;
    } else {
      region := None;
      t' := t;
    }
  }

  /** Every frame of the region is inside the table and allocated. */
  predicate RegionAllocated(t: Table, region: PageFrameRegion)
  {
    forall i :: region.start.number <= i < region.end.number ==> i < |t| && t[i] == Allocated
  }

  /** `free_region(region)`: every frame, in order, must be allocated and becomes free. */
  function FreeRegion(t: Table, region: PageFrameRegion): (r: Outcome<Table>)
    ensures r.Done? <==> RegionAllocated(t, region)
    ensures r.Done? ==> |r.value| == |t| && forall i :: 0 <= i < |t| ==>
      r.value[i] == if InRegion(region, i) then Free else t[i]
  {
    if !RegionAllocated(t, region) then Panic
    else Done(seq(|t|, i requires 0 <= i < |t| => if InRegion(region, i) then Free else t[i]))
  }

  // ---------------------------------------------------------------------
  // Properties across operations
  // ---------------------------------------------------------------------

  /** `t'` has the same frames as `t` and keeps every reserved frame reserved. */
  predicate KeepsReserved(t: Table, t': Table)
  {
    |t'| == |t| && forall i :: 0 <= i < |t| && t[i] == Reserved ==> t'[i] == Reserved
  }

  /** No operation of the allocator changes a reserved frame. */
  lemma ReservedFramesStay(t: Table, frame: PageFrame, region: PageFrameRegion)
    ensures KeepsReserved(t, Alloc(t).1)
    ensures FreeFrame(t, frame).Done? ==> KeepsReserved(t, FreeFrame(t, frame).value)
    ensures FreeRegion(t, region).Done? ==> KeepsReserved(t, FreeRegion(t, region).value)
  {
  }

  /** Freeing what `alloc` returned restores the table. */
  lemma AllocThenFree(t: Table)
    requires Alloc(t).0.Some?
    ensures FreeFrame(Alloc(t).1, Alloc(t).0.value) == Done(t)
  {
    var f := Alloc(t).0.value.number;
    assert Alloc(t).1[f := Free] == t;
  }

  /** On a table with no free frame, the frame just freed is the next one allocated. */
  lemma FreeThenAlloc(t: Table, frame: PageFrame)
    requires forall i :: 0 <= i < |t| ==> t[i] != Free
    requires FreeFrame(t, frame).Done?
    ensures Alloc(FreeFrame(t, frame).value).0 == Some(frame)
  {
    var t' := FreeFrame(t, frame).value;
    assert t'[frame.number] == Free;
  }

  /** `alloc` returns none exactly when `alloc_region(1)` finds no run. */
  lemma AllocIsRegionOfOne(t: Table)
    ensures Alloc(t).0.None? <==> forall s :: 0 <= s <= |t| ==> !RunFree(t, s, 1)
  {
    if Alloc(t).0.Some? {
      assert RunFree(t, Alloc(t).0.value.number, 1);
    } else {
      forall s | 0 <= s <= |t|
        ensures !RunFree(t, s, 1)
      {
        if s < |t| {
          assert t[s] != Free;
        }
      }
    }
  }
}

=== FILE: topology.dfy ===
/**
 * The fixed-capacity tables of CPUs, I/O APICs and ISA interrupts that the
 * kernel fills from the MADT (learnos_kernel/src/smp/mod.rs).
 *
 * The `info_table!` macro generates a table type with an array of
 * `$entry_count` slots and a count of the slots in use; the model keeps
 * the slots in use as a sequence, so the count is its length.
 */
module Topology {
  import opened Common
  import Apic

  /** `MAX_CPU_COUNT`, `MAX_IOAPIC_COUNT` and `MAX_ISA_IRQ_COUNT` */
  const MAX_CPU_COUNT: nat := 256
  const MAX_IOAPIC_COUNT: nat := 256
  const MAX_ISA_IRQ_COUNT: nat := 32

  datatype CpuInfo = CpuInfo(acpiId: U8, apicId: U8, isBsp: bool)

  datatype IoApicInfo = IoApicInfo(id: U8, addr: Word, irqBase: U32, maxRedirCount: U32, version: U32)

  datatype IrqInfo = IrqInfo(globalSystemInterrupt: U32, polarity: Apic.Polarity, triggerMode: Apic.TriggerMode)

  /** A table generated by `info_table!`: the entries in use and the number of slots. */
  datatype InfoTable<T> = InfoTable(entries: seq<T>, capacity: nat)

  /** The table's count never exceeds its slots. */
  predicate Fits<T>(t: InfoTable<T>)
  {
    |t.entries| <= t.capacity
  }

  /** `new()`: no entries in use. */
  function New<T>(capacity: nat): (t: InfoTable<T>)
    ensures Fits(t) && |t.entries| == 0 && t.capacity == capacity
  {
    InfoTable([], capacity)
  }

  /** `count()` */
  function Count<T>(t: InfoTable<T>): nat
  {
    |t.entries|
  }

  /**
   * `insert(entry)`: asserts that a slot is free ("too many entries"),
   * stores the entry in the next slot and returns that slot's index.
   */
  function Insert<T>(t: InfoTable<T>, entry: T): (r: Outcome<(nat, InfoTable<T>)>)
    requires Fits(t)
    ensures r.Panic? <==> Count(t) == t.capacity
    ensures r.Done? ==> r.value.0 == Count(t) && Count(r.value.1) == Count(t) + 1 && Fits(r.value.1)
  {
    if |t.entries| < t.capacity then Done((|t.entries|, InfoTable(t.entries + [entry], t.capacity)))
    else Panic
  }

  /** `table[idx]`: asserts that `idx` is below the count ("index out of range"). */
  function Index<T>(t: InfoTable<T>, idx: U8): (r: Outcome<T>)
    ensures r.Done? <==> idx < Count(t)
  {
    if idx < |t.entries| then Done(t.entries[idx]) else Panic
  }

  /** `iter()`: the entries in use, from slot 0 up. */
  function Iter<T>(t: InfoTable<T>): seq<T>
  {
    t.entries
  }

  /**
   * After an insert, the returned index reads back the inserted entry and
   * every earlier index reads what it read before.
   */
  lemma InsertThenIndex<T>(t: InfoTable<T>, entry: T, idx: U8)
    requires Fits(t) && Insert(t, entry).Done?
    ensures var (slot, t') := Insert(t, entry).value;
      (idx == slot ==> Index(t', idx) == Done(entry))
      && (idx != slot ==> Index(t', idx) == Index(t, idx))
  {
  }

  /** Inserting `items` one after another, as `extend` does. */
  function InsertAll<T>(t: InfoTable<T>, items: seq<T>): Outcome<InfoTable<T>>
    requires Fits(t)
    decreases |items|
  {
    if |items| == 0 then Done(t)
    else match Insert(t, items[0])
      case Panic => Panic
      case Done((_, t')) => InsertAll(t', items[1..])
  }

  /**
   * Inserting items that fit succeeds, and iteration then yields the old
   * entries followed by the items in insertion order; items that do not
   * fit make an insert panic.
   */
  lemma {:induction false} InsertAllInOrder<T>(t: InfoTable<T>, items: seq<T>)
    requires Fits(t)
    ensures InsertAll(t, items).Done? <==> Count(t) + |items| <= t.capacity
    ensures InsertAll(t, items).Done? ==> Iter(InsertAll(t, items).value) == Iter(t) + items
    ensures InsertAll(t, items).Done? ==> InsertAll(t, items).value.capacity == t.capacity
    decreases |items|
  {
    if |items| > 0 && Count(t) < t.capacity {
      var t' := Insert(t, items[0]).value.1;
      InsertAllInOrder(t', items[1..]);
      assert t'.entries + items[1..] == t.entries + items;
    }
  }

  /** `take(256)`: at most the first 256 items. */
  function Take256<T>(items: seq<T>): (r: seq<T>)
    ensures |r| <= 256 && r <= items
    ensures |items| <= 256 ==> r == items
  {
    if |items| <= 256 then items else items[..256]
  }

  /**
   * `extend(items)`: the first 256 items (`take(256)`) inserted one after
   * another. It succeeds exactly when they fit, and the table then holds
   * its old entries followed by those items, in order; otherwise an insert
   * into the full table panics.
   */
  function Extend<T>(t: InfoTable<T>, items: seq<T>): (r: Outcome<InfoTable<T>>)
    requires Fits(t)
    ensures r.Done? <==> Count(t) + |Take256(items)| <= t.capacity
    ensures r.Done? ==> Iter(r.value) == Iter(t) + Take256(items)
  {
    InsertAllInOrder(t, Take256(items));
    InsertAll(t, Take256(items))
  }

  /**
   * `from_iter(items)`: a new table of 256 slots filled with the first 256
   * items (`take(256)`), in order; that never panics.
   */
  function FromIter<T>(items: seq<T>): (r: Outcome<InfoTable<T>>)
    ensures r.Done? && r.value.capacity == 256
    ensures Iter(r.value) == if |items| <= 256 then items else items[..256]
  {
    InsertAllInOrder(New<T>(256), Take256(items));
    InsertAll(New(256), Take256(items))
  }

  /**
   * `table[idx] = entry` through `IndexMut`: asserts that `idx` is below the
   * count ("tindex out of range") and replaces that entry.
   */
  function Update<T>(t: InfoTable<T>, idx: U8, entry: T): (r: Outcome<InfoTable<T>>)
    ensures r.Done? <==> idx < Count(t)
  {
    if idx < |t.entries| then Done(InfoTable(t.entries[idx := entry], t.capacity)) else Panic
  }

  /** After an update the index reads the new entry, every other index reads as before, and the count is kept. */
  lemma UpdateThenIndex<T>(t: InfoTable<T>, idx: U8, entry: T, other: U8)
    requires Update(t, idx, entry).Done?
    ensures var t' := Update(t, idx, entry).value;
      Count(t') == Count(t) && Index(t', idx) == Done(entry)
      && (other != idx ==> Index(t', other) == Index(t, other))
  {
  }

  /** The index of the first element satisfying `p`, as `Iterator::find` visits them. */
  function First<T>(s: seq<T>, p: T -> bool): (r: Option<nat>)
    ensures r.Some? ==> r.value < |s| && p(s[r.value]) && forall j :: 0 <= j < r.value ==> !p(s[j])
    ensures r.None? ==> forall j :: 0 <= j < |s| ==> !p(s[j])
  {
    if |s| == 0 then None
    else if p(s[0]) then Some(0)
    else match First(s[1..], p)
      case None => None
      case Some(i) => Some(i + 1)
  }

  /** The element at the index `First` finds. */
  function Find<T>(s: seq<T>, p: T -> bool): (r: Option<T>)
    ensures r.Some? <==> First(s, p).Some?
    ensures r.Some? ==> r.value == s[First(s, p).value]
  {
    match First(s, p)
    case None => None
    case Some(i) => Some(s[i])
  }

  /** `IoApicTable::by_id`: the first I/O APIC with the id, as `find` returns it. */
  function ById(t: InfoTable<IoApicInfo>, id: U8): (r: Option<IoApicInfo>)
    ensures r.Some? ==> exists i :: (0 <= i < |Iter(t)| && Iter(t)[i] == r.value && r.value.id == id
      && forall j :: 0 <= j < i ==> Iter(t)[j].id != id)
    ensures r.None? <==> forall io :: io in Iter(t) ==> io.id != id
  {
    var p := (io: IoApicInfo) => io.id == id;
    var r := Find(t.entries, p);
    if r.Some? then assert Iter(t)[First(t.entries, p).value] == r.value; r else r
  }

  /** The interrupt range of an I/O APIC: `max_redir_count` inputs from `irq_base`. */
  predicate Covers(io: IoApicInfo, gsi: nat)
  {
    io.irqBase <= gsi < io.irqBase + io.maxRedirCount
  }

  /** `irq_base + max_redir_count` fits in a `u32` for every entry, so `by_gsi` does not overflow. */
  predicate RangesFit(t: InfoTable<IoApicInfo>)
  {
    forall io :: io in t.entries ==> io.irqBase + io.maxRedirCount < U32_LIMIT
  }

  /**
   * `IoApicTable::by_gsi`: an entry exactly when one covers `gsi`, and then
   * the first one in the table that does.
   */
  function ByGsi(t: InfoTable<IoApicInfo>, gsi: U32): (r: Option<IoApicInfo>)
    requires RangesFit(t)
    ensures r.None? <==> forall io :: io in Iter(t) ==> !Covers(io, gsi)
    ensures r.Some? ==> exists i :: (0 <= i < |Iter(t)| && Iter(t)[i] == r.value
      && Covers(r.value, gsi) && forall j :: 0 <= j < i ==> !Covers(Iter(t)[j], gsi))
  {
    var p := (io: IoApicInfo) => Covers(io, gsi);
    var r := Find(t.entries, p);
    if r.Some? then assert Iter(t)[First(t.entries, p).value] == r.value; r else r
  }

  /** `CpuTable::by_apic_id`: the first CPU with the local APIC id. */
  function ByApicId(t: InfoTable<CpuInfo>, apicId: U8): (r: Option<CpuInfo>)
    ensures r.Some? ==> exists i :: (0 <= i < |Iter(t)| && Iter(t)[i] == r.value && r.value.apicId == apicId
      && forall j :: 0 <= j < i ==> Iter(t)[j].apicId != apicId)
    ensures r.None? <==> forall c :: c in Iter(t) ==> c.apicId != apicId
  {
    var p := (c: CpuInfo) => c.apicId == apicId;
    var r := Find(t.entries, p);
    if r.Some? then assert Iter(t)[First(t.entries, p).value] == r.value; r else r
  }

  /** `CpuTable::by_acpi_id`: the first CPU with the ACPI processor id. */
  function ByAcpiId(t: InfoTable<CpuInfo>, acpiId: U8): (r: Option<CpuInfo>)
    ensures r.Some? ==> exists i :: (0 <= i < |Iter(t)| && Iter(t)[i] == r.value && r.value.acpiId == acpiId
      && forall j :: 0 <= j < i ==> Iter(t)[j].acpiId != acpiId)
    ensures r.None? <==> forall c :: c in Iter(t) ==> c.acpiId != acpiId
  {
    var p := (c: CpuInfo) => c.acpiId == acpiId;
    var r := Find(t.entries, p);
    if r.Some? then assert Iter(t)[First(t.entries, p).value] == r.value; r else r
  }

  /** `CpuTable::bsp`: the first CPU marked as the bootstrap processor. */
  function Bsp(t: InfoTable<CpuInfo>): (r: Option<CpuInfo>)
    ensures r.Some? ==> exists i :: (0 <= i < |Iter(t)| && Iter(t)[i] == r.value && r.value.isBsp
      && forall j :: 0 <= j < i ==> !Iter(t)[j].isBsp)
    ensures r.None? <==> forall c :: c in Iter(t) ==> !c.isBsp
  {
    var p := (c: CpuInfo) => c.isBsp;
    var r := Find(t.entries, p);
    if r.Some? then assert Iter(t)[First(t.entries, p).value] == r.value; r else r
  }

  /** `CpuTable::aps`: exactly the CPUs not marked as the bootstrap processor, in table order. */
  function Aps(t: InfoTable<CpuInfo>): (r: seq<CpuInfo>)
    ensures forall c :: c in r <==> c in Iter(t) && !c.isBsp
    ensures |r| == |Iter(t)| <==> Bsp(t).None?
    ensures forall c :: multiset(r)[c] == if c.isBsp then 0 else multiset(Iter(t))[c]
    ensures exists idx :: Picks(idx, r, Iter(t))
  {
    ApsAreTheRest(t.entries);
    ApsInOrder(t.entries);
    NotBsp(t.entries)
  }

  function NotBsp(cpus: seq<CpuInfo>): seq<CpuInfo>
  {
    if |cpus| == 0 then []
    else (if cpus[0].isBsp then [] else [cpus[0]]) + NotBsp(cpus[1..])
  }

  /** `r` is a subsequence of `s`: `idx` picks each entry of `r` out of `s`, at strictly increasing positions. */
  ghost predicate Picks<T>(idx: seq<nat>, r: seq<T>, s: seq<T>)
  {
    && |idx| == |r|
    && (forall k :: 0 <= k < |idx| ==> idx[k] < |s| && r[k] == s[idx[k]])
    && (forall k, l :: 0 <= k < l < |idx| ==> idx[k] < idx[l])
  }

  /**
   * Every CPU is either the one `bsp` may return or one of `aps`: the
   * application processors are exactly the entries without `is_bsp`, each
   * as often as in the table.
   */
  lemma {:induction false} ApsAreTheRest(cpus: seq<CpuInfo>)
    ensures forall c :: c in NotBsp(cpus) <==> c in cpus && !c.isBsp
    ensures |NotBsp(cpus)| <= |cpus|
    ensures |NotBsp(cpus)| == |cpus| <==> forall c :: c in cpus ==> !c.isBsp
    ensures forall c :: multiset(NotBsp(cpus))[c] == if c.isBsp then 0 else multiset(cpus)[c]
  {
    if |cpus| > 0 {
      ApsAreTheRest(cpus[1..]);
      var head := if cpus[0].isBsp then [] else [cpus[0]];
      assert NotBsp(cpus) == head + NotBsp(cpus[1..]);
      assert cpus == [cpus[0]] + cpus[1..];
      assert multiset(NotBsp(cpus)) == multiset(head) + multiset(NotBsp(cpus[1..]));
      assert multiset(cpus) == multiset([cpus[0]]) + multiset(cpus[1..]);
    }
  }

  /** The application processors keep the table's order: they are a subsequence of the table. */
  lemma ApsInOrder(cpus: seq<CpuInfo>)
    ensures exists idx :: Picks(idx, NotBsp(cpus), cpus)
  {
    var idx := ApsPositions(cpus);
  }

  /** The positions of the application processors in the table. */
  lemma {:induction false} ApsPositions(cpus: seq<CpuInfo>) returns (idx: seq<nat>)
    ensures Picks(idx, NotBsp(cpus), cpus)
  {
    if |cpus| == 0 {
      idx := [];
    } else {
      var rest := ApsPositions(cpus[1..]);
      PicksCons(rest, NotBsp(cpus[1..]), cpus);
      if cpus[0].isBsp {
        assert NotBsp(cpus) == NotBsp(cpus[1..]);
        idx := Shift(rest);
      } else {
        assert NotBsp(cpus) == [cpus[0]] + NotBsp(cpus[1..]);
        idx := [0] + Shift(rest);
      }
    }
  }

  /** Every position moved one place on. */
  function Shift(idx: seq<nat>): (r: seq<nat>)
    ensures |r| == |idx| && forall k :: 0 <= k < |idx| ==> r[k] == idx[k] + 1
  {
    seq(|idx|, k requires 0 <= k < |idx| => idx[k] + 1)
  }

  /** A subsequence of the tail of `s` is one of `s`, with or without `s`'s first entry in front. */
  lemma PicksCons<T>(rest: seq<nat>, r: seq<T>, s: seq<T>)
    requires |s| > 0 && Picks(rest, r, s[1..])
    ensures Picks(Shift(rest), r, s)
    ensures Picks([0] + Shift(rest), [s[0]] + r, s)
  {
  }

  /** Dropping the first entry of `s` when `idx` never picks it. */
  lemma PicksTail<T>(idx: seq<nat>, r: seq<T>, s: seq<T>) returns (tail: seq<nat>)
    requires |s| > 0 && Picks(idx, r, s)
    requires forall k :: 0 <= k < |idx| ==> idx[k] > 0
    ensures Picks(tail, r, s[1..])
  {
    tail := seq(|idx|, k requires 0 <= k < |idx| => idx[k] - 1);
  }

  /** A subsequence holds each value at most as often as the sequence it is picked from. */
  lemma {:induction false} PicksBounded<T>(idx: seq<nat>, r: seq<T>, s: seq<T>)
    requires Picks(idx, r, s)
    ensures multiset(r) <= multiset(s)
    decreases |r|
  {
    if |r| > 0 {
      var n := |r| - 1;
      var j := idx[n];
      assert Picks(idx[..n], r[..n], s[..j]);
      PicksBounded(idx[..n], r[..n], s[..j]);
      assert r == r[..n] + [s[j]];
      assert multiset(r) == multiset(r[..n]) + multiset([s[j]]);
      assert s[..j + 1] == s[..j] + [s[j]];
      assert multiset(r) <= multiset(s[..j + 1]);
      assert s == s[..j + 1] + s[j + 1..];
      assert multiset(s) == multiset(s[..j + 1]) + multiset(s[j + 1..]);
    }
  }

  /**
   * The order and the multiplicities determine `aps`: any subsequence of
   * the table holding exactly the non-bootstrap CPUs, each as often as the
   * table does, is `aps`.
   */
  lemma {:induction false} ApsUnique(t: InfoTable<CpuInfo>, r: seq<CpuInfo>, idx: seq<nat>)
    requires Picks(idx, r, Iter(t))
    requires forall c :: multiset(r)[c] == if c.isBsp then 0 else multiset(Iter(t))[c]
    ensures r == Aps(t)
  {
    FilterUnique(t.entries, r, idx);
  }

  lemma {:induction false} FilterUnique(cpus: seq<CpuInfo>, r: seq<CpuInfo>, idx: seq<nat>)
    requires Picks(idx, r, cpus)
    requires forall c :: multiset(r)[c] == if c.isBsp then 0 else multiset(cpus)[c]
    ensures r == NotBsp(cpus)
  {
    if |cpus| > 0 {
      var c0 := cpus[0];
      assert cpus == [c0] + cpus[1..];
      assert multiset(cpus) == multiset([c0]) + multiset(cpus[1..]);
      if |idx| > 0 && idx[0] == 0 {
        assert r[0] == c0;
        assert r == [r[0]] + r[1..];
        assert multiset(r) == multiset([c0]) + multiset(r[1..]);
        assert multiset(r)[c0] > 0;
        var tail := PicksTail(idx[1..], r[1..], cpus);
        FilterUnique(cpus[1..], r[1..], tail);
      } else {
        var tail := PicksTail(idx, r, cpus);
        PicksBounded(tail, r, cpus[1..]);
        assert c0.isBsp;
        FilterUnique(cpus[1..], r, tail);
      }
    }
  }

  /** `IsaIrqTable::new`: ISA IRQ `i` is wired to global system interrupt `i`, active high and edge triggered. */
  function IsaIrqTable(): (table: seq<IrqInfo>)
    ensures |table| == MAX_ISA_IRQ_COUNT
    ensures forall irq :: 0 <= irq < |table| ==> table[irq] == IrqInfo(irq, Apic.HighActive, Apic.EdgeTriggered)
  {
    seq(MAX_ISA_IRQ_COUNT, (irq: nat) requires irq < MAX_ISA_IRQ_COUNT => IrqInfo(irq, Apic.HighActive, Apic.EdgeTriggered))
  }
}

=== FILE: utf8.dfy ===
/**
 * Well-formed UTF-8, which `str::from_utf8` checks before the kernel turns
 * the bytes of a Multiboot2 tag or an ACPI OEM id into a `&str`.
 *
 * The check follows the table of well-formed byte sequences in section 4 of
 * RFC 3629 (UTF-8, a transformation format of ISO 10646): overlong forms,
 * surrogates and code points above U+10FFFF are all rejected. Encoding,
 * as section 3 describes it, and decoding are proved inverse below.
 */
module Utf8 {
  import opened Common
  import opened Bytes

  /** A continuation byte, `10xxxxxx`. */
  predicate Cont(b: Byte)
  {
    0x80 <= b <= 0xBF
  }

  /**
   * The length of the well-formed sequence at the start of `s`, by the
   * first byte's row of the table; none when the start is not one.
   */
  function CharLength(s: seq<Byte>): (n: Option<nat>)
    ensures n.Some? ==> 1 <= n.value <= 4 && n.value <= |s|
    ensures |s| > 0 && s[0] <= 0x7F ==> n == Some(1)
    ensures |s| > 0 && (0x80 <= s[0] <= 0xC1 || s[0] >= 0xF5) ==> n == None
  {
    if |s| == 0 then None
    else
      var b := s[0];
      if b <= 0x7F then Some(1)
      else if 0xC2 <= b <= 0xDF then
        if |s| >= 2 && Cont(s[1]) then Some(2) else None
      else if 0xE0 <= b <= 0xEF then
        var lo := if b == 0xE0 then 0xA0 else 0x80;
        var hi := if b == 0xED then 0x9F else 0xBF;
        if |s| >= 3 && lo <= s[1] <= hi && Cont(s[2]) then Some(3) else None
      else if 0xF0 <= b <= 0xF4 then
        var lo := if b == 0xF0 then 0x90 else 0x80;
        var hi := if b == 0xF4 then 0x8F else 0xBF;
        if |s| >= 4 && lo <= s[1] <= hi && Cont(s[2]) && Cont(s[3]) then Some(4) else None
      else None
  }

  /** `s` is a sequence of well-formed characters (the `UTF8-octets` rule of RFC 3629). */
  predicate WellFormed(s: seq<Byte>)
    decreases |s|
  {
    |s| == 0 || (CharLength(s).Some? && WellFormed(s[CharLength(s).value..]))
  }

  /** A Unicode scalar value: a code point that is not a surrogate. */
  predicate IsScalar(c: nat)
  {
    c < 0x11_0000 && !(0xD800 <= c <= 0xDFFF)
  }

  /** The encoding of one scalar value (section 3 of RFC 3629). */
  function Encode(c: nat): (bs: seq<Byte>)
    requires IsScalar(c)
    ensures 1 <= |bs| <= 4
    ensures |bs| == 1 <==> c < 0x80
  {
    if c < 0x80 then [c]
    else if c < 0x800 then [0xC0 + c / 0x40, 0x80 + c % 0x40]
    else if c < 0x1_0000 then [0xE0 + c / 0x1000, 0x80 + (c / 0x40) % 0x40, 0x80 + c % 0x40]
    else [0xF0 + c / 0x4_0000, 0x80 + (c / 0x1000) % 0x40, 0x80 + (c / 0x40) % 0x40, 0x80 + c % 0x40]
  }

  /**
   * The scalar value of the well-formed character at the start of `s`: a
   * scalar value whose encoding is exactly the character's bytes.
   */
  function DecodeFirst(s: seq<Byte>): (c: nat)
    requires CharLength(s).Some?
    ensures IsScalar(c) && Encode(c) == s[..CharLength(s).value]
  {
    var n := CharLength(s).value;
    if n == 1 then s[0]
    else if n == 2 then DecodeTwo(s)
    else if n == 3 then DecodeThree(s)
    else DecodeFour(s)
  }

  /** A two-byte character: five bits from the first byte, six from the second. */
  function DecodeTwo(s: seq<Byte>): (c: nat)
    requires CharLength(s) == Some(2)
    ensures IsScalar(c) && Encode(c) == s[..2]
  {
    var c := (s[0] as int - 0xC0) * 0x40 + (s[1] as int - 0x80);
    assert c / 0x40 == s[0] as int - 0xC0 && c % 0x40 == s[1] as int - 0x80;
    assert Encode(c) == s[..2];
    c
  }

  /** A three-byte character: four bits, then six and six. */
  function DecodeThree(s: seq<Byte>): (c: nat)
    requires CharLength(s) == Some(3)
    ensures IsScalar(c) && Encode(c) == s[..3]
  {
    var x, y, z := s[0] as int - 0xE0, s[1] as int - 0x80, s[2] as int - 0x80;
    var c := x * 0x1000 + y * 0x40 + z;
    DigitsThree(x, y, z);
    assert Encode(c) == s[..3];
    c
  }

  /** A four-byte character: three bits, then six, six and six. */
  function DecodeFour(s: seq<Byte>): (c: nat)
    requires CharLength(s) == Some(4)
    ensures IsScalar(c) && Encode(c) == s[..4]
  {
    var w, x, y, z := s[0] as int - 0xF0, s[1] as int - 0x80, s[2] as int - 0x80, s[3] as int - 0x80;
    var c := w * 0x4_0000 + x * 0x1000 + y * 0x40 + z;
    DigitsFour(w, x, y, z);
    assert Encode(c) == s[..4];
    c
  }

  /** Base-64 digits of a three-byte value. */
  lemma DigitsThree(x: nat, y: nat, z: nat)
    requires x < 16 && y < 0x40 && z < 0x40
    ensures var c := x * 0x1000 + y * 0x40 + z;
      c / 0x1000 == x && (c / 0x40) % 0x40 == y && c % 0x40 == z
  {
  }

  /** Base-64 digits of a four-byte value. */
  lemma DigitsFour(w: nat, x: nat, y: nat, z: nat)
    requires w < 8 && x < 0x40 && y < 0x40 && z < 0x40
    ensures var c := w * 0x4_0000 + x * 0x1000 + y * 0x40 + z;
      c / 0x4_0000 == w && (c / 0x1000) % 0x40 == x && (c / 0x40) % 0x40 == y && c % 0x40 == z
  {
    var c := w * 0x4_0000 + x * 0x1000 + y * 0x40 + z;
    var low := y * 0x40 + z;
    assert c == (w * 0x40 + x) * 0x1000 + low && low < 0x1000;
    assert c / 0x1000 == w * 0x40 + x;
    assert c / 0x40 == (w * 0x40 + x) * 0x40 + y;
  }

  /** Whatever follows it, an encoded scalar value is read back as one character. */
  lemma EncodeDecode(c: nat, rest: seq<Byte>)
    requires IsScalar(c)
    ensures CharLength(Encode(c) + rest) == Some(|Encode(c)|)
    ensures DecodeFirst(Encode(c) + rest) == c
  {
    var s := Encode(c) + rest;
    if c < 0x80 {
    } else if c < 0x800 {
      assert s[0] == 0xC0 + c / 0x40 && s[1] == 0x80 + c % 0x40;
    } else if c < 0x1_0000 {
      EncodeDecodeThree(c, rest);
    } else {
      EncodeDecodeFour(c, rest);
    }
  }

  /** `EncodeDecode` for a three-byte scalar value. */
  lemma EncodeDecodeThree(c: nat, rest: seq<Byte>)
    requires IsScalar(c) && 0x800 <= c < 0x1_0000
    ensures CharLength(Encode(c) + rest) == Some(3)
    ensures DecodeFirst(Encode(c) + rest) == c
  {
    var s := Encode(c) + rest;
    assert s[0] == 0xE0 + c / 0x1000 && s[1] == 0x80 + (c / 0x40) % 0x40 && s[2] == 0x80 + c % 0x40;
    ThreeBytes(c);
  }

  /** `EncodeDecode` for a four-byte scalar value. */
  lemma EncodeDecodeFour(c: nat, rest: seq<Byte>)
    requires IsScalar(c) && 0x1_0000 <= c
    ensures CharLength(Encode(c) + rest) == Some(4)
    ensures DecodeFirst(Encode(c) + rest) == c
  {
    var s := Encode(c) + rest;
    assert s[0] == 0xF0 + c / 0x4_0000 && s[1] == 0x80 + (c / 0x1000) % 0x40;
    assert s[2] == 0x80 + (c / 0x40) % 0x40 && s[3] == 0x80 + c % 0x40;
    FourBytes(c);
  }

  /** The digits of a three-byte scalar value, and the second byte's limits. */
  lemma ThreeBytes(c: nat)
    requires 0x800 <= c < 0x1_0000 && !(0xD800 <= c <= 0xDFFF)
    ensures c == (c / 0x1000) * 0x1000 + ((c / 0x40) % 0x40) * 0x40 + c % 0x40
    ensures c / 0x1000 == 0 ==> (c / 0x40) % 0x40 >= 0x20
    ensures c / 0x1000 == 0xD ==> (c / 0x40) % 0x40 < 0x20
  {
  }

  /** The digits of a four-byte scalar value, and the second byte's limits. */
  lemma FourBytes(c: nat)
    requires 0x1_0000 <= c < 0x11_0000
    ensures c == (c / 0x4_0000) * 0x4_0000 + ((c / 0x1000) % 0x40) * 0x1000 + ((c / 0x40) % 0x40) * 0x40 + c % 0x40
    ensures c / 0x4_0000 == 0 ==> (c / 0x1000) % 0x40 >= 0x10
    ensures c / 0x4_0000 == 4 ==> (c / 0x1000) % 0x40 < 0x10
  {
  }

  /** The encoding of a string of scalar values. */
  function EncodeAll(cs: seq<nat>): (bs: seq<Byte>)
    requires forall i :: 0 <= i < |cs| ==> IsScalar(cs[i])
    ensures |bs| >= |cs|
  {
    if |cs| == 0 then [] else Encode(cs[0]) + EncodeAll(cs[1..])
  }

  /** Every encoded string is well formed. */
  lemma {:induction false} EncodeAllWellFormed(cs: seq<nat>)
    requires forall i :: 0 <= i < |cs| ==> IsScalar(cs[i])
    ensures WellFormed(EncodeAll(cs))
  {
    if |cs| > 0 {
      var e := Encode(cs[0]);
      var rest := EncodeAll(cs[1..]);
      EncodeDecode(cs[0], rest);
      assert (e + rest)[|e|..] == rest;
      EncodeAllWellFormed(cs[1..]);
    }
  }

  /**
   * The scalar values of a well-formed string, whose encoding gives the
   * string back: with `EncodeAllWellFormed`, the well-formed strings are
   * exactly the encodings of strings of scalar values.
   */
  function DecodeAll(s: seq<Byte>): (cs: seq<nat>)
    requires WellFormed(s)
    ensures forall i :: 0 <= i < |cs| ==> IsScalar(cs[i])
    ensures EncodeAll(cs) == s
    decreases |s|
  {
    if |s| == 0 then []
    else
      var n := CharLength(s).value;
      var c := DecodeFirst(s);
      var rest := DecodeAll(s[n..]);
      EncodeAllCons(c, rest);
      SplitAt(s, n);
      [c] + rest
  }

  /** Encoding a string is encoding its first scalar value, then the rest. */
  lemma EncodeAllCons(c: nat, rest: seq<nat>)
    requires IsScalar(c) && forall i :: 0 <= i < |rest| ==> IsScalar(rest[i])
    ensures forall i :: 0 <= i < |[c] + rest| ==> IsScalar(([c] + rest)[i])
    ensures EncodeAll([c] + rest) == Encode(c) + EncodeAll(rest)
  {
    assert ([c] + rest)[1..] == rest;
  }

  /** A sequence is its prefix up to `n` followed by the rest. */
  lemma SplitAt(s: seq<Byte>, n: nat)
    requires n <= |s|
    ensures s == s[..n] + s[n..]
  {
  }

  /** The checks of section 4 reject the bytes that never occur, a lone continuation byte and a surrogate. */
  lemma IllFormedExamples(a: seq<Byte>, b: seq<Byte>, c: seq<Byte>, d: seq<Byte>)
    requires a == [0xFF] && b == [0x80] && c == [0xED, 0xA0, 0x80] && d == [0xC0, 0xAF]
    ensures !WellFormed(a) && !WellFormed(b) && !WellFormed(c) && !WellFormed(d)
  {
  }
}

=== FILE: vmm.dfy ===
/**
 * `mmap` of the kernel's virtual memory manager
 * (learnos_kernel/src/memory/vmm/mod.rs).
 *
 * `mmap` walks the four levels of the active page tables through the
 * recursive mapping, allocates a table for every level whose entry is not
 * present, and finally installs the 4 KiB mapping in the PT entry. The
 * tables and their entries are those of the `Paging` model; the frames come
 * from the global bump allocator, passed here as an explicit `Pfa` value.
 */
module Vmm {
  import opened Common
  import opened Recursive
  import opened Frames
  import opened Paging
  import PfaBump

  /** The page tables and the allocator after a call. */
  datatype Mmapped = Mmapped(mem: Memory, pfa: PfaBump.Pfa)

  /** Every available entry of the memory map ends inside the 52-bit physical address space. */
  predicate InPhysicalSpace(rs: seq<PfaBump.MemRegion>)
  {
    forall i :: 0 <= i < |rs| && PfaBump.IsAvailable(rs[i]) ==> rs[i].base + rs[i].length <= 0x10_0000_0000_0000
  }

  /**
   * The loop of `mmap` from the table in `frame` at `level` down. With
   * `zero` false it is the code as written, which links a fresh frame as a
   * table without clearing it; with `zero` true the fresh table is cleared
   * first. A missing table above the PT level is allocated (the allocator
   * running out aborts); a present large-page entry above the PT level
   * aborts; a present PT entry is left as it is. The allocator only moves
   * forward, and an address that already resolves changes nothing.
   */
  function MmapFrom(zero: bool, mem: Memory, pfa: PfaBump.Pfa, frame: nat, v: Word, paddr: Word, level: nat): (r: Outcome<Mmapped>)
    requires level <= PML4
    ensures r.Done? ==> r.value.pfa.regions == pfa.regions && r.value.pfa.next >= pfa.next
    ensures ResolveFrom(mem, frame, v, level).Some? ==> r == Panic || r == Done(Mmapped(mem, pfa))
    decreases level
  {
    var i := Idx(level, v);
    var e := Read(mem, frame, i);
    if !Present(e) then
      if level > PT then
        var a := PfaBump.Alloc(pfa);
        if a.Panic? || a.value.0.None? then Panic
        else
          var (newTable, pfa1) := a.value;
          // `set_base` keeps the address bits 12-51 of the start address
          var f := newTable.value.number % TABLE_FRAME_LIMIT;
          var mem1 := Write(mem, frame, i, TableEntry(f));
          MmapFrom(zero, if zero then Clear(mem1, f) else mem1, pfa1, f, v, paddr, level - 1)
      else
        Done(Mmapped(Write(mem, frame, i, LeafEntry(paddr, PT)), pfa))
    else if level > PT && Huge(e) then Panic
    else if level > PT then MmapFrom(zero, mem, pfa, e.frame, v, paddr, level - 1)
    else Done(Mmapped(mem, pfa))
  }

  /**
   * `mmap(vaddr, paddr)` as written, from the PML4 table in frame `root`:
   * the allocator only moves forward, and an address that already resolves
   * leaves the tables and the allocator alone unless a large page aborts.
   */
  function Mmap(mem: Memory, pfa: PfaBump.Pfa, root: nat, v: Word, paddr: Word): (r: Outcome<Mmapped>)
    ensures r.Done? ==> r.value.pfa.regions == pfa.regions && r.value.pfa.next >= pfa.next
    ensures Resolve(mem, root, v).Some? ==> r == Panic || r == Done(Mmapped(mem, pfa))
  {
    MmapFrom(false, mem, pfa, root, v, paddr, PML4)
  }

  /** `mmap(vaddr, paddr)` clearing every table it allocates, with the same guarantees. */
  function MmapZeroing(mem: Memory, pfa: PfaBump.Pfa, root: nat, v: Word, paddr: Word): (r: Outcome<Mmapped>)
    ensures r.Done? ==> r.value.pfa.regions == pfa.regions && r.value.pfa.next >= pfa.next
    ensures Resolve(mem, root, v).Some? ==> r == Panic || r == Done(Mmapped(mem, pfa))
  {
    MmapFrom(true, mem, pfa, root, v, paddr, PML4)
  }

  // ---------------------------------------------------------------------
  // What the zeroing `mmap` does
  // ---------------------------------------------------------------------

  /** The tables on `vaddr`'s path are distinct and lie below the allocator's next frame. */
  predicate PathBelow(mem: Memory, frame: nat, v: Word, level: nat, bound: nat)
    requires level <= PML4
  {
    var p := PathFrames(mem, frame, v, level);
    NoDup(p) && forall k :: 0 <= k < |p| ==> p[k] < bound
  }

  /** Every table below `bound` that is not in `except` is the same in `mem'`. */
  ghost predicate KeptBelow(mem: Memory, mem': Memory, bound: nat, except: seq<nat>)
  {
    forall g: nat :: g < bound && g !in except ==> TableOf(mem', g) == TableOf(mem, g)
  }

  /**
   * `MmapFrom` with zeroing, when the tables on the path lie below the
   * allocator's next frame: the allocator only moves forward, the tables
   * below it off the path are kept, an address that already resolved leaves
   * the tables alone, and one that did not resolves to `paddr`'s page
   * afterwards.
   */
  lemma {:induction false} MmapFromResolves(mem: Memory, pfa: PfaBump.Pfa, frame: nat, v: Word, paddr: Word, level: nat)
    requires level <= PML4
    requires InPhysicalSpace(pfa.regions)
    requires PathBelow(mem, frame, v, level, pfa.next)
    ensures var r := MmapFrom(true, mem, pfa, frame, v, paddr, level);
      r.Done? ==> r.value.pfa.regions == pfa.regions && r.value.pfa.next >= pfa.next
    ensures var r := MmapFrom(true, mem, pfa, frame, v, paddr, level);
      r.Done? ==> KeptBelow(mem, r.value.mem, pfa.next, PathFrames(mem, frame, v, level))
    ensures var r := MmapFrom(true, mem, pfa, frame, v, paddr, level);
      r.Done? && ResolveFrom(mem, frame, v, level).Some? ==> r.value.mem == mem
    ensures var r := MmapFrom(true, mem, pfa, frame, v, paddr, level);
      r.Done? && ResolveFrom(mem, frame, v, level).None? ==>
        ResolveFrom(r.value.mem, frame, v, level) == Some(PageAddress(AddressBits(paddr), v, PT))
    decreases level, 2
  {
    var i := Idx(level, v);
    var e := Read(mem, frame, i);
    if !Present(e) {
      if level > PT {
        AllocTableResolves(mem, pfa, frame, v, paddr, level, MmapFrom(true, mem, pfa, frame, v, paddr, level));
      } else {
        LeafInstallUnfold(mem, pfa, frame, v, paddr);
      }
    } else if level > PT && !Huge(e) {
      DescendTableResolves(mem, pfa, frame, v, paddr, level, MmapFrom(true, mem, pfa, frame, v, paddr, level));
    }
  }

  /** At the PT level an entry that is not present receives the mapping. */
  lemma LeafInstallUnfold(mem: Memory, pfa: PfaBump.Pfa, frame: nat, v: Word, paddr: Word)
    requires !Present(Read(mem, frame, Idx(PT, v)))
    ensures MmapFrom(true, mem, pfa, frame, v, paddr, PT) == Done(Mmapped(Write(mem, frame, Idx(PT, v), LeafEntry(paddr, PT)), pfa))
    ensures ResolveFrom(Write(mem, frame, Idx(PT, v), LeafEntry(paddr, PT)), frame, v, PT) == Some(PageAddress(AddressBits(paddr), v, PT))
  {
  }

  /** A frame the allocator hands out lies inside the 52-bit physical address space. */
  lemma AllocatedBelowLimit(p: PfaBump.Pfa)
    requires InPhysicalSpace(p.regions)
    ensures PfaBump.Alloc(p).Done?
    ensures var f := PfaBump.Alloc(p).value.0; f.Some? ==> f.value.number < TABLE_FRAME_LIMIT && f.value.number % TABLE_FRAME_LIMIT == f.value.number
  {
    PhysicalSpaceWellFormed(p.regions);
    var f := PfaBump.Alloc(p).value.0;
    if f.Some? {
      var n := f.value.number;
      assert PfaBump.AvailableFrame(p.regions, n);
      var k :| 0 <= k < |p.regions| && PfaBump.IsAvailable(p.regions[k]) &&
        FrameWithin(n, p.regions[k].base, p.regions[k].base + p.regions[k].length);
      assert n * 0x1000 + 0x1000 <= 0x10_0000_0000_0000;
    }
  }

  /** An available entry inside the physical address space is well formed. */
  lemma PhysicalSpaceWellFormed(rs: seq<PfaBump.MemRegion>)
    requires InPhysicalSpace(rs)
    ensures PfaBump.MapWellFormed(rs)
  {
  }

  /** `MmapFromResolves` where the entry is missing above the PT level. */
  lemma {:induction false} AllocTableResolves(mem: Memory, pfa: PfaBump.Pfa, frame: nat, v: Word, paddr: Word, level: nat, r: Outcome<Mmapped>)
    requires PT < level <= PML4
    requires InPhysicalSpace(pfa.regions)
    requires PathBelow(mem, frame, v, level, pfa.next)
    requires !Present(Read(mem, frame, Idx(level, v)))
    requires r == MmapFrom(true, mem, pfa, frame, v, paddr, level)
    ensures r.Done? ==> r.value.pfa.regions == pfa.regions && r.value.pfa.next >= pfa.next
    ensures r.Done? ==> KeptBelow(mem, r.value.mem, pfa.next, [frame])
    ensures r.Done? ==> ResolveFrom(r.value.mem, frame, v, level) == Some(PageAddress(AddressBits(paddr), v, PT))
    decreases level, 1
  {
    AllocatedBelowLimit(pfa);
    var (newTable, pfa1) := PfaBump.Alloc(pfa).value;
    if newTable.Some? {
      var f := newTable.value.number;
      PathHeadBelow(mem, frame, v, level, pfa.next);
      AllocTableUnfold(true, mem, pfa, frame, v, paddr, level);
      var mem2 := Clear(Write(mem, frame, Idx(level, v), TableEntry(f)), f);
      FreshTableResolves(mem, mem2, pfa, pfa1, frame, f, v, paddr, level, r);
    }
  }

  /** `AllocTableResolves` once the fresh table `f` is linked and cleared. */
  lemma {:induction false} FreshTableResolves(mem: Memory, mem2: Memory, pfa: PfaBump.Pfa, pfa1: PfaBump.Pfa, frame: nat, f: nat, v: Word, paddr: Word, level: nat, r: Outcome<Mmapped>)
    requires PT < level <= PML4
    requires InPhysicalSpace(pfa1.regions) && pfa1.regions == pfa.regions
    requires frame < pfa.next <= f < TABLE_FRAME_LIMIT && pfa1.next == f + 1
    requires mem2 == Clear(Write(mem, frame, Idx(level, v), TableEntry(f)), f)
    requires r == MmapFrom(true, mem2, pfa1, f, v, paddr, level - 1)
    ensures r.Done? ==> r.value.pfa.regions == pfa.regions && r.value.pfa.next >= pfa.next
    ensures r.Done? ==> KeptBelow(mem, r.value.mem, pfa.next, [frame])
    ensures r.Done? ==> ResolveFrom(r.value.mem, frame, v, level) == Some(PageAddress(AddressBits(paddr), v, PT))
    decreases level, 0
  {
    FreshPathBelow(mem2, f, v, level - 1, pfa1.next);
    MmapFromResolves(mem2, pfa1, f, v, paddr, level - 1);
    if r.Done? {
      LinkedTableKept(mem, mem2, r.value.mem, pfa.next, pfa1.next, frame, f, v, level);
    }
  }

  /**
   * After a fresh table `f` at or above `bound` is linked into `frame` and
   * the call below kept every table under `bound1` but `f`, the tables
   * under `bound` but `frame` are kept and the walk from `frame` passes on
   * to `f`.
   */
  lemma LinkedTableKept(mem: Memory, mem2: Memory, mem': Memory, bound: nat, bound1: nat, frame: nat, f: nat, v: Word, level: nat)
    requires PT < level <= PML4 && f < TABLE_FRAME_LIMIT
    requires frame < bound <= bound1 && bound <= f
    requires mem2 == Clear(Write(mem, frame, Idx(level, v), TableEntry(f)), f)
    requires KeptBelow(mem2, mem', bound1, [f])
    ensures KeptBelow(mem, mem', bound, [frame])
    ensures ResolveFrom(mem', frame, v, level) == ResolveFrom(mem', f, v, level - 1)
  {
    assert TableOf(mem', frame) == TableOf(mem2, frame);
    LinkResolves(mem', frame, v, level, f);
  }

  /** The table the walk starts from lies below the bound. */
  lemma PathHeadBelow(mem: Memory, frame: nat, v: Word, level: nat, bound: nat)
    requires level <= PML4
    requires PathBelow(mem, frame, v, level, bound)
    ensures frame < bound
  {
    assert PathFrames(mem, frame, v, level)[0] == frame;
  }

  /** The allocation branch of `MmapFrom` with zeroing, unfolded once. */
  lemma AllocTableUnfold(zero: bool, mem: Memory, pfa: PfaBump.Pfa, frame: nat, v: Word, paddr: Word, level: nat)
    requires PT < level <= PML4
    requires !Present(Read(mem, frame, Idx(level, v)))
    requires PfaBump.Alloc(pfa).Done? && PfaBump.Alloc(pfa).value.0.Some?
    ensures var f := PfaBump.Alloc(pfa).value.0.value.number % TABLE_FRAME_LIMIT;
      var linked := Write(mem, frame, Idx(level, v), TableEntry(f));
      MmapFrom(zero, mem, pfa, frame, v, paddr, level) ==
      MmapFrom(zero, if zero then Clear(linked, f) else linked, PfaBump.Alloc(pfa).value.1, f, v, paddr, level - 1)
  {
  }

  /** A cleared table is a path of its own, and nothing resolves through it. */
  lemma FreshTableBelow(mem: Memory, f: nat, v: Word, level: nat)
    requires level <= PML4
    requires TableOf(mem, f) == Zeroes()
    ensures PathFrames(mem, f, v, level) == [f]
    ensures ResolveFrom(mem, f, v, level) == None
  {
    assert Read(mem, f, Idx(level, v)) == EMPTY;
  }

  /** The path from a cleared table is that table alone, below any bound above it, and nothing resolves through it. */
  lemma FreshPathBelow(mem: Memory, f: nat, v: Word, level: nat, bound: nat)
    requires level <= PML4
    requires TableOf(mem, f) == Zeroes() && f < bound
    ensures PathBelow(mem, f, v, level, bound)
    ensures ResolveFrom(mem, f, v, level) == None
  {
    FreshTableBelow(mem, f, v, level);
  }

  /** `MmapFromResolves` where the walk descends into an existing table. */
  lemma {:induction false} DescendTableResolves(mem: Memory, pfa: PfaBump.Pfa, frame: nat, v: Word, paddr: Word, level: nat, r: Outcome<Mmapped>)
    requires PT < level <= PML4
    requires InPhysicalSpace(pfa.regions)
    requires PathBelow(mem, frame, v, level, pfa.next)
    requires var e := Read(mem, frame, Idx(level, v)); Present(e) && !Huge(e)
    requires r == MmapFrom(true, mem, pfa, frame, v, paddr, level)
    ensures r.Done? ==> r.value.pfa.regions == pfa.regions && r.value.pfa.next >= pfa.next
    ensures r.Done? ==> KeptBelow(mem, r.value.mem, pfa.next, PathFrames(mem, frame, v, level))
    ensures r.Done? && ResolveFrom(mem, frame, v, level).Some? ==> r.value.mem == mem
    ensures r.Done? && ResolveFrom(mem, frame, v, level).None? ==>
      ResolveFrom(r.value.mem, frame, v, level) == Some(PageAddress(AddressBits(paddr), v, PT))
    decreases level, 1
  {
    var e := Read(mem, frame, Idx(level, v));
    var child := e.frame;
    var p := PathFrames(mem, frame, v, level);
    var q := PathFrames(mem, child, v, level - 1);
    assert p == [frame] + q;
    HeadNotInTail(p, frame, q);
    SubPathBelow(mem, frame, v, level, pfa.next);
    PathHeadBelow(mem, frame, v, level, pfa.next);
    StepResolves(mem, frame, v, level);
    DescendTableUnfold(true, mem, pfa, frame, v, paddr, level);
    MmapFromResolves(mem, pfa, child, v, paddr, level - 1);
    if r.Done? {
      assert frame !in q;
      assert TableOf(r.value.mem, frame) == TableOf(mem, frame);
      StepResolves(r.value.mem, frame, v, level);
    }
  }

  /** The descent branch of `MmapFrom`, unfolded once. */
  lemma DescendTableUnfold(zero: bool, mem: Memory, pfa: PfaBump.Pfa, frame: nat, v: Word, paddr: Word, level: nat)
    requires PT < level <= PML4
    requires var e := Read(mem, frame, Idx(level, v)); Present(e) && !Huge(e)
    ensures MmapFrom(zero, mem, pfa, frame, v, paddr, level) ==
      MmapFrom(zero, mem, pfa, Read(mem, frame, Idx(level, v)).frame, v, paddr, level - 1)
  {
  }

  /** The path below a present small-page entry keeps the bound and has no repeats. */
  lemma SubPathBelow(mem: Memory, frame: nat, v: Word, level: nat, bound: nat)
    requires PT < level <= PML4
    requires PathBelow(mem, frame, v, level, bound)
    requires var e := Read(mem, frame, Idx(level, v)); Present(e) && !Huge(e)
    ensures PathBelow(mem, Read(mem, frame, Idx(level, v)).frame, v, level - 1, bound)
  {
    var p := PathFrames(mem, frame, v, level);
    var q := PathFrames(mem, Read(mem, frame, Idx(level, v)).frame, v, level - 1);
    assert p == [frame] + q;
    forall k | 0 <= k < |q|
      ensures q[k] < bound
    {
      assert q[k] == p[k + 1];
    }
    forall a, b | 0 <= a < b < |q|
      ensures q[a] != q[b]
    {
      assert q[a] == p[a + 1] && q[b] == p[b + 1];
    }
  }

  /**
   * `mmap` with zeroing from the PML4 table in frame `root`: when it does
   * not abort, an unmapped address afterwards resolves to `paddr`'s page
   * plus the address's page offset, and every table below the allocator's
   * next frame off the path is as before.
   */
  lemma MmapThenResolve(mem: Memory, pfa: PfaBump.Pfa, root: nat, v: Word, paddr: Word)
    requires InPhysicalSpace(pfa.regions)
    requires PathBelow(mem, root, v, PML4, pfa.next)
    ensures var r := MmapZeroing(mem, pfa, root, v, paddr);
      r.Done? && Resolve(mem, root, v).None? ==>
        Resolve(r.value.mem, root, v) == Some(PageAddress(AddressBits(paddr), v, PT))
    ensures var r := MmapZeroing(mem, pfa, root, v, paddr);
      r.Done? ==> KeptBelow(mem, r.value.mem, pfa.next, PathFrames(mem, root, v, PML4))
    ensures var r := MmapZeroing(mem, pfa, root, v, paddr);
      r.Done? && Resolve(mem, root, v).Some? ==> r.value.mem == mem
  {
    MmapFromResolves(mem, pfa, root, v, paddr, PML4);
  }

  /**
   * For a 4 KiB-aligned physical address inside the 52-bit physical space,
   * an unmapped address afterwards resolves to `paddr` plus its page offset.
   */
  lemma MmapMapsPage(mem: Memory, pfa: PfaBump.Pfa, root: nat, v: Word, paddr: Word)
    requires InPhysicalSpace(pfa.regions)
    requires PathBelow(mem, root, v, PML4, pfa.next)
    requires paddr < 0x10_0000_0000_0000 && paddr % 0x1000 == 0
    ensures var r := MmapZeroing(mem, pfa, root, v, paddr);
      r.Done? && Resolve(mem, root, v).None? ==> Resolve(r.value.mem, root, v) == Some(paddr + v % 0x1000)
  {
    var r := MmapZeroing(mem, pfa, root, v, paddr);
    MmapThenResolve(mem, pfa, root, v, paddr);
    if r.Done? && Resolve(mem, root, v).None? {
      PageOfAligned(Resolve(r.value.mem, root, v), paddr, v);
    }
  }

  /** An answer at the 4 KiB page of an aligned physical address is that address plus the page offset. */
  lemma PageOfAligned(answer: Option<nat>, paddr: Word, v: Word)
    requires paddr < 0x10_0000_0000_0000 && paddr % 0x1000 == 0
    requires answer == Some(PageAddress(AddressBits(paddr), v, PT))
    ensures answer == Some(paddr + v % 0x1000)
  {
    AddressBitsOfAligned(paddr);
  }

  // ---------------------------------------------------------------------
  // Aborts, and the code as written
  // ---------------------------------------------------------------------

  /** A present large-page entry above the PT level aborts `mmap`. */
  lemma LargePagePanics(zero: bool, mem: Memory, pfa: PfaBump.Pfa, frame: nat, v: Word, paddr: Word, level: nat)
    requires PT < level <= PML4
    requires var e := Read(mem, frame, Idx(level, v)); Present(e) && Huge(e)
    ensures MmapFrom(zero, mem, pfa, frame, v, paddr, level) == Panic
  {
  }

  /** With no available memory, a missing table aborts `mmap`. */
  lemma OutOfMemoryPanics(zero: bool, mem: Memory, frame: nat, v: Word, paddr: Word, level: nat)
    requires PT < level <= PML4
    requires !Present(Read(mem, frame, Idx(level, v)))
    ensures MmapFrom(zero, mem, PfaBump.New([]), frame, v, paddr, level) == Panic
  {
  }

  /**
   * The two variants agree when the walk needs no new table: the
   * difference lies only in what a fresh frame holds.
   */
  lemma {:induction false} AgreeWithoutAllocation(mem: Memory, pfa: PfaBump.Pfa, frame: nat, v: Word, paddr: Word, level: nat)
    requires level <= PML4
    requires ResolveFrom(mem, frame, v, level).Some? || level == PT
    ensures MmapFrom(false, mem, pfa, frame, v, paddr, level) == MmapFrom(true, mem, pfa, frame, v, paddr, level)
    decreases level
  {
    var e := Read(mem, frame, Idx(level, v));
    if level > PT && Present(e) && !Huge(e) {
      AgreeWithoutAllocation(mem, pfa, e.frame, v, paddr, level - 1);
    }
  }

  /**
   * The PDPT and PD exist, the PD entry for 0x1000 is missing, and the one
   * available frame, 4, still holds a present PT entry for frame 9 at index
   * 1 from earlier use.
   */
  function StaleExample(): (mem: Memory)
    ensures StaleTables(mem)
  {
    map[1 := Zeroes()[0 := Slot(0x03, 2)], 2 := Zeroes()[0 := Slot(0x03, 3)], 3 := Zeroes(), 4 := Zeroes()[1 := Slot(0x03, 9)]]
  }

  /** The entries of the example on the path of 0x1000, and the stale entry in frame 4. */
  predicate StaleTables(mem: Memory)
  {
    && Read(mem, 1, 0) == Slot(0x03, 2) && Read(mem, 2, 0) == Slot(0x03, 3)
    && Read(mem, 3, 0) == EMPTY && Read(mem, 4, 1) == Slot(0x03, 9)
  }

  /** The allocator of the example: next frame 4, one available entry holding frame 4 alone. */
  function StalePfa(): (p: PfaBump.Pfa)
    ensures StaleAllocator(p) && InPhysicalSpace(p.regions)
  {
    PfaBump.Pfa(4, [PfaBump.MemRegion(0x4000, 0x1000, 1)])
  }

  /** The allocator of the example, as facts: frame 4 is next and lies in the only, available entry. */
  predicate StaleAllocator(p: PfaBump.Pfa)
  {
    && p.next == 4 && |p.regions| == 1 && PfaBump.MapWellFormed(p.regions) && PfaBump.IsAvailable(p.regions[0])
    && FrameWithin(p.next, p.regions[0].base, p.regions[0].base + p.regions[0].length)
  }

  /**
   * With the next frame inside the only, available entry, `alloc` hands out
   * the next frame, unless rounding the entry panics.
   */
  lemma AllocNext(p: PfaBump.Pfa)
    requires |p.regions| == 1 && PfaBump.IsAvailable(p.regions[0])
    requires FrameWithin(p.next, p.regions[0].base, p.regions[0].base + p.regions[0].length)
    ensures PfaBump.Alloc(p).Done? <==> PfaBump.WellFormed(p.regions[0])
    ensures PfaBump.Alloc(p).Done? ==> PfaBump.Alloc(p).value.0 == Some(PageFrame(p.next))
  {
    if PfaBump.WellFormed(p.regions[0]) {
      var frames := PfaBump.FramesIn(p.regions[0]).value;
      assert InRegion(frames, p.next);
    } else {
      assert PfaBump.AllocScan(p.next, p.regions) == Panic;
    }
  }

  /**
   * As written, `mmap(0x1000, 0x6000)` links frame 4 as the PT without
   * clearing it; the stale entry at index 1 is present, so the PT entry is
   * left alone and 0x1000 resolves to frame 9. With zeroing it resolves to
   * 0x6000.
   */
  lemma StaleTableMapsWrongFrame()
    ensures var r := Mmap(StaleExample(), StalePfa(), 1, 0x1000, 0x6000);
      r.Done? && Resolve(r.value.mem, 1, 0x1000) == Some(0x9000)
    ensures var r := MmapZeroing(StaleExample(), StalePfa(), 1, 0x1000, 0x6000);
      r.Done? && Resolve(r.value.mem, 1, 0x1000) == Some(0x6000)
  {
    var mem := StaleExample();
    StaleCase(false, mem, StalePfa());
    StaleCase(true, mem, StalePfa());
  }

  /** One variant on the example: the walk, then what 0x1000 resolves to. */
  lemma StaleCase(zero: bool, mem: Memory, p: PfaBump.Pfa)
    requires StaleTables(mem) && StaleAllocator(p)
    ensures var r := MmapFrom(zero, mem, p, 1, 0x1000, 0x6000, PML4);
      r.Done? && Resolve(r.value.mem, 1, 0x1000) == Some(if zero then 0x6000 else 0x9000)
  {
    var linked := Write(mem, 3, 0, TableEntry(4));
    StaleWalk(zero, mem, p);
    var r := MmapFrom(zero, mem, p, 1, 0x1000, 0x6000, PML4);
    if zero {
      var mapped := Write(Clear(linked, 4), 4, 1, Slot(0x03, 6));
      StaleLinked(mapped);
      assert Resolve(mapped, 1, 0x1000) == Some(0x6000);
    } else {
      StaleLinked(linked);
      assert Resolve(linked, 1, 0x1000) == Some(0x9000);
    }
  }

  /** Both variants walk the example down to the fresh table in frame 4. */
  lemma StaleWalk(zero: bool, mem: Memory, p: PfaBump.Pfa)
    requires StaleTables(mem) && StaleAllocator(p)
    ensures var linked := Write(mem, 3, 0, TableEntry(4));
      var r := MmapFrom(zero, mem, p, 1, 0x1000, 0x6000, PML4);
      r.Done? && r.value.mem == if zero then Write(Clear(linked, 4), 4, 1, Slot(0x03, 6)) else linked
  {
    var v: Word := 0x1000;
    assert Idx(0, v) == 1;
    StaleDescent(zero, mem, p);
    var linked := Write(mem, 3, 0, TableEntry(4));
    var p1 := PfaBump.Alloc(p).value.1;
    var next := if zero then Clear(linked, 4) else linked;
    if zero {
      assert Read(next, 4, 1) == EMPTY;
      PtUnfold(true, next, p1, 4, v, 0x6000);
      StaleLeaf();
    } else {
      assert Read(next, 4, 1) == Slot(0x03, 9);
      PtUnfold(false, next, p1, 4, v, 0x6000);
    }
  }

  /** The walk of the example from the PML4 table to the PT level: the new table in frame 4 is linked from frame 3. */
  lemma StaleDescent(zero: bool, mem: Memory, p: PfaBump.Pfa)
    requires StaleTables(mem) && StaleAllocator(p)
    ensures PfaBump.Alloc(p).Done?
    ensures var linked := Write(mem, 3, 0, TableEntry(4));
      var next := if zero then Clear(linked, 4) else linked;
      MmapFrom(zero, mem, p, 1, 0x1000, 0x6000, PML4) == MmapFrom(zero, next, PfaBump.Alloc(p).value.1, 4, 0x1000, 0x6000, PT)
  {
    var v: Word := 0x1000;
    assert Idx(3, v) == 0 && Idx(2, v) == 0 && Idx(1, v) == 0;
    DescendTableUnfold(zero, mem, p, 1, v, 0x6000, 3);
    DescendTableUnfold(zero, mem, p, 2, v, 0x6000, 2);
    StaleAlloc(p);
    AllocTableUnfold(zero, mem, p, 3, v, 0x6000, 1);
  }

  /** The allocator of the example hands out frame 4. */
  lemma StaleAlloc(p: PfaBump.Pfa)
    requires StaleAllocator(p)
    ensures PfaBump.Alloc(p).Done? && PfaBump.Alloc(p).value.0 == Some(PageFrame(4))
    ensures PfaBump.Alloc(p).value.0.value.number % TABLE_FRAME_LIMIT == 4
  {
    assert PfaBump.WellFormed(p.regions[0]);
    AllocNext(p);
  }

  /** The PT entry `mmap` writes for 0x6000. */
  lemma StaleLeaf()
    ensures LeafEntry(0x6000, PT) == Slot(0x03, 6)
  {
  }

  /** `MmapFrom` at the PT level, unfolded once. */
  lemma PtUnfold(zero: bool, mem: Memory, pfa: PfaBump.Pfa, frame: nat, v: Word, paddr: Word)
    ensures var e := Read(mem, frame, Idx(PT, v));
      MmapFrom(zero, mem, pfa, frame, v, paddr, PT) ==
      if Present(e) then Done(Mmapped(mem, pfa)) else Done(Mmapped(Write(mem, frame, Idx(PT, v), LeafEntry(paddr, PT)), pfa))
  {
  }

  /** Memory that keeps the example's PML4 and PDPT, links frame 4 as the PT, and holds `e` at index 1 of frame 4 resolves 0x1000 through `e`. */
  lemma StaleLinked(mem: Memory)
    requires TableOf(mem, 1)[0] == Slot(0x03, 2) && TableOf(mem, 2)[0] == Slot(0x03, 3)
    requires TableOf(mem, 3)[0] == TableEntry(4) && Present(TableOf(mem, 4)[1])
    ensures Resolve(mem, 1, 0x1000) == Some(TableOf(mem, 4)[1].frame * 0x1000)
  {
    var v: Word := 0x1000;
    assert Idx(3, v) == 0 && Idx(2, v) == 0 && Idx(1, v) == 0 && Idx(0, v) == 1;
    StepResolves(mem, 1, v, 3);
    StepResolves(mem, 2, v, 2);
    StepResolves(mem, 3, v, 1);
  }
}

=== FILE: xsdt.dfy ===
/**
 * The Extended System Description Table (learnos_kernel/src/acpi/xsdt.rs),
 * section 5.2.8 of the ACPI specification: the header, followed by 64-bit
 * physical addresses of the other tables up to the table's length.
 */
module Xsdt {
  import opened Bytes
  import opened Sdt

  /** `size_of::<u64>()`, the width of an entry. */
  const ENTRY_WIDTH: nat := 8

  /** `Xsdt::is_valid` holds exactly on a checksum-valid table that `from_any` accepts as an XSDT. */
  lemma ValidIsCheckedXsdt(mem: seq<Byte>)
    requires Readable(mem)
    ensures TableFromRaw(XsdtTable, mem).Some?
        <==> TableFromRaw(AnyTable, mem).Some? && FromAny(XsdtTable, mem).Some?
    ensures TableFromRaw(XsdtTable, mem).Some? ==> TableFromRaw(RsdtTable, mem).None?
  {
  }

  /**
   * `num_entries` as written: it divides the bytes after the header by
   * `size_of::<u32>()` although the entries are `u64`.
   */
  function NumEntriesAsWritten(mem: seq<Byte>): (n: nat)
    requires |mem| >= HEADER_SIZE && Length(mem) >= HEADER_SIZE
    ensures HEADER_SIZE + 4 * n <= Length(mem) < HEADER_SIZE + 4 * (n + 1)
  {
    (Length(mem) - HEADER_SIZE) / 4
  }

  /** `num_entries` as intended: the number of whole 8-byte entries after the header. */
  function NumEntries(mem: seq<Byte>): (n: nat)
    requires |mem| >= HEADER_SIZE && Length(mem) >= HEADER_SIZE
    ensures EntryOffset(ENTRY_WIDTH, n) <= Length(mem) < EntryOffset(ENTRY_WIDTH, n + 1)
  {
    (Length(mem) - HEADER_SIZE) / ENTRY_WIDTH
  }

  /** `sdt_pointers` as written, up to the as-written count. */
  function SdtPointersAsWritten(mem: seq<Byte>): (it: PointerIter)
    requires |mem| >= HEADER_SIZE && Length(mem) >= HEADER_SIZE
    ensures it.current == 0 && it.last == NumEntriesAsWritten(mem)
  {
    PointerIter(0, NumEntriesAsWritten(mem))
  }

  /** `sdt_pointers` as intended, up to the intended count. */
  function SdtPointers(mem: seq<Byte>): (it: PointerIter)
    requires |mem| >= HEADER_SIZE && Length(mem) >= HEADER_SIZE
    ensures it.current == 0 && it.last == NumEntries(mem)
  {
    PointerIter(0, NumEntries(mem))
  }

  /**
   * As written, every XSDT with room for at least half an entry has its
   * last counted entry end past the table, so the iterator reads addresses
   * from beyond the table; an XSDT of length 44 holds one entry and is
   * counted as two.
   */
  lemma AsWrittenOverreads(mem: seq<Byte>)
    requires |mem| >= HEADER_SIZE && Length(mem) >= HEADER_SIZE + 4
    ensures EntryOffset(ENTRY_WIDTH, NumEntriesAsWritten(mem)) > Length(mem)
    ensures Length(mem) == 44 ==> NumEntriesAsWritten(mem) == 2 && NumEntries(mem) == 1
  {
  }

  /**
   * The intended iterator yields exactly the `u64` entries of the table in
   * order, all read from inside the table's length.
   */
  lemma PointersAreEntries(mem: seq<Byte>)
    requires Readable(mem) && Length(mem) >= HEADER_SIZE
    ensures EntriesInMemory(mem, ENTRY_WIDTH, NumEntries(mem))
    ensures EntryOffset(ENTRY_WIDTH, NumEntries(mem)) <= Length(mem)
    ensures var r := Drain(mem, ENTRY_WIDTH, SdtPointers(mem));
      r.Done? && |r.value| == NumEntries(mem)
      && forall i :: 0 <= i < |r.value| ==> r.value[i] == Field(mem, EntryOffset(ENTRY_WIDTH, i), ENTRY_WIDTH) && r.value[i] < Power(8)
  {
    DrainYieldsEntries(mem, ENTRY_WIDTH, SdtPointers(mem));
  }
}
